=== FILE: README.md ===
# Shell automation tests, modelled in Dafny

The system under model runs automated tests of CloudShell shells. It
installs a shell package on a CloudShell server, creates resources and
reservations for it, picks the test classes that fit the device and the
commands the shell's driver reports, runs them, and reports the results.
It optionally gets a fresh CloudShell from a "DO" (CloudShell-on-demand)
sandbox first. The repository holds three generations of this logic:

- the first generation under `src/`;
- the second generation: `shell_tests/run_tests.py`, the sandbox and
  resource runners, `shell_tests/cs_handler.py`,
  `shell_tests/resource_handler.py` and friends;
- the third generation: `shell_tests/handlers/` and `shell_tests/helpers/`.

Every remote call becomes an input, and what the code computes from those
answers is modelled as pure functions. Remote calls here are the CloudShell
API, SMB, FTP, ping, HTTP downloads and the unittest runner. The inputs
take these forms:

- a status answered at each poll (`nat -> T`);
- a finite sequence of API answers consumed in call order;
- an outcome per step;
- a predicate such as `alive`.

Loops bounded in the source (60 reservation polls, 30 DO polls, 5 creation
attempts) are bounded the same way. Loops the source does not bound (the
rename-on-code-114 loop, the parent-directory recursion of the SMB
helpers) read a finite sequence of answers. They report `Pending` when the
answers run out while the loop is still going.

Layout: one module per component of the source, plus shared utility
modules.

| file | module | models |
|---|---|---|
| `wrappers.dfy`, `errors.dfy` | `Wrappers`, `Errors` | `Option`/`Result`; the exceptions the code raises |
| `dicts.dfy` | `Dicts` | insertion-ordered dicts (Python 3 `dict`, `OrderedDict`) |
| `text.dfy`, `sequences.dfy` | `Text`, `Sequences` | `str.find`/`split`/`join`/`replace`, ASCII `lower`, `int()`/`str()` of digits, flat-map and de-duplication |
| `polling.dfy` | `Polling` | the bounded wait loops |
| `catalog.dfy`, `registry.dfy` | `Catalog`, `Registry` | device types, test classes, and the `TEST_CASES_MAP` tables with their aliasing |
| `selection.dfy`, `tests_helpers.dfy` | `Selection`, `TestsHelpers` | the test-class selection shared by all generations, suites, `PatchedTestSuite` |
| `sandbox_runner.dfy`, `resource_runner.dfy`, `run_tests.dfy` | `SandboxRunner`, `ResourceRunner`, `RunTests` | the second-generation runners |
| `report.dfy`, `liveness.dfy` | `Report`, `Liveness` | result aggregation; the reachability check |
| `cs_handler.dfy`, `commands.dfy` | `CsHandler`, `ResourceCommands` | CloudShell API helpers: renaming, reservations, attributes; the command argument maps |
| `resource_gen2.dfy`, `resource_gen3.dfy` | `RootResourceHandler`, `ResourceHandlers` | resource, service and deployment handlers of the two later generations |
| `sandbox_handler.dfy`, `shell_handler.dfy`, `blueprint_handler.dfy` | `SandboxHandler`, `ShellHandler`, `BlueprintHandler` | the context managers and their acquire/release order |
| `smb.dfy` | `Smb` | both SMB handlers and the CloudShell server paths |
| `do.dfy` | `DoHandler`, `CsCreator` | getting a CloudShell from DO, both versions |
| `configs.dfy` | `Configs` | configuration defaults, `TestsConfig` round trip, YAML merge and keying |
| `helpers.dfy` | `Helpers` | `merge_dicts`, `parse_connections`, driver commands, URLs, `call_exit_func_on_exc`, `enter_stacks`, `cached_property` |
| `base_test.dfy`, `autoload_test.dfy`, `connectivity_test.dfy`, `config_tests.dfy`, `controller_test.dfy` | `AutomationBase`, `AutoloadTest`, `ConnectivityTest`, `ConfigTests`, `ControllerTest` | what each test case computes and when it passes |
| `resource_tree.dfy` | `ResourceTree` | the resource tree the API returns |
| `legacy_resource.dfy`, `legacy_run.dfy` | `LegacyResource`, `LegacyRun` | the first generation |
| `shellfoundry.dfy` | `Shellfoundry` | the `shellfoundry new` command line and the template listing |

Where the code and its documented intent part ways, the model follows the
code:

- `load_config` of the third-generation service handler writes the
  config path back into the caller's dict. A second run of the controller
  test therefore fails only when no other parameter was given
  (`ControllerTest.SecondRunFailsWithOnlyPath`,
  `ControllerTest.SecondRunKeepsPathWithOtherParams`).
- `DoHandler.end_reservation` first calls the CloudShell handler's own
  waiting `end_reservation`, then polls again. Ending therefore needs two
  'Completed' reads (`DoHandler.EndReservationNeedsTwoReads`).
- The DO topology choice sorts the names and takes the first match. It is
  modelled as the least matching name in string order.
- In `get_run_tests_in_cloudshell` the caught `CSIsNotAliveError` outlives
  its `except` clause. A later attempt failing for another reason then
  still ends its reservation (`RunTests.LingeringErrorEndsReservation`).
- The debug rewrite of the core package's logger configuration uses a
  non-overlapping `str.replace`. Two levels sharing a quote therefore
  leave one `'INFO'` behind (`ShellHandler.SharedQuoteSurvives`).
- The sandbox enters its resources but never exits them: `enter_stacks`
  returns `None` from `__enter__`, so `__exit__` has no stack to leave
  (`SandboxHandler.ResourcesNeverExited`).
- The clean-up on a failed `__enter__` sits under `except Exception`, in
  `call_exit_func_on_exc`, the shell handler and `create_cloudshell`.
  `KeyboardInterrupt` is not an `Exception`, so an interrupt leaves
  without deleting anything or ending the DO sandbox
  (`Errors.IsException`, `Helpers.CallExitFuncOnExc`).

## Model

| member | source | states |
|---|---|---|
| AutomationBase.PlainVerdict | shell_tests/automation_tests/base.py:14-21 | an unwrapped test method passes exactly when its body returns, fails exactly when an assertion in it fails, is an error exactly when it raises an `Exception`, and stops the run with a `KeyboardInterrupt` otherwise |
| AutomationBase.ExpectFailureVerdict | shell_tests/automation_tests/base.py:23-32 | a wrapped method passes exactly when the body raises an `Exception` whose text matches the reason; it is never an error, and a `KeyboardInterrupt` escapes and stops the run |
| AutomationBase.WrapperInverts | shell_tests/automation_tests/base.py:23-32 | the wrapped and unwrapped verdicts never both pass; a body that returns passes unwrapped and fails wrapped; a matching exception errors unwrapped and passes wrapped |
| AutomationBase.TestName | shell_tests/automation_tests/base.py:15 | the key `Class.method` is one character longer than class and method together |
| AutomationBase.TestNameInjective | shell_tests/automation_tests/base.py:15 | dot-free class names make the key determine both the class and the method |
| AutomationBase.RunMethod | shell_tests/automation_tests/base.py:19-21 | a method replaced by its wrapper is judged by the expect-failure rule, any other by the plain rule |
| AutomationBase.AddDecorator | shell_tests/automation_tests/base.py:14-21 | only the named method may change; it is wrapped with the reason exactly when the reason is truthy; a non-mapping `expected_failures` raises |
| AutomationBase.WrappedIffTruthyReason | shell_tests/automation_tests/base.py:17-21 | a method is wrapped if and only if its key has a truthy reason; every other method is left as it was |
| AutomationBase.ExpectedFailuresOf | shell_tests/automation_tests/base.py:47-51 | the bare base reads no configuration; the resource/service and sandbox bases read their handler's expected failures |
| AutomationBase.Construct | shell_tests/automation_tests/base.py:38-69 | construction leaves the bare base's methods alone and decorates the others from their owner's configuration |
| AutomationBase.Id | shell_tests/automation_tests/base.py:34-73 | the bare base raises `NotImplementedError`; the others give unittest's id, a dash, then the owner's name |
| AutomationBase.IdsTellTargetsApart | shell_tests/automation_tests/base.py:53-55 | the same test on two owners with different names gets two different ids |
| AutomationBase.AssertRaisesApiError | shell_tests/automation_tests/test_autoload.py:53-56 | the body returns exactly when the call raises a matching `CloudShellAPIError`; any other exception escapes; a call that returns fails the assertion |
| AutoloadTest.GetStructure | shell_tests/automation_tests/test_autoload.py:8-23 | the structure is labelled with the node's family and is a leaf exactly when the node has no children |
| AutoloadTest.GetStructures | shell_tests/automation_tests/test_autoload.py:16-20 | one structure per child |
| AutoloadTest.RenderFamilies | shell_tests/automation_tests/test_autoload.py:16-23 | a pattern free of printing punctuation occurs in a structure as printed inside a list if and only if it occurs in some family name of the tree |
| AutoloadTest.RenderListFamilies | shell_tests/automation_tests/test_autoload.py:16-20 | the same for the printed list of the children's structures |
| AutoloadTest.StrFamilies | shell_tests/automation_tests/test_autoload.py:22-31 | the same for `str()` of the root structure, where a leaf-only root prints unquoted |
| AutoloadTest.AssertInStructure | shell_tests/automation_tests/test_autoload.py:28-31 | `assertIn` on the printed structure passes if and only if some family name contains the pattern, and fails otherwise |
| AutoloadTest.StructureTest | shell_tests/automation_tests/test_autoload.py:25-31 | the test returns if and only if autoload and the details succeed and some family contains the pattern; a failing autoload's exception escapes |
| AutoloadTest.NetworkDevicesTest | shell_tests/automation_tests/test_autoload.py:25-31 | passes if and only if autoload and the details succeed and some family name contains 'CS_Port' |
| AutoloadTest.TrafficGeneratorDevicesTest | shell_tests/automation_tests/test_autoload.py:41-47 | passes if and only if autoload and the details succeed and some family name contains 'CS_TrafficGeneratorPort' |
| AutoloadTest.VirtualTrafficGeneratorDevicesTest | shell_tests/automation_tests/test_autoload.py:60-64 | runs no autoload; passes if and only if the details succeed and some family name contains 'CS_VirtualTrafficGeneratorPort' |
| AutoloadTest.WithoutPortsTest | shell_tests/automation_tests/test_autoload.py:35-37 | passes if and only if autoload succeeds |
| AutoloadTest.PortChannelCounts | shell_tests/automation_tests/test_autoload.py:31 | a device whose only family is 'CS_PortChannel' passes the network test, because the check is a substring search |
| ConnectivityTest.FindPortName | shell_tests/automation_tests/test_connectivity.py:5-24 | a found name is never excluded, and is non-empty below a non-port root; a port root answers with its own name if and only if that name is not excluded |
| ConnectivityTest.FindInChildren | shell_tests/automation_tests/test_connectivity.py:21-24 | the children's answer is non-empty and not excluded |
| ConnectivityTest.FirstEligible | shell_tests/automation_tests/test_connectivity.py:23 | the reference search: the first name that is non-empty and not excluded; nothing if and only if no name qualifies |
| ConnectivityTest.FindPortNameSpec | shell_tests/automation_tests/test_connectivity.py:15-24 | below a non-port root, the recursive search equals the first eligible port name in depth-first order |
| ConnectivityTest.FindInChildrenSpec | shell_tests/automation_tests/test_connectivity.py:21-24 | the search over the children equals the first eligible name among the ports they reach |
| ConnectivityTest.RootPortQuirks | shell_tests/automation_tests/test_connectivity.py:15-24 | a root port answers even with an empty name, but the same port as a child is passed over; an excluded port hides the ports below it |
| ConnectivityTest.TwoPorts | shell_tests/automation_tests/test_connectivity.py:41-44 | the first port is the unrestricted search; when both are found they differ |
| ConnectivityTest.TwoPortsSpec | shell_tests/automation_tests/test_connectivity.py:41-44 | below a non-port root the two ports are the first two distinct eligible names in depth-first order |
| ConnectivityTest.ConnectivityCalls | shell_tests/automation_tests/test_connectivity.py:47-71 | four calls: two physical connections, then a 'dut-connector' between the two DUT ports, then its removal; ports on the same side differ |
| ConfigTests.FtpPath | shell_tests/automation_tests/test_save_config.py:17-25 | with no '://' or more than one, the URL is 'ftp://', the credentials, then the whole host; with exactly one, the credentials go right after that separator |
| ConfigTests.FtpHost | shell_tests/automation_tests/test_save_config.py:10-15 | the FTP client's host is the text after the first '://', or the whole host when there is none |
| ConfigTests.SingleSchemeAgrees | shell_tests/automation_tests/test_restore_config.py:11-26 | with exactly one '://' the URL handed to the device names the host the FTP client connects to |
| ConfigTests.DoubleSchemeDisagrees | shell_tests/automation_tests/test_restore_config.py:18-26 | with two '://' the client connects to 'b://c' while the URL keeps 'a://b://c' behind a second 'ftp://' |
| ConfigTests.SaveCommand | shell_tests/automation_tests/test_save_config.py:27-28 | the save command carries the configuration type and the FTP URL |
| ConfigTests.SaveTest | shell_tests/automation_tests/test_save_config.py:27-39 | the test passes if and only if save answers, the file reads back non-empty; the file is deleted exactly when the test passes; a failing save escapes |
| ConfigTests.OrchestrationSaveTest | shell_tests/automation_tests/test_save_config.py:41-45 | passes if and only if the orchestration save answers a non-empty output |
| ConfigTests.RestoreCommand | shell_tests/automation_tests/test_restore_config.py:28-33 | the restore command carries the type, the method, and the FTP URL, a slash and the saved file name |
| ConfigTests.RestoreTest | shell_tests/automation_tests/test_restore_config.py:28-62 | passes if and only if save and restore succeed; the saved file is deleted if and only if the save succeeded; a failing save sends nothing further |
| ConfigTests.RestoreCasesCover | shell_tests/automation_tests/test_restore_config.py:28-62 | the four restore tests cover running and startup with append and override |
| ConfigTests.RestoreWithoutDeviceTest | shell_tests/automation_tests/test_restore_config.py:65-106 | one restore of 'ftp://localhost/test_conf' and no deletion; passes if and only if the restore raises a matching API error |
| ControllerTest.SetUpAutoloads | shell_tests/automation_tests/test_traffic_generator_controller.py:10-13 | the related resource is autoloaded if and only if the class asks for it and its autoload has not finished; never for the without-device classes |
| ControllerTest.LoadConfigTest | shell_tests/automation_tests/test_traffic_generator_controller.py:17-25 | nothing is sent if and only if 'load_config' or its 'config_file_location' is missing, and then the automation error is raised; otherwise the path and the remaining parameters are sent and the stored parameters change as `load_config` leaves them |
| ControllerTest.SecondRunFailsWithOnlyPath | shell_tests/automation_tests/test_traffic_generator_controller.py:19-25 | when the path was the only parameter, a second run finds nothing to pop and raises |
| ControllerTest.SecondRunKeepsPathWithOtherParams | shell_tests/handlers/resource_handler.py:275-279 | when other parameters remain, the path is written back and a second run sends the same path again |
| ControllerTest.CommandTest | shell_tests/automation_tests/test_traffic_generator_controller.py:28-43 | start, stop and statistics send the command's stored parameters, or none when the command has no entry; the test passes if and only if the call succeeds |
| ControllerTest.WithoutDeviceTest | shell_tests/automation_tests/test_traffic_generator_controller.py:46-83 | the body must end in a matching API error to pass; any other exception escapes unchanged |
| CsHandler.IndexedName | shell_tests/cs_handler.py:261-263 | a match splits the name at its last '-' into a non-empty newline-free base and a digit-only index, allowing one final newline |
| CsHandler.NewResourceNameChanges | shell_tests/cs_handler.py:253-266 | the new name always differs from the old one |
| CsHandler.IndexedNameOf | shell_tests/cs_handler.py:261-263 | `base-N` with a non-empty newline-free base is matched with exactly that base and index N |
| CsHandler.NewResourceNameBumps | shell_tests/cs_handler.py:253-266 | renaming `base-N` gives `base-(N+1)` |
| CsHandler.RenamedIndexed | shell_tests/cs_handler.py:282-290 | k retries from `base-N` ask for `base-(N+k)`, so no name is asked for twice |
| CsHandler.NewResourceNameDropsZeros | shell_tests/cs_handler.py:262-266 | the index is read as an integer: 'x-007' becomes 'x-8' |
| CsHandler.NewResourceNameLastGroup | shell_tests/cs_handler.py:261-266 | only the final digit group counts: 'a-1-2' becomes 'a-1-3' |
| CsHandler.NewResourceNameAppends | shell_tests/cs_handler.py:264-266 | a name without a final digit group gets '-1': 'a-b' becomes 'a-b-1' |
| CsHandler.NewResourceNameNeedsBase | shell_tests/cs_handler.py:261-266 | '-5' has no non-empty base, so it becomes '-5-1' |
| CsHandler.Conflicts | shell_tests/cs_handler.py:282-290 | the count of leading code-114 answers: all answers before it are conflicts and the next one is not |
| CsHandler.RetryOnNameTakenSpec | shell_tests/cs_handler.py:282-290 | the loop renames once per leading conflict, then returns the current name on acceptance or raises the first other error as it came |
| CsHandler.CreateResource | shell_tests/cs_handler.py:269-294 | an accepted name is the requested name renamed k times, k below the number of answers |
| CsHandler.RenameResource | shell_tests/cs_handler.py:296-316 | an accepted new name is the requested one renamed k times |
| CsHandler.CreateIndexedResource | shell_tests/cs_handler.py:269-294 | `base-N` taken k times is created as `base-(N+k)` |
| CsHandler.Qualify | shell_tests/cs_handler.py:326-330 | an empty namespace leaves the key bare; otherwise the name is the namespace, a dot, then the key |
| CsHandler.QualifyInjective | shell_tests/cs_handler.py:326-330 | two keys qualified under one namespace give the same name only when they are equal |
| CsHandler.SetResourceAttributes | shell_tests/cs_handler.py:318-333 | one pair per attribute, in the dictionary's order, each value unchanged |
| CsHandler.SetResourceAttributesGet | shell_tests/cs_handler.py:318-333 | the sent names are distinct, and each qualified name reads the value its key has |
| CsHandler.ServiceAttributes | shell_tests/cs_handler.py:376-379 | one pair per attribute, in order, each value unchanged |
| CsHandler.ServiceNamesAgainstResourceNames | shell_tests/cs_handler.py:366-384 | for a non-empty model the service and resource rules send the same names; for an empty model the service rule keeps a leading '.' |
| CsHandler.WaitReservationIsStarted | shell_tests/cs_handler.py:201-217 | success reports the number of reads, at most 60, and the last one read a started status; every failure is a `CreationReservationError` |
| CsHandler.WaitStartsAt | shell_tests/cs_handler.py:201-217 | undecided reads followed by a started one return after exactly that many reads |
| CsHandler.WaitFailsAt | shell_tests/cs_handler.py:210-213 | undecided reads followed by an 'Error' status raise with the activity-feed errors |
| CsHandler.WaitGivesUp | shell_tests/cs_handler.py:215-216 | sixty undecided reads raise 'The reservation ... doesn't started' |
| CsHandler.EndReservation | shell_tests/cs_handler.py:406-423 | without waiting nothing is read; with waiting success means a 'Completed' read within 30; failure raises "Can't end reservation" |
| CsHandler.EndReservationSpec | shell_tests/cs_handler.py:415-422 | waiting fails if and only if none of the 30 reads is 'Completed' |
| CsHandler.LastCaptureEnd | shell_tests/cs_handler.py:109-112 | the greedy `.+`: the largest end that matches from the given start, and no larger one does |
| CsHandler.FirstCapture | shell_tests/cs_handler.py:109-112 | `re.search`: the leftmost matching start, with its greedy end; no earlier start matches |
| CsHandler.ExistingShellName | shell_tests/cs_handler.py:109-112 | a captured name is the text between "named '" and "' already exists" in the span `re.search` picks: no match starts earlier, and none from the same start ends later (greedy `.+`); no capture means no match anywhere |
| CsHandler.WholeMessageCaptured | shell_tests/cs_handler.py:109-112 | a one-line message "named '" + text + "' already exists" yields the whole text, even when the text itself holds another "' already exists" |
| CsHandler.TwoNamesCaptureAcross | shell_tests/cs_handler.py:109-112 | a message naming two shells captures from the first name up to the end of the second, not the first name alone |
| CsHandler.InstallShell | shell_tests/cs_handler.py:94-115 | an upload that succeeds adds the shell; an 'already exists' failure updates the shell named by the leftmost, greedy match in the message; any other failure propagates |
| CsHandler.InstallShellUpdatesNamedShell | shell_tests/cs_handler.py:105-115 | the duplicate-shell message for a name yields an update of exactly that shell |
| CsHandler.PypiUploads | shell_tests/cs_handler.py:515-528 | exactly the given names other than '.', './', '..' and '../' are stored; a single call stores its name unless it is one of those four |
| CsHandler.PypiUploadsInOrder | shell_tests/cs_handler.py:515-528 | names are stored in call order: the calls for `a` then `b` store `a`'s names followed by `b`'s |
| CsHandler.PypiFiltersDiffer | shell_tests/cs_handler.py:522-536 | the placeholder file is uploaded but never listed as a package, and a listed './' is one an upload skips |
| CsHandler.PypiPackageNames | shell_tests/cs_handler.py:530-538 | the listing without '.', '..' and 'PlaceHolder.txt', and nothing else |
| ResourceCommands.Classify | shell_tests/resource_handler.py:59-66 | no truthy device IP means without device; a truthy IP with a truthy 'User' attribute means a real device; anything else a simulator (both directions) |
| ResourceCommands.Address | shell_tests/resource_handler.py:79 | a resource is created at its device IP, or at 127.0.0.1 when there is none |
| ResourceCommands.SetAttributes | shell_tests/resource_handler.py:106-107 | one attribute request for the resource, with one value per attribute |
| ResourceCommands.CommandArgs | shell_tests/resource_handler.py:137-226 | the keyword arguments of each resource command form a dictionary with distinct keys |
| ResourceCommands.OrchestrationSaveCommand | shell_tests/resource_handler.py:171-186 | the mode is sent, and `custom_params` defaults to the empty string |
| ResourceCommands.OrchestrationRestoreCommand | shell_tests/resource_handler.py:210-226 | the saved artifact is sent, and `custom_params` defaults to the empty string |
| ResourceCommands.DecodeCommandArgs | shell_tests/resource_handler.py:137-226 | round trip: the command name and keyword arguments sent decode back to exactly the command issued |
| ResourceCommands.Execute | shell_tests/resource_handler.py:128-135 | the request targets the given name and decodes back to the command |
| ResourceCommands.AutoloadCalls | shell_tests/resource_handler.py:110-121 | autoload succeeds if and only if the first attempt does, or a code-129 / 'no driver associated' error is followed by a successful second attempt; the driver update happens exactly after such an error; any other error propagates |
| ResourceCommands.AutoloadRetriesOnce | shell_tests/resource_handler.py:117-119 | the second attempt's error propagates as it came, after exactly three calls |
| RootResourceHandler.NewResource | shell_tests/resource_handler.py:26-36 | nothing is applied yet, and `None` configured attributes become an empty dictionary |
| RootResourceHandler.SetAttributesOf | shell_tests/resource_handler.py:101-108 | an empty dictionary sends nothing and changes nothing; otherwise one request under the model's namespace; only the applied attributes change |
| RootResourceHandler.SetAttributesMerges | shell_tests/resource_handler.py:108 | after the update each key reads its new value if it was sent and its old value otherwise |
| RootResourceHandler.PrepareResource | shell_tests/resource_handler.py:68-83 | preparation succeeds if and only if the create loop ends in acceptance; it first creates the resource at the device address and adopts the accepted name |
| RootResourceHandler.SimulatorBeforePrepare | shell_tests/resource_handler.py:35-36 | before preparation a resource with an IP is a simulator, even when its configured attributes name a user |
| RootResourceHandler.RealDeviceAfterPrepare | shell_tests/resource_handler.py:81 | after preparation with a configured user the same resource is a real device |
| RootResourceHandler.PreparedApplies | shell_tests/resource_handler.py:68-83 | when the rename loop settles with acceptance, preparation succeeds and applies the configured attributes to the resource under its accepted name |
| RootResourceHandler.Exit | shell_tests/resource_handler.py:97-99 | exit deletes the resource under its current name and suppresses nothing |
| RootResourceHandler.Autoload | shell_tests/resource_handler.py:110-121 | succeeds if and only if the first attempt does or a rebind error is followed by a successful attempt; the driver is updated to the model exactly after a rebind error |
| RootResourceHandler.ExecuteOn | shell_tests/resource_handler.py:128-135 | commands run against the resource's current name and decode back to the command |
| RootResourceHandler.RelatedResource | shell_tests/resource_handler.py:281-289 | the `False` sentinel gives none; otherwise the sandbox's first resource handler is looked up and cached; an empty list raises `IndexError` |
| RootResourceHandler.ServiceDeviceTypeSpec | shell_tests/resource_handler.py:274-279 | a service takes its related resource's type, or a real device when disabled; with no resources the lookup raises |
| RootResourceHandler.RelatedResourceCached | shell_tests/resource_handler.py:286-289 | a second access returns the same handler and leaves the cache as it was |
| RootResourceHandler.LoadConfig | shell_tests/resource_handler.py:305-316 | exactly two arguments: the config path and the use-ports flag |
| RootResourceHandler.TrafficCommand | shell_tests/resource_handler.py:318-328 | the traffic commands target the service with no arguments |
| ResourceHandlers.Namespace | shell_tests/handlers/resource_handler.py:92 | a first-generation shell's attributes have no namespace; the others are namespaced by the model |
| ResourceHandlers.SetAttributesOf | shell_tests/handlers/resource_handler.py:90-94 | only the applied attributes change, and one request goes under the namespace |
| ResourceHandlers.SetAttributesSpec | shell_tests/handlers/resource_handler.py:90-94 | afterwards every sent key reads its new value and every other key its old one; the request carries each value under its namespaced name |
| ResourceHandlers.DeviceTypeIgnoresAppliedAttributes | shell_tests/handlers/resource_handler.py:71-78 | the device type comes from the configuration, so applying attributes never changes it |
| ResourceHandlers.CreateResource | shell_tests/handlers/resource_handler.py:44-55 | creation fails if and only if the create loop ends in an error, which propagates; on success the first request creates the resource under the accepted name at the device address |
| ResourceHandlers.CreatedResourceAttributes | shell_tests/handlers/resource_handler.py:84-88 | a created resource holds exactly its configured attributes |
| ResourceHandlers.SplitAttributeName | shell_tests/handlers/resource_handler.py:110 | `rsplit('.', 1)` unpacks if and only if the name has a '.'; the two parts rebuild the name and the second has no '.' |
| ResourceHandlers.SkipAttributes | shell_tests/handlers/resource_handler.py:109-112 | passing over attributes leaves the prefix of the last one passed as the namespace |
| ResourceHandlers.ChildNamespaceFirstMatch | shell_tests/handlers/resource_handler.py:108-115 | the first attribute whose short name matches gives the namespace |
| ResourceHandlers.ChildNamespaceNoMatch | shell_tests/handlers/resource_handler.py:108-115 | with no match the namespace is the last attribute's prefix, or the model name when the child has no attributes |
| ResourceHandlers.ChildNamespaceUnqualified | shell_tests/handlers/resource_handler.py:110 | an attribute name without a '.' reached by the search raises `ValueError` |
| ResourceHandlers.ChildAttributeRequests | shell_tests/handlers/resource_handler.py:102-115 | the i-th request sets the i-th attribute, alone, under the namespace the search over the child's attribute names finds for it; without an error there is one per attribute, and an error is the failed search of the first attribute left unset |
| ResourceHandlers.ChildAttributesFailIff | shell_tests/handlers/resource_handler.py:102-115 | setting a child's attributes raises exactly when the namespace search fails for one of them |
| ResourceHandlers.SetChildrenAttributes | shell_tests/handlers/resource_handler.py:96-103 | when nothing raises, the details of every child are fetched under `resource/child`, the first child's first; for one child the requests are its details fetch followed by its attribute requests, ending with their error |
| ResourceHandlers.SetChildrenAttributesInOrder | shell_tests/handlers/resource_handler.py:96-103 | children are handled one after another: the requests for `a + b` are those for `a` followed, unless `a` raised, by those for `b`, and an error in `a` stops everything |
| ResourceHandlers.Autoload | shell_tests/handlers/resource_handler.py:117-129 | autoload is marked finished if and only if it was already or an attempt succeeded; only that flag changes; a failed autoload raises an API error; with no child attributes it raises if and only if both attempts fail |
| ResourceHandlers.Rename | shell_tests/handlers/resource_handler.py:232-234 | a rename succeeds if and only if the loop ends in acceptance, and the handler then takes the accepted name |
| ResourceHandlers.FinishAfterRename | shell_tests/handlers/resource_handler.py:232-237 | after a rename the resource is deleted under the accepted new name |
| ResourceHandlers.ExecuteOn | shell_tests/handlers/resource_handler.py:138-142 | commands run against the current name and decode back to the command |
| ResourceHandlers.TargetDeviceType | shell_tests/handlers/resource_handler.py:266-267 | only plain resources are classified; services and deployment resources are real devices |
| ResourceHandlers.ExtraOrEmpty | shell_tests/handlers/resource_handler.py:277 | `extra or {}`: empty if and only if the caller gave none or an empty dictionary |
| ResourceHandlers.ServiceCommand | shell_tests/handlers/resource_handler.py:281-291 | the traffic commands target the service under their own name, with no arguments when none are given |
| ResourceHandlers.LoadConfig | shell_tests/handlers/resource_handler.py:275-279 | a non-empty caller dictionary is updated in place, so the caller sees the sent arguments; `None` or an empty one is left as it was |
| ResourceHandlers.LoadConfigArgs | shell_tests/handlers/resource_handler.py:277-279 | the config path overrides any caller value under its key; every other extra argument passes through |
| ResourceHandlers.GetTestFile | shell_tests/handlers/resource_handler.py:293-295 | `get_test_file` sends the test name |
| ResourceHandlers.CreateDeploymentResource | shell_tests/handlers/resource_handler.py:316-339 | the handler takes the deployed App's name whatever name was configured; attributes are set if and only if there are any |
| ResourceHandlers.DeploymentAttributesUnchanged | shell_tests/handlers/resource_handler.py:369-373 | merging the configured map into itself leaves every key's value as configured |
| Configs.Required | shell_tests/configs.py:32-34 | `config[key]` answers the key's value if and only if the key is present, else raises `KeyError` naming it |
| Configs.Optional | shell_tests/configs.py:35-36 | `config.get(key)` answers a value if and only if the key is present |
| Configs.OrDefault | shell_tests/configs.py:37 | `config.get(key, default)` answers the key's value when present and the default otherwise |
| Configs.NewCloudShellConfig | shell_tests/configs.py:11-26 | the fields are stored as given, and a `None` domain becomes 'Global' |
| Configs.CloudShellFromDict | shell_tests/configs.py:28-38 | a missing or empty section gives no record; a given one succeeds if and only if Host, User and Password are present, and a missing Host raises `KeyError('Host')` first |
| Configs.DoFromDict | shell_tests/configs.py:52-65 | fails exactly when the CloudShell fields fail; gives a record if and only if the section is given; the version defaults to 'CloudShell 8.3 GA - IL' |
| Configs.DeleteCsFlag | shell_tests/configs.py:63 | the CloudShell is deleted if and only if 'Delete CS' is missing or holds the text 'True'; a YAML boolean true keeps it |
| Configs.TestsFromDict | shell_tests/configs.py:125-131 | a given section succeeds if and only if 'Expected failures' is present; 'Run Tests' defaults to true |
| Configs.TestsToDict | shell_tests/configs.py:133-137 | the dictionary has exactly the keys 'Expected failures' and 'Run Tests' |
| Configs.TestsRoundTrip | shell_tests/configs.py:125-137 | round trip: reading back what `to_dict` wrote gives the same configuration |
| Configs.AddTests | shell_tests/configs.py:139-146 | `issubclass` is handed an instance, so adding two configurations always raises `TypeError` |
| Configs.ResourceFromDict | shell_tests/configs.py:85-96 | a given section succeeds if and only if its tests sub-section reads and Name and Shell Name are present; the record holds those values |
| Configs.FtpFromDict | shell_tests/configs.py:105-112 | a given section succeeds if and only if Host is present; user and password are optional |
| Configs.ShellFromDict | shell_tests/configs.py:165-176 | a given section succeeds if and only if its tests read and Name and Path are present; 'Extra CS Standards' defaults to an empty list |
| Configs.SandboxFromDict | shell_tests/configs.py:189-195 | a given section succeeds if and only if Name and Resources are present |
| Configs.NameOf | shell_tests/configs.py:231-242 | an item's key is the text under its 'Name'; an item without one raises KeyError, and a list or mapping as the name raises TypeError (unhashable) |
| Configs.AddItem | shell_tests/configs.py:231-234 | one item extends the ordered dictionary under its name exactly when its name and record read |
| Configs.Keyed | shell_tests/configs.py:231-242 | the ordered dictionary has distinct keys, and building it succeeds if and only if every item's name and record read |
| Configs.NameList | shell_tests/configs.py:232 | the items' names, in order |
| Configs.KeyedOrder | shell_tests/configs.py:231-242 | the keys come in the order of each name's first appearance |
| Configs.KeyedLastWins | shell_tests/configs.py:231-242 | a name reads the record of the last item that carries it |
| Configs.KeyedAbsent | shell_tests/configs.py:231-242 | a name no item carries is absent |
| Configs.ListOf | shell_tests/configs.py:233 | `config[key]` iterates if and only if the key is present and holds a list |
| Configs.ParseFromYaml | shell_tests/configs.py:216-252 | succeeds exactly when the documents merge and every section reads; Do, CloudShell and FTP are their sections' records; Shells, Resources and Sandboxes are keyed by their items' names in first-occurrence order; a failing Do section fails first |
| Configs.TestConfigWins | shell_tests/configs.py:226 | a scalar given in both documents comes from the test document; a list in both is the environment's items followed by the test's |
| DoHandler.StartCloudshell | shell_tests/do_handler.py:31-50 | a reservation is made if and only if some topology's last '/'-segment is the version; it uses the 'automation_tests' name and passes the specific version through; otherwise "CloudShell version ... isn't correct" is raised |
| DoHandler.ScanOsCredentials | shell_tests/do_handler.py:79-85 | a credential with no attribute of its name keeps the value it had |
| DoHandler.FirstValue | shell_tests/do_handler.py:79-83 | the reference reading: nothing if and only if no attribute carries the name |
| DoHandler.ScanReadsCredentials | shell_tests/do_handler.py:79-85 | with each credential attribute present at most once, the scan reads exactly their values, stop or no stop |
| DoHandler.ScanStopsOnceBothSet | shell_tests/do_handler.py:84-85 | the scan stops once both values are non-empty, so a later repeated 'OS Login' is ignored; while the user is still empty it is not |
| DoHandler.GetNewCloudshell | shell_tests/do_handler.py:58-91 | success needs a matching topology and a 'Ready' status within 30 polls; it reports the first resource, its address, 'admin'/'admin', and the OS credentials; 30 polls without 'Ready' raise |
| DoHandler.EndReservation | shell_tests/do_handler.py:93-105 | success needs two 'Completed' reads, one in each of the two waits; failure raises "Can't end reservation" |
| DoHandler.SecondWait | shell_tests/do_handler.py:97-104 | the second wait, counted on from the reads of the first, succeeds only at a 'Completed' read among its 30, and otherwise raises "Can't end reservation" |
| DoHandler.EndReservationStable | shell_tests/do_handler.py:96-101 | a status that stays completed ends with one read more than the first wait needed |
| DoHandler.EndReservationNeedsTwoReads | shell_tests/do_handler.py:96-104 | a single 'Completed' read followed by other statuses fails the end |
| CsCreator.OfferedVersion | shell_tests/helpers/do_helpers.py:26 | a name without '/' offers itself as the version |
| CsCreator.FindTopologyName | shell_tests/helpers/do_helpers.py:22-30 | found if and only if some topology offers the version; the answer is the least matching name; otherwise "... isn't exists" is raised |
| CsCreator.Matching | shell_tests/helpers/do_helpers.py:23-27 | exactly the topologies that offer the version |
| CsCreator.GenerationsDisagree | shell_tests/helpers/do_helpers.py:26 | 'a/b/c' offers 'c' to the older handler and 'b/c' to this one |
| CsCreator.LastValue | shell_tests/helpers/do_helpers.py:58 | the dictionary comprehension keeps the last value given for a name; nothing if and only if no attribute has the name |
| CsCreator.GetCsConfig | shell_tests/helpers/do_helpers.py:55-66 | succeeds if and only if both OS credentials are present, and a missing 'OS Login' raises `KeyError` first; the host is the address and the API credentials 'admin' |
| CsCreator.Cycles | shell_tests/helpers/do_helpers.py:69-79 | each attempt contributes one sandbox start and one end, and nothing outside the range |
| CsCreator.CreateFromAllNotAlive | shell_tests/helpers/do_helpers.py:69-85 | five not-alive attempts start and end every sandbox in turn, raise 'All 5 CloudShells are not started', and keep the last sandbox |
| CsCreator.CreateFromStopsAt | shell_tests/helpers/do_helpers.py:69-83 | the loop stops at the first attempt that is not a not-alive failure, after starting and ending every earlier sandbox in order; a failure there ends its sandbox exactly when it is an `Exception`, so a `KeyboardInterrupt` leaves it running |
| CsCreator.Finish | shell_tests/helpers/do_helpers.py:87-90 | the kept sandbox, if any, is ended |
| CsCreator.FinishAfterFailedStartEndsTwice | shell_tests/helpers/do_helpers.py:69-90 | when a later start fails, `finish` ends the already-ended previous sandbox a second time |
| Helpers.MergeDicts | shell_tests/helpers.py:116-135 | the merge goes through if and only if the types line up; the merged keys are exactly the keys of both |
| Helpers.MergeDictsEntries | shell_tests/helpers.py:123-133 | a key only in `second` keeps its value; a scalar of `first` overrides; a list of `first` comes after `second`'s list; a dictionary of `first` is merged with `second`'s, or with an empty one |
| Helpers.MergeWithEmpty | shell_tests/helpers.py:116-135 | merging with an empty dictionary on the right changes nothing |
| Helpers.MergeEmptyInto | shell_tests/helpers.py:123-135 | merging an empty dictionary into `d` gives `d` |
| Helpers.ListOverScalarFails | shell_tests/helpers.py:128-131 | a list in `first` meeting a scalar in `second` stops the merge |
| Helpers.ZipLongest | shell_tests/helpers.py:243 | as many pairs as the longer list; pair i holds the i-th items, with the fill value past the end of the shorter list |
| Helpers.GroupSpec | shell_tests/helpers.py:238-246 | the grouping holds a key if and only if some pair has that source port, and under it exactly that port's targets, in order |
| Helpers.TargetsOfNonEmpty | shell_tests/helpers.py:244 | a port with targets occurs as a source port in some pair |
| Helpers.ParseConnectionsPairs | shell_tests/helpers.py:240-243 | as many pairs as the longer comma-split port list; pair i is the i-th source port with the i-th target port |
| Helpers.DriverCommands | shell_tests/helpers.py:101-113 | a name is returned exactly when some layout lists it under a category or directly as a command |
| Helpers.CategoriesBeforeDirect | shell_tests/helpers.py:110-111 | the result splits into a first part holding only names listed under categories and a second part holding only names placed directly in a layout |
| Helpers.CategoriesFirst | shell_tests/helpers.py:110-111 | a command placed directly in the layout before a category still comes after that category's commands |
| Helpers.UrlScheme | shell_tests/helpers.py:69-70 | the scheme is non-empty exactly when the first ':' ends a scheme (it follows the literal `http`, or a non-empty run of scheme characters not followed by a bare port number), and it is then the lower-cased text before that ':' |
| Helpers.IsUrlSpec | shell_tests/helpers.py:69-70 | a text is a URL exactly when its first ':' ends a scheme that lower-cases to one of the five download schemes; a text without ':' is never a URL |
| Helpers.DownloadSchemeIsUrl | shell_tests/helpers.py:69-70 | `scheme://rest` is a URL for each of http, https, ftp, ftps and tftp, whatever the rest |
| Helpers.HttpArchiveIsUrl | shell_tests/helpers.py:69-70 | `http://h/shell.zip` is a URL |
| Helpers.FtpArchiveIsUrl | shell_tests/helpers.py:69-70 | `ftp://h/shell.zip` is a URL |
| Helpers.DownloadFileName | shell_tests/helpers.py:55 | the text after the last '/', or the whole URL when it has none; never contains '/' |
| Helpers.CallExitFuncOnExc | shell_tests/helpers.py:160-170 | `__exit__` runs if and only if `__enter__` raised an `Exception`; the failure is raised again, unchanged, if and only if it is a `KeyboardInterrupt` or `__exit__` does not suppress it; a success returns the entered value |
| Helpers.CachedGet | shell_tests/helpers.py:173-190 | the value returned is the one stored, and a stored value is returned as it is |
| Helpers.CachedOnce | shell_tests/helpers.py:185-190 | once computed, a cached value no longer depends on a later computation |
| Helpers.PingCountFlag | shell_tests/helpers.py:78 | the count flag is 'n' if and only if the system lower-cases to 'windows', and 'c' otherwise |
| Liveness.LastIp | shell_tests/helpers/check_resource_is_alive.py:19-23 | a name maps to a host exactly when some resource of that name has a non-empty device IP, and then to a non-empty one (the last such, as a later dict entry replaces an earlier one) |
| Liveness.ResourceHosts | shell_tests/helpers/check_resource_is_alive.py:19-23 | the comprehension is a well-formed map whose every lookup agrees with the last non-empty device IP of that name |
| Liveness.HostMap | shell_tests/helpers/check_resource_is_alive.py:19-29 | every name maps to its service host when it is 'FTP' with FTP configured, 'Do' with DO configured, or 'CloudShell' without DO, and otherwise to the device IP of the resources so named |
| Liveness.CheckHosts | shell_tests/helpers/check_resource_is_alive.py:31-33 | the check passes exactly when every host answers; a failure names a host that does not answer and every host before it answered |
| Liveness.CheckAllResourcesIsAlive | shell_tests/helpers/check_resource_is_alive.py:18-33 | passes exactly when every host in the map answers the ping |
| Liveness.CheckedHosts | shell_tests/run_tests.py:80-96 | a dead FTP host, a dead DO host, a dead CloudShell host without DO, or a dead device not named like a service entry always makes the check fail |
| Liveness.ShadowedDeviceNotChecked | shell_tests/helpers/check_resource_is_alive.py:24-25 | a dead device whose resource is named 'FTP' passes the check, since the FTP entry overwrites it |
| Liveness.PingCommand | shell_tests/helpers/check_resource_is_alive.py:9-10 | the command pings once with '-n' on Windows and '-c' elsewhere, followed by the host |
| Polling.PollFrom | shell_tests/cs_handler.py:201-217 | a success or failure is read within the bound at or after the start, from an answer that settles or fails the wait |
| Polling.PollFromSpec | shell_tests/cs_handler.py:201-217 | the loop stops at the first deciding answer, and runs out exactly when every answer from the start to the bound was undecided |
| Polling.PollSpec | shell_tests/do_handler.py:66-72 | a wait from the start never reads past the bound, stops at the first deciding answer, and gives up exactly when all answers were undecided |
| Polling.PollStopsAt | shell_tests/do_handler.py:66-72 | a deciding answer at k after k undecided ones is exactly where the wait stops, with success or failure according to that answer |
| Registry.Lookup | shell_tests/run_tests_for_sandbox.py:223 | the lookup succeeds exactly for listed family and device-type pairs, returning that table; a missing family or device type raises KeyError naming it |
| Registry.NetworkFamiliesShareOneTable | shell_tests/run_tests_for_sandbox.py:51-53 | the router and switch entries are the firewall table itself, which gains the real-device connectivity entry its literal does not have |
| Registry.NetworkSaveEntries | shell_tests/run_tests_for_sandbox.py:41-49 | the real-device network table maps autoload to the network autoload test and both save commands to the save test |
| Registry.AutoloadFamiliesHaveAutoload | shell_tests/run_tests_for_sandbox.py:95-111 | a listed table has an autoload entry exactly when its family is one of the autoload families |
| Registry.FamilyTableOf | shell_tests/run_tests_for_sandbox.py:95-111 | every listed family except the traffic-generator controller is an autoload family and maps to one of the four autoload tables; the controller maps to its own table |
| Registry.MissingDeviceTypes | shell_tests/run_tests_for_sandbox.py:65-93 | the virtual chassis has no simulator or without-device table, and the generic-app family and the controller have no simulator table |
| Registry.DeviceRegistryShape | shell_tests/run_tests_for_resource.py:23-46 | every device type has an autoload entry, only a real device maps the connectivity command, and a simulator maps autoload alone |
| Report.AllSucceeded | shell_tests/report_result.py:17 | true exactly when every report succeeded |
| Report.IsSuccess | shell_tests/report_result.py:15-17 | the report succeeds exactly when every resource report does, and with no reports it succeeds |
| Report.AddResourceReport | shell_tests/report_result.py:19-22 | the shell name is kept, the earlier reports are kept in order, and exactly one report with the given fields is appended |
| Report.AddReportVerdict | shell_tests/report_result.py:15-22 | after adding a report the whole report succeeds exactly when it did before and the new report succeeded |
| Report.SuccessWord | shell_tests/report_result.py:28 | the word is 'successful' exactly when the test succeeded |
| Report.BlockVerdict | shell_tests/report_result.py:28-34 | two reports with the same fields render the same block exactly when their verdicts agree |
| Report.Blocks | shell_tests/report_result.py:27-34 | one block per report, in order |
| Report.GetResultShape | shell_tests/report_result.py:24-36 | no reports give an empty text, a single report gives its block alone, and each further report appends a blank line and its block |
| ResourceRunner.ResourceTestCasesSpec | shell_tests/run_tests_for_resource.py:145-152 | the selection starts with the device type's autoload class, lists no class twice, and holds exactly that class and the classes some lower-cased driver command maps to |
| ResourceRunner.SimulatorOnlyAutoload | shell_tests/run_tests_for_resource.py:134-152 | a simulator is tested by autoload alone, whatever commands the driver reports |
| ResourceRunner.ConnectivityOnlyForRealDevice | shell_tests/run_tests_for_resource.py:145-152 | the connectivity test is selected exactly for a real device whose driver reports the connectivity command in some case |
| ResourceRunner.RunTestCases | shell_tests/run_tests_for_resource.py:91-120 | a failed `prepare_resource`, or a failed `set_attributes` when attributes are configured, propagates its error and runs nothing; otherwise attributes are applied exactly when configured, the classes are the selection for the driver's commands, the suite holds exactly every test method of every selected class, and the run succeeds exactly when every entry passes |
| ResourceRunner.Run | shell_tests/run_tests_for_resource.py:79-89 | a failed run ends the thread with its error and appends nothing; a completed run appends exactly one report with the resource's name, IP, device type, verdict and text, and the whole report succeeds exactly when it did before and this run succeeded |
| ResourceRunner.ReportedOnlyAfterSetup | shell_tests/run_tests_for_resource.py:79-98 | the shared report gains an entry exactly when the resource was prepared and its configured attributes were set |
| RunTests.Connect | shell_tests/run_tests.py:108-115 | connecting succeeds exactly when the API answers; an IOError becomes CSIsNotAliveError and any other error passes through |
| RunTests.Outcome | shell_tests/run_tests.py:56-58 | an attempt whose CloudShell creation raises fails with that error |
| RunTests.GetRunTestsInCloudshell | shell_tests/run_tests.py:46-69 | without DO the configured CloudShell is connected to once, ending no reservation, with an IOError raised as CSIsNotAliveError; with DO the attempts loop decides |
| RunTests.Range | shell_tests/run_tests.py:51-54 | the attempt numbers from lo up to hi, in order |
| RunTests.LaunchAllNotAlive | shell_tests/run_tests.py:53-69 | when every remaining attempt fails as not alive, each of their reservations is ended in order and the last error is raised |
| RunTests.LaunchStopsAtFrom | shell_tests/run_tests.py:53-66 | the first attempt from i on that does not fail as not alive decides the outcome, after the reservations of the earlier attempts were ended |
| RunTests.LaunchStopsAt | shell_tests/run_tests.py:53-66 | with DO, the first attempt that does not fail as not alive decides, every earlier reservation having been ended in order |
| RunTests.FiveDeadCloudShells | shell_tests/run_tests.py:51-69 | five CloudShells whose API raises IOError end all five reservations and raise CSIsNotAliveError |
| RunTests.LingeringErrorEndsReservation | shell_tests/run_tests.py:59-66 | without 'Delete CS' a first attempt failing for another reason leaves its reservation running, but the same failure after a dead CloudShell ends it, because the caught error outlives its clause |
| RunTests.Start | shell_tests/run_tests.py:71-78 | a failing reachability check raises before any CloudShell work; a passing one goes on to getting the CloudShell |
| SandboxHandler.ResourceKeys | shell_tests/sandbox_handler.py:28-31 | the handlers are built exactly when every sandbox resource name has a configuration, keyed by the names in first-occurrence order; otherwise the first missing name raises |
| SandboxHandler.InOrder | shell_tests/sandbox_handler.py:91-93 | the keys are visited in order, stopping right after the first that raises; without a failure every key is visited |
| SandboxHandler.Exit | shell_tests/sandbox_handler.py:97-104 | the reservation is deleted exactly when an id is held, and no exception is suppressed |
| SandboxHandler.Enter | shell_tests/sandbox_handler.py:86-95 | a failed reservation raises after that call alone; success means the reservation is held and every resource was entered and then added; any later failure is raised, and the reservation is deleted last exactly when that failure is an `Exception`; no resource is ever exited |
| SandboxHandler.ResourcesNeverExited | shell_tests/sandbox_handler.py:97-104 | `enter_stacks(...).__enter__()` (shell_tests/helpers.py:147-157) returns None, so the sandbox keeps no stack and no resource context is ever exited; the last call is the reservation's deletion exactly when entry succeeded or failed with an `Exception` |
| SandboxRunner.StopRun | shell_tests/run_tests_for_sandbox.py:155-158 | stopping raises the flag, keeps the runner, and asks the suite in progress, if any, to stop with its tests unchanged |
| SandboxRunner.TestRunner | shell_tests/run_tests_for_sandbox.py:186-196 | the runner is remembered after first use; the first choice is TeamCity's exactly when running under TeamCity |
| SandboxRunner.RunnerChosenOnce | shell_tests/run_tests_for_sandbox.py:186-196 | a later change of environment does not change the runner chosen first |
| SandboxRunner.TargetClasses | shell_tests/run_tests_for_sandbox.py:223-233 | selecting classes fails exactly when the family or device type is missing from the registry |
| SandboxRunner.RunTarget | shell_tests/run_tests_for_sandbox.py:205-252 | the stop flag is kept; a failed lookup leaves the fresh empty suite current; a successful run clears the suite, fixes the runner and reports under the target's name and IP |
| SandboxRunner.RunTargetReport | shell_tests/run_tests_for_sandbox.py:235-252 | a target report lists every test of the suite and succeeds exactly when all of them pass |
| SandboxRunner.StopBetweenTargetsMissesNextSuite | shell_tests/run_tests_for_sandbox.py:155-158 | a stop with no suite in progress does not reach the next target, whose fresh suite runs in full |
| SandboxRunner.TestedMember | shell_tests/run_tests_for_sandbox.py:168-181 | a target is tested exactly when it is given and its tests are enabled |
| SandboxRunner.RunGroupSpec | shell_tests/run_tests_for_sandbox.py:168-181 | the loop fails exactly when some enabled target's lookup fails; otherwise there is one report per enabled target, in order, naming it |
| SandboxRunner.RunGroupFails | shell_tests/run_tests_for_sandbox.py:168-181 | the loop over the targets fails if and only if the registry lookup fails for some target whose tests are enabled |
| SandboxRunner.RunGroupReports | shell_tests/run_tests_for_sandbox.py:168-181 | a loop that does not fail yields one report per enabled target, in order, each naming its target |
| SandboxRunner.SandboxRun | shell_tests/run_tests_for_sandbox.py:160-184 | a failure files no report; a success files exactly one sandbox report, named after the sandbox, successful and with empty text |
| SandboxRunner.StopBeforeRunRaises | shell_tests/run_tests_for_sandbox.py:162-164 | a stop requested before the tests start raises KeyboardInterrupt, tests nothing and files no report |
| SandboxRunner.SandboxRunSpec | shell_tests/run_tests_for_sandbox.py:160-184 | without an early stop the run fails exactly when some enabled target's lookup fails, and otherwise its three lists hold one report per enabled deployment resource, resource and service, in order, each carrying its target's name and family |
| Selection.MappedMember | shell_tests/helpers/tests_helpers.py:155-158 | a class is among the mapped ones exactly when some command, lower-cased, maps to it |
| Selection.MappedIgnoresCase | shell_tests/helpers/tests_helpers.py:156 | commands that agree after lower-casing map to the same classes |
| Selection.UnmappedCommandSkipped | shell_tests/helpers/tests_helpers.py:156-157 | a command with no entry adds nothing |
| Selection.SelectTestCases | shell_tests/helpers/tests_helpers.py:150-158 | the loop as written computes the reference selection: the initial list, then each new mapped class at its first occurrence |
| Selection.MappedStep | shell_tests/helpers/tests_helpers.py:155-158 | one more command extends the mapped list by its own class when it has one, and by nothing otherwise |
| Selection.SelectSpec | shell_tests/helpers/tests_helpers.py:150-158 | the selection has no class twice, keeps the initial list in front, and holds exactly the initial classes and the classes some command maps to |
| Selection.SelectAbsorbed | shell_tests/helpers/tests_helpers.py:157 | when every class of the table is already selected, the commands change nothing |
| Selection.Entries | shell_tests/helpers/tests_helpers.py:161-163 | one entry per test method name of the class, in order |
| Selection.SuiteMember | shell_tests/helpers/tests_helpers.py:160-163 | an entry is in the suite exactly when its class is selected and its name is a test method of that class |
| Selection.SuiteAppend | shell_tests/helpers/tests_helpers.py:160-163 | the suite keeps the class order: the suite of a concatenation is the concatenation of the suites |
| TestsHelpers.SelectedClasses | shell_tests/helpers/tests_helpers.py:148-158 | the selection fails exactly when the family or device type is missing from the registry, with a KeyError |
| TestsHelpers.SelectedClassesSpec | shell_tests/helpers/tests_helpers.py:148-158 | no class twice; a device-hierarchy family starts with its autoload class; the classes are exactly that class and those some lower-cased command maps to |
| TestsHelpers.SelectOnTableSpec | shell_tests/helpers/tests_helpers.py:148-158 | for any table that has an autoload entry when the family needs one: no class twice, autoload first for an autoload family, and exactly the classes that autoload or some lower-cased command selects |
| TestsHelpers.GetTestSuite | shell_tests/helpers/tests_helpers.py:136-165 | the suite fails exactly with the registry lookup, and otherwise holds exactly every test method of every selected class |
| TestsHelpers.NetworkFamiliesSelectAlike | shell_tests/helpers/tests_helpers.py:97-100 | router, switch and firewall select the same classes for every device type and command list, and never fail |
| TestsHelpers.NetworkSimulatorOnlyAutoload | shell_tests/helpers/tests_helpers.py:45 | a simulator of a network family gets the network autoload class alone, whatever the driver reports |
| TestsHelpers.ControllerHasNoAutoload | shell_tests/helpers/tests_helpers.py:150-153 | the controller family starts from an empty list, so its classes come from the commands alone |
| TestsHelpers.SaveCommandsAddOneClass | shell_tests/helpers/tests_helpers.py:59-60 | a driver reporting both save commands in any letter case adds the save class once, after autoload |
| TestsHelpers.SaveTwiceSelectsOnce | shell_tests/helpers/tests_helpers.py:148-158 | two commands that map to the same class, other than the autoload class, add that class once after autoload |
| TestsHelpers.Stop | shell_tests/helpers/tests_helpers.py:129-133 | stopping raises the flag, keeps the tests, and stops the result of the run in progress, if any |
| TestsHelpers.FailingMember | shell_tests/helpers/tests_helpers.py:182 | a test is reported failing exactly when it is among the tests and does not pass |
| TestsHelpers.RunFromSpec | shell_tests/helpers/tests_helpers.py:122-127 | an unstopped run from test i executes exactly the tests up to the stop point, in order, and records exactly the failing ones among them |
| TestsHelpers.RunFromRan | shell_tests/helpers/tests_helpers.py:122-127 | an unstopped run from test i executes exactly the tests from i up to the stop point, in order, after those already run |
| TestsHelpers.RunFromFailed | shell_tests/helpers/tests_helpers.py:122-127 | an unstopped run from test i records exactly the failing tests from i up to the stop point, in order, after those already recorded |
| TestsHelpers.FailingEmptyIff | shell_tests/helpers/tests_helpers.py:182 | no test fails exactly when every test passes |
| TestsHelpers.RunSpec | shell_tests/helpers/tests_helpers.py:122-127 | a run records exactly the executed tests and their failures, the suite keeps the final result, a stopped suite's result is stopped, and the run succeeds exactly when every executed test passed |
| TestsHelpers.GetTestRunner | shell_tests/helpers/tests_helpers.py:168-175 | TeamCity's runner exactly when running under TeamCity |
| TestsHelpers.StoppedSuiteRunsNothing | shell_tests/helpers/tests_helpers.py:122-124 | a suite stopped before it runs executes nothing and reports success |
| TestsHelpers.UnstoppedSuiteRunsAll | shell_tests/helpers/tests_helpers.py:178-183 | without a stop every test runs, in order, and the flag says whether all passed |
| Smb.LastSep | shell_tests/handlers/smb_handler.py:74 | the last '/' or '\' of the text, if any: no separator follows it, and none at all when there is none |
| Smb.GetDirPath | shell_tests/handlers/smb_handler.py:71-77 | the parent is a prefix of the path, strictly shorter for every non-empty path |
| Smb.GetDirPathSpec | shell_tests/smb_handler.py:62-68 | for a newline-free path (up to one final newline) the parent is the text before its last separator; with no separator, or with an inner newline, it is '' |
| Smb.GetDirPathFixpoint | shell_tests/smb_handler.py:62-68 | only '' is its own parent |
| Smb.CreateDir | shell_tests/handlers/smb_handler.py:79-89 | only directory creations are made, one answer read per call; a completed creation starts and ends with the directory itself; without parents exactly one call is made |
| Smb.CreateDirClimbs | shell_tests/smb_handler.py:70-81 | with k missing ancestors the recursion climbs to the first existing one and comes back down creating each missing directory once, ending with the directory itself |
| Smb.CreateDirStallsAtRoot | shell_tests/smb_handler.py:74-78 | creating '' with parents while the server keeps failing never ends, since the parent of '' is '' |
| Smb.PutFile | shell_tests/handlers/smb_handler.py:91-102 | the file is stored first; a completed store ends with a store; an unforced store makes exactly that one call |
| Smb.PutFileRetriesOnce | shell_tests/smb_handler.py:83-93 | a forced store failing with 'Unable to open file' creates the parent directory and stores once more; a second failure propagates with no third attempt |
| Smb.Without | shell_tests/handlers/smb_handler.py:69 | exactly the entries whose name is not excluded, in order |
| Smb.Ls | shell_tests/handlers/smb_handler.py:61-69 | a listing failure propagates unless it says 'Unable to open directory', which lists as empty; a listing keeps exactly its non-dot entries |
| Smb.LsKeepsOrder | shell_tests/smb_handler.py:52-60 | the listing keeps the server's order: non-dot entries appended to the answer are appended to the result |
| Smb.DownloadDir | shell_tests/handlers/smb_handler.py:124-136 | a completed download mirrors every non-dot entry of every readable directory, a local directory for each folder and a fetch to the same name for each file |
| Smb.DownloadEntries | shell_tests/smb_handler.py:102-118 | a completed download of a listing mirrors each non-dot entry under the same name |
| Smb.SplitUsername | shell_tests/handlers/smb_handler.py:21-25 | the user name is always the whole input; the domain is '' exactly when there is no backslash, and otherwise the backslash-separated parts, which join back to the input |
| Smb.FixedPathsShape | shell_tests/handlers/smb_handler.py:142-144 | both fixed directories end in a backslash |
| Smb.InDir | shell_tests/handlers/smb_handler.py:161 | the remote path is the directory followed by the name |
| Smb.InDirParent | shell_tests/handlers/smb_handler.py:97-99 | the parent of a file put in a fixed directory is that directory without its final separator |
| Smb.OfflinePypiNames | shell_tests/handlers/smb_handler.py:172-181 | fails exactly when listing fails; otherwise exactly the listed names other than '.', '..' and 'PlaceHolder.txt' |
| Smb.ClearOfflinePypi | shell_tests/handlers/smb_handler.py:183-190 | fails exactly when listing fails; otherwise one removal per package name, in listing order, under the PyPI directory |
| Smb.ClearKeepsPlaceholder | shell_tests/handlers/smb_handler.py:174 | the placeholder file is never removed |
| Smb.StandardUploads | shell_tests/handlers/smb_handler.py:207-209 | exactly the standards not installed are uploaded, into the standards directory; a single standard is uploaded exactly when it is missing |
| Smb.StandardUploadsInOrder | shell_tests/handlers/smb_handler.py:207-209 | uploads follow the input order: a list's uploads are its first part's followed by the rest's |
| Smb.AddExtraStandards | shell_tests/handlers/smb_handler.py:205-209 | fails exactly when listing the installed standards fails; otherwise the installed names are read once and the missing standards uploaded in input order |
| Smb.StandardsListedOnce | shell_tests/handlers/smb_handler.py:206-209 | an installed standard is never uploaded, and a missing one listed twice is uploaded twice |
| ShellHandler.Localised | shell_tests/shell_handler.py:56-62 | a configured path stays configured, and one that is empty or not a URL is kept as it is |
| ShellHandler.DownloadIfUrl | shell_tests/shell_handler.py:56-62 | the record grows by one entry, the download's target, exactly when the path is a non-empty URL, and earlier entries are kept |
| ShellHandler.DownloadAll | shell_tests/shell_handler.py:33-35 | every path is localised in place and the record gains the targets of the remote paths, in order |
| ShellHandler.Configured | shell_tests/shell_handler.py:33-35 | the shell path, the dependencies path and each extra standard, in that order |
| ShellHandler.NewHandler | shell_tests/shell_handler.py:15-35 | the shell, dependencies and extra standards are each localised, and the record holds the targets of exactly the remote ones, in visiting order |
| ShellHandler.DownloadsAreTheRemotePaths | shell_tests/shell_handler.py:56-62 | a file is recorded exactly when it is the target of some remote configured path |
| ShellHandler.LocalPathsDownloadNothing | shell_tests/shell_handler.py:57 | a configuration of local paths downloads nothing |
| ShellHandler.Basename | shell_tests/shell_handler.py:75 | the file name holds no '/' |
| ShellHandler.StandardUploads | shell_tests/shell_handler.py:74-78 | exactly the standards whose file name is not installed are uploaded, at most once per input entry; a single standard is uploaded exactly when its file name is missing |
| ShellHandler.StandardUploadsInOrder | shell_tests/shell_handler.py:74-78 | uploads follow the input order: a list's uploads are its first part's followed by the rest's |
| ShellHandler.NothingInstalledUploadsAll | shell_tests/shell_handler.py:74-78 | with nothing installed every standard is uploaded, in order |
| ShellHandler.AddExtraStandards | shell_tests/shell_handler.py:68-78 | the installed list is asked for exactly when there are standards, and exactly the standards with a missing file name are uploaded, in input order |
| ShellHandler.DependencyUploads | shell_tests/shell_handler.py:80-92 | every archive member is uploaded under its own name, in order, patched exactly when its name mentions 'cloudshell-core' |
| ShellHandler.PatchSelection | shell_tests/shell_handler.py:88-92 | a name embedding 'cloudshell-core' anywhere is patched, and another name is sent as it is |
| ShellHandler.DebugConfig | shell_tests/shell_handler.py:121-132 | the configuration is cut at the occurrences of the INFO level that a left-to-right scan without overlaps finds, and the pieces are joined with the DEBUG level; without the INFO level it is unchanged |
| ShellHandler.DebugConfigReplacesEvery | shell_tests/shell_handler.py:121-132 | the configuration is some list of pieces joined by the INFO level, none of which holds another INFO level, and the result is the same pieces joined by the DEBUG level |
| Text.SplitLeftmost | shell_tests/shell_handler.py:129 | `str.replace` cuts the text at exactly the occurrences a left-to-right scan without overlaps finds |
| Text.LeftmostCutsUnique | shell_tests/shell_handler.py:129 | any list of such leftmost cuts is the one `str.replace` uses |
| ShellHandler.ReplaceIntroduces | shell_tests/shell_handler.py:129 | replacing a pattern that occurs leaves the replacement in the text, and replacing one that does not changes nothing |
| ShellHandler.SharedQuoteSurvives | shell_tests/shell_handler.py:129 | two INFO levels sharing a quote are rewritten once, so an INFO level survives |
| ShellHandler.SharedQuoteSplit | shell_tests/shell_handler.py:129 | splitting on the INFO level scans without overlaps |
| ShellHandler.PrepareSteps | shell_tests/shell_handler.py:147-157 | the standards then the shell come last, and the dependencies are uploaded first exactly when their path is set |
| ShellHandler.DeleteSteps | shell_tests/shell_handler.py:159-168 | the offline PyPI is cleared exactly when a dependencies path is set, and the recorded downloads are deleted last |
| ShellHandler.Enter | shell_tests/shell_handler.py:170-183 | entry succeeds exactly when every preparation step does, returning the handler with no clean-up; a failure stops at the failing step and raises its error, after the clean-up exactly when it is an `Exception` |
| ShellHandler.FailedEnterDeletesDownloads | shell_tests/shell_handler.py:170-177 | a failing install makes the entry fail; the recorded downloads are deleted exactly when the raised error is an `Exception` |
| BlueprintHandler.NewHandler | shell_tests/blueprint_handler.py:15-20 | the path is localised, and the download record holds exactly its target when it is a remote path and nothing otherwise |
| BlueprintHandler.Exit | shell_tests/blueprint_handler.py:62-64 | exactly the recorded downloads are deleted and nothing is suppressed |
| BlueprintHandler.Enter | shell_tests/blueprint_handler.py:55-60 | the handler's path is imported; entry succeeds exactly when the import does, binding None and deleting nothing; a failed import raises its error, deleting the downloads first exactly when it is an `Exception` |
| BlueprintHandler.DownloadDeletedOnce | shell_tests/blueprint_handler.py:37-64 | over a whole with-block a downloaded package is deleted exactly once, unless the import is interrupted, in which case nothing is deleted |
| LegacyResource.LastSegment | src/resource_handler.py:52-53 | the last segment holds no '.'; a name without a dot is its own last segment, and a dotted name is its text before the final dot, that dot, and the last segment |
| LegacyResource.FamilyAndModel | src/resource_handler.py:43-57 | it succeeds exactly when there is a first node type with a 'derived_from'; no node type raises IndexError and a missing 'derived_from' raises KeyError; on success the model is the last segment of the first node type's name and the family is 'CS_' plus the last segment of its base |
| LegacyResource.AfterLastIsSuffix | src/resource_handler.py:52 | the text after the last separator is a suffix of the input |
| LegacyResource.LastSegmentAfterDot | src/resource_handler.py:52-53 | the last segment of a dotted name is what follows its final dot |
| LegacyResource.FamilyAndModelExample | src/resource_handler.py:52-54 | a node type 'vendor.Model' derived from 'cloudshell.Switch' is a CS_Switch of model 'Model' |
| LegacyResource.ReadCached | src/resource_handler.py:86-96 | the archive is read exactly when the requested field is unset; a read stores both fields and answers the requested one; a failing read changes nothing; otherwise the cached value answers |
| LegacyResource.ReadOnce | src/resource_handler.py:86-96 | after one successful read of either property, a read of either answers from the cache whatever a new read would give |
| LegacyResource.DownloadUrlsAreUrls | src/resource_handler.py:82-84 | every URL the download helpers accept has a non-empty scheme, so it is a URL here too |
| LegacyResource.DrivePathIsAUrl | src/resource_handler.py:82-84 | a Windows drive path counts as a URL here but not in the later generations |
| LegacyResource.NewResource | src/resource_handler.py:15-41 | a new handler has downloaded nothing and holds no reservation |
| LegacyResource.Fetch | src/resource_handler.py:98-104 | a path is downloaded exactly when it is a URL, and otherwise kept as it is |
| LegacyResource.PreparedResource | src/resource_handler.py:106-122 | a prepared handler holds the reservation id and the created name, keeps its device IP, and has downloaded the shell and the dependencies exactly when each path is a URL |
| LegacyResource.PrepareCalls | src/resource_handler.py:106-124 | the dependencies (when set), the shell, the reservation, the resource under its configured name and the created name added to the reservation, in order, and no clean-up call |
| LegacyResource.Prepare | src/resource_handler.py:106-143 | preparation succeeds exactly when no planned call fails; the calls made are the planned ones up to and including the first failure |
| LegacyResource.Delete | src/resource_handler.py:126-139 | the offline PyPI is cleared first and exactly when a dependencies path is set; every downloaded file is removed and nothing else, the shell before the dependencies, after the clear; the reservation then the resource are deleted last |
| LegacyResource.Exit | src/resource_handler.py:145-147 | leaving deletes the resource and suppresses nothing |
| LegacyResource.ExitUndoesPrepare | src/resource_handler.py:171-179 | after preparing a URL shell, leaving removes the downloaded file, the reservation and the renamed resource |
| LegacyResource.ExitUndoesEveryPrepare | src/resource_handler.py:105-147 | for any paths, leaving after a successful preparation deletes the reservation and the created resource, removes each download, and clears the offline PyPI only after an upload, always after one with a non-empty local path |
| LegacyResource.UploadsIffDependencies | src/resource_handler.py:114-115 | the preparation uploads dependencies exactly when a dependencies path is set |
| LegacyResource.DeleteDownloadedShell | src/resource_handler.py:171-179 | a resource whose shell was downloaded and which has no dependencies removes the shell file, then ends the reservation, then deletes the resource |
| LegacyResource.FailedPrepareDeletesNothing | src/resource_handler.py:141-143 | a failure when adding the resource to the reservation leaves the reservation and the resource in place, with no delete call |
| LegacyRun.Suite | src/run_tests.py:18-28 | an entry is in the suite exactly when its class is given and its name is one of that class's test methods |
| LegacyRun.SuiteInClassOrder | src/run_tests.py:23-25 | the entries of earlier classes all come before those of later ones |
| LegacyRun.RunTests | src/run_tests.py:31-75 | SMB is set up exactly when both OS credentials are set; with a device IP the autoload and custom-command tests run against it with the attributes always sent; without one only the driver-installed test runs, against 127.0.0.1, and empty attributes are not sent |
| LegacyRun.SuitesDisjoint | src/run_tests.py:70-73 | the suite with a device and the one without share no entry |
| LegacyRun.Main | src/run_tests.py:78-100 | the DO reservation is ended exactly when DO is configured; a failing DO request raises without running tests; otherwise the tests run, with the DO credentials deciding SMB |
| Shellfoundry.Underscored | shell_tests/oop_shellfoundry.py:72 | same length, every '/', ',' and '-' becomes '_' and every other character is kept |
| Shellfoundry.NewWords | shell_tests/oop_shellfoundry.py:70-87 | no template raises TypeError; otherwise 'shellfoundry new' and a name derived from the template exactly when it is not local and the name is empty; the template is passed unless it is not local and a name is given; the version only with a derived name |
| Shellfoundry.NewCommand | shell_tests/oop_shellfoundry.py:70-89 | a command is built exactly when a template is given, and it starts with 'shellfoundry new ' |
| Shellfoundry.NewCommandFormats | shell_tests/oop_shellfoundry.py:71-86 | each branch gives the command line its format string spells out |
| Shellfoundry.DefaultsFail | shell_tests/oop_shellfoundry.py:70-82 | calling with the default arguments raises TypeError before any command is built |
| Shellfoundry.DerivedNameExample | shell_tests/oop_shellfoundry.py:72 | 'gen2/resource-x' becomes 'gen2_resource_x' |
| Shellfoundry.MarkedLineHasSpace | shell_tests/oop_shellfoundry.py:65 | a line mentioning 'and up' has a space, so its second word exists |
| Shellfoundry.GetTemplates | shell_tests/oop_shellfoundry.py:64 | over listing lines, exactly the second words of the lines that mention 'and up', at most one per line |
| Shellfoundry.GetTemplatesAsWritten | shell_tests/oop_shellfoundry.py:45-68 | `Popen('list --all')` runs without the `shellfoundry` prefix: its error propagates, and a process that does start is iterated as an object, raising `TypeError`, so no template list is ever returned |
| Shellfoundry.GetTemplatesIntended | shell_tests/oop_shellfoundry.py:58-68 | running `shellfoundry list --all` and iterating its output lines succeeds exactly when the process starts, and names exactly the second words of the lines that mention 'and up' |
| Shellfoundry.GetTemplatesLosesTemplates | shell_tests/oop_shellfoundry.py:45-68 | whenever shellfoundry lists a supported template, the code as written raises while the intended version returns a non-empty list |

## Findings

| source | as written | input that shows it | evidently intended | confidence | as-written member | corrected member |
|---|---|---|---|---|---|---|
| shell_tests/oop_shellfoundry.py:45-68 | `get_templates` runs `self.run_command('list --all')`, without the `shellfoundry` prefix that `new` and `pack` use, and iterates what `run_command` returns: the `subprocess.Popen` object, not its output | any call: `Popen('list --all')` finds no program of that name and raises first; were a program of that name to start, iterating the `Popen` object raises `TypeError` | run `shellfoundry list --all`, iterate its output lines and keep the second word of each line mentioning 'and up' | high, not executed | Shellfoundry.GetTemplatesAsWritten | Shellfoundry.GetTemplatesIntended |

## Left out

- Configs.NameOf: a YAML boolean 'Name' (`On`, `yes`, `true`, ...) is refused, where Python keys the item by `True` or `False` and the parse succeeds; keys are text in this model. A numeric 'Name' is keyed by its text, where Python keys it by the number.
- Shellfoundry.GetTemplatesIntended: takes the output as decoded text lines; the bytes `stdout.read()` returns would also need decoding and splitting into lines.
- Remote I/O is not modelled beyond the answers it gives. This covers the CloudShell API, SMB sessions (including the NetBIOS-to-direct-TCP reconnect), FTP and TFTP transfers, HTTP downloads, `ping`, zip and tar archive handling, and the file system. Sleeps between polls and wall-clock time are left out too.
- Threads are not modelled. Sandbox runners run one at a time, and `REPORT_LOCK` and `wait_for_end_threads` are not modelled; a concurrent `stop()` is reduced to the test index at which it arrives.
- RootResourceHandler.PrepareResource: holds only for answers that settle the rename loop, i.e. some answer other than code 114 arrives before they run out. The unbounded loop itself is modelled in `CsHandler.CreateResource`, which reports `Pending` otherwise.
- RootResourceHandler.PrepareResource: records the create request by role (name, model, address). The call in `shell_tests/resource_handler.py` passes family, model and address positionally against a `create_resource(name, model, address, family)` signature, and that mismatch is not reproduced.
- RootResourceHandler.RealDeviceAfterPrepare: holds only for answers that settle the rename loop, as for `PrepareResource`.
- ResourceHandlers.CreateResource: holds only for answers that settle the rename loop, as for `PrepareResource`.
- ResourceHandlers.CreatedResourceAttributes: holds only for answers that settle the rename loop.
- ResourceHandlers.Rename: holds only for answers that settle the rename loop.
- ResourceHandlers.FinishAfterRename: holds only for answers that settle the rename loop.
- CsHandler.CreateIndexedResource: states the outcome only for answers whose first non-114 answer is a success.
- AutomationBase.ExpectFailureVerdict: `assertRaisesRegexp`'s regular-expression search is the uninterpreted predicate `matches`, so the verdict is stated relative to it.
- AutoloadTest.AssertInStructure: the search in `str()` of the nested structure is stated only for patterns free of the quotes, brackets, braces, colons, commas and spaces that the printed form adds. Every pattern the tests search for ('CS_Port' and the traffic-generator port families) is such a pattern.
- AutoloadTest.StructureTest: the same restriction on the searched pattern as `AssertInStructure`.
- The numeric truthiness of configuration values is not modelled. Values are strings or absent, and an empty string counts as false.
- Python 2 dict iteration order in the second generation is taken as insertion order.
- Configuration sections that are not mappings are not modelled; the YAML loader's own errors are left out.
- The FTP credentials in the save/restore tests are taken as the printed text of the configuration.
- Failures of the calls made in clean-up paths are not modelled. These are SMB file removal, FTP deletion, `end_reservation` inside `finally`, and the delete calls of the first generation. Each is taken to succeed.
- `shell_tests/automation_tests/test_vm_connections.py` is not modelled, and neither is `test_driver_installed.py`; the first generation's test classes are modelled only by their names and order.
- The sandbox's look-up of each resource's shell handler by shell name is not modelled; an unknown shell name would raise `KeyError` there. Only the look-up of the resource configurations by resource name is modelled (`SandboxHandler.ResourceKeys`).
- `execute_resource_command` and the other handler methods that forward one API call unchanged are pass-throughs and have no model of their own.
- `get_resource_family_and_model` of `shell_tests/helpers.py`, used by the second-generation shell handler, is not part of this model; the family and model are inputs there. The first generation's version is modelled in `LegacyResource.FamilyAndModel`.
- The rewrite of the `cloudshell-core` archive is reduced to a flag marking the upload as patched. Only the text replacement itself is modelled, in `ShellHandler.DebugConfig`.
- `run_command`, `pack`, `get_path_to_zip` and `check_shellfoundry_templates` of `shell_tests/oop_shellfoundry.py` are not modelled; they run processes and read their output. The process `run_command` returns is reduced to its output lines.
- The first generation's resource commands other than preparing and deleting are not modelled. These are `set_attributes`, `autoload`, `get_details`, `execute_command`, `health_check`, `run_custom_command` and `run_custom_config_command`, and each forwards one API call.
- Logging, download-logs and the TeamCity report format are left out.

=== FILE: autoload_test.dfy ===
/** The autoload tests (`shell_tests/automation_tests/test_autoload.py`):
    the nested structure of a resource's families, its printed form, and
    the pass condition of each autoload variant.  The printed form is
    Python's `str()` of the structure for family names that need no
    escaping. */
module AutoloadTest {
  import opened Wrappers
  import opened Errors
  import opened Text
  import opened ResourceTree
  import opened AutomationBase

  /** `_get_structure`'s result: a family name for a leaf, a one-entry
      dictionary from the family to the children's structures otherwise. */
  datatype Structure = Leaf(family: string) | Branch(family: string, children: seq<Structure>)

  function GetStructure(info: ResourceInfo): (r: Structure)
    ensures r.family == info.family
    ensures r.Leaf? <==> |info.children| == 0
  {
    if |info.children| == 0 then Leaf(info.family) else Branch(info.family, GetStructures(info.children))
  }

  function GetStructures(children: seq<ResourceInfo>): (r: seq<Structure>)
    ensures |r| == |children|
  {
    if |children| == 0 then [] else [GetStructure(children[0])] + GetStructures(children[1..])
  }

  /** How a structure prints inside a dictionary's list: a leaf is a
      quoted string, a branch a dictionary holding a list. */
  function Render(s: Structure): string
  {
    match s
    case Leaf(f) => "'" + f + "'"
    case Branch(f, children) => "{'" + f + "': [" + RenderList(children) + "]}"
  }

  function RenderList(items: seq<Structure>): string
  {
    if |items| == 0 then ""
    else if |items| == 1 then Render(items[0])
    else Render(items[0]) + ", " + RenderList(items[1..])
  }

  /** The characters the printed form adds around family names. */
  const Punctuation: set<char> := {'\'', '{', '}', '[', ']', ':', ',', ' '}

  /** A pattern that shares no character with the punctuation. */
  predicate Plain(p: string) {
    |p| > 0 && forall k :: 0 <= k < |p| ==> p[k] !in Punctuation
  }

  /** Some family name contains `p`. */
  predicate AnyContains(families: seq<string>, p: string) {
    exists i :: 0 <= i < |families| && Contains(families[i], p)
  }

  lemma AnyContainsAppend(a: seq<string>, b: seq<string>, p: string)
    ensures AnyContains(a + b, p) <==> AnyContains(a, p) || AnyContains(b, p)
  {
    if AnyContains(a + b, p) {
      var i :| 0 <= i < |a + b| && Contains((a + b)[i], p);
      if i >= |a| {
        assert b[i - |a|] == (a + b)[i];
      }
    }
    if AnyContains(a, p) {
      var i :| 0 <= i < |a| && Contains(a[i], p);
      assert (a + b)[i] == a[i];
    }
    if AnyContains(b, p) {
      var i :| 0 <= i < |b| && Contains(b[i], p);
      assert (a + b)[|a| + i] == b[i];
    }
  }

  /** A separator made of punctuation never meets a plain pattern. */
  lemma Separates(sep: string, p: string)
    requires Plain(p)
    requires forall k :: 0 <= k < |sep| ==> sep[k] in Punctuation
    ensures forall k :: 0 <= k < |sep| ==> sep[k] !in p
  {
    forall k | 0 <= k < |sep| ensures sep[k] !in p {
    }
  }

  /** Punctuation around a string adds no occurrence of a plain pattern. */
  lemma Wrapped(pre: string, s: string, post: string, p: string)
    requires Plain(p) && |pre| > 0 && |post| > 0
    requires forall k :: 0 <= k < |pre| ==> pre[k] in Punctuation
    requires forall k :: 0 <= k < |post| ==> post[k] in Punctuation
    ensures Contains(pre + s + post, p) <==> Contains(s, p)
  {
    Separates(pre, p);
    Separates(post, p);
    ContainsAcross("", pre, s + post, p);
    assert "" + pre + (s + post) == pre + s + post;
    ContainsAcross(s, post, "", p);
    assert s + post + "" == s + post;
    assert !Contains("", p);
  }

  /** A plain pattern occurs in the printed structure exactly when it
      occurs in one of the tree's family names. */
  lemma {:induction false} RenderFamilies(info: ResourceInfo, p: string)
    requires Plain(p)
    ensures Contains(Render(GetStructure(info)), p) <==> AnyContains(Families(info), p)
  {
    var f := info.family;
    AnyContainsAppend([f], FamiliesOf(info.children), p);
    assert AnyContains([f], p) <==> Contains(f, p) by {
      assert [f][0] == f;
    }
    if |info.children| == 0 {
      assert FamiliesOf(info.children) == [];
      Wrapped("'", f, "'", p);
    } else {
      var list := RenderList(GetStructures(info.children));
      RenderListFamilies(info.children, p);
      assert Render(GetStructure(info)) == "{'" + (f + "': [" + list) + "]}";
      Wrapped("{'", f + "': [" + list, "]}", p);
      Separates("': [", p);
      ContainsAcross(f, "': [", list, p);
    }
  }

  /** `str(structure)`: a root leaf is the family name itself, unquoted;
      a root branch prints as it does inside a list. */
  function Str(s: Structure): string
  {
    match s
    case Leaf(f) => f
    case Branch(_, _) => Render(s)
  }

  /** A plain pattern occurs in `str` of the structure exactly when it
      occurs in one of the tree's family names. */
  lemma StrFamilies(info: ResourceInfo, p: string)
    requires Plain(p)
    ensures Contains(Str(GetStructure(info)), p) <==> AnyContains(Families(info), p)
  {
    if |info.children| == 0 {
      assert FamiliesOf(info.children) == [];
      assert Families(info) == [info.family];
      assert [info.family][0] == info.family;
    } else {
      RenderFamilies(info, p);
    }
  }

  lemma {:induction false} RenderListFamilies(children: seq<ResourceInfo>, p: string)
    requires Plain(p)
    ensures Contains(RenderList(GetStructures(children)), p) <==> AnyContains(FamiliesOf(children), p)
  {
    if |children| == 0 {
      assert !Contains("", p);
    } else {
      var head := GetStructure(children[0]);
      var tail := GetStructures(children[1..]);
      assert GetStructures(children) == [head] + tail;
      assert ([head] + tail)[0] == head && ([head] + tail)[1..] == tail;
      RenderFamilies(children[0], p);
      RenderListFamilies(children[1..], p);
      AnyContainsAppend(Families(children[0]), FamiliesOf(children[1..]), p);
      if |children| == 1 {
        assert FamiliesOf(children[1..]) == [];
        assert Families(children[0]) + [] == Families(children[0]);
      } else {
        Separates(", ", p);
        ContainsAcross(Render(head), ", ", RenderList(tail), p);
      }
    }
  }

  // ---------------------------------------------------------------------
  // The autoload variants

  /** The test bodies' verdict on `assertIn(pattern, str(structure))`. */
  function AssertInStructure(pattern: string, info: ResourceInfo): (r: Run)
    requires Plain(pattern)
    ensures r.Returned? <==> AnyContains(Families(info), pattern)
    ensures r.AssertFailed? <==> !AnyContains(Families(info), pattern)
  {
    StrFamilies(info, pattern);
    if Contains(Str(GetStructure(info)), pattern) then Returned else AssertFailed(pattern + " not found")
  }

  /** Autoload, then read the details, then look for `pattern`. */
  function StructureTest(pattern: string, autoload: Result<(), Exc>, details: Result<ResourceInfo, Exc>): (r: Run)
    requires Plain(pattern)
    ensures r.Returned? <==> autoload.Success? && details.Success? && AnyContains(Families(details.value), pattern)
    ensures autoload.Failure? ==> r == Raised(autoload.error)
  {
    match autoload
    case Failure(e) => Raised(e)
    case Success(_) =>
      match details
      case Failure(e) => Raised(e)
      case Success(info) => AssertInStructure(pattern, info)
  }

  /** `TestAutoloadNetworkDevices.test_structure`. */
  function NetworkDevicesTest(autoload: Result<(), Exc>, details: Result<ResourceInfo, Exc>): (r: Run)
    ensures r.Returned? <==> autoload.Success? && details.Success? && AnyContains(Families(details.value), "CS_Port")
  {
    StructureTest("CS_Port", autoload, details)
  }

  /** `TestAutoloadTrafficGeneratorDevices.test_structure`: the source
      repeats the network test's body with another family name. */
  function TrafficGeneratorDevicesTest(autoload: Result<(), Exc>, details: Result<ResourceInfo, Exc>): (r: Run)
    ensures r.Returned? <==>
      autoload.Success? && details.Success? && AnyContains(Families(details.value), "CS_TrafficGeneratorPort")
  {
    StructureTest("CS_TrafficGeneratorPort", autoload, details)
  }

  /** `TestAutoloadVirtualTrafficGeneratorDevices.test_structure`: no
      autoload at all. */
  function VirtualTrafficGeneratorDevicesTest(details: Result<ResourceInfo, Exc>): (r: Run)
    ensures r.Returned? <==> details.Success? && AnyContains(Families(details.value), "CS_VirtualTrafficGeneratorPort")
  {
    StructureTest("CS_VirtualTrafficGeneratorPort", Success(()), details)
  }

  /** `TestAutoloadWithoutPorts.test_autoload`. */
  function WithoutPortsTest(autoload: Result<(), Exc>): (r: Run)
    ensures r.Returned? <==> autoload.Success?
  {
    match autoload
    case Success(_) => Returned
    case Failure(e) => Raised(e)
  }

  /** Any family name containing 'CS_Port' satisfies the network test,
      a port channel included. */
  lemma PortChannelCounts(details: ResourceInfo)
    requires details.family == "CS_PortChannel"
    ensures NetworkDevicesTest(Success(()), Success(details)).Returned?
  {
    assert OccursAt("CS_PortChannel", "CS_Port", 0) by {
      assert "CS_PortChannel"[0..7] == "CS_Port";
    }
    ContainsIff("CS_PortChannel", "CS_Port");
    assert Families(details)[0] == "CS_PortChannel";
  }
}

=== FILE: base_test.dfy ===
/** The automation test-case bases (`shell_tests/automation_tests/base.py`):
    the expected-failure wrapper that turns a test method inside out when
    the tests configuration names it, and the test ids.  A test body is
    modelled by how it ends (`Run`); the regular-expression search of
    `assertRaisesRegexp` is the uninterpreted `matches`. */
module AutomationBase {
  import opened Wrappers
  import opened Errors
  import opened Helpers
  import Configs

  /** How a test body ends: it returns, an assertion in it fails, or it
      raises. */
  datatype Run = Returned | AssertFailed(msg: string) | Raised(error: Exc)

  /** How unittest ends a test: it records a pass, a failure or an error,
      or, for a `KeyboardInterrupt`, re-raises it and stops the run. */
  datatype Verdict = Pass | Fail | Error(error: Exc) | Interrupted(error: Exc)

  /** The body raised something `except Exception` catches: an assertion
      error or any exception except `KeyboardInterrupt`. */
  predicate RaisedException(body: Run) {
    body.AssertFailed? || (body.Raised? && IsException(body.error))
  }

  /** The test of an unwrapped method: a return passes, a failed assertion
      fails, an exception is an error and a `KeyboardInterrupt` stops the
      run. */
  function PlainVerdict(body: Run): (r: Verdict)
    ensures r.Pass? <==> body.Returned?
    ensures r.Fail? <==> body.AssertFailed?
    ensures r.Error? <==> body.Raised? && IsException(body.error)
    ensures r.Interrupted? <==> body.Raised? && !IsException(body.error)
    ensures (r.Error? || r.Interrupted?) ==> body == Raised(r.error)
  {
    match body
    case Returned => Pass
    case AssertFailed(_) => Fail
    case Raised(e) => if IsException(e) then Error(e) else Interrupted(e)
  }

  /** `expect_failure`: the wrapped method runs the body under
      `assertRaisesRegexp(Exception, reason, ...)`. */
  function ExpectFailureVerdict(reason: Value, body: Run, matches: (Value, Run) -> bool): (r: Verdict)
    ensures r.Pass? <==> RaisedException(body) && matches(reason, body)
    ensures r.Interrupted? <==> body.Raised? && !IsException(body.error)
    ensures !r.Error?
  {
    if RaisedException(body) then (if matches(reason, body) then Pass else Fail)
    else if body.Returned? then Fail
    else Interrupted(body.error)
  }

  /** A wrapped test and an unwrapped one never both pass, and a body that
      returns normally passes only unwrapped. */
  lemma WrapperInverts(reason: Value, body: Run, matches: (Value, Run) -> bool)
    ensures !(PlainVerdict(body).Pass? && ExpectFailureVerdict(reason, body, matches).Pass?)
    ensures body.Returned? ==> PlainVerdict(body).Pass? && ExpectFailureVerdict(reason, body, matches).Fail?
    ensures body.Raised? && IsException(body.error) && matches(reason, body) ==>
      PlainVerdict(body).Error? && ExpectFailureVerdict(reason, body, matches).Pass?
  {
  }

  /** The key of a test method in 'Expected failures'. */
  function TestName(className: string, methodName: string): (r: string)
    ensures |r| == |className| + 1 + |methodName|
    ensures r[..|className|] == className && r[|className|] == '.' && r[|className| + 1..] == methodName
  {
    className + "." + methodName
  }

  /** Class names have no dot, so a key names one class and one method. */
  lemma TestNameInjective(c1: string, m1: string, c2: string, m2: string)
    requires '.' !in c1 && '.' !in c2
    requires TestName(c1, m1) == TestName(c2, m2)
    ensures c1 == c2 && m1 == m2
  {
  }

  /** Python truthiness of a configuration value. */
  predicate Truthy(v: Value) {
    match v
    case Scalar(s) => s != ""
    case Boolean(b) => b
    case List(items) => |items| > 0
    case Dict(entries) => |entries| > 0
  }

  /** How a test method of an instance behaves. */
  datatype Method = Plain | ExpectFailure(reason: Value)

  /** The verdict of running a method of an instance. */
  function RunMethod(m: Method, body: Run, matches: (Value, Run) -> bool): (r: Verdict)
    ensures m.Plain? ==> (r.Pass? <==> body.Returned?)
    ensures m.ExpectFailure? ==> (r.Pass? <==> RaisedException(body) && matches(m.reason, body))
  {
    match m
    case Plain => PlainVerdict(body)
    case ExpectFailure(reason) => ExpectFailureVerdict(reason, body, matches)
  }

  /** `add_decorator_for_expect_failed_func`: the reason stored under the
      test's key is looked up with `.get`, which needs a mapping; a truthy
      reason replaces that one method of the instance by its wrapped
      form. */
  function AddDecorator(methods: map<string, Method>, className: string, methodName: string, expectedFailures: Value)
    : (r: Result<map<string, Method>, Exc>)
    requires methodName in methods
    ensures r.Success? <==> expectedFailures.Dict?
    ensures r.Failure? ==> r.error.AttributeError?
    ensures r.Success? ==> r.value.Keys == methods.Keys
    ensures r.Success? ==> forall m :: m in methods && m != methodName ==> r.value[m] == methods[m]
    ensures r.Success? ==> (r.value[methodName] != methods[methodName] ==>
      var key := TestName(className, methodName);
      key in expectedFailures.entries && Truthy(expectedFailures.entries[key]) &&
      r.value[methodName] == ExpectFailure(expectedFailures.entries[key]))
  {
    match expectedFailures
    case Dict(entries) =>
      var key := TestName(className, methodName);
      if key in entries && Truthy(entries[key]) then
        Success(methods[methodName := ExpectFailure(entries[key])])
      else Success(methods)
    case _ => Failure(AttributeError("object has no attribute 'get'"))
  }

  /** A method is wrapped exactly when its key has a truthy reason; an
      empty reason leaves it alone. */
  lemma WrappedIffTruthyReason(methods: map<string, Method>, className: string, methodName: string,
                               entries: map<string, Value>)
    requires methodName in methods && methods[methodName].Plain?
    ensures var r := AddDecorator(methods, className, methodName, Dict(entries));
      var key := TestName(className, methodName);
      r.Success? && (r.value[methodName].ExpectFailure? <==> key in entries && Truthy(entries[key]))
  {
  }

  /** Who owns a test case: nobody (the bare base, which has no id), a
      resource or service handler, or a sandbox handler, each with the
      tests configuration the wrapper reads. */
  datatype Owner =
    | NoOwner
    | TargetOwner(targetName: string, targetTests: Configs.TestsConfig)
    | SandboxOwner(sandboxName: string, sandboxTests: Configs.TestsConfig)

  /** The expected failures an owner's constructor reads. */
  function ExpectedFailuresOf(owner: Owner): (r: Option<Value>)
    ensures owner.NoOwner? <==> r.None?
    ensures owner.TargetOwner? ==> r == Some(owner.targetTests.expectedFailures)
    ensures owner.SandboxOwner? ==> r == Some(owner.sandboxTests.expectedFailures)
  {
    match owner
    case NoOwner => None
    case TargetOwner(_, t) => Some(t.expectedFailures)
    case SandboxOwner(_, t) => Some(t.expectedFailures)
  }

  /** Building a test instance for `methodName`: the resource/service and
      sandbox bases add the decorator from their handler's configuration. */
  function Construct(owner: Owner, methods: map<string, Method>, className: string, methodName: string)
    : (r: Result<map<string, Method>, Exc>)
    requires methodName in methods
    ensures owner.NoOwner? ==> r == Success(methods)
    ensures !owner.NoOwner? ==> r == AddDecorator(methods, className, methodName, ExpectedFailuresOf(owner).value)
  {
    match ExpectedFailuresOf(owner)
    case None => Success(methods)
    case Some(failures) => AddDecorator(methods, className, methodName, failures)
  }

  /** `id()`: the base raises; the others append the owner's name to
      unittest's id. */
  function Id(owner: Owner, unittestId: string): (r: Result<string, Exc>)
    ensures r.Failure? <==> owner.NoOwner?
    ensures r.Failure? ==> r.error == NotImplementedError
    ensures r.Success? ==> var name := if owner.TargetOwner? then owner.targetName else owner.sandboxName;
      |r.value| == |unittestId| + 1 + |name| &&
      r.value[..|unittestId|] == unittestId && r.value[|unittestId|] == '-' && r.value[|unittestId| + 1..] == name
  {
    match owner
    case NoOwner => Failure(NotImplementedError)
    case TargetOwner(name, _) => Success(unittestId + "-" + name)
    case SandboxOwner(name, _) => Success(unittestId + "-" + name)
  }

  /** The same test on two targets with different names gets two ids. */
  lemma IdsTellTargetsApart(unittestId: string, a: Owner, b: Owner)
    requires !a.NoOwner? && !b.NoOwner?
    requires (if a.TargetOwner? then a.targetName else a.sandboxName) != (if b.TargetOwner? then b.targetName else b.sandboxName)
    ensures Id(a, unittestId) != Id(b, unittestId)
  {
  }

  /** `assertRaisesRegexp(CloudShellAPIError, pattern, call)`: the body
      passes when the call raises an API error whose text matches; a call
      that returns or raises a non-matching API error fails the assertion;
      any other exception escapes. */
  function AssertRaisesApiError<T>(call: Result<T, Exc>, matches: Exc -> bool): (r: Run)
    ensures r.Returned? <==> call.Failure? && call.error.CloudShellAPIError? && matches(call.error)
    ensures r.Raised? <==> call.Failure? && !call.error.CloudShellAPIError?
  {
    match call
    case Success(_) => AssertFailed("CloudShellAPIError not raised")
    case Failure(e) =>
      if !e.CloudShellAPIError? then Raised(e)
      else if matches(e) then Returned
      else AssertFailed("pattern not found")
  }
}

=== FILE: blueprint_handler.dfy ===
/** The blueprint context manager (`shell_tests/blueprint_handler.py`):
    the package path is downloaded when it is a URL, the package is
    imported on entry, and the download is deleted on exit.  `__enter__`
    runs under `call_exit_func_on_exc` and returns nothing. */
module BlueprintHandler {
  import opened Wrappers
  import opened Errors
  import opened Helpers
  import ShellHandler

  /** The handler after construction: its name, the path it imports, and
      the files it downloaded. */
  datatype Handler = Handler(name: string, path: Option<string>, downloaded: seq<string>)

  /** `BlueprintHandler.__init__`: the path goes through the same
      `download_if_url` as the shell's paths. */
  function NewHandler(folder: string, name: string, path: Option<string>): (h: Handler)
    ensures h.path == ShellHandler.Localised(folder, path)
    ensures |h.downloaded| <= 1
    ensures h.downloaded != [] <==> ShellHandler.Remote(path)
    ensures ShellHandler.Remote(path) ==> h.downloaded == [ShellHandler.DownloadTarget(folder, path.value)]
  {
    var (local, downloaded) := ShellHandler.DownloadIfUrl(folder, path, []);
    Handler(name, local, downloaded)
  }

  /** `__exit__`: delete every recorded download and suppress nothing. */
  function Exit(h: Handler): (r: (seq<string>, bool))
    ensures !r.1
    ensures forall f :: f in r.0 <==> f in h.downloaded
  {
    (h.downloaded, false)
  }

  /** Entering: the path handed to the import, the value `with ... as`
      binds, and the files deleted. */
  datatype Entered = Entered(imported: Option<string>, bound: Result<Option<Handler>, Exc>, deleted: seq<string>)

  /** `__enter__` wrapped by `call_exit_func_on_exc`: import the package at
      the handler's path; the method returns nothing, so a successful entry
      binds `None`.  An import that raises an `Exception` runs `__exit__`,
      which deletes the downloads and answers False, so the failure is
      raised again; a `KeyboardInterrupt` leaves without any clean-up. */
  function Enter(h: Handler, importOutcome: Option<Exc>): (r: Entered)
    ensures r.imported == h.path
    ensures r.bound.Success? <==> importOutcome.None?
    ensures r.bound.Success? ==> r.bound.value.None? && r.deleted == []
    ensures r.bound.Failure? ==> r.bound.error == importOutcome.value
    ensures r.bound.Failure? ==> r.deleted == (if IsException(importOutcome.value) then h.downloaded else [])
  {
    var entered: Result<Option<Handler>, Exc> := if importOutcome.None? then Success(None) else Failure(importOutcome.value);
    var (exitResult, exited) := Exit(h);
    var (wrapped, exitRan) := CallExitFuncOnExc(entered, exited);
    var bound := match wrapped
      case Success(v) => Success(if v.Some? then v.value else None)
      case Failure(e) => Failure(e);
    Entered(h.path, bound, if exitRan then exitResult else [])
  }

  /** Over a whole `with` block, a downloaded package is deleted exactly
      once: by `__exit__` after a successful entry, or by the entry's own
      clean-up after an import that raised an `Exception`.  An interrupted
      import deletes nothing, and the `with` statement does not call
      `__exit__` either. */
  lemma DownloadDeletedOnce(folder: string, name: string, url: string, importOutcome: Option<Exc>)
    requires url != "" && IsUrl(url)
    ensures var h := NewHandler(folder, name, Some(url));
      var entered := Enter(h, importOutcome);
      var deleted := entered.deleted + (if entered.bound.Success? then Exit(h).0 else []);
      deleted == (if importOutcome.Some? && !IsException(importOutcome.value) then []
                  else [ShellHandler.DownloadTarget(folder, url)])
  {
  }
}

=== FILE: catalog.dfy ===
/** The vocabulary shared by the test registries: how a target is classified
    and which unittest classes exist. */
module Catalog {

  /** The three kinds of target a resource handler reports. */
  datatype DeviceType = RealDevice | Simulator | WithoutDevice

  /** The `Enum` value of each device type in the third generation. */
  function DeviceTypeValue(d: DeviceType): string {
    match d
    case RealDevice => "Real device"
    case Simulator => "Simulator"
    case WithoutDevice => "Without device"
  }

  /** The unittest classes the registries select. */
  datatype TestClass =
    | TestAutoload
    | TestAutoloadNetworkDevices
    | TestAutoloadWithoutDevice
    | TestAutoloadTrafficGeneratorDevices
    | TestAutoloadVirtualTrafficGeneratorDevices
    | TestAutoloadWithoutPorts
    | TestConnectivity
    | TestRunCustomCommand
    | TestRunCustomCommandWithoutDevice
    | TestSaveConfig
    | TestSaveConfigWithoutDevice
    | TestRestoreConfig
    | TestRestoreConfigWithoutDevice
    | TestLoadConfig
    | TestLoadConfigWithoutDevice
    | TestStartTraffic
    | TestStartTrafficWithoutDevice
    | TestStopTraffic
    | TestStopTrafficWithoutDevice
    | TestGetStatistics
    | TestGetStatisticsWithoutDevice
    | TestGetTestFile
    | TestGetTestFileWithoutDevice
    | TestDriverInstalled

  /** One suite entry: a test class instantiated for one of its test methods. */
  datatype TestEntry = TestEntry(testClass: TestClass, testName: string)
}

=== FILE: commands.dfy ===
/** What the resource handlers of both generations send to CloudShell:
    the requests they issue, the argument map of each resource command,
    the device classification, and the autoload driver-rebind rule
    (`shell_tests/resource_handler.py`, `shell_tests/handlers/resource_handler.py`). */
module ResourceCommands {
  import opened Wrappers
  import opened Errors
  import opened Catalog
  import Dicts
  import CsHandler

  type Dict<V> = Dicts.Dict<V>

  // ---------------------------------------------------------------------
  // Device classification

  /** `device_type`: no device IP means no device; an IP with a truthy
      'User' attribute is a real device; any other IP is a simulator. */
  function Classify(deviceIp: Option<string>, attributes: Dict<string>): (r: DeviceType)
    ensures r == WithoutDevice <==> !Dicts.Truthy(deviceIp)
    ensures r == RealDevice <==> Dicts.Truthy(deviceIp) && Dicts.Truthy(Dicts.Get(attributes, "User"))
  {
    if !Dicts.Truthy(deviceIp) then WithoutDevice
    else if Dicts.Truthy(Dicts.Get(attributes, "User")) then RealDevice
    else Simulator
  }

  /** The address a resource is created with: the device IP, or the
      loopback address when there is no device. */
  function Address(deviceIp: Option<string>): (r: string)
    ensures Dicts.Truthy(deviceIp) ==> r == deviceIp.value
    ensures !Dicts.Truthy(deviceIp) ==> r == "127.0.0.1"
  {
    if Dicts.Truthy(deviceIp) then deviceIp.value else "127.0.0.1"
  }

  // ---------------------------------------------------------------------
  // Requests

  /** A value of a command argument: text, or a Python boolean. */
  datatype ArgValue = Str(s: string) | Flag(b: bool)

  /** The requests a handler issues, in order.  A create or rename is
      recorded once, under the name the API finally accepted. */
  datatype Request =
    | CreateResourceRequest(name: string, model: string, address: string)
    | RenameResourceRequest(current: string, newName: string)
    | SetAttributesRequest(resource: string, values: Dict<string>)
    | AutoloadRequest(resource: string)
    | UpdateDriverRequest(resource: string, driver: string)
    | GetDetailsRequest(resource: string)
    | ExecuteCommandRequest(target: string, command: string, args: Dict<ArgValue>)
    | DeleteResourceRequest(resource: string)

  /** `cs_handler.set_resource_attributes(name, namespace, attributes)`. */
  function SetAttributes(resource: string, namespace: string, attributes: Dict<string>): (r: Request)
    ensures r.SetAttributesRequest? && r.resource == resource
    ensures |r.values| == |attributes|
  {
    SetAttributesRequest(resource, CsHandler.SetResourceAttributes(namespace, attributes))
  }

  // ---------------------------------------------------------------------
  // Resource commands and their argument maps

  /** The commands a resource handler executes. */
  datatype ResourceCommand =
    | HealthCheck
    | RunCustomCommand(command: string)
    | RunCustomConfigCommand(command: string)
    | Save(folderPath: string, configurationType: string)
    | OrchestrationSave(mode: string, customParams: string)
    | Restore(path: string, configurationType: string, restoreMethod: string)
    | OrchestrationRestore(savedArtifactInfo: string, customParams: string)

  /** The driver command name each handler method executes. */
  function CommandName(c: ResourceCommand): string
  {
    match c
    case HealthCheck => "health_check"
    case RunCustomCommand(_) => "run_custom_command"
    case RunCustomConfigCommand(_) => "run_custom_config_command"
    case Save(_, _) => "save"
    case OrchestrationSave(_, _) => "orchestration_save"
    case Restore(_, _, _) => "restore"
    case OrchestrationRestore(_, _) => "orchestration_restore"
  }

  /** The keyword arguments each handler method sends. */
  function CommandArgs(c: ResourceCommand): (r: Dict<ArgValue>)
    ensures Dicts.Valid(r)
  {
    match c
    case HealthCheck => []
    case RunCustomCommand(command) => [("custom_command", Str(command))]
    case RunCustomConfigCommand(command) => [("custom_command", Str(command))]
    case Save(folderPath, configurationType) =>
      [("folder_path", Str(folderPath)), ("configuration_type", Str(configurationType))]
    case OrchestrationSave(mode, customParams) =>
      [("mode", Str(mode)), ("custom_params", Str(customParams))]
    case Restore(path, configurationType, restoreMethod) =>
      [("path", Str(path)), ("configuration_type", Str(configurationType)),
       ("restore_method", Str(restoreMethod))]
    case OrchestrationRestore(savedArtifactInfo, customParams) =>
      [("saved_artifact_info", Str(savedArtifactInfo)), ("custom_params", Str(customParams))]
  }

  /** `custom_params` defaults to the empty string in both orchestration
      commands. */
  function OrchestrationSaveCommand(mode: string, customParams: Option<string>): (r: ResourceCommand)
    ensures Dicts.Get(CommandArgs(r), "custom_params") == Some(Str(customParams.UnwrapOr("")))
    ensures Dicts.Get(CommandArgs(r), "mode") == Some(Str(mode))
  {
    OrchestrationSave(mode, customParams.UnwrapOr(""))
  }

  function OrchestrationRestoreCommand(savedArtifactInfo: string, customParams: Option<string>): (r: ResourceCommand)
    ensures Dicts.Get(CommandArgs(r), "custom_params") == Some(Str(customParams.UnwrapOr("")))
    ensures Dicts.Get(CommandArgs(r), "saved_artifact_info") == Some(Str(savedArtifactInfo))
  {
    OrchestrationRestore(savedArtifactInfo, customParams.UnwrapOr(""))
  }

  /** The text argument `key`, if sent. */
  function TextArg(args: Dict<ArgValue>, key: string): Option<string>
  {
    var v: Option<ArgValue> := Dicts.Get(args, key);
    if v.Some? && v.value.Str? then Some(v.value.s) else None
  }

  /** What a driver receiving `name` with `args` is asked to do. */
  function DecodeCommand(name: string, args: Dict<ArgValue>): Option<ResourceCommand>
  {
    if name == "health_check" then Some(HealthCheck)
    else if name == "run_custom_command" || name == "run_custom_config_command" then
      match TextArg(args, "custom_command")
      case None => None
      case Some(command) =>
        Some(if name == "run_custom_command" then RunCustomCommand(command) else RunCustomConfigCommand(command))
    else if name == "save" then
      match (TextArg(args, "folder_path"), TextArg(args, "configuration_type"))
      case (Some(p), Some(t)) => Some(Save(p, t))
      case _ => None
    else if name == "orchestration_save" then
      match (TextArg(args, "mode"), TextArg(args, "custom_params"))
      case (Some(m), Some(p)) => Some(OrchestrationSave(m, p))
      case _ => None
    else if name == "restore" then
      match (TextArg(args, "path"), TextArg(args, "configuration_type"), TextArg(args, "restore_method"))
      case (Some(p), Some(t), Some(m)) => Some(Restore(p, t, m))
      case _ => None
    else if name == "orchestration_restore" then
      match (TextArg(args, "saved_artifact_info"), TextArg(args, "custom_params"))
      case (Some(i), Some(p)) => Some(OrchestrationRestore(i, p))
      case _ => None
    else None
  }

  /** Every request carries all the arguments its command needs, under the
      names the driver reads. */
  lemma DecodeCommandArgs(c: ResourceCommand)
    ensures DecodeCommand(CommandName(c), CommandArgs(c)) == Some(c)
  {
    var args := CommandArgs(c);
    match c
    case HealthCheck =>
    case RunCustomCommand(command) =>
      assert TextArg(args, "custom_command") == Some(command);
    case RunCustomConfigCommand(command) =>
      assert TextArg(args, "custom_command") == Some(command);
    case Save(folderPath, configurationType) =>
      assert TextArg(args, "folder_path") == Some(folderPath);
      assert args[1..] == [("configuration_type", Str(configurationType))];
      assert Dicts.Get(args, "configuration_type") == Dicts.Get(args[1..], "configuration_type");
      assert TextArg(args, "configuration_type") == Some(configurationType);
    case OrchestrationSave(mode, customParams) =>
      assert TextArg(args, "mode") == Some(mode);
      assert args[1..] == [("custom_params", Str(customParams))];
      assert Dicts.Get(args, "custom_params") == Dicts.Get(args[1..], "custom_params");
      assert TextArg(args, "custom_params") == Some(customParams);
    case Restore(path, configurationType, restoreMethod) =>
      assert TextArg(args, "path") == Some(path);
      assert args[1..] == [("configuration_type", Str(configurationType)), ("restore_method", Str(restoreMethod))];
      assert args[1..][1..] == [("restore_method", Str(restoreMethod))];
      assert Dicts.Get(args, "configuration_type") == Dicts.Get(args[1..], "configuration_type");
      assert Dicts.Get(args, "restore_method") == Dicts.Get(args[1..], "restore_method");
      assert Dicts.Get(args[1..], "restore_method") == Dicts.Get(args[1..][1..], "restore_method");
      assert TextArg(args, "configuration_type") == Some(configurationType);
      assert TextArg(args, "restore_method") == Some(restoreMethod);
    case OrchestrationRestore(savedArtifactInfo, customParams) =>
      assert TextArg(args, "saved_artifact_info") == Some(savedArtifactInfo);
      assert args[1..] == [("custom_params", Str(customParams))];
      assert Dicts.Get(args, "custom_params") == Dicts.Get(args[1..], "custom_params");
      assert TextArg(args, "custom_params") == Some(customParams);
  }

  /** The execute request for a command on a target. */
  function Execute(target: string, c: ResourceCommand): (r: Request)
    ensures r.ExecuteCommandRequest? && r.target == target
    ensures DecodeCommand(r.command, r.args) == Some(c)
  {
    DecodeCommandArgs(c);
    ExecuteCommandRequest(target, CommandName(c), CommandArgs(c))
  }

  // ---------------------------------------------------------------------
  // Autoload with driver rebind

  /** The autoload errors after which the driver is re-bound and autoload
      tried once more: code 129 or the message 'no driver associated'. */
  predicate RebindsDriver(a: CsHandler.ApiAnswer) {
    a.ApiError? && (a.code == "129" || a.message == "no driver associated")
  }

  /** The autoload calls: the first attempt, then on a rebind error the
      driver update and a second attempt.  The answers of the two autoload
      calls are inputs. */
  function AutoloadCalls(resource: string, model: string, first: CsHandler.ApiAnswer, second: CsHandler.ApiAnswer)
    : (r: (Result<(), Exc>, seq<Request>))
    ensures r.0.Success? <==> first.Ok? || (RebindsDriver(first) && second.Ok?)
    ensures UpdateDriverRequest(resource, model) in r.1 <==> RebindsDriver(first)
    ensures |r.1| >= 1 && r.1[0] == AutoloadRequest(resource)
    ensures !first.Ok? && !RebindsDriver(first) ==> r.0 == Failure(CloudShellAPIError(first.code, first.message))
  {
    match first
    case Ok => (Success(()), [AutoloadRequest(resource)])
    case ApiError(code, message) =>
      if code != "129" && message != "no driver associated" then
        (Failure(CloudShellAPIError(code, message)), [AutoloadRequest(resource)])
      else
        var calls := [AutoloadRequest(resource), UpdateDriverRequest(resource, model), AutoloadRequest(resource)];
        match second
        case Ok => (Success(()), calls)
        case ApiError(code2, message2) => (Failure(CloudShellAPIError(code2, message2)), calls)
  }

  /** The second attempt's error propagates as it came; there is no third
      attempt. */
  lemma AutoloadRetriesOnce(resource: string, model: string, first: CsHandler.ApiAnswer, second: CsHandler.ApiAnswer)
    requires RebindsDriver(first) && second.ApiError?
    ensures AutoloadCalls(resource, model, first, second).0 == Failure(CloudShellAPIError(second.code, second.message))
    ensures |AutoloadCalls(resource, model, first, second).1| == 3
  {
  }
}

=== FILE: config_tests.dfy ===
/** The save and restore configuration tests
    (`shell_tests/automation_tests/test_save_config.py`,
    `shell_tests/automation_tests/test_restore_config.py`): the FTP URL
    handed to the device, the host the FTP client connects to, and each
    test's verdict and clean-up.  The FTP host, user and password are taken
    as the text `format` prints for them. */
module ConfigTests {
  import opened Wrappers
  import opened Errors
  import opened Text
  import opened ResourceCommands
  import opened AutomationBase

  const SchemeSep: string := "://"

  /** The `user:password@` part of the URL. */
  function Credentials(user: string, password: string): string
  {
    user + ":" + password + "@"
  }

  /** `ftp_path`: when the host splits on '://' into exactly two pieces,
      the credentials go right after the scheme; otherwise (no '://', or
      more than one) the scheme is 'ftp' and the whole host follows. */
  function FtpPath(host: string, user: string, password: string): (r: string)
    ensures !Contains(host, SchemeSep) ==> r == "ftp://" + Credentials(user, password) + host
    ensures |Split(host, SchemeSep)| > 2 ==> r == "ftp://" + Credentials(user, password) + host
    ensures |Split(host, SchemeSep)| == 2 ==> exists i :: (
      0 <= i && i + 3 <= |host| && OccursAt(host, SchemeSep, i) &&
      r == host[..i + 3] + Credentials(user, password) + host[i + 3..])
  {
    var parts := Split(host, SchemeSep);
    if |parts| == 2 then
      var i := |parts[0]|;
      assert host == parts[0] + SchemeSep + parts[1] by {
        assert parts == [parts[0]] + [parts[1]];
        JoinCons(parts[0], [parts[1]], SchemeSep);
      }
      assert host[..i + 3] == parts[0] + SchemeSep && host[i + 3..] == parts[1];
      assert OccursAt(host, SchemeSep, i);
      parts[0] + SchemeSep + user + ":" + password + "@" + parts[1]
    else "ftp://" + user + ":" + password + "@" + host
  }

  /** The FTP client's host: the text after the first '://', or the whole
      host. */
  function FtpHost(host: string): (r: string)
    ensures !Contains(host, SchemeSep) ==> r == host
    ensures Contains(host, SchemeSep) ==> exists i :: (
      OccursAt(host, SchemeSep, i) && r == host[i + 3..] && !Contains(host[..i], SchemeSep))
  {
    var parts := SplitOnce(host, SchemeSep);
    if |parts| == 2 then
      var i := |parts[0]|;
      assert host == parts[0] + SchemeSep + parts[1] by {
        assert parts == [parts[0]] + [parts[1]];
        JoinCons(parts[0], [parts[1]], SchemeSep);
      }
      assert host[..i] == parts[0] && host[i + 3..] == parts[1];
      assert OccursAt(host, SchemeSep, i);
      parts[1]
    else parts[0]
  }

  /** A host with one '://' splits into the same two pieces either way. */
  lemma SplitInTwo(host: string)
    requires |Split(host, SchemeSep)| == 2
    ensures SplitOnce(host, SchemeSep) == Split(host, SchemeSep)
  {
    var i := Find(host, SchemeSep).value;
    var rest := host[i + 3..];
    assert Split(host, SchemeSep) == [host[..i]] + Split(rest, SchemeSep);
    assert Find(rest, SchemeSep).None? by {
      assert |Split(rest, SchemeSep)| == 1;
    }
    assert Split(rest, SchemeSep) == [rest];
  }

  /** With one '://' the URL and the FTP client name the same host. */
  lemma SingleSchemeAgrees(host: string, user: string, password: string)
    requires |Split(host, SchemeSep)| == 2
    ensures var r := FtpPath(host, user, password);
      r == Split(host, SchemeSep)[0] + SchemeSep + Credentials(user, password) + FtpHost(host)
  {
    SplitInTwo(host);
    var parts := Split(host, SchemeSep);
    assert FtpHost(host) == parts[1];
    assert FtpPath(host, user, password) == parts[0] + SchemeSep + user + ":" + password + "@" + parts[1];
  }

  /** The first '://' of "a://b://c" is at index 1, and the first of
      "b://c" too. */
  lemma DoubleSchemeFinds()
    ensures Find("a://b://c", SchemeSep) == Some(1) && Find("b://c", SchemeSep) == Some(1)
    ensures "a://b://c"[..1] == "a" && "a://b://c"[4..] == "b://c" && "b://c"[..1] == "b" && "b://c"[4..] == "c"
  {
    var h := "a://b://c";
    assert h[1..4] == SchemeSep;
    assert h[0..3] != SchemeSep by { assert h[0..3][0] == 'a'; }
    var rest := "b://c";
    assert rest[1..4] == SchemeSep;
    assert rest[0..3] != SchemeSep by { assert rest[0..3][0] == 'b'; }
  }

  /** With two '://' they disagree: the client connects to the text after
      the first one, while the URL keeps the whole host behind a second
      'ftp://'. */
  lemma DoubleSchemeDisagrees()
    ensures FtpHost("a://b://c") == "b://c"
    ensures FtpPath("a://b://c", "u", "p") == "ftp://u:p@a://b://c"
  {
    DoubleSchemeFinds();
    assert SplitOnce("a://b://c", SchemeSep) == ["a", "b://c"];
    assert |Split("a://b://c", SchemeSep)| == 3 by {
      assert Split("a://b://c", SchemeSep) == ["a"] + Split("b://c", SchemeSep);
      assert Split("b://c", SchemeSep) == ["b"] + Split("c", SchemeSep);
    }
  }

  // ---------------------------------------------------------------------
  // Save

  /** What a save test leaves behind: its body's end and the file it
      deleted from the FTP server. */
  datatype SaveRun = SaveRun(body: Run, deleted: Option<string>)

  /** The command the save test sends. */
  function SaveCommand(host: string, user: string, password: string, configurationType: string): (r: ResourceCommand)
    ensures r.Save? && r.configurationType == configurationType
    ensures r.folderPath == FtpPath(host, user, password)
  {
    Save(FtpPath(host, user, password), configurationType)
  }

  /** `test_save_running_config` / `test_save_startup_config`: `save`
      answers a file name, the FTP client reads that file back, and the
      file is deleted only after the content proved non-empty. */
  function SaveTest(save: Result<string, Exc>, read: Result<string, Exc>): (r: SaveRun)
    ensures r.body.Returned? <==> save.Success? && read.Success? && read.value != ""
    ensures r.deleted.Some? <==> r.body.Returned?
    ensures r.deleted.Some? ==> r.deleted == Some(save.value)
    ensures save.Failure? ==> r.body == Raised(save.error)
  {
    match save
    case Failure(e) => SaveRun(Raised(e), None)
    case Success(fileName) =>
      match read
      case Failure(e) => SaveRun(Raised(e), None)
      case Success(content) =>
        if content == "" then SaveRun(AssertFailed("file is empty"), None)
        else SaveRun(Returned, Some(fileName))
  }

  /** `test_orchestration_save_shallow` / `_deep`: the output must be
      truthy. */
  function OrchestrationSaveTest(output: Result<string, Exc>): (r: Run)
    ensures r.Returned? <==> output.Success? && output.value != ""
  {
    match output
    case Failure(e) => Raised(e)
    case Success(o) => if o == "" then AssertFailed("output is empty") else Returned
  }

  // ---------------------------------------------------------------------
  // Restore

  /** The command a restore test sends after saving `fileName`. */
  function RestoreCommand(host: string, user: string, password: string, fileName: string,
                          configurationType: string, restoreMethod: string): (r: ResourceCommand)
    ensures r.Restore? && r.configurationType == configurationType && r.restoreMethod == restoreMethod
    ensures r.path == FtpPath(host, user, password) + "/" + fileName
  {
    Restore(FtpPath(host, user, password) + "/" + fileName, configurationType, restoreMethod)
  }

  /** A restore test: the two commands sent, its body's end, and the file
      deleted. */
  datatype RestoreRun = RestoreRun(sent: seq<ResourceCommand>, body: Run, deleted: Option<string>)

  /** `test_restore_<type>_config_<method>`: save with the test's
      configuration type, restore the saved file with the same type, and
      delete the file in `finally` whatever the restore did. */
  function RestoreTest(host: string, user: string, password: string, configurationType: string,
                       restoreMethod: string, save: Result<string, Exc>, restore: Result<(), Exc>): (r: RestoreRun)
    ensures r.body.Returned? <==> save.Success? && restore.Success?
    ensures r.deleted.Some? <==> save.Success?
    ensures save.Success? ==> (
      r.deleted == Some(save.value) && |r.sent| == 2 &&
      r.sent[0].Save? && r.sent[1].Restore? &&
      r.sent[1].configurationType == r.sent[0].configurationType == configurationType &&
      r.sent[1].path == r.sent[0].folderPath + "/" + save.value)
    ensures save.Failure? ==> r.sent == [SaveCommand(host, user, password, configurationType)]
  {
    var saved := SaveCommand(host, user, password, configurationType);
    match save
    case Failure(e) => RestoreRun([saved], Raised(e), None)
    case Success(fileName) =>
      var restored := RestoreCommand(host, user, password, fileName, configurationType, restoreMethod);
      RestoreRun([saved, restored], if restore.Success? then Returned else Raised(restore.error), Some(fileName))
  }

  /** The four restore tests cover both types with both methods. */
  const RestoreCases: seq<(string, string)> :=
    [("running", "append"), ("startup", "append"), ("running", "override"), ("startup", "override")]

  lemma RestoreCasesCover()
    ensures forall t, m :: t in {"running", "startup"} && m in {"append", "override"} ==> (t, m) in RestoreCases
  {
  }

  /** The without-device restore path: no save, a fixed URL. */
  const NoDevicePath: string := "ftp://localhost/test_conf"

  /** The without-device restore variants. */
  function RestoreWithoutDeviceTest(configurationType: string, restoreMethod: string, restore: Result<(), Exc>,
                                    matches: Exc -> bool): (r: RestoreRun)
    ensures r.sent == [Restore(NoDevicePath, configurationType, restoreMethod)] && r.deleted.None?
    ensures r.body.Returned? <==> restore.Failure? && restore.error.CloudShellAPIError? && matches(restore.error)
  {
    RestoreRun([Restore(NoDevicePath, configurationType, restoreMethod)], AssertRaisesApiError(restore, matches), None)
  }
}

=== FILE: configs.dfy ===
/** The configuration objects of the second generation
    (`shell_tests/configs.py`): each section of the merged YAML document
    becomes a record, with the documented defaults; missing required keys
    raise `KeyError`.  A section is given as the mapping YAML produced; a
    missing, `null` or empty section gives no record. */
module Configs {
  import opened Wrappers
  import opened Errors
  import opened Sequences
  import Dicts
  import opened Helpers

  type Section = map<string, Value>

  /** `config[key]`. */
  function Required(config: Section, key: string): (r: Result<Value, Exc>)
    ensures r.Success? <==> key in config
    ensures r.Success? ==> r.value == config[key]
    ensures r.Failure? ==> r.error == KeyError(key)
  {
    if key in config then Success(config[key]) else Failure(KeyError(key))
  }

  /** `config.get(key)`. */
  function Optional(config: Section, key: string): (r: Option<Value>)
    ensures r.Some? <==> key in config
  {
    if key in config then Some(config[key]) else None
  }

  /** `config.get(key, default)`. */
  function OrDefault(config: Section, key: string, default: Value): (r: Value)
    ensures key in config ==> r == config[key]
    ensures key !in config ==> r == default
  {
    if key in config then config[key] else default
  }

  /** `if config:` on a section: present and non-empty. */
  predicate Given(config: Option<Section>) {
    config.Some? && config.value != map[]
  }

  // ---------------------------------------------------------------------
  // CloudShell and DO

  const DefaultDomain := Scalar("Global")
  const DefaultCsVersion := Scalar("CloudShell 8.3 GA - IL")

  datatype CloudShellConfig = CloudShellConfig(
    host: Value, user: Value, password: Value,
    osUser: Option<Value>, osPassword: Option<Value>, domain: Value)

  /** The constructor: a `None` domain becomes 'Global'. */
  function NewCloudShellConfig(host: Value, user: Value, password: Value,
                               osUser: Option<Value>, osPassword: Option<Value>, domain: Option<Value>): (c: CloudShellConfig)
    ensures c.domain == domain.UnwrapOr(DefaultDomain)
    ensures c.host == host && c.user == user && c.password == password
    ensures c.osUser == osUser && c.osPassword == osPassword
  {
    CloudShellConfig(host, user, password, osUser, osPassword, domain.UnwrapOr(DefaultDomain))
  }

  /** `CloudShellConfig.from_dict`: Host, User and Password are required,
      read in that order; the OS credentials are optional. */
  function CloudShellFromDict(config: Option<Section>): (r: Result<Option<CloudShellConfig>, Exc>)
    ensures !Given(config) ==> r == Success(None)
    ensures Given(config) ==> (r.Success? <==> "Host" in config.value && "User" in config.value && "Password" in config.value)
    ensures Given(config) && "Host" !in config.value ==> r == Failure(KeyError("Host"))
    ensures r.Success? && r.value.Some? ==>
      var c := r.value.value;
      c.host == config.value["Host"] && c.user == config.value["User"] && c.password == config.value["Password"] &&
      c.osUser == Optional(config.value, "OS User") && c.osPassword == Optional(config.value, "OS Password") &&
      c.domain == OrDefault(config.value, "Domain", DefaultDomain)
  {
    if !Given(config) then Success(None)
    else
      var m := config.value;
      match (Required(m, "Host"), Required(m, "User"), Required(m, "Password"))
      case (Failure(e), _, _) => Failure(e)
      case (_, Failure(e), _) => Failure(e)
      case (_, _, Failure(e)) => Failure(e)
      case (Success(host), Success(user), Success(password)) =>
        Success(Some(NewCloudShellConfig(host, user, password, Optional(m, "OS User"), Optional(m, "OS Password"),
                                         Some(OrDefault(m, "Domain", DefaultDomain)))))
  }

  datatype DoConfig = DoConfig(cs: CloudShellConfig, csVersion: Value, deleteCs: bool, csSpecificVersion: Option<Value>)

  /** `DoConfig.from_dict`: the CloudShell fields, the version (defaulting
      to 'CloudShell 8.3 GA - IL'), the delete flag and the specific
      version. */
  function DoFromDict(config: Option<Section>): (r: Result<Option<DoConfig>, Exc>)
    ensures r.Success? <==> CloudShellFromDict(config).Success?
    ensures r.Success? ==> (r.value.Some? <==> Given(config))
    ensures r.Success? && r.value.Some? ==>
      var d := r.value.value;
      Some(d.cs) == CloudShellFromDict(config).value &&
      d.csVersion == OrDefault(config.value, "CS Version", DefaultCsVersion) &&
      d.csSpecificVersion == Optional(config.value, "CS Specific Version")
  {
    match CloudShellFromDict(config)
    case Failure(e) => Failure(e)
    case Success(None) => Success(None)
    case Success(Some(cs)) =>
      var m := config.value;
      Success(Some(DoConfig(cs, OrDefault(m, "CS Version", DefaultCsVersion),
                            OrDefault(m, "Delete CS", Scalar("True")) == Scalar("True"),
                            Optional(m, "CS Specific Version"))))
  }

  /** The CloudShell is deleted when the key is missing or holds the text
      'True'; any other value keeps it, including a YAML boolean `True`,
      which loads as a boolean and not as that text. */
  lemma DeleteCsFlag(config: Section)
    requires "Host" in config && "User" in config && "Password" in config
    ensures DoFromDict(Some(config)).value.value.deleteCs <==>
      "Delete CS" !in config || config["Delete CS"] == Scalar("True")
    ensures "Delete CS" in config && config["Delete CS"] == Boolean(true) ==> !DoFromDict(Some(config)).value.value.deleteCs
  {
    assert config != map[] by { assert "Host" in config; }
  }

  // ---------------------------------------------------------------------
  // Tests, resources, FTP, shells, sandboxes

  datatype TestsConfig = TestsConfig(expectedFailures: Value, runTests: Value)

  /** `TestsConfig.from_dict`: the expected failures are required and 'Run
      Tests' defaults to true. */
  function TestsFromDict(config: Option<Section>): (r: Result<Option<TestsConfig>, Exc>)
    ensures !Given(config) ==> r == Success(None)
    ensures Given(config) ==> (r.Success? <==> "Expected failures" in config.value)
    ensures r.Success? && r.value.Some? ==>
      r.value.value.expectedFailures == config.value["Expected failures"] &&
      r.value.value.runTests == OrDefault(config.value, "Run Tests", Boolean(true))
  {
    if !Given(config) then Success(None)
    else match Required(config.value, "Expected failures")
      case Failure(e) => Failure(e)
      case Success(ef) => Success(Some(TestsConfig(ef, OrDefault(config.value, "Run Tests", Boolean(true)))))
  }

  /** `TestsConfig.to_dict`. */
  function TestsToDict(t: TestsConfig): (m: Section)
    ensures m.Keys == {"Expected failures", "Run Tests"}
  {
    map["Expected failures" := t.expectedFailures, "Run Tests" := t.runTests]
  }

  /** Reading back what `to_dict` wrote reproduces the configuration. */
  lemma TestsRoundTrip(t: TestsConfig)
    ensures TestsFromDict(Some(TestsToDict(t))) == Success(Some(t))
  {
    assert "Expected failures" in TestsToDict(t);
  }

  /** `TestsConfig.__add__`: `issubclass` is given an instance, not a
      class, so adding two configurations always raises before merging. */
  function AddTests(a: TestsConfig, b: TestsConfig): (r: Result<TestsConfig, Exc>)
    ensures r.Failure? && r.error.TypeError?
  {
    Failure(TypeError("issubclass() arg 1 must be a class"))
  }

  datatype ResourceConfig = ResourceConfig(
    name: Value, shellName: Value, deviceIp: Option<Value>, attributes: Option<Value>, testsConf: Option<TestsConfig>)

  /** The 'Tests' sub-section as a section, when it is a mapping. */
  function SubSection(config: Section, key: string): Option<Section>
  {
    if key in config && config[key].Dict? then Some(config[key].entries) else None
  }

  /** `ResourceConfig.from_dict`: the tests sub-section is read first, then
      Name and Shell Name are required. */
  function ResourceFromDict(config: Option<Section>): (r: Result<Option<ResourceConfig>, Exc>)
    ensures !Given(config) ==> r == Success(None)
    ensures Given(config) ==> (r.Success? <==>
      TestsFromDict(SubSection(config.value, "Tests")).Success? && "Name" in config.value && "Shell Name" in config.value)
    ensures r.Success? && r.value.Some? ==>
      var c := r.value.value;
      c.name == config.value["Name"] && c.shellName == config.value["Shell Name"] &&
      c.deviceIp == Optional(config.value, "Device IP") && c.attributes == Optional(config.value, "Attributes") &&
      c.testsConf == TestsFromDict(SubSection(config.value, "Tests")).value
  {
    if !Given(config) then Success(None)
    else
      var m := config.value;
      match (TestsFromDict(SubSection(m, "Tests")), Required(m, "Name"), Required(m, "Shell Name"))
      case (Failure(e), _, _) => Failure(e)
      case (_, Failure(e), _) => Failure(e)
      case (_, _, Failure(e)) => Failure(e)
      case (Success(tests), Success(name), Success(shell)) =>
        Success(Some(ResourceConfig(name, shell, Optional(m, "Device IP"), Optional(m, "Attributes"), tests)))
  }

  datatype FtpConfig = FtpConfig(host: Value, user: Option<Value>, password: Option<Value>)

  /** `FTPConfig.from_dict`: only Host is required. */
  function FtpFromDict(config: Option<Section>): (r: Result<Option<FtpConfig>, Exc>)
    ensures !Given(config) ==> r == Success(None)
    ensures Given(config) ==> (r.Success? <==> "Host" in config.value)
    ensures r.Success? && r.value.Some? ==>
      r.value.value == FtpConfig(config.value["Host"], Optional(config.value, "User"), Optional(config.value, "Password"))
  {
    if !Given(config) then Success(None)
    else match Required(config.value, "Host")
      case Failure(e) => Failure(e)
      case Success(host) => Success(Some(FtpConfig(host, Optional(config.value, "User"), Optional(config.value, "Password"))))
  }

  datatype ShellConfig = ShellConfig(
    name: Value, path: Value, dependenciesPath: Option<Value>, extraStandards: Value, testsConf: Option<TestsConfig>)

  /** `ShellConfig.from_dict`: Name and Path are required, 'Extra CS
      Standards' defaults to an empty list. */
  function ShellFromDict(config: Option<Section>): (r: Result<Option<ShellConfig>, Exc>)
    ensures !Given(config) ==> r == Success(None)
    ensures Given(config) ==> (r.Success? <==>
      TestsFromDict(SubSection(config.value, "Tests")).Success? && "Name" in config.value && "Path" in config.value)
    ensures r.Success? && r.value.Some? ==>
      var c := r.value.value;
      c.name == config.value["Name"] && c.path == config.value["Path"] &&
      c.dependenciesPath == Optional(config.value, "Dependencies Path") &&
      c.extraStandards == OrDefault(config.value, "Extra CS Standards", List([]))
  {
    if !Given(config) then Success(None)
    else
      var m := config.value;
      match (TestsFromDict(SubSection(m, "Tests")), Required(m, "Name"), Required(m, "Path"))
      case (Failure(e), _, _) => Failure(e)
      case (_, Failure(e), _) => Failure(e)
      case (_, _, Failure(e)) => Failure(e)
      case (Success(tests), Success(name), Success(path)) =>
        Success(Some(ShellConfig(name, path, Optional(m, "Dependencies Path"),
                                 OrDefault(m, "Extra CS Standards", List([])), tests)))
  }

  datatype SandboxConfig = SandboxConfig(name: Value, resourceNames: Value)

  /** `SandboxConfig.from_dict`: Name and Resources are required. */
  function SandboxFromDict(config: Option<Section>): (r: Result<Option<SandboxConfig>, Exc>)
    ensures !Given(config) ==> r == Success(None)
    ensures Given(config) ==> (r.Success? <==> "Name" in config.value && "Resources" in config.value)
    ensures r.Success? && r.value.Some? ==>
      r.value.value == SandboxConfig(config.value["Name"], config.value["Resources"])
  {
    if !Given(config) then Success(None)
    else match (Required(config.value, "Name"), Required(config.value, "Resources"))
      case (Failure(e), _) => Failure(e)
      case (_, Failure(e)) => Failure(e)
      case (Success(name), Success(resources)) => Success(Some(SandboxConfig(name, resources)))
  }

  // ---------------------------------------------------------------------
  // Keying sections by name

  /** The key of one list item: its 'Name'.  An item that is not a mapping,
      or has no name, stops the parse, and so does a list or mapping as the
      name, which Python cannot hash.  Keys here are text, so a YAML boolean
      name, which Python would key by `True` or `False`, is refused too. */
  function NameOf(item: Value): (r: Result<string, Exc>)
    ensures r.Success? <==> item.Dict? && "Name" in item.entries && item.entries["Name"].Scalar?
    ensures r.Success? ==> item.entries["Name"] == Scalar(r.value)
    ensures item.Dict? && "Name" !in item.entries ==> r == Failure(KeyError("Name"))
    ensures item.Dict? && "Name" in item.entries && (item.entries["Name"].List? || item.entries["Name"].Dict?) ==>
      r.Failure? && r.error.TypeError?
  {
    match item
    case Dict(m) =>
      if "Name" !in m then Failure(KeyError("Name"))
      else (
        match m["Name"]
        case Scalar(name) => Success(name)
        case Boolean(_) => Failure(Other("a boolean name is not modelled"))
        case List(_) => Failure(TypeError("unhashable type: 'list'"))
        case Dict(_) => Failure(TypeError("unhashable type: 'dict'")))
    case _ => Failure(TypeError("list indices must be integers"))
  }

  /** The record an item builds, when it builds one. */
  function Build<T>(item: Value, fromDict: Option<Section> -> Result<Option<T>, Exc>): Result<Option<T>, Exc>
  {
    if item.Dict? then fromDict(Some(item.entries)) else Failure(TypeError("not a mapping"))
  }

  /** One more item: its name, then its record, stored under the name. */
  function AddItem<T>(acc: Result<Dicts.Dict<Option<T>>, Exc>, item: Value,
                      fromDict: Option<Section> -> Result<Option<T>, Exc>): (r: Result<Dicts.Dict<Option<T>>, Exc>)
    ensures r.Success? <==> acc.Success? && NameOf(item).Success? && Build(item, fromDict).Success?
    ensures r.Success? ==> r.value == Dicts.Put(acc.value, NameOf(item).value, Build(item, fromDict).value)
    ensures acc.Success? && Dicts.Valid(acc.value) && r.Success? ==> Dicts.Valid(r.value)
  {
    match acc
    case Failure(e) => Failure(e)
    case Success(d) =>
      match NameOf(item)
      case Failure(e) => Failure(e)
      case Success(name) =>
        match Build(item, fromDict)
        case Failure(e) => Failure(e)
        case Success(v) =>
          var r := Dicts.Put(d, name, v);
          assert Dicts.Valid(d) ==> Dicts.Valid(r) by {
            if Dicts.Valid(d) { Dicts.PutValid(d, name, v); }
          }
          Success(r)
  }

  /** `OrderedDict((item['Name'], from_dict(item)) for item in items)`:
      items are read in order, the name before the record; a later item
      with a taken name replaces the value in the earlier item's place. */
  function Keyed<T>(items: seq<Value>, fromDict: Option<Section> -> Result<Option<T>, Exc>)
    : (r: Result<Dicts.Dict<Option<T>>, Exc>)
    ensures r.Success? ==> Dicts.Valid(r.value)
    ensures r.Success? <==> forall i :: 0 <= i < |items| ==> NameOf(items[i]).Success? && Build(items[i], fromDict).Success?
  {
    if |items| == 0 then Success([])
    else
      var p := items[..|items| - 1];
      assert forall i :: 0 <= i < |p| ==> p[i] == items[i];
      AddItem(Keyed(p, fromDict), items[|items| - 1], fromDict)
  }

  function NameList(items: seq<Value>): (r: seq<string>)
    requires forall i :: 0 <= i < |items| ==> NameOf(items[i]).Success?
    ensures |r| == |items| && forall i :: 0 <= i < |items| ==> r[i] == NameOf(items[i]).value
  {
    seq(|items|, i requires 0 <= i < |items| => NameOf(items[i]).value)
  }

  /** The keys come in the order of each name's first appearance. */
  lemma {:induction false} KeyedOrder<T>(items: seq<Value>, fromDict: Option<Section> -> Result<Option<T>, Exc>)
    requires Keyed(items, fromDict).Success?
    ensures Dicts.Keys(Keyed(items, fromDict).value) == Dedupe(NameList(items))
    decreases |items|
  {
    if |items| > 0 {
      var n := |items| - 1;
      var p := items[..n];
      KeyedOrder(p, fromDict);
      NameListSnoc(items);
      assert Keyed(items, fromDict) == AddItem(Keyed(p, fromDict), items[n], fromDict);
      KeysStep(Keyed(p, fromDict).value, NameOf(items[n]).value, Build(items[n], fromDict).value, NameList(p));
    }
  }

  /** The names of all items are those of all but the last, then the
      last one's. */
  lemma NameListSnoc(items: seq<Value>)
    requires |items| > 0 && forall i :: 0 <= i < |items| ==> NameOf(items[i]).Success?
    ensures var n := |items| - 1;
      NameList(items) == NameList(items[..n]) + [NameOf(items[n]).value]
  {
    var n := |items| - 1;
    assert forall i :: 0 <= i < n ==> items[..n][i] == items[i];
  }

  /** Keys in first-appearance order stay so when one more name is
      stored. */
  lemma KeysStep<V>(d: Dicts.Dict<V>, name: string, v: V, names: seq<string>)
    requires Dicts.Keys(d) == Dedupe(names)
    ensures Dicts.Keys(Dicts.Put(d, name, v)) == Dedupe(names + [name])
  {
    Dicts.PutKeys(d, name, v);
    DedupeSnoc(names, name);
  }

  /** A name reads the record of the last item that carries it. */
  lemma {:induction false} KeyedLastWins<T>(items: seq<Value>, fromDict: Option<Section> -> Result<Option<T>, Exc>, i: nat)
    requires Keyed(items, fromDict).Success?
    requires i < |items|
    requires forall j :: i < j < |items| ==> NameOf(items[j]).value != NameOf(items[i]).value
    ensures Dicts.Get(Keyed(items, fromDict).value, NameOf(items[i]).value) == Some(Build(items[i], fromDict).value)
    decreases |items|
  {
    var n := |items| - 1;
    var p := items[..n];
    KeyedSnoc(items, fromDict);
    if i < n {
      LastInPrefix(items, fromDict, i);
      KeyedLastWins(p, fromDict, i);
    }
    Dicts.GetPut(Keyed(p, fromDict).value, NameOf(items[n]).value, Build(items[n], fromDict).value, NameOf(items[i]).value);
  }

  /** One more item stores its record under its name in the dictionary of
      the items before it. */
  lemma KeyedSnoc<T>(items: seq<Value>, fromDict: Option<Section> -> Result<Option<T>, Exc>)
    requires |items| > 0 && Keyed(items, fromDict).Success?
    ensures var n := |items| - 1;
      Keyed(items[..n], fromDict).Success? && NameOf(items[n]).Success? && Build(items[n], fromDict).Success? &&
      Keyed(items, fromDict).value ==
        Dicts.Put(Keyed(items[..n], fromDict).value, NameOf(items[n]).value, Build(items[n], fromDict).value)
  {
    var n := |items| - 1;
    assert Keyed(items, fromDict) == AddItem(Keyed(items[..n], fromDict), items[n], fromDict);
  }

  /** An item whose name no later item repeats keeps that property among
      the items before the last. */
  lemma LastInPrefix<T>(items: seq<Value>, fromDict: Option<Section> -> Result<Option<T>, Exc>, i: nat)
    requires Keyed(items, fromDict).Success?
    requires i < |items| - 1
    requires forall j :: i < j < |items| ==> NameOf(items[j]).value != NameOf(items[i]).value
    ensures var p := items[..|items| - 1];
      Keyed(p, fromDict).Success? && p[i] == items[i] &&
      NameOf(items[|items| - 1]).value != NameOf(items[i]).value &&
      forall j :: i < j < |p| ==> NameOf(p[j]).value != NameOf(p[i]).value
  {
    var p := items[..|items| - 1];
    KeyedSnoc(items, fromDict);
    assert forall j :: i < j < |p| ==> p[j] == items[j];
  }

  /** A name no item carries is absent. */
  lemma {:induction false} KeyedAbsent<T>(items: seq<Value>, fromDict: Option<Section> -> Result<Option<T>, Exc>, k: string)
    requires Keyed(items, fromDict).Success?
    requires forall i :: 0 <= i < |items| ==> NameOf(items[i]).value != k
    ensures Dicts.Get(Keyed(items, fromDict).value, k) == None
    decreases |items|
  {
    if |items| > 0 {
      var n := |items| - 1;
      var p := items[..n];
      assert Keyed(items, fromDict) == AddItem(Keyed(p, fromDict), items[n], fromDict);
      Dicts.GetPut(Keyed(p, fromDict).value, NameOf(items[n]).value, Build(items[n], fromDict).value, k);
      assert forall i :: 0 <= i < |p| ==> p[i] == items[i];
      KeyedAbsent(p, fromDict, k);
    }
  }

  // ---------------------------------------------------------------------
  // The main configuration

  datatype MainConfig = MainConfig(
    doConf: Option<DoConfig>, csConf: Option<CloudShellConfig>,
    shells: Dicts.Dict<Option<ShellConfig>>, resources: Dicts.Dict<Option<ResourceConfig>>,
    sandboxes: Dicts.Dict<Option<SandboxConfig>>, ftpConf: Option<FtpConfig>)

  /** A section of the merged document, when it is a mapping. */
  function SectionOf(config: Section, key: string): Option<Section>
  {
    SubSection(config, key)
  }

  /** A list section (`config[key]`, iterated). */
  function ListOf(config: Section, key: string): (r: Result<seq<Value>, Exc>)
    ensures r.Success? <==> key in config && config[key].List?
  {
    if key !in config then Failure(KeyError(key))
    else if config[key].List? then Success(config[key].items)
    else Failure(TypeError("not a list"))
  }

  /** Every section of the merged document reads: Do, CloudShell and FTP
      convert, and Shells, Resources and Sandboxes are lists whose items
      all key. */
  predicate SectionsRead(config: Section) {
    DoFromDict(SectionOf(config, "Do")).Success? &&
    CloudShellFromDict(SectionOf(config, "CloudShell")).Success? &&
    ListOf(config, "Shells").Success? && Keyed(ListOf(config, "Shells").value, ShellFromDict).Success? &&
    ListOf(config, "Resources").Success? && Keyed(ListOf(config, "Resources").value, ResourceFromDict).Success? &&
    ListOf(config, "Sandboxes").Success? && Keyed(ListOf(config, "Sandboxes").value, SandboxFromDict).Success? &&
    FtpFromDict(SectionOf(config, "FTP")).Success?
  }

  /** `parse_from_yaml` on the loaded test and environment documents: the
      test document wins the merge, then the sections are read in order
      Do, CloudShell, Shells, Resources, Sandboxes, FTP.  It succeeds
      exactly when the merge and every section do; each list is keyed by
      its items' names in first-occurrence order. */
  function ParseFromYaml(testConf: Section, envConf: Section): (r: Result<MainConfig, Exc>)
    ensures r.Success? <==> MergeDicts(testConf, envConf).Some? && SectionsRead(MergeDicts(testConf, envConf).value)
    ensures r.Success? ==> var config := MergeDicts(testConf, envConf).value;
      r.value.doConf == DoFromDict(SectionOf(config, "Do")).value &&
      r.value.csConf == CloudShellFromDict(SectionOf(config, "CloudShell")).value &&
      r.value.ftpConf == FtpFromDict(SectionOf(config, "FTP")).value
    ensures r.Success? ==> var config := MergeDicts(testConf, envConf).value;
      r.value.shells == Keyed(ListOf(config, "Shells").value, ShellFromDict).value &&
      r.value.resources == Keyed(ListOf(config, "Resources").value, ResourceFromDict).value &&
      r.value.sandboxes == Keyed(ListOf(config, "Sandboxes").value, SandboxFromDict).value
    ensures r.Success? ==> var config := MergeDicts(testConf, envConf).value;
      Dicts.Keys(r.value.shells) == Dedupe(NameList(ListOf(config, "Shells").value)) &&
      Dicts.Keys(r.value.resources) == Dedupe(NameList(ListOf(config, "Resources").value)) &&
      Dicts.Keys(r.value.sandboxes) == Dedupe(NameList(ListOf(config, "Sandboxes").value))
    ensures MergeDicts(testConf, envConf).Some? ==> var config := MergeDicts(testConf, envConf).value;
      DoFromDict(SectionOf(config, "Do")).Failure? ==> r == Failure(DoFromDict(SectionOf(config, "Do")).error)
  {
    match MergeDicts(testConf, envConf)
    case None => Failure(TypeError("merge_dicts"))
    case Some(config) =>
      match (DoFromDict(SectionOf(config, "Do")), CloudShellFromDict(SectionOf(config, "CloudShell")))
      case (Failure(e), _) => Failure(e)
      case (_, Failure(e)) => Failure(e)
      case (Success(doConf), Success(csConf)) =>
        match ListOf(config, "Shells")
        case Failure(e) => Failure(e)
        case Success(shellItems) =>
          match Keyed(shellItems, ShellFromDict)
          case Failure(e) => Failure(e)
          case Success(shells) =>
            KeyedOrder(shellItems, ShellFromDict);
            match ListOf(config, "Resources")
            case Failure(e) => Failure(e)
            case Success(resourceItems) =>
              match Keyed(resourceItems, ResourceFromDict)
              case Failure(e) => Failure(e)
              case Success(resources) =>
                KeyedOrder(resourceItems, ResourceFromDict);
                match ListOf(config, "Sandboxes")
                case Failure(e) => Failure(e)
                case Success(sandboxItems) =>
                  match Keyed(sandboxItems, SandboxFromDict)
                  case Failure(e) => Failure(e)
                  case Success(sandboxes) =>
                    KeyedOrder(sandboxItems, SandboxFromDict);
                    match FtpFromDict(SectionOf(config, "FTP"))
                    case Failure(e) => Failure(e)
                    case Success(ftpConf) => Success(MainConfig(doConf, csConf, shells, resources, sandboxes, ftpConf))
  }

  /** A text setting given in both documents comes from the test document;
      a list given in both is the environment's items followed by the
      test's. */
  lemma TestConfigWins(testConf: Section, envConf: Section, key: string)
    requires MergeDicts(testConf, envConf).Some?
    requires key in testConf && key in envConf
    ensures testConf[key].Scalar? ==> MergeDicts(testConf, envConf).value[key] == testConf[key]
    ensures testConf[key].List? ==>
      MergeDicts(testConf, envConf).value[key] == List(envConf[key].items + testConf[key].items)
  {
    MergeDictsEntries(testConf, envConf, key);
  }
}

=== FILE: connectivity_test.dfy ===
/** The connectivity test (`shell_tests/automation_tests/test_connectivity.py`):
    the depth-first search for a port name and the choice of two distinct
    ports on the resource and on the DUT, which are then wired together. */
module ConnectivityTest {
  import opened Wrappers
  import opened ResourceTree

  /** `find_port_name`: a port node answers with its own name unless it is
      excluded, without looking below it; any other node asks its children
      left to right and takes the first non-empty, non-excluded answer. */
  function FindPortName(info: ResourceInfo, excluded: set<string>): (r: Option<string>)
    ensures r.Some? ==> r.value !in excluded
    ensures r.Some? && info.family != PortFamily ==> r.value != ""
    ensures info.family == PortFamily ==> (r.None? <==> info.name in excluded)
  {
    if info.family == PortFamily then (if info.name !in excluded then Some(info.name) else None)
    else FindInChildren(info.children, excluded)
  }

  function FindInChildren(children: seq<ResourceInfo>, excluded: set<string>): (r: Option<string>)
    ensures r.Some? ==> r.value !in excluded && r.value != ""
  {
    if |children| == 0 then None
    else
      var name := FindPortName(children[0], excluded);
      if name.Some? && name.value != "" && name.value !in excluded then name
      else FindInChildren(children[1..], excluded)
  }

  /** The names of the port nodes a search can reach, left to right: the
      search never descends below a port. */
  function PortNames(info: ResourceInfo): seq<string>
  {
    if info.family == PortFamily then [info.name] else PortNamesOf(info.children)
  }

  function PortNamesOf(children: seq<ResourceInfo>): seq<string>
  {
    if |children| == 0 then [] else PortNames(children[0]) + PortNamesOf(children[1..])
  }

  /** A port name a non-port node may return. */
  predicate Eligible(name: string, excluded: set<string>) {
    name != "" && name !in excluded
  }

  /** The first eligible name of a list: the reference the search is
      measured against. */
  function FirstEligible(names: seq<string>, excluded: set<string>): (r: Option<string>)
    ensures r.Some? ==> r.value in names && Eligible(r.value, excluded)
    ensures r.None? <==> forall i :: 0 <= i < |names| ==> !Eligible(names[i], excluded)
  {
    if |names| == 0 then None
    else if Eligible(names[0], excluded) then Some(names[0])
    else
      var r := FirstEligible(names[1..], excluded);
      assert forall i :: 1 <= i < |names| ==> names[i] == names[1..][i - 1];
      r
  }

  lemma {:induction false} FirstEligibleAppend(a: seq<string>, b: seq<string>, excluded: set<string>)
    ensures FirstEligible(a + b, excluded) ==
      if FirstEligible(a, excluded).Some? then FirstEligible(a, excluded) else FirstEligible(b, excluded)
  {
    if |a| > 0 {
      assert (a + b)[1..] == a[1..] + b;
      FirstEligibleAppend(a[1..], b, excluded);
    } else {
      assert a + b == b;
    }
  }

  /** Below a non-port root the search returns the first eligible port
      name in depth-first order, and nothing when there is none. */
  lemma {:induction false} FindPortNameSpec(info: ResourceInfo, excluded: set<string>)
    ensures info.family != PortFamily ==> FindPortName(info, excluded) == FirstEligible(PortNames(info), excluded)
  {
    if info.family != PortFamily {
      FindInChildrenSpec(info.children, excluded);
    }
  }

  lemma {:induction false} FindInChildrenSpec(children: seq<ResourceInfo>, excluded: set<string>)
    ensures FindInChildren(children, excluded) == FirstEligible(PortNamesOf(children), excluded)
  {
    if |children| > 0 {
      var c := children[0];
      FindInChildrenSpec(children[1..], excluded);
      FirstEligibleAppend(PortNames(c), PortNamesOf(children[1..]), excluded);
      if c.family == PortFamily {
        assert PortNames(c) == [c.name];
        assert FirstEligible([c.name], excluded) == if Eligible(c.name, excluded) then Some(c.name) else None by {
          assert [c.name][1..] == [];
        }
      } else {
        FindPortNameSpec(c, excluded);
      }
    }
  }

  /** A port at the root answers even with an empty name, but the same
      port as a child is passed over; an excluded port hides the ports
      below it. */
  lemma RootPortQuirks()
    ensures FindPortName(ResourceInfo("", PortFamily, []), {}) == Some("")
    ensures FindPortName(ResourceInfo("chassis", "CS_Chassis", [ResourceInfo("", PortFamily, [])]), {}) == None
    ensures FindPortName(ResourceInfo("p1", PortFamily, [ResourceInfo("p2", PortFamily, [])]), {"p1"}) == None
  {
    var port := ResourceInfo("", PortFamily, []);
    assert [port][1..] == [];
    assert FindInChildren([port], {}) == FindInChildren([], {});
  }

  /** The two ports of a device: the second search excludes the first
      port; when the first search finds nothing, the set `{None}` excludes
      no name. */
  function TwoPorts(info: ResourceInfo): (r: (Option<string>, Option<string>))
    ensures r.0.Some? && r.1.Some? ==> r.0.value != r.1.value
    ensures r.0 == FindPortName(info, {})
  {
    var first := FindPortName(info, {});
    (first, FindPortName(info, if first.Some? then {first.value} else {}))
  }

  /** Below a non-port root the two ports are the first two distinct
      eligible names in depth-first order. */
  lemma TwoPortsSpec(info: ResourceInfo)
    requires info.family != PortFamily
    ensures TwoPorts(info).0 == FirstEligible(PortNames(info), {})
    ensures TwoPorts(info).0.Some? ==> TwoPorts(info).1 == FirstEligible(PortNames(info), {TwoPorts(info).0.value})
    ensures TwoPorts(info).0.None? ==> TwoPorts(info).1.None?
  {
    FindPortNameSpec(info, {});
    var first := FindPortName(info, {});
    if first.Some? {
      FindPortNameSpec(info, {first.value});
    }
  }

  /** The API calls of the test, in order. */
  datatype Call =
    | AddPhysicalConnection(portA: Option<string>, portB: Option<string>)
    | ConnectPortsWithConnector(portA: Option<string>, portB: Option<string>, alias: string)
    | RemoveConnector(portA: Option<string>, portB: Option<string>)

  /** `test_connectivity`: the first resource port is wired to the first
      DUT port and the second to the second, then the two DUT ports are
      joined by a connector that is removed again. */
  function ConnectivityCalls(resource: ResourceInfo, dut: ResourceInfo): (r: seq<Call>)
    ensures |r| == 4
    ensures r[0].AddPhysicalConnection? && r[1].AddPhysicalConnection?
    ensures r[2] == ConnectPortsWithConnector(r[0].portB, r[1].portB, "dut-connector")
    ensures r[3] == RemoveConnector(r[0].portB, r[1].portB)
    ensures r[0].portA.Some? && r[1].portA.Some? ==> r[0].portA != r[1].portA
    ensures r[0].portB.Some? && r[1].portB.Some? ==> r[0].portB != r[1].portB
  {
    var (res1, res2) := TwoPorts(resource);
    var (dut1, dut2) := TwoPorts(dut);
    [AddPhysicalConnection(res1, dut1), AddPhysicalConnection(res2, dut2),
     ConnectPortsWithConnector(dut1, dut2, "dut-connector"), RemoveConnector(dut1, dut2)]
  }
}

=== FILE: controller_test.dfy ===
/** The traffic-generator controller tests
    (`shell_tests/automation_tests/test_traffic_generator_controller.py`):
    the autoload guard of `setUp`, the parameters each command test takes
    from the tests configuration, and the without-device variants.  The
    configuration's 'params' is a dictionary from command name to keyword
    arguments, and `load_config` leaves it changed. */
module ControllerTest {
  import opened Wrappers
  import opened Errors
  import Dicts
  import opened ResourceCommands
  import opened ResourceHandlers
  import opened AutomationBase

  type Params = Dicts.Dict<Dicts.Dict<ArgValue>>

  /** `setUp`: the related resource is autoloaded when the class asks for
      it and its autoload has not finished; the without-device classes
      switch the request off. */
  function SetUpAutoloads(withoutDevice: bool, autoloadFinished: bool): (r: bool)
    ensures r <==> !withoutDevice && !autoloadFinished
    ensures withoutDevice ==> !r
  {
    var runAutoloadForRelatedResource := !withoutDevice;
    runAutoloadForRelatedResource && !autoloadFinished
  }

  const LoadConfigKey: string := "load_config"
  const MissingParams: string := "You have to specify params for load_config command"

  /** One run of `test_load_config`: its body's end, the request sent, and
      the stored parameters afterwards. */
  datatype LoadConfigRun = LoadConfigRun(body: Run, sent: Option<Request>, params: Params)

  /** `test_load_config`: take the stored 'load_config' parameters, pop
      'config_file_location' out of them (either lookup missing raises the
      automation error), and call `load_config` with the path and the rest.
      The popped dictionary is the stored one, and `load_config` writes the
      path back into it when other parameters remain. */
  function LoadConfigTest(params: Params, s: ServiceHandler, api: Result<(), Exc>): (r: LoadConfigRun)
    ensures Dicts.Valid(params) ==> Dicts.Valid(r.params)
    ensures r.sent.None? <==>
      Dicts.Get(params, LoadConfigKey).None? || Dicts.Get(Dicts.Get(params, LoadConfigKey).value, ConfigFileLocation).None?
    ensures r.sent.None? ==> r.body == Raised(BaseAutomationException(MissingParams)) && r.params == params
    ensures r.sent.Some? ==> (
      var stored := Dicts.Get(params, LoadConfigKey).value;
      var rest := Dicts.Remove(stored, ConfigFileLocation);
      r.sent == Some(LoadConfig(s, Dicts.Get(stored, ConfigFileLocation).value, Some(rest)).0) &&
      Dicts.Get(r.params, LoadConfigKey) == Some(if rest == [] then [] else r.sent.value.args) &&
      (r.body.Returned? <==> api.Success?))
  {
    match Dicts.Get(params, LoadConfigKey)
    case None => LoadConfigRun(Raised(BaseAutomationException(MissingParams)), None, params)
    case Some(stored) =>
      match Dicts.Get(stored, ConfigFileLocation)
      case None => LoadConfigRun(Raised(BaseAutomationException(MissingParams)), None, params)
      case Some(path) =>
        var rest := Dicts.Remove(stored, ConfigFileLocation);
        var (request, after) := LoadConfig(s, path, Some(rest));
        var newParams := Dicts.Put(params, LoadConfigKey, after.value);
        assert Dicts.Valid(params) ==> Dicts.Valid(newParams) by {
          if Dicts.Valid(params) { Dicts.PutValid(params, LoadConfigKey, after.value); }
        }
        Dicts.GetPut(params, LoadConfigKey, after.value, LoadConfigKey);
        LoadConfigRun(if api.Success? then Returned else Raised(api.error), Some(request), newParams)
  }

  /** When 'config_file_location' was the only parameter, a second run of
      the test finds nothing to pop and raises. */
  lemma SecondRunFailsWithOnlyPath(params: Params, path: ArgValue, s: ServiceHandler, api: Result<(), Exc>)
    requires Dicts.Get(params, LoadConfigKey) == Some([(ConfigFileLocation, path)])
    ensures var first := LoadConfigTest(params, s, api);
      first.sent.Some? && LoadConfigTest(first.params, s, api).sent.None? &&
      LoadConfigTest(first.params, s, api).body == Raised(BaseAutomationException(MissingParams))
  {
    var first := LoadConfigTest(params, s, api);
    assert Dicts.Remove([(ConfigFileLocation, path)], ConfigFileLocation) == [];
    assert Dicts.Get(first.params, LoadConfigKey) == Some([]);
  }

  /** When other parameters remain, `load_config` writes the path back and
      a second run sends the same path again. */
  lemma SecondRunKeepsPathWithOtherParams(params: Params, stored: Dicts.Dict<ArgValue>, s: ServiceHandler,
                                         api: Result<(), Exc>, key: string)
    requires Dicts.Get(params, LoadConfigKey) == Some(stored) && Dicts.Valid(stored)
    requires Dicts.Get(stored, ConfigFileLocation).Some?
    requires key != ConfigFileLocation && Dicts.Get(stored, key).Some?
    ensures var first := LoadConfigTest(params, s, api);
      var second := LoadConfigTest(first.params, s, api);
      second.sent.Some? && Dicts.Get(second.sent.value.args, ConfigFileLocation) == Dicts.Get(stored, ConfigFileLocation)
  {
    var rest := Dicts.Remove(stored, ConfigFileLocation);
    assert Dicts.Get(rest, key).Some?;
    assert rest != [];
    var path := Dicts.Get(stored, ConfigFileLocation).value;
    var first := LoadConfigTest(params, s, api);
    LoadConfigArgs(s, path, Some(rest), ConfigFileLocation);
    var again := first.sent.value.args;
    assert Dicts.Get(first.params, LoadConfigKey) == Some(again);
    assert Dicts.Get(again, ConfigFileLocation) == Some(path);
    var rest2 := Dicts.Remove(again, ConfigFileLocation);
    LoadConfigArgs(s, path, Some(rest2), ConfigFileLocation);
  }

  /** `test_start_traffic`, `test_stop_traffic`, `test_get_statistics`:
      the command's stored parameters, or `{}`. */
  function CommandTest(params: Params, s: ServiceHandler, command: string, api: Result<(), Exc>): (r: (Run, Request))
    ensures r.1 == ServiceCommand(s, command, Some(Dicts.Get(params, command).UnwrapOr([])))
    ensures !Dicts.HasKey(params, command) ==> r.1.args == []
    ensures r.0.Returned? <==> api.Success?
  {
    (if api.Success? then Returned else Raised(api.error), ServiceCommand(s, command, Some(Dicts.Get(params, command).UnwrapOr([]))))
  }

  /** The without-device variants run the same body inside
      `assertRaisesRegexp(CloudShellAPIError, ...)`: the body must end in a
      matching API error; an automation error from missing parameters
      escapes, and a body that returns fails the assertion. */
  function WithoutDeviceTest(inner: Run, matches: Exc -> bool): (r: Run)
    ensures r.Returned? <==> inner.Raised? && inner.error.CloudShellAPIError? && matches(inner.error)
    ensures inner.Raised? && !inner.error.CloudShellAPIError? ==> r == inner
  {
    match inner
    case Returned => AssertRaisesApiError<()>(Success(()), matches)
    case AssertFailed(_) => inner
    case Raised(e) => AssertRaisesApiError<()>(Failure(e), matches)
  }
}

=== FILE: cs_handler.dfy ===
/** The CloudShell handler of the second generation
    (`shell_tests/cs_handler.py`): conflict renaming of resources, attribute
    namespacing, reservation polling, shell installation and the offline
    PyPI name filters.  Every Automation API and REST call is an input: the
    answer of a create or rename call, a reservation status per poll, the
    message of a failed shell upload. */
module CsHandler {
  import opened Wrappers
  import opened Errors
  import opened Text
  import opened Polling
  import Dicts
  import opened Sequences
  type Dict<V> = Dicts.Dict<V>

  // ---------------------------------------------------------------------
  // create_new_resource_name

  /** The groups of `^(?P<name>.+)-(?P<v>\d+)$` when it matches `s`: the
      pattern sees `s` up to one final newline, `.` stops at newlines, and the
      digits run to the end, so the split is at the last '-'. */
  function IndexedName(s: string): (r: Option<(string, string)>)
    ensures r.Some? ==> |r.value.0| >= 1 && |r.value.1| >= 1 && AllDigits(r.value.1)
    ensures r.Some? ==> '\n' !in r.value.0 && '-' !in r.value.1
    ensures r.Some? ==> s == r.value.0 + "-" + r.value.1 || s == r.value.0 + "-" + r.value.1 + "\n"
  {
    var c := BeforeFinalNewline(s);
    if '\n' in c then None
    else
      match LastIndexOf(c, '-')
      case None => None
      case Some(i) =>
        if i >= 1 && i + 1 < |c| && AllDigits(c[i + 1..]) then
          assert c == c[..i] + "-" + c[i + 1..];
          Some((c[..i], c[i + 1..]))
        else None
  }

  /** `create_new_resource_name`: `base-N` becomes `base-(N+1)` with `N`
      read as an integer; any other name gets `-1` appended. */
  function NewResourceName(s: string): (r: string)
  {
    match IndexedName(s)
    case Some((base, v)) => base + "-" + NatToString(ParseNat(v) + 1)
    case None => s + "-1"
  }

  /** The new name always differs from the old one, so each retry asks for
      a name not asked for just before. */
  lemma NewResourceNameChanges(s: string)
    ensures NewResourceName(s) != s
  {
    match IndexedName(s)
    case Some((base, v)) =>
      var t := NatToString(ParseNat(v) + 1);
      if s == base + "-" + v {
        if base + "-" + t == s {
          assert t == (base + "-" + t)[|base| + 1..];
          ParseNatToString(ParseNat(v) + 1);
        }
      } else {
        assert s[|s| - 1] == '\n';
        assert (base + "-" + t)[|base| + |t|] == t[|t| - 1];
      }
    case None =>
      assert |NewResourceName(s)| > |s|;
  }

  /** A digit string has neither '-' nor a newline. */
  lemma DigitsHaveNoSeparators(d: string)
    requires AllDigits(d)
    ensures '-' !in d && '\n' !in d
  {
  }

  /** The indexed form reads back: for a non-empty base without newlines,
      `base-N` is matched with exactly that base and index. */
  lemma IndexedNameOf(base: string, n: nat)
    requires |base| >= 1 && '\n' !in base
    ensures IndexedName(base + "-" + NatToString(n)).Some?
    ensures IndexedName(base + "-" + NatToString(n)).value.0 == base
    ensures ParseNat(IndexedName(base + "-" + NatToString(n)).value.1) == n
  {
    var d := NatToString(n);
    var s := base + "-" + d;
    DigitsHaveNoSeparators(d);
    assert s[|s| - 1] == d[|d| - 1];
    assert BeforeFinalNewline(s) == s;
    assert s[|base| + 1..] == d;
    assert '\n' !in s by {
      assert s == base + ("-" + d);
    }
    LastIndexOfUnique(s, '-', |base|);
    assert s[..|base|] == base;
    ParseNatToString(n);
  }

  /** Renaming an indexed name bumps its index by one. */
  lemma NewResourceNameBumps(base: string, n: nat)
    requires |base| >= 1 && '\n' !in base
    ensures NewResourceName(base + "-" + NatToString(n)) == base + "-" + NatToString(n + 1)
  {
    IndexedNameOf(base, n);
  }

  /** `k` applications of `f`. */
  function Iterate(f: string -> string, x: string, k: nat): string
  {
    if k == 0 then x else f(Iterate(f, x, k - 1))
  }

  /** `k` renames in a row. */
  function Renamed(name: string, k: nat): string
  {
    Iterate(NewResourceName, name, k)
  }

  /** The names a retry loop walks through from an indexed name: the index
      grows by one per conflict, so no name is asked for twice. */
  lemma RenamedIndexed(base: string, n: nat, k: nat)
    requires |base| >= 1 && '\n' !in base
    ensures Renamed(base + "-" + NatToString(n), k) == base + "-" + NatToString(n + k)
  {
    var indexed := (m: nat) => base + "-" + NatToString(m);
    forall m: nat ensures NewResourceName(indexed(m)) == indexed(m + 1) {
      NewResourceNameBumps(base, m);
    }
    IterateFollows(NewResourceName, indexed, n, k);
  }

  /** Iterating `f` along a chain that `f` steps forward by one. */
  lemma {:induction false} IterateFollows(f: string -> string, chain: nat -> string, n: nat, k: nat)
    requires forall m: nat :: f(chain(m)) == chain(m + 1)
    ensures Iterate(f, chain(n), k) == chain(n + k)
  {
    if k > 0 {
      IterateFollows(f, chain, n, k - 1);
      assert f(chain(n + (k - 1))) == chain(n + k);
    }
  }

  /** Leading zeros of the index vanish. */
  lemma NewResourceNameDropsZeros()
    ensures NewResourceName("x-007") == "x-8"
  {
    IndexedZeros();
    ParseZeros();
    assert NatToString(8) == "8";
    assert "x" + "-" + "8" == "x-8";
  }

  lemma IndexedZeros()
    ensures IndexedName("x-007") == Some(("x", "007"))
  {
    LastIndexOfUnique("x-007", '-', 1);
    assert "x-007"[..1] == "x" && "x-007"[2..] == "007";
  }

  lemma ParseZeros()
    ensures AllDigits("007") && ParseNat("007") == 7
  {
    assert "007"[..2] == "00";
    assert "00"[..1] == "0";
    assert "0"[..0] == "";
  }

  /** Only the final digit group counts. */
  lemma NewResourceNameLastGroup()
    ensures NewResourceName("a-1-2") == "a-1-3"
  {
    LastIndexOfUnique("a-1-2", '-', 3);
    assert "a-1-2"[..3] == "a-1" && "a-1-2"[4..] == "2";
    assert "2"[..0] == "";
  }

  /** A name without a final digit group gets `-1`. */
  lemma NewResourceNameAppends()
    ensures NewResourceName("a-b") == "a-b-1"
  {
    LastIndexOfUnique("a-b", '-', 1);
    assert "a-b"[2..] == "b";
    assert !AllDigits("a-b"[2..]);
  }

  /** A name whose base would be empty is not indexed. */
  lemma NewResourceNameNeedsBase()
    ensures NewResourceName("-5") == "-5-1"
  {
    LastIndexOfUnique("-5", '-', 0);
  }

  // ---------------------------------------------------------------------
  // create_resource / rename_resource

  /** The answer of one `CreateResource` or `RenameResource` call. */
  datatype ApiAnswer = Ok | ApiError(code: string, message: string)

  /** Code 114: the name is already taken. */
  predicate NameTaken(a: ApiAnswer) {
    a.ApiError? && a.code == "114"
  }

  /** How a retry loop ends; `Pending` means the recorded answers ran out
      while the loop was still retrying with `name`. */
  datatype RetryOutcome = Done(name: string) | Raised(error: Exc) | Pending(name: string)

  /** The `while True` loop of `create_resource` and `rename_resource`:
      retry with the next name while the API answers 114, return the name
      that was accepted, propagate any other error. */
  function RetryOnNameTaken(name: string, answers: seq<ApiAnswer>): (r: RetryOutcome)
    decreases |answers|
  {
    if |answers| == 0 then Pending(name)
    else
      match answers[0]
      case Ok => Done(name)
      case ApiError(code, message) =>
        if code != "114" then Raised(CloudShellAPIError(code, message))
        else RetryOnNameTaken(NewResourceName(name), answers[1..])
  }

  /** The number of leading name conflicts. */
  function Conflicts(answers: seq<ApiAnswer>): (n: nat)
    ensures n <= |answers|
    ensures forall j :: 0 <= j < n ==> NameTaken(answers[j])
    ensures n < |answers| ==> !NameTaken(answers[n])
  {
    if |answers| == 0 || !NameTaken(answers[0]) then 0 else 1 + Conflicts(answers[1..])
  }

  /** The loop renames once per leading conflict and then settles on the
      first other answer: acceptance returns the current name, any other
      error is raised as it came. */
  lemma {:induction false} RetryOnNameTakenSpec(name: string, answers: seq<ApiAnswer>)
    ensures var n := Conflicts(answers);
      RetryOnNameTaken(name, answers) ==
        if n == |answers| then Pending(Renamed(name, n))
        else if answers[n].Ok? then Done(Renamed(name, n))
        else Raised(CloudShellAPIError(answers[n].code, answers[n].message))
    decreases |answers|
  {
    if |answers| > 0 && NameTaken(answers[0]) {
      var tail := answers[1..];
      var m := Conflicts(tail);
      assert Conflicts(answers) == m + 1;
      assert RetryOnNameTaken(name, answers) == RetryOnNameTaken(NewResourceName(name), tail);
      RetryOnNameTakenSpec(NewResourceName(name), tail);
      RenamedShift(name, m);
      if m < |tail| {
        assert answers[m + 1] == tail[m];
      }
    }
  }

  /** Renaming first and then `k` times is renaming `k + 1` times. */
  lemma RenamedShift(name: string, k: nat)
    ensures Renamed(NewResourceName(name), k) == Renamed(name, k + 1)
  {
    IterateShift(NewResourceName, name, k);
  }

  lemma {:induction false} IterateShift(f: string -> string, x: string, k: nat)
    ensures Iterate(f, f(x), k) == Iterate(f, x, k + 1)
  {
    if k > 0 {
      IterateShift(f, x, k - 1);
    }
  }

  /** `create_resource(name, model, address, family)`: the accepted name. */
  function CreateResource(name: string, answers: seq<ApiAnswer>): (r: RetryOutcome)
    ensures r.Done? ==> exists k :: 0 <= k < |answers| && r.name == Renamed(name, k)
  {
    RetryOnNameTakenSpec(name, answers);
    RetryOnNameTaken(name, answers)
  }

  /** `rename_resource(current, new_name)`: the accepted new name. */
  function RenameResource(newName: string, answers: seq<ApiAnswer>): (r: RetryOutcome)
    ensures r.Done? ==> exists k :: 0 <= k < |answers| && r.name == Renamed(newName, k)
  {
    RetryOnNameTakenSpec(newName, answers);
    RetryOnNameTaken(newName, answers)
  }

  /** An indexed name taken `k` times ends as the same base with the index
      raised by `k`. */
  lemma CreateIndexedResource(base: string, n: nat, k: nat, answers: seq<ApiAnswer>)
    requires |base| >= 1 && '\n' !in base
    requires Conflicts(answers) == k < |answers| && answers[k].Ok?
    ensures CreateResource(base + "-" + NatToString(n), answers) == Done(base + "-" + NatToString(n + k))
  {
    RetryOnNameTakenSpec(base + "-" + NatToString(n), answers);
    RenamedIndexed(base, n, k);
  }

  // ---------------------------------------------------------------------
  // Attribute namespacing

  /** The attribute name sent for `key`: `namespace.key`, or the bare key
      when the namespace is empty. */
  function Qualify(namespace: string, key: string): (r: string)
    ensures namespace == "" ==> r == key
    ensures namespace != "" ==> |r| == |namespace| + 1 + |key| && r[..|namespace|] == namespace && r[|namespace|] == '.'
  {
    if namespace == "" then key else namespace + "." + key
  }

  /** The key is recovered from the sent name, so distinct keys never
      collide under one namespace. */
  lemma QualifyInjective(namespace: string, k1: string, k2: string)
    requires Qualify(namespace, k1) == Qualify(namespace, k2)
    ensures k1 == k2
  {
    if namespace != "" {
      assert k1 == Qualify(namespace, k1)[|namespace| + 1..];
    }
  }

  /** `set_resource_attributes`: the name/value pairs sent, in the order of
      the attribute dict, each name qualified by the namespace. */
  function SetResourceAttributes(namespace: string, attributes: Dict<string>): (r: Dict<string>)
    ensures |r| == |attributes|
    ensures forall i :: 0 <= i < |r| ==> r[i].1 == attributes[i].1
  {
    seq(|attributes|, i requires 0 <= i < |attributes| => (Qualify(namespace, attributes[i].0), attributes[i].1))
  }

  /** Qualifying keeps the sent names distinct, and each sent name reads
      the value its key has in the attribute dict. */
  lemma SetResourceAttributesGet(namespace: string, attributes: Dict<string>, key: string)
    requires Dicts.Valid(attributes)
    ensures Dicts.Valid(SetResourceAttributes(namespace, attributes))
    ensures Dicts.Get(SetResourceAttributes(namespace, attributes), Qualify(namespace, key)) == Dicts.Get(attributes, key)
  {
    var r := SetResourceAttributes(namespace, attributes);
    forall i, j | 0 <= i < j < |r| ensures r[i].0 != r[j].0 {
      if r[i].0 == r[j].0 {
        QualifyInjective(namespace, attributes[i].0, attributes[j].0);
      }
    }
    if Dicts.HasKey(attributes, key) {
      var i :| 0 <= i < |attributes| && attributes[i].0 == key;
      Dicts.GetAt(attributes, i);
      Dicts.GetAt(r, i);
    } else {
      assert !Dicts.HasKey(r, Qualify(namespace, key)) by {
        if Dicts.HasKey(r, Qualify(namespace, key)) {
          var i :| 0 <= i < |r| && r[i].0 == Qualify(namespace, key);
          QualifyInjective(namespace, attributes[i].0, key);
        }
      }
    }
  }

  /** `add_service_to_reservation`: always `model.key`, even for an empty
      model. */
  function ServiceAttributes(model: string, attributes: Dict<string>): (r: Dict<string>)
    ensures |r| == |attributes|
    ensures forall i :: 0 <= i < |r| ==> r[i].1 == attributes[i].1
  {
    seq(|attributes|, i requires 0 <= i < |attributes| => (model + "." + attributes[i].0, attributes[i].1))
  }

  /** For a non-empty model the service and resource rules send the same
      names; for an empty model the service rule keeps a leading '.' that
      the resource rule drops. */
  lemma ServiceNamesAgainstResourceNames(model: string, attributes: Dict<string>)
    ensures model != "" ==> ServiceAttributes(model, attributes) == SetResourceAttributes(model, attributes)
    ensures model == "" ==> forall i :: 0 <= i < |attributes| ==>
      ServiceAttributes(model, attributes)[i].0 == "." + SetResourceAttributes(model, attributes)[i].0
  {
    var sa := ServiceAttributes(model, attributes);
    var ra := SetResourceAttributes(model, attributes);
    if model != "" {
      assert forall i :: 0 <= i < |attributes| ==> sa[i] == ra[i];
    }
  }

  // ---------------------------------------------------------------------
  // Reservation polling

  /** `ReservationSlimStatus`, reduced to the two fields read. */
  datatype ReservationStatus = ReservationStatus(provisioningStatus: string, status: string)

  predicate Started(s: ReservationStatus) {
    s.provisioningStatus == "Ready" || (s.provisioningStatus == "Not Run" && s.status == "Started")
  }

  predicate ProvisioningError(s: ReservationStatus) {
    s.provisioningStatus == "Error"
  }

  const StartPolls: nat := 60
  const EndPolls: nat := 30

  /** `wait_reservation_is_started`: at most 60 status reads; a started
      status returns how many reads it took, an `Error` status raises with
      the errors read from the activity feed, 60 other statuses raise. */
  function WaitReservationIsStarted(reservationId: string, statuses: nat -> ReservationStatus, errors: string)
    : (r: Result<nat, Exc>)
    ensures r.Success? ==> 1 <= r.value <= StartPolls && Started(statuses(r.value - 1))
    ensures r.Failure? ==> r.error.CreationReservationError?
  {
    var outcome := Poll(statuses, StartPolls, Started, ProvisioningError);
    if outcome.Succeeded? then Success(outcome.at + 1)
    else if outcome.Failed? then Failure(CreationReservationError(errors))
    else Failure(CreationReservationError("The reservation " + reservationId + " doesn't started"))
  }

  /** The wait ends at the first started status read after only
      statuses that were neither started nor failed. */
  lemma WaitStartsAt(reservationId: string, statuses: nat -> ReservationStatus, errors: string, k: nat)
    requires k < StartPolls
    requires forall j :: 0 <= j < k ==> Undecided(statuses(j), Started, ProvisioningError)
    requires Started(statuses(k))
    ensures WaitReservationIsStarted(reservationId, statuses, errors) == Success(k + 1)
  {
    PollStopsAt(statuses, StartPolls, Started, ProvisioningError, k);
  }

  /** An `Error` status read first raises with the activity-feed errors. */
  lemma WaitFailsAt(reservationId: string, statuses: nat -> ReservationStatus, errors: string, k: nat)
    requires k < StartPolls
    requires forall j :: 0 <= j < k ==> Undecided(statuses(j), Started, ProvisioningError)
    requires ProvisioningError(statuses(k))
    ensures WaitReservationIsStarted(reservationId, statuses, errors) == Failure(CreationReservationError(errors))
  {
    PollStopsAt(statuses, StartPolls, Started, ProvisioningError, k);
  }

  /** Sixty undecided statuses raise the not-started error. */
  lemma WaitGivesUp(reservationId: string, statuses: nat -> ReservationStatus, errors: string)
    requires forall j :: 0 <= j < StartPolls ==> Undecided(statuses(j), Started, ProvisioningError)
    ensures WaitReservationIsStarted(reservationId, statuses, errors)
      == Failure(CreationReservationError("The reservation " + reservationId + " doesn't started"))
  {
    PollSpec(statuses, StartPolls, Started, ProvisioningError);
  }

  /** `end_reservation(id, wait)`: without waiting it returns after the end
      request; with waiting it reads the status at most 30 times until
      `Completed`, else raises. */
  function EndReservation(statuses: nat -> string, wait: bool): (r: Result<nat, Exc>)
    ensures !wait ==> r == Success(0)
    ensures wait && r.Success? ==> 1 <= r.value <= EndPolls && statuses(r.value - 1) == "Completed"
    ensures r.Failure? ==> r.error == BaseAutomationException("Can't end reservation")
  {
    if !wait then Success(0)
    else
      var outcome := Poll(statuses, EndPolls, s => s == "Completed", s => false);
      if outcome.Succeeded? then Success(outcome.at + 1)
      else Failure(BaseAutomationException("Can't end reservation"))
  }

  /** Waiting fails exactly when none of the 30 statuses is `Completed`. */
  lemma EndReservationSpec(statuses: nat -> string)
    ensures EndReservation(statuses, true).Failure? <==>
      forall j :: 0 <= j < EndPolls ==> statuses(j) != "Completed"
  {
    PollSpec(statuses, EndPolls, s => s == "Completed", s => false);
  }

  // ---------------------------------------------------------------------
  // install_shell

  const NamedPrefix: string := "named '"
  const ExistsSuffix: string := "' already exists"

  /** `named '(?P<name>.+)' already exists` matches with the name spanning
      `msg[p + 7..q]`. */
  predicate CaptureAt(msg: string, p: int, q: int) {
    0 <= p && p + |NamedPrefix| < q <= |msg| &&
    OccursAt(msg, NamedPrefix, p) && OccursAt(msg, ExistsSuffix, q) &&
    '\n' !in msg[p + |NamedPrefix|..q]
  }

  /** The greedy `.+`: the last end at or below `q` that matches from `p`. */
  function LastCaptureEnd(msg: string, p: nat, q: int): (r: Option<nat>)
    requires q <= |msg|
    ensures r.Some? ==> r.value <= q && CaptureAt(msg, p, r.value)
    ensures forall e :: (if r.Some? then r.value else p) < e <= q ==> !CaptureAt(msg, p, e)
    decreases q - p
  {
    if q <= p + |NamedPrefix| then None
    else if CaptureAt(msg, p, q) then Some(q)
    else LastCaptureEnd(msg, p, q - 1)
  }

  /** `re.search`: the leftmost start at or after `p` that matches. */
  function FirstCapture(msg: string, p: nat): (r: Option<(nat, nat)>)
    ensures r.Some? ==> p <= r.value.0 && CaptureAt(msg, r.value.0, r.value.1)
    ensures r.Some? ==> forall e :: r.value.1 < e <= |msg| ==> !CaptureAt(msg, r.value.0, e)
    ensures forall s, e :: p <= s && (r.None? || s < r.value.0) && e <= |msg| ==> !CaptureAt(msg, s, e)
    decreases |msg| - p
  {
    if p >= |msg| then None
    else
      match LastCaptureEnd(msg, p, |msg|)
      case Some(q) => Some((p, q))
      case None => FirstCapture(msg, p + 1)
  }

  /** The span `re.search` reports: a match at the leftmost start that has
      one, with the greedy `.+` taking the last end that still matches. */
  ghost predicate SearchCapture(msg: string, p: int, q: int) {
    CaptureAt(msg, p, q) &&
    (forall s, e :: 0 <= s < p && e <= |msg| ==> !CaptureAt(msg, s, e)) &&
    (forall e :: q < e <= |msg| ==> !CaptureAt(msg, p, e))
  }

  /** There is at most one such span. */
  lemma SearchCaptureUnique(msg: string, p: int, q: int, p': int, q': int)
    requires SearchCapture(msg, p, q) && SearchCapture(msg, p', q')
    ensures p == p' && q == q'
  {
  }

  /** The name the pattern captures, if it matches: the text of the span
      `re.search` reports. */
  function ExistingShellName(msg: string): (r: Option<string>)
    ensures r.Some? ==> exists p, q :: SearchCapture(msg, p, q) && r.value == msg[p + |NamedPrefix|..q]
    ensures r.None? ==> forall p, q :: !CaptureAt(msg, p, q)
  {
    match FirstCapture(msg, 0)
    case Some((p, q)) =>
      assert SearchCapture(msg, p, q);
      Some(msg[p + |NamedPrefix|..q])
    case None => None
  }

  /** A message that starts with the prefix and ends with the suffix yields
      everything between them, even when that text names another shell:
      the greedy `.+` runs to the last suffix on the line. */
  lemma WholeMessageCaptured(name: string)
    requires name != [] && '\n' !in name
    ensures ExistingShellName(NamedPrefix + name + ExistsSuffix) == Some(name)
  {
    var msg := NamedPrefix + name + ExistsSuffix;
    var end := |NamedPrefix| + |name|;
    assert msg[..|NamedPrefix|] == NamedPrefix;
    assert msg[end..] == ExistsSuffix;
    assert msg[|NamedPrefix|..end] == name;
    assert CaptureAt(msg, 0, end);
    var r := ExistingShellName(msg);
    var p, q :| SearchCapture(msg, p, q) && r.value == msg[p + |NamedPrefix|..q];
    assert p == 0;
    assert q == end;
  }

  /** Two shells named in one message: the capture runs from the first name
      to the end of the second. */
  lemma TwoNamesCaptureAcross()
    ensures ExistingShellName(NamedPrefix + "a" + ExistsSuffix + "; " + NamedPrefix + "b" + ExistsSuffix) ==
      Some("a" + ExistsSuffix + "; " + NamedPrefix + "b")
  {
    var name := "a" + ExistsSuffix + "; " + NamedPrefix + "b";
    assert forall i :: 0 <= i < |name| ==> name[i] != '\n';
    WholeMessageCaptured(name);
    assert NamedPrefix + "a" + ExistsSuffix + "; " + NamedPrefix + "b" + ExistsSuffix == NamedPrefix + name + ExistsSuffix;
  }

  datatype InstallAction = AddedShell | UpdatedShell(name: string)

  /** `install_shell`: a failed upload whose message mentions
      `already exists` turns into an update of the shell named in the
      message; if the name cannot be captured, `.group` on `None` raises;
      any other failure propagates. */
  function InstallShell(addError: Option<string>): (r: Result<InstallAction, Exc>)
    ensures addError.None? <==> r == Success(AddedShell)
    ensures r.Success? && r.value.UpdatedShell? ==>
      addError.Some? && Contains(addError.value, "already exists") &&
      exists p, q :: SearchCapture(addError.value, p, q) && r.value.name == addError.value[p + |NamedPrefix|..q]
    ensures addError.Some? && !Contains(addError.value, "already exists") ==> r == Failure(Other(addError.value))
  {
    match addError
    case None => Success(AddedShell)
    case Some(msg) =>
      if !Contains(msg, "already exists") then Failure(Other(msg))
      else
        match ExistingShellName(msg)
        case None => Failure(AttributeError("'NoneType' object has no attribute 'group'"))
        case Some(name) => Success(UpdatedShell(name))
  }

  /** The message the REST API gives for a duplicate shell yields its name. */
  lemma InstallShellUpdatesNamedShell(name: string)
    requires |name| >= 1 && '\n' !in name
    ensures InstallShell(Some(NamedPrefix + name + ExistsSuffix)) == Success(UpdatedShell(name))
  {
    var msg := NamedPrefix + name + ExistsSuffix;
    var q := |NamedPrefix| + |name|;
    assert msg[..|NamedPrefix|] == NamedPrefix;
    assert msg[q..] == ExistsSuffix;
    assert msg[|NamedPrefix|..q] == name;
    assert CaptureAt(msg, 0, q);
    assert msg[q + 2..q + 16] == "already exists";
    assert Contains(msg, "already exists") by {
      assert OccursAt(msg, "already exists", q + 2);
    }
    var r := FirstCapture(msg, 0);
    assert r.Some? && r.value.0 == 0;
    assert r.value.1 == q;
  }

  // ---------------------------------------------------------------------
  // Offline PyPI

  /** `add_file_to_offline_pypi` uploads every name but these. */
  predicate UploadedToPypi(fileName: string) {
    fileName !in {".", "./", "..", "../"}
  }

  /** The names a sequence of `add_file_to_offline_pypi` calls stores, in
      call order. */
  function PypiUploads(names: seq<string>): (r: seq<string>)
    ensures |r| <= |names|
    ensures forall x :: x in r <==> x in names && UploadedToPypi(x)
    ensures |names| == 1 ==> r == (if UploadedToPypi(names[0]) then names else [])
  {
    if |names| == 0 then []
    else
      var rest := PypiUploads(names[..|names| - 1]);
      var last := names[|names| - 1];
      assert forall x :: x in names <==> x in names[..|names| - 1] || x == last by {
        assert names == names[..|names| - 1] + [last];
      }
      rest + (if UploadedToPypi(last) then [last] else [])
  }

  /** The calls store names in call order: uploading `a` and then `b`
      stores what `a` stores followed by what `b` stores. */
  lemma {:induction false} PypiUploadsInOrder(a: seq<string>, b: seq<string>)
    ensures PypiUploads(a + b) == PypiUploads(a) + PypiUploads(b)
    decreases |b|
  {
    if |b| == 0 {
      assert a + b == a;
    } else {
      var front := b[..|b| - 1];
      var last := b[|b| - 1];
      assert (a + b)[..|a + b| - 1] == a + front;
      assert (a + b)[|a + b| - 1] == last;
      PypiUploadsInOrder(a, front);
      var tail := if UploadedToPypi(last) then [last] else [];
      assert PypiUploads(a + b) == PypiUploads(a + front) + tail;
      assert PypiUploads(b) == PypiUploads(front) + tail;
      AppendAssoc(PypiUploads(a), PypiUploads(front), tail);
    }
  }

  /** The two filters differ: an uploaded placeholder is never listed as
      a package, and a listed './' is one the upload would have skipped. */
  lemma PypiFiltersDiffer()
    ensures PypiUploads(["PlaceHolder.txt"]) == ["PlaceHolder.txt"]
    ensures PypiPackageNames(["PlaceHolder.txt"]) == []
    ensures PypiUploads(["./"]) == [] && PypiPackageNames(["./"]) == ["./"]
  {
    assert ["PlaceHolder.txt"][..0] == [];
    assert ["./"][..0] == [];
  }

  /** `get_package_names_from_offline_pypi`: the listing without '.', '..'
      and the placeholder file, in listing order. */
  function PypiPackageNames(listing: seq<string>): (r: seq<string>)
    ensures |r| <= |listing|
    ensures forall x :: x in r <==> x in listing && x !in {".", "..", "PlaceHolder.txt"}
  {
    if |listing| == 0 then []
    else
      var rest := PypiPackageNames(listing[..|listing| - 1]);
      var last := listing[|listing| - 1];
      assert forall x :: x in listing <==> x in listing[..|listing| - 1] || x == last by {
        assert listing == listing[..|listing| - 1] + [last];
      }
      rest + (if last in {".", "..", "PlaceHolder.txt"} then [] else [last])
  }
}

=== FILE: dicts.dfy ===
/** Python dictionaries with string keys, as insertion-ordered lists of
    items: a new key goes to the end, an existing key keeps its place and
    takes the new value. */
module Dicts {
  import opened Wrappers

  type Dict<V> = seq<(string, V)>

  /** Every key occurs once. */
  predicate Valid<V>(d: Dict<V>) {
    forall i, j :: 0 <= i < j < |d| ==> d[i].0 != d[j].0
  }

  /** `k in d`. */
  predicate HasKey<V>(d: Dict<V>, k: string) {
    exists i :: 0 <= i < |d| && d[i].0 == k
  }

  /** `d.get(k)`. */
  function Get<V>(d: Dict<V>, k: string): (r: Option<V>)
    ensures r.None? <==> !HasKey(d, k)
  {
    if |d| == 0 then None
    else if d[0].0 == k then Some(d[0].1)
    else
      var r := Get(d[1..], k);
      assert HasKey(d[1..], k) ==> HasKey(d, k) by {
        if HasKey(d[1..], k) {
          var i :| 0 <= i < |d[1..]| && d[1..][i].0 == k;
          assert d[i + 1].0 == k;
        }
      }
      assert HasKey(d, k) ==> HasKey(d[1..], k) by {
        if HasKey(d, k) {
          var i :| 0 <= i < |d| && d[i].0 == k;
          assert d[1..][i - 1].0 == k;
        }
      }
      r
  }

  /** `d[k] = v`. */
  function Put<V>(d: Dict<V>, k: string, v: V): (r: Dict<V>)
    ensures HasKey(d, k) ==> |r| == |d| && forall i :: 0 <= i < |d| ==> r[i].0 == d[i].0
    ensures !HasKey(d, k) ==> r == d + [(k, v)]
  {
    if |d| == 0 then [(k, v)]
    else if d[0].0 == k then [(k, v)] + d[1..]
    else
      var rest := Put(d[1..], k, v);
      assert HasKey(d, k) <==> HasKey(d[1..], k) by {
        if HasKey(d, k) {
          var i :| 0 <= i < |d| && d[i].0 == k;
          assert d[1..][i - 1].0 == k;
        }
        if HasKey(d[1..], k) {
          var i :| 0 <= i < |d[1..]| && d[1..][i].0 == k;
          assert d[i + 1].0 == k;
        }
      }
      assert !HasKey(d, k) ==> [d[0]] + (d[1..] + [(k, v)]) == d + [(k, v)];
      [d[0]] + rest
  }

  /** After `d[k] = v`, `k` reads `v` and every other key reads as before. */
  lemma {:induction false} GetPut<V>(d: Dict<V>, k: string, v: V, k': string)
    ensures Get(Put(d, k, v), k') == if k' == k then Some(v) else Get(d, k')
  {
    if |d| > 0 && d[0].0 != k {
      GetPut(d[1..], k, v, k');
      assert Put(d, k, v)[1..] == Put(d[1..], k, v);
    }
  }

  /** The keys, in order. */
  function Keys<V>(d: Dict<V>): (r: seq<string>)
    ensures |r| == |d| && forall i :: 0 <= i < |d| ==> r[i] == d[i].0
  {
    seq(|d|, i requires 0 <= i < |d| => d[i].0)
  }

  /** A new key goes to the end of the keys; a stored one changes nothing
      in them. */
  lemma PutKeys<V>(d: Dict<V>, k: string, v: V)
    ensures Keys(Put(d, k, v)) == if k in Keys(d) then Keys(d) else Keys(d) + [k]
  {
    if k in Keys(d) {
      var i :| 0 <= i < |Keys(d)| && Keys(d)[i] == k;
      assert d[i].0 == k;
    }
  }

  /** Storing keeps keys unique. */
  lemma PutValid<V>(d: Dict<V>, k: string, v: V)
    requires Valid(d)
    ensures Valid(Put(d, k, v))
  {
    var r := Put(d, k, v);
    forall i, j | 0 <= i < j < |r|
      ensures r[i].0 != r[j].0
    {
      if HasKey(d, k) {
        assert r[i].0 == d[i].0 && r[j].0 == d[j].0;
      } else if j == |d| {
        assert r[i] == d[i] && r[j].0 == k;
      } else {
        assert r[i] == d[i] && r[j] == d[j];
      }
    }
  }

  /** `d.update(e)`: the items of `e` stored in order. */
  function Update<V>(d: Dict<V>, e: Dict<V>): Dict<V>
  {
    if |e| == 0 then d else Put(Update(d, e[..|e| - 1]), e[|e| - 1].0, e[|e| - 1].1)
  }

  /** After an update a key reads its value in `e` if `e` has it, and its
      old value otherwise. */
  lemma {:induction false} GetUpdate<V>(d: Dict<V>, e: Dict<V>, k: string)
    requires Valid(e)
    ensures Get(Update(d, e), k) == if HasKey(e, k) then Get(e, k) else Get(d, k)
  {
    if |e| > 0 {
      var p := e[..|e| - 1];
      var last := e[|e| - 1];
      assert Valid(p);
      GetUpdate(d, p, k);
      GetPut(Update(d, p), last.0, last.1, k);
      if HasKey(p, k) {
        var i :| 0 <= i < |p| && p[i].0 == k;
        GetAt(p, i);
        GetAt(e, i);
      } else if k == last.0 {
        GetAt(e, |e| - 1);
      }
    }
  }

  /** A key stored at `i` reads the value stored there. */
  lemma {:induction false} GetAt<V>(d: Dict<V>, i: nat)
    requires Valid(d) && i < |d|
    ensures Get(d, d[i].0) == Some(d[i].1)
  {
    if i > 0 {
      assert d[0].0 != d[i].0;
      assert Valid(d[1..]) by {
        forall a, b | 0 <= a < b < |d[1..]| ensures d[1..][a].0 != d[1..][b].0 {
          assert d[1..][a] == d[a + 1] && d[1..][b] == d[b + 1];
        }
      }
      GetAt(d[1..], i - 1);
    }
  }

  /** `d.pop(k)` after a successful lookup: every other entry in its
      place. */
  function Remove<V>(d: Dict<V>, k: string): (r: Dict<V>)
    ensures Valid(d) ==> Valid(r)
    ensures |r| <= |d|
    ensures forall k' :: Get(r, k') == if k' == k then None else Get(d, k')
  {
    if |d| == 0 then []
    else if d[0].0 == k then Remove(d[1..], k)
    else
      var rest := Remove(d[1..], k);
      assert Valid(d) ==> Valid(d[1..]) && forall i :: 0 <= i < |rest| ==> rest[i].0 != d[0].0 by {
        if Valid(d) {
          forall i | 0 <= i < |rest| ensures rest[i].0 != d[0].0 {
            assert Get(rest, rest[i].0).Some?;
          }
        }
      }
      [d[0]] + rest
  }

  /** `v` is truthy: present and non-empty (for string values). */
  predicate Truthy(v: Option<string>) {
    v.Some? && v.value != ""
  }
}

=== FILE: do.dfy ===
/** Starting a CloudShell on the DO (CloudShell-on-demand) server, second
    generation (`shell_tests/do_handler.py`): the topology choice, the
    readiness polling, the credential scan and the reservation end.  The
    API's answers are inputs: the topology list, the status read at each
    poll, the reservation's resources and the resource's details. */
module DoHandler {
  import opened Wrappers
  import opened Errors
  import opened Text
  import opened Sequences
  import opened Polling
  import CsHandler
  import Dicts

  const ReservationName := "automation_tests"
  const DefaultUser := "admin"
  const DefaultPassword := "admin"
  const ReadyPolls: nat := 30
  const EndPolls: nat := 30

  /** The topology reservation request. */
  datatype TopologyReservation = TopologyReservation(name: string, topology: string, specificVersion: Option<string>)

  /** The version a topology name offers: its last '/'-separated segment. */
  function OfferedVersion(topology: string): string
  {
    AfterLast(topology, '/')
  }

  /** `start_cloudshell`: reserve the first topology whose last segment is
      the version, passing the specific version through. */
  function StartCloudshell(topologies: seq<string>, version: string, specificVersion: Option<string>)
    : (r: Result<TopologyReservation, Exc>)
    ensures r.Success? <==> exists i :: 0 <= i < |topologies| && OfferedVersion(topologies[i]) == version
    ensures r.Success? ==> (
      r.value.name == ReservationName && r.value.specificVersion == specificVersion &&
      exists i :: 0 <= i < |topologies| && r.value.topology == topologies[i] && OfferedVersion(topologies[i]) == version &&
        (forall j :: 0 <= j < i ==> OfferedVersion(topologies[j]) != version))
    ensures r.Failure? ==> r.error == BaseAutomationException("CloudShell version " + version + " isn't correct")
  {
    match FirstIndex(topologies, t => OfferedVersion(t) == version)
    case None => Failure(BaseAutomationException("CloudShell version " + version + " isn't correct"))
    case Some(i) => Success(TopologyReservation(ReservationName, topologies[i], specificVersion))
  }

  /** One attribute of the CloudShell resource. */
  datatype Attribute = Attribute(name: string, value: string)

  /** The credential scan: 'OS Login' sets the OS user, 'OS Password' the
      OS password, and the scan stops once both are non-empty. */
  function ScanOsCredentials(attrs: seq<Attribute>, user: Option<string>, password: Option<string>)
    : (r: (Option<string>, Option<string>))
    ensures (forall i :: 0 <= i < |attrs| ==> attrs[i].name != "OS Login") ==> r.0 == user
    ensures (forall i :: 0 <= i < |attrs| ==> attrs[i].name != "OS Password") ==> r.1 == password
  {
    if |attrs| == 0 then (user, password)
    else
      var a := attrs[0];
      var u := if a.name == "OS Login" then Some(a.value) else user;
      var p := if a.name == "OS Login" then password else if a.name == "OS Password" then Some(a.value) else password;
      if Dicts.Truthy(u) && Dicts.Truthy(p) then (u, p) else ScanOsCredentials(attrs[1..], u, p)
  }

  /** The value of the first attribute named `name`. */
  function FirstValue(attrs: seq<Attribute>, name: string): (r: Option<string>)
    ensures r.None? <==> forall i :: 0 <= i < |attrs| ==> attrs[i].name != name
  {
    if |attrs| == 0 then None
    else if attrs[0].name == name then Some(attrs[0].value)
    else FirstValue(attrs[1..], name)
  }

  /** Each credential attribute at most once. */
  predicate CredentialsUnique(attrs: seq<Attribute>) {
    forall i, j :: 0 <= i < j < |attrs| && attrs[i].name == attrs[j].name ==>
      attrs[i].name != "OS Login" && attrs[i].name != "OS Password"
  }

  /** With each credential attribute present at most once, the scan reads
      exactly their values, stop or no stop. */
  lemma {:induction false} ScanReadsCredentials(attrs: seq<Attribute>, user: Option<string>, password: Option<string>)
    requires CredentialsUnique(attrs)
    requires Dicts.Truthy(user) ==> FirstValue(attrs, "OS Login").None?
    requires Dicts.Truthy(password) ==> FirstValue(attrs, "OS Password").None?
    ensures ScanOsCredentials(attrs, user, password) ==
      (if FirstValue(attrs, "OS Login").Some? then FirstValue(attrs, "OS Login") else user,
       if FirstValue(attrs, "OS Password").Some? then FirstValue(attrs, "OS Password") else password)
    decreases |attrs|
  {
    if |attrs| > 0 {
      var a := attrs[0];
      var rest := attrs[1..];
      assert forall i :: 0 <= i < |rest| ==> rest[i] == attrs[i + 1];
      if a.name == "OS Login" {
        assert forall i :: 0 <= i < |rest| ==> rest[i].name != "OS Login";
      }
      if a.name == "OS Password" {
        assert forall i :: 0 <= i < |rest| ==> rest[i].name != "OS Password";
      }
      var u := if a.name == "OS Login" then Some(a.value) else user;
      var p := if a.name == "OS Login" then password else if a.name == "OS Password" then Some(a.value) else password;
      if !(Dicts.Truthy(u) && Dicts.Truthy(p)) {
        ScanReadsCredentials(rest, u, p);
      }
    }
  }

  /** The scan stops as soon as both values are set, so a later repeated
      'OS Login' is ignored; while the user is still empty it is not. */
  lemma ScanStopsOnceBothSet()
    ensures ScanOsCredentials([Attribute("OS Login", "a"), Attribute("OS Password", "p"), Attribute("OS Login", "b")],
                              None, None) == (Some("a"), Some("p"))
    ensures ScanOsCredentials([Attribute("OS Login", ""), Attribute("OS Password", "p"), Attribute("OS Login", "b")],
                              None, None) == (Some("b"), Some("p"))
  {
    var xs := [Attribute("OS Login", "a"), Attribute("OS Password", "p"), Attribute("OS Login", "b")];
    assert xs[1..] == [Attribute("OS Password", "p"), Attribute("OS Login", "b")];
    var ys := [Attribute("OS Login", ""), Attribute("OS Password", "p"), Attribute("OS Login", "b")];
    assert ys[1..] == [Attribute("OS Password", "p"), Attribute("OS Login", "b")];
    assert ys[1..][1..] == [Attribute("OS Login", "b")];
  }

  /** The result of `get_new_cloudshell`, in the order of its tuple after
      the resource name. */
  datatype NewCloudShell = NewCloudShell(
    reservation: TopologyReservation, resourceName: string,
    ip: string, user: string, password: string, osUser: Option<string>, osPassword: Option<string>)

  /** `get_new_cloudshell`: reserve, wait up to 30 polls for 'Ready', take
      the reservation's first resource and read its address and OS
      credentials; the API user and password stay 'admin'. */
  function GetNewCloudshell(topologies: seq<string>, version: string, specificVersion: Option<string>,
                            statuses: nat -> string, resources: seq<string>,
                            fullAddress: string, attrs: seq<Attribute>): (r: Result<NewCloudShell, Exc>)
    ensures r.Success? ==> StartCloudshell(topologies, version, specificVersion).Success?
    ensures r.Success? ==> exists k :: 0 <= k < ReadyPolls && statuses(k) == "Ready"
    ensures r.Success? ==> |resources| > 0 && r.value.resourceName == resources[0] && r.value.ip == fullAddress
    ensures r.Success? ==> r.value.user == DefaultUser && r.value.password == DefaultPassword
    ensures r.Success? && CredentialsUnique(attrs) ==>
      r.value.osUser == FirstValue(attrs, "OS Login") && r.value.osPassword == FirstValue(attrs, "OS Password")
    ensures (StartCloudshell(topologies, version, specificVersion).Success? &&
             (forall k :: 0 <= k < ReadyPolls ==> statuses(k) != "Ready")) ==>
      r == Failure(BaseAutomationException("CloudShell isn't started"))
  {
    match StartCloudshell(topologies, version, specificVersion)
    case Failure(e) => Failure(e)
    case Success(reservation) =>
      var outcome := Poll(statuses, ReadyPolls, s => s == "Ready", s => false);
      PollSpec(statuses, ReadyPolls, s => s == "Ready", s => false);
      if !outcome.Succeeded? then Failure(BaseAutomationException("CloudShell isn't started"))
      else if |resources| == 0 then Failure(IndexError)
      else
        var (osUser, osPassword) := ScanOsCredentials(attrs, None, None);
        assert CredentialsUnique(attrs) ==>
          osUser == FirstValue(attrs, "OS Login") && osPassword == FirstValue(attrs, "OS Password") by {
          if CredentialsUnique(attrs) { ScanReadsCredentials(attrs, None, None); }
        }
        Success(NewCloudShell(reservation, resources[0], fullAddress, DefaultUser, DefaultPassword, osUser, osPassword))
  }

  /** `DoHandler.end_reservation`: the CloudShell handler's own ending
      waits up to 30 reads for 'Completed', and then this handler reads the
      status up to 30 more times, from where the first wait stopped.  The
      result is the number of status reads. */
  function EndReservation(statuses: nat -> string): (r: Result<nat, Exc>)
    ensures r.Failure? ==> r.error == BaseAutomationException("Can't end reservation")
    ensures r.Success? ==> exists i, j :: 0 <= i < j && j == r.value - 1 && statuses(i) == "Completed" && statuses(j) == "Completed"
  {
    match CsHandler.EndReservation(statuses, true)
    case Failure(e) => Failure(e)
    case Success(n) =>
      var r := SecondWait(statuses, n);
      assert r.Success? ==> statuses(n - 1) == "Completed" && n - 1 < r.value - 1;
      r
  }

  /** This handler's own wait: up to 30 reads from read `n` on; the result
      is the number of reads so far. */
  function SecondWait(statuses: nat -> string, n: nat): (r: Result<nat, Exc>)
    ensures r.Failure? ==> r.error == BaseAutomationException("Can't end reservation")
    ensures r.Success? ==> n < r.value <= n + EndPolls && statuses(r.value - 1) == "Completed"
  {
    match PollFrom(statuses, n + EndPolls, s => s == "Completed", s => false, n)
    case Succeeded(at) => Success(at + 1)
    case _ => Failure(BaseAutomationException("Can't end reservation"))
  }

  /** A reservation that stays completed once completed within 30 reads
      ends with one more read than the first wait needed. */
  lemma EndReservationStable(statuses: nat -> string, j: nat)
    requires j < EndPolls && statuses(j) == "Completed"
    requires forall i :: 0 <= i < j ==> statuses(i) != "Completed"
    requires forall i :: i >= j ==> statuses(i) == "Completed"
    ensures EndReservation(statuses) == Success(j + 2)
  {
    PollStopsAt(statuses, CsHandler.EndPolls, s => s == "Completed", s => false, j);
  }

  /** A single 'Completed' read is not enough: the second wait needs its
      own, so a status that flips back fails the end. */
  lemma EndReservationNeedsTwoReads(statuses: nat -> string)
    requires statuses(0) == "Completed"
    requires forall i :: i > 0 ==> statuses(i) != "Completed"
    ensures EndReservation(statuses).Failure?
  {
    PollStopsAt(statuses, CsHandler.EndPolls, s => s == "Completed", s => false, 0);
    PollFromSpec(statuses, 1 + EndPolls, s => s == "Completed", s => false, 1);
  }
}

/** Creating the CloudShell for a run, third generation
    (`shell_tests/helpers/do_helpers.py`): choosing the topology, up to five
    sandboxes, each torn down when its CloudShell does not come up, and the
    generated CloudShell configuration. */
module CsCreator {
  import opened Wrappers
  import opened Errors
  import opened Text
  import opened Sequences
  import Configs
  import Helpers
  import DoHandler

  /** The version a topology name offers here: everything after the first
      '/' (or the whole name). */
  function OfferedVersion(topology: string): (r: string)
    ensures !Contains(topology, "/") ==> r == topology
  {
    var parts := SplitOnce(topology, "/");
    parts[|parts| - 1]
  }

  /** `_find_topology_name_for_cloudshell`: the first of the sorted names
      whose version matches, which is the least matching name. */
  function FindTopologyName(topologies: seq<string>, csVersion: string): (r: Result<string, Exc>)
    ensures r.Success? <==> exists t :: t in topologies && OfferedVersion(t) == csVersion
    ensures r.Success? ==> (
      r.value in topologies && OfferedVersion(r.value) == csVersion &&
      forall t :: t in topologies && OfferedVersion(t) == csVersion ==> StrLe(r.value, t))
    ensures r.Failure? ==> r.error == BaseAutomationException("CloudShell version " + csVersion + " isn't exists")
  {
    var matching := Matching(topologies, csVersion);
    if |matching| == 0 then Failure(BaseAutomationException("CloudShell version " + csVersion + " isn't exists"))
    else Success(Least(matching))
  }

  function Matching(topologies: seq<string>, csVersion: string): (r: seq<string>)
    ensures forall t :: t in r <==> t in topologies && OfferedVersion(t) == csVersion
  {
    if |topologies| == 0 then []
    else
      assert forall t :: t in topologies ==> t == topologies[0] || t in topologies[1..];
      (if OfferedVersion(topologies[0]) == csVersion then [topologies[0]] else []) + Matching(topologies[1..], csVersion)
  }

  /** The two generations read a nested topology name differently: the
      older takes the last segment, this one everything after the first. */
  lemma GenerationsDisagree()
    ensures DoHandler.OfferedVersion("a/b/c") == "c"
    ensures OfferedVersion("a/b/c") == "b/c"
  {
    assert "a/b/c"[0..1] == "a";
    assert "a/b/c"[1..2] == "/";
    assert Find("a/b/c", "/") == Some(1);
    assert "a/b/c"[2..] == "b/c";
    assert LastIndexOf("a/b/c", '/') == Some(3) by {
      LastIndexOfUnique("a/b/c", '/', 3);
    }
  }

  /** One attribute of the deployed CloudShell resource. */
  datatype Attribute = Attribute(name: string, value: string)

  /** `{attr.Name: attr.Value for attr in ...}[name]`: the last value
      given for the name. */
  function LastValue(attrs: seq<Attribute>, name: string): (r: Option<string>)
    ensures r.None? <==> forall i :: 0 <= i < |attrs| ==> attrs[i].name != name
    ensures r.Some? ==> exists i :: LastFor(attrs, name, i) && attrs[i].value == r.value
  {
    if |attrs| == 0 then None
    else if attrs[|attrs| - 1].name == name then
      assert LastFor(attrs, name, |attrs| - 1);
      Some(attrs[|attrs| - 1].value)
    else
      var front := attrs[..|attrs| - 1];
      var r := LastValue(front, name);
      assert forall i :: 0 <= i < |front| ==> front[i] == attrs[i];
      assert r.Some? ==> exists i :: LastFor(attrs, name, i) && attrs[i].value == r.value by {
        if r.Some? {
          var i :| LastFor(front, name, i) && front[i].value == r.value;
          assert LastFor(attrs, name, i);
        }
      }
      r
  }

  /** Entry `i` is the last one given for `name`. */
  predicate LastFor(attrs: seq<Attribute>, name: string, i: int)
  {
    0 <= i < |attrs| && attrs[i].name == name && forall j :: i < j < |attrs| ==> attrs[j].name != name
  }

  /** `_get_cs_config`: the resource's address as host, 'admin' for the API
      user and password, and the OS credentials from the attributes, which
      must both be present. */
  function GetCsConfig(address: string, attrs: seq<Attribute>): (r: Result<Configs.CloudShellConfig, Exc>)
    ensures r.Success? <==> LastValue(attrs, "OS Login").Some? && LastValue(attrs, "OS Password").Some?
    ensures LastValue(attrs, "OS Login").None? ==> r == Failure(KeyError("OS Login"))
    ensures r.Success? ==> (
      r.value.host == Helpers.Scalar(address) &&
      r.value.user == Helpers.Scalar("admin") && r.value.password == Helpers.Scalar("admin") &&
      r.value.osUser == Some(Helpers.Scalar(LastValue(attrs, "OS Login").value)) &&
      r.value.osPassword == Some(Helpers.Scalar(LastValue(attrs, "OS Password").value)) &&
      r.value.domain == Configs.DefaultDomain)
  {
    match (LastValue(attrs, "OS Login"), LastValue(attrs, "OS Password"))
    case (None, _) => Failure(KeyError("OS Login"))
    case (_, None) => Failure(KeyError("OS Password"))
    case (Some(user), Some(password)) =>
      Success(Configs.NewCloudShellConfig(Helpers.Scalar(address), Helpers.Scalar("admin"), Helpers.Scalar("admin"),
                                          Some(Helpers.Scalar(user)), Some(Helpers.Scalar(password)), None))
  }

  const Attempts: nat := 5

  /** How one attempt goes: starting the sandbox fails, or it starts and
      then reading its configuration or waiting for the CloudShell raises,
      or the CloudShell comes up with a configuration. */
  datatype Attempt = StartFailed(error: Exc) | Failed(error: Exc) | Alive(conf: Configs.CloudShellConfig)

  /** The sandbox calls, by attempt number. */
  datatype DoCall = StartSandbox(attempt: nat) | EndSandbox(attempt: nat)

  /** The attempt failed only because the CloudShell is not alive. */
  predicate NotAlive(a: Attempt) {
    a.Failed? && a.error.CSIsNotAliveError?
  }

  /** The state after `create_cloudshell`: the result, the sandbox calls in
      order, and the sandbox handler kept for `finish`. */
  datatype Creation = Creation(result: Result<Configs.CloudShellConfig, Exc>, calls: seq<DoCall>, current: Option<nat>)

  /** The start and end of attempts `lo` to `hi - 1`. */
  function Cycles(lo: nat, hi: nat): (r: seq<DoCall>)
    requires lo <= hi
    ensures |r| == 2 * (hi - lo)
    ensures forall j :: lo <= j < hi ==> StartSandbox(j) in r && EndSandbox(j) in r
    ensures forall c :: c in r ==> (lo <= c.attempt && c.attempt < hi)
    decreases hi - lo
  {
    if lo == hi then [] else [StartSandbox(lo), EndSandbox(lo)] + Cycles(lo + 1, hi)
  }

  /** The sandbox calls of an attempt that started and then raised `e`:
      both `except` clauses end the sandbox, but a `KeyboardInterrupt`
      is caught by neither and leaves it running. */
  function FailedCalls(k: nat, e: Exc): (r: seq<DoCall>)
    ensures |r| >= 1 && r[0] == StartSandbox(k)
    ensures EndSandbox(k) in r <==> IsException(e)
  {
    if IsException(e) then [StartSandbox(k), EndSandbox(k)] else [StartSandbox(k)]
  }

  /** `create_cloudshell` from attempt `i` on. */
  function CreateFrom(outcomes: nat -> Attempt, i: nat, current: Option<nat>): (r: Creation)
    requires i <= Attempts
    decreases Attempts - i
  {
    if i == Attempts then Creation(Failure(CSIsNotAliveError("All 5 CloudShells are not started")), [], current)
    else match outcomes(i)
      case StartFailed(e) => Creation(Failure(e), [], current)
      case Alive(conf) => Creation(Success(conf), [StartSandbox(i)], Some(i))
      case Failed(e) =>
        if e.CSIsNotAliveError? then
          var next := CreateFrom(outcomes, i + 1, Some(i));
          Creation(next.result, [StartSandbox(i), EndSandbox(i)] + next.calls, next.current)
        else Creation(Failure(e), FailedCalls(i, e), Some(i))
  }

  /** `create_cloudshell`. */
  function CreateCloudshell(outcomes: nat -> Attempt): (r: Creation)
  {
    CreateFrom(outcomes, 0, None)
  }

  /** Five not-alive failures: every sandbox started and ended in turn,
      'All 5 CloudShells are not started' raised, and the last sandbox kept
      for `finish`. */
  lemma {:induction false} CreateFromAllNotAlive(outcomes: nat -> Attempt, i: nat, current: Option<nat>)
    requires i <= Attempts
    requires forall j :: i <= j < Attempts ==> NotAlive(outcomes(j))
    ensures CreateFrom(outcomes, i, current) ==
      Creation(Failure(CSIsNotAliveError("All 5 CloudShells are not started")), Cycles(i, Attempts),
               if i < Attempts then Some(4) else current)
    decreases Attempts - i
  {
    if i < Attempts {
      CreateFromAllNotAlive(outcomes, i + 1, Some(i));
    }
  }

  /** How the loop ends at attempt `k`, after the sandbox calls `calls` of
      the earlier attempts and with `kept` as the handler they left: a
      CloudShell that comes up keeps its sandbox; any other failure
      propagates, ending the sandbox first when it is an `Exception`; a
      failed start has nothing to end. */
  function StoppedAt(a: Attempt, calls: seq<DoCall>, k: nat, kept: Option<nat>): Creation
  {
    match a
    case Alive(conf) => Creation(Success(conf), calls + [StartSandbox(k)], Some(k))
    case Failed(e) => Creation(Failure(e), calls + FailedCalls(k, e), Some(k))
    case StartFailed(e) => Creation(Failure(e), calls, kept)
  }

  /** The loop stops at the first attempt that is not a not-alive failure,
      after starting and ending every earlier sandbox in order. */
  lemma {:induction false} CreateFromStopsAt(outcomes: nat -> Attempt, i: nat, current: Option<nat>, k: nat)
    requires i <= k < Attempts
    requires !NotAlive(outcomes(k))
    requires forall j :: i <= j < k ==> NotAlive(outcomes(j))
    ensures CreateFrom(outcomes, i, current) ==
      StoppedAt(outcomes(k), Cycles(i, k), k, if i < k then Some(k - 1) else current)
    decreases k - i
  {
    if i < k {
      var cycle := [StartSandbox(i), EndSandbox(i)];
      var next := CreateFrom(outcomes, i + 1, Some(i));
      assert CreateFrom(outcomes, i, current) == Creation(next.result, cycle + next.calls, next.current);
      CreateFromStopsAt(outcomes, i + 1, Some(i), k);
      var tail := Cycles(i + 1, k);
      assert next == StoppedAt(outcomes(k), tail, k, Some(k - 1));
      assert Cycles(i, k) == cycle + tail;
      StoppedAtAfter(outcomes(k), cycle, tail, k, Some(k - 1));
      assert CreateFrom(outcomes, i, current) == next.(calls := cycle + next.calls);
    } else {
      assert Cycles(k, k) == [];
      match outcomes(k)
      case Alive(conf) =>
        assert CreateFrom(outcomes, k, current) == Creation(Success(conf), [StartSandbox(k)], Some(k));
      case Failed(e) =>
        assert CreateFrom(outcomes, k, current) == Creation(Failure(e), FailedCalls(k, e), Some(k));
      case StartFailed(e) =>
        assert CreateFrom(outcomes, k, current) == Creation(Failure(e), [], current);
    }
  }

  /** Earlier sandbox calls only come before the stopping attempt's own. */
  lemma StoppedAtAfter(a: Attempt, earlier: seq<DoCall>, calls: seq<DoCall>, k: nat, kept: Option<nat>)
    ensures var r := StoppedAt(a, calls, k, kept);
      StoppedAt(a, earlier + calls, k, kept) == r.(calls := earlier + r.calls)
  {
    match a
    case Alive(_) => assert earlier + calls + [StartSandbox(k)] == earlier + (calls + [StartSandbox(k)]);
    case Failed(e) =>
      assert earlier + calls + FailedCalls(k, e) == earlier + (calls + FailedCalls(k, e));
    case StartFailed(_) =>
  }

  /** `finish`: end the kept sandbox, if there is one. */
  function Finish(current: Option<nat>): (r: seq<DoCall>)
    ensures current.None? ==> r == []
    ensures current.Some? ==> r == [EndSandbox(current.value)]
  {
    if current.Some? then [EndSandbox(current.value)] else []
  }

  /** When a later start fails, the kept handler is the previous sandbox,
      already ended; a `finish` then ends it a second time. */
  lemma FinishAfterFailedStartEndsTwice(outcomes: nat -> Attempt)
    requires NotAlive(outcomes(0)) && outcomes(1).StartFailed?
    ensures var r := CreateCloudshell(outcomes);
      r.calls == [StartSandbox(0), EndSandbox(0)] && Finish(r.current) == [EndSandbox(0)]
  {
    CreateFromStopsAt(outcomes, 0, None, 1);
    assert Cycles(0, 1) == [StartSandbox(0), EndSandbox(0)];
  }
}

=== FILE: errors.dfy ===
/** The exceptions the automation code raises or catches, as one datatype.
    Python exception classes become constructors; the message (or, for the
    CloudShell API error, the numeric code and message) is kept as data. */
module Errors {

  datatype Exc =
    | KeyError(key: string)
    | ValueError(msg: string)
    | AttributeError(msg: string)
    | TypeError(msg: string)
    | IndexError
    | NotImplementedError
    | KeyboardInterrupt
    | IOError(msg: string)
    /** `BaseAutomationException` and its subclasses. */
    | BaseAutomationException(msg: string)
    | ResourceIsNotAliveError(msg: string)
    | CreationReservationError(msg: string)
    | CSIsNotAliveError(msg: string)
    /** `CloudShellAPIError` from the CloudShell automation API. */
    | CloudShellAPIError(code: string, message: string)
    /** `OperationFailure` raised by the SMB client. */
    | SmbOperationFailure(message: string)
    /** Any exception the modelled code passes through without looking at it. */
    | Other(msg: string)

  /** The exception is an instance of Python's `Exception`, so an
      `except Exception` clause catches it: everything but
      `KeyboardInterrupt`, which derives from `BaseException` only. */
  predicate IsException(e: Exc) {
    !e.KeyboardInterrupt?
  }
}

=== FILE: helpers.dfy ===
/** The generic helpers of the second generation (`shell_tests/helpers.py`):
    recursive dictionary merging, connection parsing, driver command listing,
    URL recognition and download naming, and the context-manager and caching
    utilities. */
module Helpers {
  import opened Wrappers
  import opened Errors
  import opened Text

  // ---------------------------------------------------------------------
  // merge_dicts

  /** A YAML value: a scalar (string or number, as its text), a boolean, a
      list or a dictionary. */
  datatype Value = Scalar(s: string) | Boolean(b: bool) | List(items: seq<Value>) | Dict(entries: map<string, Value>)

  /** The merge goes through: wherever `first` holds a dictionary, `second`
      holds a dictionary or nothing, recursively, and wherever `first` holds a
      list, `second` holds a list or nothing.  Otherwise Python fails on
      `.copy()`, slicing or `.extend()` of a value of the wrong type. */
  predicate Mergeable(first: map<string, Value>, second: map<string, Value>)
    decreases Dict(first)
  {
    forall k :: k in first ==>
      match first[k]
      case Dict(d) => k !in second || (second[k].Dict? && Mergeable(d, second[k].entries))
      case List(_) => k !in second || second[k].List?
      case _ => true
  }

  /** The merged dictionary when the merge goes through. */
  function Merged(first: map<string, Value>, second: map<string, Value>): map<string, Value>
    requires Mergeable(first, second)
    decreases Dict(first), 1
  {
    map k | k in first.Keys + second.Keys ::
      if k in first then MergedEntry(first, second, k) else second[k]
  }

  /** The merged value under a key of `first`. */
  function MergedEntry(first: map<string, Value>, second: map<string, Value>, k: string): Value
    requires Mergeable(first, second) && k in first
    decreases Dict(first), 0
  {
    match first[k]
    case Dict(d) => Dict(Merged(d, if k in second then second[k].entries else map[]))
    case List(l) => List((if k in second then second[k].items else []) + l)
    case _ => first[k]
  }

  /** `merge_dicts(first, second)`: a new dictionary in which `first` wins,
      dictionaries merge recursively and lists concatenate, second's items
      first; `None` stands for the exception a type mismatch raises. */
  function MergeDicts(first: map<string, Value>, second: map<string, Value>): (r: Option<map<string, Value>>)
    ensures r.Some? <==> Mergeable(first, second)
    ensures r.Some? ==> r.value.Keys == first.Keys + second.Keys
  {
    if Mergeable(first, second) then Some(Merged(first, second)) else None
  }

  /** What each key of the merge holds: a key only in `second` keeps its
      value; a scalar of `first` overrides; a list of `first` comes after
      `second`'s list; a dictionary of `first` is merged with `second`'s
      dictionary, or with an empty one. */
  lemma MergeDictsEntries(first: map<string, Value>, second: map<string, Value>, k: string)
    requires Mergeable(first, second)
    requires k in first.Keys + second.Keys
    ensures var m := MergeDicts(first, second).value;
      k in m &&
      (k !in first ==> m[k] == second[k]) &&
      (k in first && (first[k].Scalar? || first[k].Boolean?) ==> m[k] == first[k]) &&
      (k in first && first[k].List? ==>
        m[k] == List((if k in second then second[k].items else []) + first[k].items)) &&
      (k in first && first[k].Dict? ==>
        m[k] == Dict(MergeDicts(first[k].entries, if k in second then second[k].entries else map[]).value))
  {
    var m := Merged(first, second);
    if k in first {
      assert m[k] == MergedEntry(first, second, k);
    } else {
      assert m[k] == second[k];
    }
  }

  /** Merging with an empty dictionary on the right changes nothing. */
  lemma {:induction false} MergeWithEmpty(d: map<string, Value>)
    ensures Mergeable(d, map[])
    ensures MergeDicts(d, map[]) == Some(d)
    decreases Dict(d)
  {
    forall k | k in d && d[k].Dict?
      ensures Mergeable(d[k].entries, map[]) && Merged(d[k].entries, map[]) == d[k].entries
    {
      MergeWithEmpty(d[k].entries);
    }
    assert Mergeable(d, map[]);
    forall k | k in d
      ensures MergedEntry(d, map[], k) == d[k]
    {
      match d[k]
      case Dict(e) =>
      case List(l) => assert [] + l == l;
      case _ =>
    }
    assert Merged(d, map[]) == d;
  }

  /** Merging an empty dictionary into `d` gives `d`. */
  lemma MergeEmptyInto(d: map<string, Value>)
    ensures MergeDicts(map[], d) == Some(d)
  {
    assert Merged(map[], d) == d;
  }

  /** A list in `first` meeting a scalar in `second` stops the merge. */
  lemma ListOverScalarFails(k: string, l: seq<Value>, s: string)
    ensures MergeDicts(map[k := List(l)], map[k := Scalar(s)]) == None
  {
    var first := map[k := List(l)];
    var second := map[k := Scalar(s)];
    assert first[k].List? && k in second && !second[k].List?;
  }

  // ---------------------------------------------------------------------
  // parse_connections

  /** `itertools.izip_longest(a, b, fillvalue=fill)`. */
  function ZipLongest(a: seq<string>, b: seq<string>, fill: string): (r: seq<(string, string)>)
    ensures |r| == if |a| >= |b| then |a| else |b|
    ensures forall i :: 0 <= i < |r| ==>
      r[i] == (if i < |a| then a[i] else fill, if i < |b| then b[i] else fill)
    decreases |a| + |b|
  {
    if |a| == 0 && |b| == 0 then []
    else if |b| == 0 then [(a[0], fill)] + ZipLongest(a[1..], b, fill)
    else if |a| == 0 then [(fill, b[0])] + ZipLongest(a, b[1..], fill)
    else [(a[0], b[0])] + ZipLongest(a[1..], b[1..], fill)
  }

  /** The targets paired with source port `port`, in pair order. */
  function TargetsOf(pairs: seq<(string, string)>, port: string, targetName: string): seq<(string, string)>
  {
    if |pairs| == 0 then []
    else
      TargetsOf(pairs[..|pairs| - 1], port, targetName)
        + (if pairs[|pairs| - 1].0 == port then [(targetName, pairs[|pairs| - 1].1)] else [])
  }

  /** The `defaultdict(list)` filled by appending each pair's target under
      its `(source name, source port)` key. */
  function Group(sourceName: string, targetName: string, pairs: seq<(string, string)>)
    : map<(string, string), seq<(string, string)>>
  {
    if |pairs| == 0 then map[]
    else
      var m := Group(sourceName, targetName, pairs[..|pairs| - 1]);
      var key := (sourceName, pairs[|pairs| - 1].0);
      m[key := (if key in m then m[key] else []) + [(targetName, pairs[|pairs| - 1].1)]]
  }

  /** The grouping holds, under each source port that occurs, exactly that
      port's targets in order, and nothing else. */
  lemma {:induction false} GroupSpec(sourceName: string, targetName: string, pairs: seq<(string, string)>)
    ensures forall key :: key in Group(sourceName, targetName, pairs) <==>
      key.0 == sourceName && exists i :: 0 <= i < |pairs| && pairs[i].0 == key.1
    ensures forall key :: key in Group(sourceName, targetName, pairs) ==>
      Group(sourceName, targetName, pairs)[key] == TargetsOf(pairs, key.1, targetName)
  {
    if |pairs| > 0 {
      var p := pairs[..|pairs| - 1];
      GroupSpec(sourceName, targetName, p);
      var last := pairs[|pairs| - 1];
      forall key: (string, string)
        ensures key.0 == sourceName && (exists i :: 0 <= i < |pairs| && pairs[i].0 == key.1) <==>
          key == (sourceName, last.0) || (key.0 == sourceName && exists i :: 0 <= i < |p| && p[i].0 == key.1)
      {
        if exists i :: 0 <= i < |pairs| && pairs[i].0 == key.1 {
          var i :| 0 <= i < |pairs| && pairs[i].0 == key.1;
          if i < |p| { assert p[i] == pairs[i]; }
        }
        if exists i :: 0 <= i < |p| && p[i].0 == key.1 {
          var i :| 0 <= i < |p| && p[i].0 == key.1;
          assert pairs[i] == p[i];
        }
      }
      forall key | key in Group(sourceName, targetName, pairs) && key.1 != last.0
        ensures Group(sourceName, targetName, pairs)[key] == TargetsOf(pairs, key.1, targetName)
      {
        assert TargetsOf(pairs, key.1, targetName) == TargetsOf(p, key.1, targetName) + [];
      }
      var key := (sourceName, last.0);
      if key in Group(sourceName, targetName, p) {
      } else {
        if |TargetsOf(p, last.0, targetName)| > 0 {
          TargetsOfNonEmpty(p, last.0, targetName);
        }
      }
    }
  }

  lemma {:induction false} TargetsOfNonEmpty(pairs: seq<(string, string)>, port: string, targetName: string)
    requires |TargetsOf(pairs, port, targetName)| > 0
    ensures exists i :: 0 <= i < |pairs| && pairs[i].0 == port
  {
    var p := pairs[..|pairs| - 1];
    if pairs[|pairs| - 1].0 != port {
      TargetsOfNonEmpty(p, port, targetName);
      var i :| 0 <= i < |p| && p[i].0 == port;
      assert pairs[i] == p[i];
    }
  }

  /** `parse_connections`: both port strings are split on ',', paired
      position by position with `'any'` filling the shorter side, and the
      targets are grouped by `(source name, source port)`. */
  function ParseConnections(sourceName: string, sourcePorts: string, targetName: string, targetPorts: string)
    : map<(string, string), seq<(string, string)>>
  {
    Group(sourceName, targetName, ZipLongest(Split(sourcePorts, ","), Split(targetPorts, ","), "any"))
  }

  /** The pairs behind `parse_connections`: as many as the longer port list,
      and pair `i` is the `i`th source port with the `i`th target port. */
  lemma ParseConnectionsPairs(sourcePorts: string, targetPorts: string)
    ensures var s := Split(sourcePorts, ",");
      var t := Split(targetPorts, ",");
      var pairs := ZipLongest(s, t, "any");
      |pairs| == (if |s| >= |t| then |s| else |t|) &&
      forall i :: 0 <= i < |pairs| ==>
        pairs[i].0 == (if i < |s| then s[i] else "any") &&
        pairs[i].1 == (if i < |t| then t[i] else "any")
  {
  }

  // ---------------------------------------------------------------------
  // get_driver_commands

  /** A child of a `Layout` element of `drivermetadata.xml`. */
  datatype LayoutItem = Category(commands: seq<string>) | Command(name: string)

  /** The `Name`s of `Layout/Category/Command` elements, document order. */
  function CategoryCommands(layouts: seq<seq<LayoutItem>>): seq<string>
  {
    if |layouts| == 0 then []
    else CategoryCommands(layouts[..|layouts| - 1]) + CategoryCommandsIn(layouts[|layouts| - 1])
  }

  function CategoryCommandsIn(items: seq<LayoutItem>): seq<string>
  {
    if |items| == 0 then [] else
      CategoryCommandsIn(items[..|items| - 1])
      + (if items[|items| - 1].Category? then items[|items| - 1].commands else [])
  }

  /** The `Name`s of `Layout/Command` elements, document order. */
  function LayoutCommands(layouts: seq<seq<LayoutItem>>): seq<string>
  {
    if |layouts| == 0 then []
    else LayoutCommands(layouts[..|layouts| - 1]) + LayoutCommandsIn(layouts[|layouts| - 1])
  }

  function LayoutCommandsIn(items: seq<LayoutItem>): seq<string>
  {
    if |items| == 0 then [] else
      LayoutCommandsIn(items[..|items| - 1])
      + (if items[|items| - 1].Command? then [items[|items| - 1].name] else [])
  }

  /** Some category among the items lists the command. */
  predicate CategoryLists(items: seq<LayoutItem>, c: string) {
    exists j :: 0 <= j < |items| && items[j].Category? && c in items[j].commands
  }

  /** The command sits directly among the items. */
  predicate ListsDirectly(items: seq<LayoutItem>, c: string) {
    exists j :: 0 <= j < |items| && items[j] == Command(c)
  }

  /** A `Layout/Category/Command` element is named `c`. */
  predicate InSomeCategory(layouts: seq<seq<LayoutItem>>, c: string) {
    exists l :: 0 <= l < |layouts| && CategoryLists(layouts[l], c)
  }

  /** A `Layout/Command` element is named `c`. */
  predicate DirectCommand(layouts: seq<seq<LayoutItem>>, c: string) {
    exists l :: 0 <= l < |layouts| && ListsDirectly(layouts[l], c)
  }

  /** `get_driver_commands`: every command under a category, then every
      command directly under a layout; a name is returned exactly when some
      layout lists it in one of the two places. */
  function DriverCommands(layouts: seq<seq<LayoutItem>>): (r: seq<string>)
    ensures forall c :: c in r <==> InSomeCategory(layouts, c) || DirectCommand(layouts, c)
  {
    forall c ensures c in CategoryCommands(layouts) <==> InSomeCategory(layouts, c) {
      CategoryCommandsMember(layouts, c);
    }
    forall c ensures c in LayoutCommands(layouts) <==> DirectCommand(layouts, c) {
      LayoutCommandsMember(layouts, c);
    }
    CategoryCommands(layouts) + LayoutCommands(layouts)
  }

  /** The commands before position `n` are all listed under categories,
      and those from `n` on are all placed directly in a layout. */
  predicate CategoryPartEnds(layouts: seq<seq<LayoutItem>>, r: seq<string>, n: int) {
    0 <= n <= |r| &&
    (forall i :: 0 <= i < n ==> InSomeCategory(layouts, r[i])) &&
    (forall i :: n <= i < |r| ==> DirectCommand(layouts, r[i]))
  }

  /** The category commands come first: the result splits into a part that
      only holds names listed under categories and a part that only holds
      names placed directly in a layout. */
  lemma CategoriesBeforeDirect(layouts: seq<seq<LayoutItem>>)
    ensures exists n :: CategoryPartEnds(layouts, DriverCommands(layouts), n)
  {
    var cats := CategoryCommands(layouts);
    var direct := LayoutCommands(layouts);
    var r := cats + direct;
    assert r == DriverCommands(layouts);
    forall i | 0 <= i < |cats| ensures InSomeCategory(layouts, r[i]) {
      assert r[i] == cats[i];
      CategoryCommandsMember(layouts, cats[i]);
    }
    forall i | |cats| <= i < |r| ensures DirectCommand(layouts, r[i]) {
      assert r[i] == direct[i - |cats|];
      LayoutCommandsMember(layouts, direct[i - |cats|]);
    }
    assert CategoryPartEnds(layouts, r, |cats|);
  }

  lemma {:induction false} CategoryCommandsInMember(items: seq<LayoutItem>, c: string)
    ensures c in CategoryCommandsIn(items) <==> CategoryLists(items, c)
  {
    if |items| > 0 {
      var p := items[..|items| - 1];
      var last := items[|items| - 1];
      CategoryCommandsInMember(p, c);
      if CategoryLists(items, c) {
        var j :| 0 <= j < |items| && items[j].Category? && c in items[j].commands;
        if j < |items| - 1 { assert p[j] == items[j]; }
      }
      if CategoryLists(p, c) {
        var j :| 0 <= j < |p| && p[j].Category? && c in p[j].commands;
        assert items[j] == p[j];
      }
    }
  }

  lemma {:induction false} LayoutCommandsInMember(items: seq<LayoutItem>, c: string)
    ensures c in LayoutCommandsIn(items) <==> ListsDirectly(items, c)
  {
    if |items| > 0 {
      var p := items[..|items| - 1];
      LayoutCommandsInMember(p, c);
      if ListsDirectly(items, c) {
        var j :| 0 <= j < |items| && items[j] == Command(c);
        if j < |items| - 1 { assert p[j] == items[j]; }
      }
      if ListsDirectly(p, c) {
        var j :| 0 <= j < |p| && p[j] == Command(c);
        assert items[j] == p[j];
      }
    }
  }

  lemma {:induction false} CategoryCommandsMember(layouts: seq<seq<LayoutItem>>, c: string)
    ensures c in CategoryCommands(layouts) <==> InSomeCategory(layouts, c)
  {
    if |layouts| > 0 {
      var p := layouts[..|layouts| - 1];
      CategoryCommandsMember(p, c);
      CategoryCommandsInMember(layouts[|layouts| - 1], c);
      if InSomeCategory(layouts, c) {
        var l :| 0 <= l < |layouts| && CategoryLists(layouts[l], c);
        if l < |layouts| - 1 { assert p[l] == layouts[l]; }
      }
      if InSomeCategory(p, c) {
        var l :| 0 <= l < |p| && CategoryLists(p[l], c);
        assert layouts[l] == p[l];
      }
    }
  }

  lemma {:induction false} LayoutCommandsMember(layouts: seq<seq<LayoutItem>>, c: string)
    ensures c in LayoutCommands(layouts) <==> DirectCommand(layouts, c)
  {
    if |layouts| > 0 {
      var p := layouts[..|layouts| - 1];
      LayoutCommandsMember(p, c);
      LayoutCommandsInMember(layouts[|layouts| - 1], c);
      if DirectCommand(layouts, c) {
        var l :| 0 <= l < |layouts| && ListsDirectly(layouts[l], c);
        if l < |layouts| - 1 { assert p[l] == layouts[l]; }
      }
      if DirectCommand(p, c) {
        var l :| 0 <= l < |p| && ListsDirectly(p[l], c);
        assert layouts[l] == p[l];
      }
    }
  }

  /** A command placed directly in the layout before a category still comes
      after that category's commands. */
  lemma CategoriesFirst(direct: string, inCategory: string)
    ensures DriverCommands([[Command(direct), Category([inCategory])]]) == [inCategory, direct]
  {
    var items := [Command(direct), Category([inCategory])];
    var head := [Command(direct)];
    assert items[..|items| - 1] == head;
    assert head[..|head| - 1] == [];
    assert CategoryCommandsIn(head) == [];
    assert LayoutCommandsIn(head) == [direct];
    assert CategoryCommandsIn(items) == [inCategory];
    assert LayoutCommandsIn(items) == [direct];
    var layouts := [items];
    assert layouts[..|layouts| - 1] == [];
    assert CategoryCommands(layouts) == [inCategory];
    assert LayoutCommands(layouts) == [direct];
  }

  // ---------------------------------------------------------------------
  // URLs and downloads

  /** `string.ascii_letters + string.digits + '+-.'`. */
  predicate SchemeChar(c: char) {
    'a' <= c <= 'z' || 'A' <= c <= 'Z' || IsDigit(c) || c == '+' || c == '-' || c == '.'
  }

  /** `i` is the position of the first ':' in `url`. */
  predicate FirstColon(url: string, i: int) {
    0 <= i < |url| && url[i] == ':' && ':' !in url[..i]
  }

  /** The first ':' of `url` is at `i` and ends a scheme: the text before it
      is the literal `http`, or it is non-empty, made of scheme characters,
      and what follows the ':' is empty or not all digits (not a port). */
  predicate SchemeEndsAt(url: string, i: int) {
    FirstColon(url, i) && 0 < i &&
    (url[..i] == "http" ||
     ((forall j :: 0 <= j < i ==> SchemeChar(url[j])) && (i + 1 == |url| || !AllDigits(url[i + 1..]))))
  }

  lemma FirstColonUnique(url: string, i: int, k: int)
    requires FirstColon(url, i) && FirstColon(url, k)
    ensures i == k
  {
  }

  /** `str.find(':')` finds the first ':'. */
  lemma FindColon(url: string)
    ensures Find(url, ":").Some? ==> FirstColon(url, Find(url, ":").value)
    ensures Find(url, ":").None? ==> forall i :: !FirstColon(url, i)
  {
    var f := Find(url, ":");
    if f.Some? {
      var i := f.value;
      assert url[i..i + 1] == ":";
      forall j | 0 <= j < i
        ensures url[..i][j] != ':'
      {
        if url[j] == ':' {
          assert url[j..j + 1] == ":";
          assert OccursAt(url, ":", j);
        }
      }
    } else {
      forall i | FirstColon(url, i)
        ensures false
      {
        assert url[i..i + 1] == ":";
        assert OccursAt(url, ":", i);
      }
    }
  }

  /** The scheme Python 2.7's `urlparse.urlsplit` reports: the text before
      the first ':' when it is non-empty and made of scheme characters,
      lower-cased, unless what follows the ':' is a non-empty run of digits
      (a port number); the literal prefix `http` is taken at once. */
  function UrlScheme(url: string): (r: string)
    ensures r != "" ==> exists i :: 0 < i < |url| && url[i] == ':' && r == Lower(url[..i])
    ensures r != "" ==> ':' in url
    ensures forall i :: SchemeEndsAt(url, i) ==> r == Lower(url[..i])
    ensures r != "" <==> exists i :: SchemeEndsAt(url, i)
  {
    FindColon(url);
    match Find(url, ":")
    case None => ""
    case Some(i) =>
      assert url[i] == ':';
      assert forall k :: FirstColon(url, k) ==> k == i by {
        forall k | FirstColon(url, k) ensures k == i { FirstColonUnique(url, i, k); }
      }
      if i == 0 then ""
      else if url[..i] == "http" then
        LowerHttp();
        assert SchemeEndsAt(url, i);
        "http"
      else if (forall j :: 0 <= j < i ==> SchemeChar(url[j])) &&
              (i + 1 == |url| || !AllDigits(url[i + 1..]))
      then
        assert SchemeEndsAt(url, i);
        Lower(url[..i])
      else ""
  }

  lemma LowerHttp()
    ensures Lower("http") == "http"
  {
    assert Lower("http")[0] == 'h' && Lower("http")[1] == 't' && Lower("http")[2] == 't' && Lower("http")[3] == 'p';
  }

  /** `is_url` of the second generation: one of the five download schemes. */
  predicate IsUrl(url: string) {
    UrlScheme(url) in DownloadSchemes
  }

  const DownloadSchemes: set<string> := {"http", "https", "ftp", "ftps", "tftp"}

  /** A URL has a ':' after a scheme that lower-cases to a download scheme,
      so a plain file path never counts as one; and every first ':' that
      ends such a scheme makes the text a URL. */
  lemma IsUrlSpec(url: string)
    ensures IsUrl(url) ==>
      exists i :: 0 < i < |url| && url[i] == ':' && Lower(url[..i]) in {"http", "https", "ftp", "ftps", "tftp"}
    ensures ':' !in url ==> !IsUrl(url)
    ensures IsUrl(url) <==> exists i :: SchemeEndsAt(url, i) && Lower(url[..i]) in DownloadSchemes
  {
    if IsUrl(url) {
      assert UrlScheme(url) != "";
      var i :| SchemeEndsAt(url, i);
      assert Lower(url[..i]) in DownloadSchemes;
    }
  }

  /** Lower-case ASCII letters only. */
  predicate LowerWord(s: string) {
    forall j :: 0 <= j < |s| ==> 'a' <= s[j] <= 'z'
  }

  /** `scheme://rest` is a URL for each download scheme, whatever follows
      the "//". */
  lemma {:induction false} DownloadSchemeIsUrl(scheme: string, rest: string)
    requires scheme in DownloadSchemes
    ensures IsUrl(scheme + "://" + rest)
  {
    var url := scheme + "://" + rest;
    var i := |scheme|;
    assert LowerWord(scheme);
    assert url[..i] == scheme;
    assert url[i] == ':';
    assert url[i + 1] == '/';
    assert !AllDigits(url[i + 1..]) by { assert url[i + 1..][0] == '/'; }
    assert Lower(scheme) == scheme;
    assert SchemeEndsAt(url, i);
    IsUrlSpec(url);
  }

  /** The usual shell archive addresses are URLs. */
  lemma HttpArchiveIsUrl()
    ensures IsUrl("http://h/shell.zip")
  {
    var rest := "h/shell.zip";
    DownloadSchemeIsUrl("http", rest);
    assert "http" + "://" + rest == "http://h/shell.zip";
  }

  lemma FtpArchiveIsUrl()
    ensures IsUrl("ftp://h/shell.zip")
  {
    var rest := "h/shell.zip";
    DownloadSchemeIsUrl("ftp", rest);
    assert "ftp" + "://" + rest == "ftp://h/shell.zip";
  }

  /** `download_file`'s target name: the text after the last '/'. */
  function DownloadFileName(url: string): (r: string)
    ensures '/' !in r
    ensures '/' in url ==> exists i :: 0 <= i < |url| && url[i] == '/' && r == url[i + 1..]
    ensures '/' !in url ==> r == url
  {
    AfterLast(url, '/')
  }

  /** `os.path.join(folder, name)` on POSIX for a `name` without '/'. */
  function PathJoin(folder: string, name: string): string
  {
    if folder == "" || folder[|folder| - 1] == '/' then folder + name else folder + "/" + name
  }

  // ---------------------------------------------------------------------
  // Context managers and caching

  /** `call_exit_func_on_exc(enter)`: a successful `__enter__` returns its
      value; one that raises an `Exception` calls `__exit__`, whose truthy
      answer turns the failure into a `None` return.  `KeyboardInterrupt`
      is not caught: it leaves at once and `__exit__` does not run.  The
      flag records whether `__exit__` ran. */
  function CallExitFuncOnExc<T>(entered: Result<T, Exc>, exitSuppresses: bool): (r: (Result<Option<T>, Exc>, bool))
    ensures r.1 <==> entered.Failure? && IsException(entered.error)
    ensures r.0.Failure? <==> entered.Failure? && (!IsException(entered.error) || !exitSuppresses)
    ensures r.0.Failure? ==> r.0.error == entered.error
    ensures r.0.Success? && r.0.value.Some? ==> entered == Success(r.0.value.value)
  {
    match entered
    case Success(v) => (Success(Some(v)), false)
    case Failure(e) =>
      if !IsException(e) then (Failure(e), false)
      else (if exitSuppresses then Success(None) else Failure(e), true)
  }

  /** `cached_property` and the hand-written memos: the first access computes
      the value and stores it; later accesses return the stored value. */
  function CachedGet<T>(cache: Option<T>, compute: T): (r: (T, Option<T>))
    ensures r.1 == Some(r.0)
    ensures cache.Some? ==> r.0 == cache.value
  {
    match cache
    case Some(v) => (v, cache)
    case None => (compute, Some(compute))
  }

  /** Once computed, a cached value no longer depends on what a later
      computation would give. */
  lemma CachedOnce<T>(first: T, later: T)
    ensures CachedGet(CachedGet(None, first).1, later).0 == first
  {
  }

  /** The ping count flag: `n` on Windows, `c` elsewhere. */
  function PingCountFlag(system: string): (r: string)
    ensures r == "n" <==> Lower(system) == "windows"
    ensures r == "n" || r == "c"
  {
    if Lower(system) == "windows" then "n" else "c"
  }

  /** The ping command line `is_host_alive` runs. */
  function PingCommand(system: string, host: string): string
  {
    "ping -" + PingCountFlag(system) + " 1 " + host
  }
}

=== FILE: legacy_resource.dfy ===
/** The first-generation resource handler (`src/resource_handler.py`):
    family and model read from the shell's node types and cached together,
    its own URL test, and the calls of preparing and deleting a resource.
    The package archive is reduced to its node types, the CloudShell calls
    to events, and their failures to an outcome per call. */
module LegacyResource {
  import opened Wrappers
  import opened Errors
  import opened Text
  import opened Helpers
  import opened Sequences
  import Dicts
  import ShellHandler

  // ---------------------------------------------------------------------
  // Family and model

  /** One entry of the shell definition's 'node_types': its key and its
      'derived_from' value, when present. */
  datatype NodeType = NodeType(name: string, derivedFrom: Option<string>)

  /** The part of a dotted name after its last '.'. */
  function LastSegment(s: string): (r: string)
    ensures '.' !in r
    ensures '.' !in s ==> r == s
    ensures '.' in s ==> |r| < |s| && s == s[..|s| - |r| - 1] + "." + r
  {
    AfterLast(s, '.')
  }

  const FamilyPrefix: string := "CS_"

  /** `_get_resource_family_and_model`: the model is the last segment of
      the first node type's name, the family 'CS_' plus the last segment
      of what that node type derives from.  No node type fails the index,
      a missing 'derived_from' fails the key lookup. */
  function FamilyAndModel(nodeTypes: seq<NodeType>): (r: Result<(string, string), Exc>)
    ensures |nodeTypes| == 0 ==> r.Failure? && r.error.IndexError?
    ensures |nodeTypes| > 0 && nodeTypes[0].derivedFrom.None? ==> r == Failure(KeyError("derived_from"))
    ensures r.Success? ==> (
      var (family, model) := r.value;
      |nodeTypes| > 0 && nodeTypes[0].derivedFrom.Some? &&
      |family| >= |FamilyPrefix| && family[..|FamilyPrefix|] == FamilyPrefix && '.' !in family[|FamilyPrefix|..] && '.' !in model &&
      IsSuffix(model, nodeTypes[0].name) && IsSuffix(family[|FamilyPrefix|..], nodeTypes[0].derivedFrom.value))
    ensures r.Success? <==> |nodeTypes| > 0 && nodeTypes[0].derivedFrom.Some?
    ensures r.Success? ==>
      r.value.1 == LastSegment(nodeTypes[0].name) &&
      r.value.0 == FamilyPrefix + LastSegment(nodeTypes[0].derivedFrom.value)
  {
    if |nodeTypes| == 0 then Failure(IndexError)
    else
      var first := nodeTypes[0];
      match first.derivedFrom
      case None => Failure(KeyError("derived_from"))
      case Some(base) =>
        var model := LastSegment(first.name);
        var family := FamilyPrefix + LastSegment(base);
        AfterLastIsSuffix(first.name, '.');
        AfterLastIsSuffix(base, '.');
        assert family[|FamilyPrefix|..] == LastSegment(base);
        Success((family, model))
  }

  /** `t` ends `s`. */
  predicate IsSuffix(t: string, s: string)
  {
    |t| <= |s| && s[|s| - |t|..] == t
  }

  /** `AfterLast` returns a suffix of its input. */
  lemma AfterLastIsSuffix(s: string, c: char)
    ensures IsSuffix(AfterLast(s, c), s)
  {
    var r := AfterLast(s, c);
    if c in s {
      assert s[|s| - |r|..] == r;
    }
  }

  /** The last segment of a dotted name is what follows its final dot. */
  lemma LastSegmentAfterDot(prefix: string, segment: string)
    requires '.' !in segment
    ensures LastSegment(prefix + "." + segment) == segment
  {
    var s := prefix + "." + segment;
    assert s[|prefix|] == '.';
    assert s[|prefix| + 1..] == segment;
    LastIndexOfUnique(s, '.', |prefix|);
  }

  /** A shell whose node type is `vendor.Model`, derived from
      `cloudshell.Switch`, is a `CS_Switch` of model `Model`. */
  lemma FamilyAndModelExample()
    ensures FamilyAndModel([NodeType("vendor.Model", Some("cloudshell.Switch"))]) == Success(("CS_Switch", "Model"))
  {
    LastIndexOfUnique("vendor.Model", '.', 6);
    LastIndexOfUnique("cloudshell.Switch", '.', 10);
    assert FamilyPrefix + "Switch" == "CS_Switch";
  }

  /** The two cached fields behind `resource_family` and `resource_model`. */
  datatype Cache = Cache(family: Option<string>, model: Option<string>)

  /** Reading `resource_family` or `resource_model`: when the field read
      is unset, both are computed together and stored; otherwise nothing
      is computed.  A failing computation leaves the cache as it was. */
  function ReadCached(cache: Cache, wantFamily: bool, compute: Result<(string, string), Exc>): (r: (Result<string, Exc>, Cache, bool))
    ensures r.2 <==> (if wantFamily then cache.family.None? else cache.model.None?)
    ensures !r.2 ==> r.1 == cache && r.0 == Success(if wantFamily then cache.family.value else cache.model.value)
    ensures r.2 && compute.Failure? ==> r.1 == cache && r.0 == Failure(compute.error)
    ensures r.2 && compute.Success? ==> (
      r.1 == Cache(Some(compute.value.0), Some(compute.value.1)) &&
      r.0 == Success(if wantFamily then compute.value.0 else compute.value.1))
  {
    var unset := if wantFamily then cache.family.None? else cache.model.None?;
    if !unset then (Success(if wantFamily then cache.family.value else cache.model.value), cache, false)
    else match compute
      case Failure(e) => (Failure(e), cache, true)
      case Success((family, model)) => (Success(if wantFamily then family else model), Cache(Some(family), Some(model)), true)
  }

  /** The archive is read at most once: after one successful read of
      either property, both later reads answer from the cache, whatever a
      new computation would give. */
  lemma ReadOnce(first: bool, second: bool, compute: Result<(string, string), Exc>, later: Result<(string, string), Exc>)
    requires compute.Success?
    ensures var (_, cache, _) := ReadCached(Cache(None, None), first, compute);
      var (value, cache2, computed) := ReadCached(cache, second, later);
      !computed && cache2 == cache && value == Success(if second then compute.value.0 else compute.value.1)
  {
  }

  // ---------------------------------------------------------------------
  // URLs

  /** `ResourceHandler.is_url`: any non-empty scheme counts. */
  predicate IsAnyUrl(url: string) {
    UrlScheme(url) != ""
  }

  /** Every download URL of the second generation is a URL here too. */
  lemma DownloadUrlsAreUrls(url: string)
    ensures IsUrl(url) ==> IsAnyUrl(url)
  {
  }

  /** A Windows drive path has a one-letter scheme, so the first
      generation takes it for a URL and tries to download it, while the
      second generation keeps it as a local path. */
  lemma DrivePathIsAUrl()
    ensures IsAnyUrl("C:\\shell.zip")
    ensures !IsUrl("C:\\shell.zip")
  {
    var path := "C:\\shell.zip";
    assert path[1..2] == ":";
    assert path[0] == 'C';
    assert Find(path, ":") == Some(1);
    assert path[..1] == "C";
    assert path[2] == '\\';
    assert !AllDigits(path[2..]) by {
      assert path[2..][0] == '\\';
    }
    assert Lower("C") == "c" by {
      assert Lower("C")[0] == 'c';
    }
    assert UrlScheme(path) == "c";
  }

  // ---------------------------------------------------------------------
  // Preparing and deleting

  const ReservationName: string := "automation_tests"

  /** The handler's state: the shell and dependency paths, whether each
      was downloaded, the reservation id, and the resource name. */
  datatype Resource = Resource(
    shellPath: string,
    shellDownloaded: bool,
    dependenciesPath: Option<string>,
    dependenciesDownloaded: bool,
    deviceIp: string,
    reservationId: Option<string>,
    resourceName: string)

  /** The handler as constructed: nothing downloaded, no reservation. */
  function NewResource(shellPath: string, dependenciesPath: Option<string>, deviceIp: string, resourceName: string): (r: Resource)
    ensures !r.shellDownloaded && !r.dependenciesDownloaded && r.reservationId.None?
  {
    Resource(shellPath, false, dependenciesPath, false, deviceIp, None, resourceName)
  }

  /** The handler's calls. */
  datatype Call =
    | UploadDependencies(path: string)
    | InstallShell(path: string)
    | CreateReservation(name: string)
    | CreateResource(name: string, family: string, model: string, ip: string)
    | AddResourceToReservation(reservationId: string, resourceName: string)
    | ClearOfflinePypi
    | RemoveFile(path: string)
    | DeleteReservation(heldId: Option<string>)
    | DeleteResource(name: string)

  /** A path after `download_file` when it is a URL. */
  function Fetch(folder: string, path: string): (r: (string, bool))
    ensures r.1 <==> IsAnyUrl(path)
    ensures r.1 ==> r.0 == ShellHandler.DownloadTarget(folder, path)
    ensures !r.1 ==> r.0 == path
  {
    if IsAnyUrl(path) then (ShellHandler.DownloadTarget(folder, path), true) else (path, false)
  }

  /** The handler once prepared: the paths as downloaded, the reservation
      id, and the name the resource was created under. */
  function PreparedResource(r: Resource, folder: string, id: string, created: string): (p: Resource)
    ensures p.reservationId == Some(id) && p.resourceName == created && p.deviceIp == r.deviceIp
    ensures p.shellDownloaded <==> IsAnyUrl(r.shellPath)
    ensures p.dependenciesDownloaded <==> Dicts.Truthy(r.dependenciesPath) && IsAnyUrl(r.dependenciesPath.value)
    ensures p.shellDownloaded ==> p.shellPath == ShellHandler.DownloadTarget(folder, r.shellPath)
    ensures p.dependenciesDownloaded ==>
      p.dependenciesPath == Some(ShellHandler.DownloadTarget(folder, r.dependenciesPath.value))
  {
    var deps := Dicts.Truthy(r.dependenciesPath);
    var (depsPath, depsFetched) := if deps then Fetch(folder, r.dependenciesPath.value) else (r.dependenciesPath.UnwrapOr(""), false);
    var (shellPath, shellFetched) := Fetch(folder, r.shellPath);
    Resource(shellPath, shellFetched, if deps then Some(depsPath) else r.dependenciesPath, depsFetched,
             r.deviceIp, Some(id), created)
  }

  /** The calls `prepare_resource` makes when none fails: the dependencies
      when a path is set, the shell, the reservation, the resource under
      its configured name, and the created name added to the
      reservation. */
  function PrepareCalls(r: Resource, folder: string, family: string, model: string, id: string, created: string): (calls: seq<Call>)
    ensures var p := PreparedResource(r, folder, id, created);
      |calls| >= 4 &&
      calls[|calls| - 4] == InstallShell(p.shellPath) &&
      calls[|calls| - 3] == CreateReservation(ReservationName) &&
      calls[|calls| - 2] == CreateResource(r.resourceName, family, model, r.deviceIp) &&
      calls[|calls| - 1] == AddResourceToReservation(id, created) &&
      (|calls| == 5 <==> Dicts.Truthy(r.dependenciesPath)) &&
      (|calls| == 5 ==> calls[0] == UploadDependencies(p.dependenciesPath.value))
    ensures forall i :: 0 <= i < |calls| ==> (
      !calls[i].ClearOfflinePypi? && !calls[i].RemoveFile? && !calls[i].DeleteReservation? && !calls[i].DeleteResource?)
  {
    var p := PreparedResource(r, folder, id, created);
    (if Dicts.Truthy(r.dependenciesPath) then [UploadDependencies(p.dependenciesPath.value)] else []) +
    [InstallShell(p.shellPath), CreateReservation(ReservationName),
     CreateResource(r.resourceName, family, model, r.deviceIp), AddResourceToReservation(id, created)]
  }

  /** What preparing did: the calls made and the prepared handler or the
      failure that stopped it. */
  datatype Prepared = Prepared(calls: seq<Call>, result: Result<Resource, Exc>)

  /** `prepare_resource` under `__enter__`: the calls in order, stopping at
      the first that fails.  The reservation id and the created name are
      the answers of the two creating calls.  `__enter__` has no clean-up
      of its own. */
  function Prepare(r: Resource, folder: string, family: string, model: string, id: string, created: string,
                   fails: Call -> Option<Exc>): (p: Prepared)
    ensures var planned := PrepareCalls(r, folder, family, model, id, created);
      (p.result.Success? <==> forall i :: 0 <= i < |planned| ==> fails(planned[i]).None?) &&
      (p.result.Success? ==> p.calls == planned && p.result.value == PreparedResource(r, folder, id, created)) &&
      (p.result.Failure? ==> (
        0 < |p.calls| <= |planned| && p.calls == planned[..|p.calls|] &&
        fails(p.calls[|p.calls| - 1]) == Some(p.result.error)))
  {
    var planned := PrepareCalls(r, folder, family, model, id, created);
    match FirstIndex(planned, (c: Call) => fails(c).Some?)
    case None => Prepared(planned, Success(PreparedResource(r, folder, id, created)))
    case Some(j) =>
      var done := planned[..j + 1];
      assert done[j] == planned[j];
      Prepared(done, Failure(fails(planned[j]).value))
  }

  /** `delete_resource`: clear the offline PyPI when a dependencies path is
      set, remove the downloaded shell, then the downloaded dependencies,
      then delete the reservation and the resource.  Every downloaded file
      is removed, and nothing else is. */
  function Delete(r: Resource): (calls: seq<Call>)
    ensures |calls| >= 2
    ensures calls[|calls| - 2] == DeleteReservation(r.reservationId) && calls[|calls| - 1] == DeleteResource(r.resourceName)
    ensures ClearOfflinePypi in calls <==> Dicts.Truthy(r.dependenciesPath)
    ensures Dicts.Truthy(r.dependenciesPath) ==> calls[0] == ClearOfflinePypi
    ensures r.shellDownloaded ==> RemoveFile(r.shellPath) in calls
    ensures r.dependenciesDownloaded ==> RemoveFile(r.dependenciesPath.UnwrapOr("")) in calls
    ensures forall c :: c in calls && c.RemoveFile? ==>
      (r.shellDownloaded && c.path == r.shellPath) || (r.dependenciesDownloaded && c.path == r.dependenciesPath.UnwrapOr(""))
    ensures forall i :: 0 <= i < |calls| && calls[i].RemoveFile? ==>
      i < |calls| - 2 && (Dicts.Truthy(r.dependenciesPath) ==> 0 < i)
    ensures r.shellDownloaded && r.dependenciesDownloaded ==> (
      |calls| >= 4 &&
      calls[|calls| - 4] == RemoveFile(r.shellPath) && calls[|calls| - 3] == RemoveFile(r.dependenciesPath.UnwrapOr("")))
  {
    (if Dicts.Truthy(r.dependenciesPath) then [ClearOfflinePypi] else []) +
    (if r.shellDownloaded then [RemoveFile(r.shellPath)] else []) +
    (if r.dependenciesDownloaded then [RemoveFile(r.dependenciesPath.UnwrapOr(""))] else []) +
    [DeleteReservation(r.reservationId), DeleteResource(r.resourceName)]
  }

  /** `__exit__` deletes and suppresses nothing. */
  function Exit(r: Resource): (x: (seq<Call>, bool))
    ensures !x.1
    ensures x.0 == Delete(r)
  {
    (Delete(r), false)
  }

  /** A successful preparation of a URL shell is undone by the exit: the
      downloaded file, the reservation and the renamed resource are all
      removed. */
  lemma ExitUndoesPrepare(folder: string, shellUrl: string, deviceIp: string, name: string, id: string, created: string)
    requires IsAnyUrl(shellUrl)
    ensures Exit(PreparedResource(NewResource(shellUrl, None, deviceIp, name), folder, id, created)).0 ==
      [RemoveFile(ShellHandler.DownloadTarget(folder, shellUrl)), DeleteReservation(Some(id)), DeleteResource(created)]
  {
    var p := PreparedResource(NewResource(shellUrl, None, deviceIp, name), folder, id, created);
    assert p == Resource(ShellHandler.DownloadTarget(folder, shellUrl), true, None, false, deviceIp, Some(id), created);
    DeleteDownloadedShell(p);
  }

  /** Some call uploads the dependencies. */
  predicate UploadsDependencies(calls: seq<Call>) {
    exists i :: 0 <= i < |calls| && calls[i].UploadDependencies?
  }

  /** Whatever the paths, the exit after a successful preparation undoes
      it: the reservation and the created resource are deleted, each
      download is removed, and the offline PyPI is cleared only after an
      upload, and always after one whose local path is non-empty. */
  lemma ExitUndoesEveryPrepare(r: Resource, folder: string, family: string, model: string, id: string,
                               created: string, fails: Call -> Option<Exc>)
    requires Prepare(r, folder, family, model, id, created, fails).result.Success?
    ensures var p := Prepare(r, folder, family, model, id, created, fails).result.value;
      DeleteReservation(Some(id)) in Exit(p).0 && DeleteResource(created) in Exit(p).0
    ensures var prepared := Prepare(r, folder, family, model, id, created, fails);
      ClearOfflinePypi in Exit(prepared.result.value).0 ==> UploadsDependencies(prepared.calls)
    ensures var prepared := Prepare(r, folder, family, model, id, created, fails);
      UploadsDependencies(prepared.calls) && Dicts.Truthy(prepared.result.value.dependenciesPath) ==>
        ClearOfflinePypi in Exit(prepared.result.value).0
    ensures var p := Prepare(r, folder, family, model, id, created, fails).result.value;
      IsAnyUrl(r.shellPath) ==> RemoveFile(ShellHandler.DownloadTarget(folder, r.shellPath)) in Exit(p).0
    ensures var p := Prepare(r, folder, family, model, id, created, fails).result.value;
      Dicts.Truthy(r.dependenciesPath) && IsAnyUrl(r.dependenciesPath.value) ==>
        RemoveFile(ShellHandler.DownloadTarget(folder, r.dependenciesPath.value)) in Exit(p).0
  {
    var prepared := Prepare(r, folder, family, model, id, created, fails);
    var p := PreparedResource(r, folder, id, created);
    var planned := PrepareCalls(r, folder, family, model, id, created);
    assert prepared.calls == planned && prepared.result.value == p;
    var undo := Delete(p);
    assert Exit(p).0 == undo;
    UploadsIffDependencies(r, folder, family, model, id, created);
    assert Dicts.Truthy(p.dependenciesPath) ==> Dicts.Truthy(r.dependenciesPath);
  }

  /** The preparation uploads dependencies exactly when a dependencies
      path is set. */
  lemma UploadsIffDependencies(r: Resource, folder: string, family: string, model: string, id: string, created: string)
    ensures UploadsDependencies(PrepareCalls(r, folder, family, model, id, created)) <==> Dicts.Truthy(r.dependenciesPath)
  {
    var planned := PrepareCalls(r, folder, family, model, id, created);
    if UploadsDependencies(planned) {
      var i :| 0 <= i < |planned| && planned[i].UploadDependencies?;
      assert i < |planned| - 4;
    }
    if Dicts.Truthy(r.dependenciesPath) {
      assert planned[0].UploadDependencies?;
    }
  }

  /** Deleting a handler with only a downloaded shell. */
  lemma DeleteDownloadedShell(r: Resource)
    requires r.dependenciesPath.None? && r.shellDownloaded && !r.dependenciesDownloaded
    ensures Delete(r) == [RemoveFile(r.shellPath), DeleteReservation(r.reservationId), DeleteResource(r.resourceName)]
  {
    assert Delete(r) == [] + [RemoveFile(r.shellPath)] + [] + [DeleteReservation(r.reservationId), DeleteResource(r.resourceName)];
  }

  /** A preparation that fails after the reservation and the resource were
      created leaves both in place: `__enter__` raises before the `with`
      block, so no exit runs and no delete call is made. */
  lemma FailedPrepareDeletesNothing(r: Resource, folder: string, family: string, model: string, id: string,
                                    created: string, fails: Call -> Option<Exc>)
    requires fails(AddResourceToReservation(id, created)).Some?
    requires forall c :: c != AddResourceToReservation(id, created) ==> fails(c).None?
    ensures var p := Prepare(r, folder, family, model, id, created, fails);
      p.result.Failure? && CreateReservation(ReservationName) in p.calls &&
      CreateResource(r.resourceName, family, model, r.deviceIp) in p.calls &&
      forall i :: 0 <= i < |p.calls| ==> !p.calls[i].DeleteReservation? && !p.calls[i].DeleteResource?
  {
    var planned := PrepareCalls(r, folder, family, model, id, created);
    var n := |planned|;
    assert fails(planned[n - 1]).Some?;
    var p := Prepare(r, folder, family, model, id, created, fails);
    assert p.calls == planned by {
      forall i | 0 <= i < n - 1 ensures fails(planned[i]).None? {
        assert planned[i] != AddResourceToReservation(id, created) by {
          assert planned[i].UploadDependencies? || planned[i].InstallShell? || planned[i].CreateReservation? || planned[i].CreateResource?;
        }
      }
    }
    assert p.calls[n - 3] == CreateReservation(ReservationName);
    assert p.calls[n - 2] == CreateResource(r.resourceName, family, model, r.deviceIp);
  }
}

=== FILE: legacy_run.dfy ===
/** The first-generation entry point (`src/run_tests.py`): which tests run
    against which address, when the SMB client and the attributes are set
    up, how the suite is assembled, and the DO reservation that `main`
    always ends.  The test runs and the DO calls are inputs. */
module LegacyRun {
  import opened Wrappers
  import opened Errors
  import opened Sequences
  import Dicts

  datatype TestClass = TestAutoload | TestRunCustomCommand | TestDriverInstalled

  /** One suite entry: a test class instantiated for one of its methods. */
  datatype TestEntry = TestEntry(testClass: TestClass, testName: string)

  /** The entries of one class, in the loader's method order. */
  function EntriesOf(methodsOf: TestClass -> seq<string>): TestClass -> seq<TestEntry>
  {
    (c: TestClass) => seq(|methodsOf(c)|, i requires 0 <= i < |methodsOf(c)| => TestEntry(c, methodsOf(c)[i]))
  }

  /** `_run_tests`'s suite: every test method of every class, class by
      class in the order given. */
  function Suite(classes: seq<TestClass>, methodsOf: TestClass -> seq<string>): (r: seq<TestEntry>)
    ensures forall e :: e in r <==> e.testClass in classes && e.testName in methodsOf(e.testClass)
  {
    SuiteMembers(classes, methodsOf);
    FlatMap(classes, EntriesOf(methodsOf))
  }

  lemma SuiteMembers(classes: seq<TestClass>, methodsOf: TestClass -> seq<string>)
    ensures forall e :: e in FlatMap(classes, EntriesOf(methodsOf)) <==>
      e.testClass in classes && e.testName in methodsOf(e.testClass)
  {
    forall e ensures e in FlatMap(classes, EntriesOf(methodsOf)) <==>
      e.testClass in classes && e.testName in methodsOf(e.testClass)
    {
      FlatMapMember(classes, EntriesOf(methodsOf), e);
      if e.testClass in classes && e.testName in methodsOf(e.testClass) {
        var i :| 0 <= i < |classes| && classes[i] == e.testClass;
        var k :| 0 <= k < |methodsOf(e.testClass)| && methodsOf(e.testClass)[k] == e.testName;
        assert EntriesOf(methodsOf)(classes[i])[k] == e;
      }
    }
  }

  /** The suite keeps the classes apart: all the entries of the first
      classes come before any entry of the later ones. */
  lemma SuiteInClassOrder(first: seq<TestClass>, later: seq<TestClass>, methodsOf: TestClass -> seq<string>)
    ensures Suite(first + later, methodsOf) == Suite(first, methodsOf) + Suite(later, methodsOf)
  {
    FlatMapAppend(first, later, EntriesOf(methodsOf));
  }

  const LocalIp: string := "127.0.0.1"

  /** The resource configuration as far as `run_tests` reads it. */
  datatype Conf = Conf(
    osUser: Option<string>,
    osPassword: Option<string>,
    deviceIp: Option<string>,
    attributes: Dicts.Dict<string>)

  /** What `run_tests` sets up: whether an SMB client is built, the address
      the resource is created with, the test classes, and whether the
      attributes are sent. */
  datatype Plan = Plan(smb: bool, ip: string, classes: seq<TestClass>, setsAttributes: bool)

  /** `run_tests`: SMB needs both OS credentials; with a device address the
      autoload and custom-command tests run against it and the attributes
      are always sent; without one only the driver-installed test runs,
      against the local address, and empty attributes are not sent. */
  function RunTests(conf: Conf): (p: Plan)
    ensures p.smb <==> Dicts.Truthy(conf.osUser) && Dicts.Truthy(conf.osPassword)
    ensures TestDriverInstalled in p.classes <==> !Dicts.Truthy(conf.deviceIp)
    ensures TestDriverInstalled in p.classes ==> p.classes == [TestDriverInstalled] && p.ip == LocalIp
    ensures TestDriverInstalled !in p.classes ==> p.classes == [TestAutoload, TestRunCustomCommand] && p.ip == conf.deviceIp.value
    ensures p.setsAttributes <==> Dicts.Truthy(conf.deviceIp) || conf.attributes != []
  {
    var smb := Dicts.Truthy(conf.osUser) && Dicts.Truthy(conf.osPassword);
    if Dicts.Truthy(conf.deviceIp) then Plan(smb, conf.deviceIp.value, [TestAutoload, TestRunCustomCommand], true)
    else Plan(smb, LocalIp, [TestDriverInstalled], conf.attributes != [])
  }

  /** The tests never run the driver-installed check next to the device
      tests: the two suites share no entry. */
  lemma SuitesDisjoint(withDevice: Conf, withoutDevice: Conf, methodsOf: TestClass -> seq<string>, e: TestEntry)
    requires Dicts.Truthy(withDevice.deviceIp) && !Dicts.Truthy(withoutDevice.deviceIp)
    ensures !(e in Suite(RunTests(withDevice).classes, methodsOf) && e in Suite(RunTests(withoutDevice).classes, methodsOf))
  {
  }

  /** The credentials the DO sandbox answers with. */
  datatype NewCloudShell = NewCloudShell(ip: string, user: string, password: string,
                                         osUser: Option<string>, osPassword: Option<string>)

  /** What `main` did: its result, the plan the tests ran with (if they
      ran), and whether the DO reservation was ended. */
  datatype MainRun = MainRun(result: Result<string, Exc>, plan: Option<Plan>, endedDo: bool)

  /** `main`: with a DO configuration a new CloudShell is requested, its
      credentials replace the configured ones, the tests run, and the DO
      reservation is ended in `finally` whether or not anything raised;
      without one the tests run directly. */
  function Main(conf: Conf, doAnswer: Option<Result<NewCloudShell, Exc>>, tests: Plan -> Result<string, Exc>): (r: MainRun)
    ensures r.endedDo <==> doAnswer.Some?
    ensures doAnswer.None? ==> r.plan == Some(RunTests(conf))
    ensures doAnswer.Some? && doAnswer.value.Failure? ==> r.plan.None? && r.result == Failure(doAnswer.value.error)
    ensures doAnswer.Some? && doAnswer.value.Success? ==> (
      r.plan.Some? &&
      (r.plan.value.smb <==> Dicts.Truthy(doAnswer.value.value.osUser) && Dicts.Truthy(doAnswer.value.value.osPassword)))
    ensures r.plan.Some? ==> r.result == tests(r.plan.value)
  {
    match doAnswer
    case None =>
      var plan := RunTests(conf);
      MainRun(tests(plan), Some(plan), false)
    case Some(Failure(e)) => MainRun(Failure(e), None, true)
    case Some(Success(cs)) =>
      var plan := RunTests(conf.(osUser := cs.osUser, osPassword := cs.osPassword));
      MainRun(tests(plan), Some(plan), true)
  }
}

=== FILE: liveness.dfy ===
/** The reachability check run before any CloudShell work
    (`shell_tests/helpers/check_resource_is_alive.py`, and the same check in
    `shell_tests/run_tests.py`): a map from a display name to the host to
    ping, checked in order until the first host that does not answer.  The
    ping itself is the uninterpreted predicate `alive`. */
module Liveness {
  import opened Wrappers
  import opened Errors
  import opened Sequences
  import opened Dicts

  /** A configured resource as the check sees it. */
  datatype Target = Target(name: string, deviceIp: Option<string>)

  /** The device IP of the last resource named `name` with a non-empty IP:
      a later entry of a dict comprehension replaces an earlier one. */
  function LastIp(resources: seq<Target>, name: string): (r: Option<string>)
    ensures r.Some? ==> r.value != ""
    ensures r.None? <==> forall i :: 0 <= i < |resources| && resources[i].name == name ==> !Truthy(resources[i].deviceIp)
  {
    if |resources| == 0 then None
    else
      var last := resources[|resources| - 1];
      var init := resources[..|resources| - 1];
      assert forall i :: 0 <= i < |init| ==> init[i] == resources[i];
      if last.name == name && Truthy(last.deviceIp) then last.deviceIp
      else LastIp(init, name)
  }

  /** The comprehension over the resources: name to device IP, for the
      resources whose device IP is non-empty. */
  function ResourceHosts(resources: seq<Target>): (r: Dict<string>)
    ensures Valid(r)
    ensures forall k :: Get(r, k) == LastIp(resources, k)
  {
    if |resources| == 0 then []
    else
      var last := resources[|resources| - 1];
      var d := ResourceHosts(resources[..|resources| - 1]);
      assert forall i :: 0 <= i < |resources| - 1 ==> resources[..|resources| - 1][i] == resources[i];
      if Truthy(last.deviceIp) then
        PutValid(d, last.name, last.deviceIp.value);
        assert forall k :: Get(Put(d, last.name, last.deviceIp.value), k) == LastIp(resources, k) by {
          forall k ensures Get(Put(d, last.name, last.deviceIp.value), k) == LastIp(resources, k) {
            GetPut(d, last.name, last.deviceIp.value, k);
          }
        }
        Put(d, last.name, last.deviceIp.value)
      else d
  }

  /** The host checked under `k`: a service entry for 'FTP', 'Do' or
      'CloudShell' when that service is the one configured, else the
      device IP of the resources named `k`. */
  function ServiceOrDevice(resources: seq<Target>, ftpHost: Option<string>, doHost: Option<string>, csHost: string,
                           k: string): Option<string>
  {
    if k == "FTP" && ftpHost.Some? then ftpHost
    else if k == "Do" && doHost.Some? then doHost
    else if k == "CloudShell" && doHost.None? then Some(csHost)
    else LastIp(resources, k)
  }

  /** The hosts to check: every resource with a device IP, then the FTP
      host under 'FTP' when FTP is configured, then the DO host under 'Do'
      when DO is configured and otherwise the CloudShell host under
      'CloudShell'.  A resource with one of those three names is
      overwritten by the service entry. */
  function HostMap(resources: seq<Target>, ftpHost: Option<string>, doHost: Option<string>, csHost: string)
    : (r: Dict<string>)
    ensures Valid(r)
    ensures forall k :: Get(r, k) == ServiceOrDevice(resources, ftpHost, doHost, csHost, k)
  {
    var base := ResourceHosts(resources);
    var withFtp := if ftpHost.Some? then Put(base, "FTP", ftpHost.value) else base;
    assert Valid(withFtp) &&
      forall k :: Get(withFtp, k) == if k == "FTP" && ftpHost.Some? then ftpHost else LastIp(resources, k)
    by {
      if ftpHost.Some? {
        PutValid(base, "FTP", ftpHost.value);
        forall k ensures Get(withFtp, k) == if k == "FTP" then ftpHost else LastIp(resources, k) {
          GetPut(base, "FTP", ftpHost.value, k);
        }
      }
    }
    var (key, host) := if doHost.Some? then ("Do", doHost.value) else ("CloudShell", csHost);
    assert Valid(Put(withFtp, key, host)) by { PutValid(withFtp, key, host); }
    assert forall k :: Get(Put(withFtp, key, host), k) == if k == key then Some(host) else Get(withFtp, k) by {
      forall k ensures Get(Put(withFtp, key, host), k) == if k == key then Some(host) else Get(withFtp, k) {
        GetPut(withFtp, key, host, k);
      }
    }
    Put(withFtp, key, host)
  }

  /** The error raised for an unreachable host. */
  function NotAlive(name: string, host: string): Exc
  {
    ResourceIsNotAliveError(name + " (" + host + ") is not alive, check it")
  }

  /** Ping every host in the map's order and raise for the first one that
      does not answer. */
  function CheckHosts(hosts: Dict<string>, alive: string -> bool): (r: Result<(), Exc>)
    ensures r.Success? <==> forall i :: 0 <= i < |hosts| ==> alive(hosts[i].1)
    ensures r.Failure? ==> exists i :: (
      0 <= i < |hosts| && !alive(hosts[i].1) &&
      r.error == NotAlive(hosts[i].0, hosts[i].1) && forall j :: 0 <= j < i ==> alive(hosts[j].1))
  {
    match FirstIndex(hosts, (e: (string, string)) => !alive(e.1))
    case None => Success(())
    case Some(i) => Failure(NotAlive(hosts[i].0, hosts[i].1))
  }

  /** `check_all_resources_is_alive`. */
  function CheckAllResourcesIsAlive(resources: seq<Target>, ftpHost: Option<string>, doHost: Option<string>,
                                    csHost: string, alive: string -> bool): (r: Result<(), Exc>)
    ensures r.Success? <==> forall k :: HasKey(HostMap(resources, ftpHost, doHost, csHost), k) ==>
      alive(Get(HostMap(resources, ftpHost, doHost, csHost), k).value)
  {
    var hosts := HostMap(resources, ftpHost, doHost, csHost);
    assert forall i :: 0 <= i < |hosts| ==> HasKey(hosts, hosts[i].0) && Get(hosts, hosts[i].0) == Some(hosts[i].1) by {
      forall i | 0 <= i < |hosts| ensures HasKey(hosts, hosts[i].0) && Get(hosts, hosts[i].0) == Some(hosts[i].1) {
        GetAt(hosts, i);
      }
    }
    assert forall k :: HasKey(hosts, k) ==> exists i :: 0 <= i < |hosts| && hosts[i].0 == k;
    CheckHosts(hosts, alive)
  }

  /** The service hosts are always checked; a dead device is caught unless
      its resource shares its name with a service entry. */
  lemma CheckedHosts(resources: seq<Target>, ftpHost: Option<string>, doHost: Option<string>, csHost: string,
                     alive: string -> bool)
    ensures ftpHost.Some? && !alive(ftpHost.value) ==>
      CheckAllResourcesIsAlive(resources, ftpHost, doHost, csHost, alive).Failure?
    ensures doHost.Some? && !alive(doHost.value) ==>
      CheckAllResourcesIsAlive(resources, ftpHost, doHost, csHost, alive).Failure?
    ensures doHost.None? && !alive(csHost) ==>
      CheckAllResourcesIsAlive(resources, ftpHost, doHost, csHost, alive).Failure?
    ensures forall k :: k !in {"FTP", "Do", "CloudShell"} && LastIp(resources, k).Some? && !alive(LastIp(resources, k).value) ==>
      CheckAllResourcesIsAlive(resources, ftpHost, doHost, csHost, alive).Failure?
  {
    var hosts := HostMap(resources, ftpHost, doHost, csHost);
    assert "Do"[0] != "FTP"[0] && "CloudShell"[0] != "FTP"[0];
    assert ftpHost.Some? ==> Get(hosts, "FTP") == ftpHost && HasKey(hosts, "FTP");
    assert doHost.Some? ==> Get(hosts, "Do") == doHost && HasKey(hosts, "Do");
    assert doHost.None? ==> Get(hosts, "CloudShell") == Some(csHost) && HasKey(hosts, "CloudShell");
    forall k | k !in {"FTP", "Do", "CloudShell"} && LastIp(resources, k).Some? && !alive(LastIp(resources, k).value)
      ensures CheckAllResourcesIsAlive(resources, ftpHost, doHost, csHost, alive).Failure?
    {
      assert Get(hosts, k) == LastIp(resources, k) && HasKey(hosts, k);
    }
  }

  /** A dead device whose resource is named like a service entry is not
      pinged: its host is replaced by the service's. */
  lemma ShadowedDeviceNotChecked(ip: string, ftpHost: string, csHost: string, alive: string -> bool)
    requires ip != "" && !alive(ip) && alive(ftpHost) && alive(csHost)
    ensures CheckAllResourcesIsAlive([Target("FTP", Some(ip))], Some(ftpHost), None, csHost, alive).Success?
  {
    var hosts := HostMap([Target("FTP", Some(ip))], Some(ftpHost), None, csHost);
    forall k | HasKey(hosts, k) ensures alive(Get(hosts, k).value) {
      assert LastIp([Target("FTP", Some(ip))], k) == (if k == "FTP" then Some(ip) else None);
    }
  }

  /** The ping count flag: '-n' on Windows, '-c' elsewhere. */
  function PingCommand(windows: bool, host: string): (r: string)
    ensures r == "ping -" + (if windows then "n" else "c") + " 1 " + host
    ensures windows ==> r[..7] == "ping -n"
    ensures !windows ==> r[..7] == "ping -c"
  {
    "ping -" + (if windows then "n" else "c") + " 1 " + host
  }
}

=== FILE: polling.dfy ===
/** Bounded polling, the shape of every wait loop in the system: ask up to
    `bound` times, stop at the first answer that settles the question, and
    report exhaustion otherwise.  Answers are a function of the poll index,
    standing in for the remote status calls; the sleeps between polls are
    not modelled. */
module Polling {

  /** How a polling loop ends: a success or a failure read at poll
      `at` (counting from 0), or `bound` undecided answers. */
  datatype PollOutcome = Succeeded(at: nat) | Failed(at: nat) | Exhausted

  /** Poll from index `i` on. */
  function PollFrom<T>(answers: nat -> T, bound: nat, done: T -> bool, failed: T -> bool, i: nat): (r: PollOutcome)
    requires i <= bound
    ensures r.Succeeded? ==> i <= r.at < bound && done(answers(r.at))
    ensures r.Failed? ==> i <= r.at < bound && !done(answers(r.at)) && failed(answers(r.at))
    decreases bound - i
  {
    if i == bound then Exhausted
    else if done(answers(i)) then Succeeded(i)
    else if failed(answers(i)) then Failed(i)
    else PollFrom(answers, bound, done, failed, i + 1)
  }

  /** `for _ in range(bound)`: poll from the start. */
  function Poll<T>(answers: nat -> T, bound: nat, done: T -> bool, failed: T -> bool): (r: PollOutcome)
  {
    PollFrom(answers, bound, done, failed, 0)
  }

  /** An answer that neither settles nor fails. */
  predicate Undecided<T>(a: T, done: T -> bool, failed: T -> bool) {
    !done(a) && !failed(a)
  }

  /** The loop stops at the first deciding answer: every earlier answer was
      undecided, and exhaustion means all `bound` answers were. */
  lemma {:induction false} PollFromSpec<T>(answers: nat -> T, bound: nat, done: T -> bool, failed: T -> bool, i: nat)
    requires i <= bound
    ensures var r := PollFrom(answers, bound, done, failed, i);
      (r.Succeeded? || r.Failed?) ==> forall j :: i <= j < r.at ==> Undecided(answers(j), done, failed)
    ensures PollFrom(answers, bound, done, failed, i).Exhausted? <==>
      forall j :: i <= j < bound ==> Undecided(answers(j), done, failed)
    decreases bound - i
  {
    if i < bound && Undecided(answers(i), done, failed) {
      PollFromSpec(answers, bound, done, failed, i + 1);
    }
  }

  /** The loop never asks more than `bound` times, and succeeds at the
      first settling answer when all earlier ones were undecided. */
  lemma PollSpec<T>(answers: nat -> T, bound: nat, done: T -> bool, failed: T -> bool)
    ensures var r := Poll(answers, bound, done, failed);
      (r.Succeeded? || r.Failed?) ==> r.at < bound && forall j :: 0 <= j < r.at ==> Undecided(answers(j), done, failed)
    ensures Poll(answers, bound, done, failed).Exhausted? <==>
      forall j :: 0 <= j < bound ==> Undecided(answers(j), done, failed)
  {
    PollFromSpec(answers, bound, done, failed, 0);
  }

  /** Conversely, a settling answer at `k` after `k` undecided ones within
      the bound is exactly where the loop stops. */
  lemma PollStopsAt<T>(answers: nat -> T, bound: nat, done: T -> bool, failed: T -> bool, k: nat)
    requires k < bound
    requires forall j :: 0 <= j < k ==> Undecided(answers(j), done, failed)
    requires !Undecided(answers(k), done, failed)
    ensures Poll(answers, bound, done, failed) ==
      if done(answers(k)) then Succeeded(k) else Failed(k)
  {
    PollSpec(answers, bound, done, failed);
  }
}

=== FILE: registry.dfy ===
/** The registries mapping a target to its test classes.

    The family-keyed registry is written out identically in the third
    generation and in the sandbox runner of the second generation, so it is
    defined once here.  The resource runner of the second generation keys its
    registry by device type alone. */
module Registry {
  import opened Wrappers
  import opened Errors
  import opened Catalog

  /** Driver command (lower case) to test class. */
  type CommandTable = map<string, TestClass>

  /** Device type to command table, for one family. */
  type FamilyTable = map<DeviceType, CommandTable>

  /** The firewall table as its literal is written, before the router alias
      is used to add to it. */
  const FirewallLiteral: FamilyTable := map[
    Simulator := map["autoload" := TestAutoloadNetworkDevices],
    WithoutDevice := map[
      "autoload" := TestAutoloadWithoutDevice,
      "run_custom_command" := TestRunCustomCommandWithoutDevice,
      "run_custom_config_command" := TestRunCustomCommandWithoutDevice,
      "save" := TestSaveConfigWithoutDevice,
      "orchestration_save" := TestSaveConfigWithoutDevice,
      "restore" := TestRestoreConfigWithoutDevice,
      "orchestration_restore" := TestRestoreConfigWithoutDevice],
    RealDevice := map[
      "autoload" := TestAutoloadNetworkDevices,
      "run_custom_command" := TestRunCustomCommand,
      "run_custom_config_command" := TestRunCustomCommand,
      "save" := TestSaveConfig,
      "orchestration_save" := TestSaveConfig,
      "restore" := TestRestoreConfig,
      "orchestration_restore" := TestRestoreConfig]]

  /** The one table object behind the firewall, router and switch names: the
      router name is an alias of the firewall table, so the connectivity entry
      stored through it lands in the firewall table, and the switch name is an
      alias of the router name. */
  const NetworkTable: FamilyTable :=
    FirewallLiteral[RealDevice :=
      FirewallLiteral[RealDevice]["applyconnectivitychanges" := TestConnectivity]]

  const TrafficGeneratorChassisTable: FamilyTable := map[
    RealDevice := map["autoload" := TestAutoloadTrafficGeneratorDevices],
    WithoutDevice := map["autoload" := TestAutoloadWithoutDevice],
    Simulator := map["autoload" := TestAutoloadTrafficGeneratorDevices]]

  const VirtualTrafficGeneratorChassisTable: FamilyTable := map[
    RealDevice := map["autoload" := TestAutoloadVirtualTrafficGeneratorDevices]]

  const TrafficGeneratorControllerTable: FamilyTable := map[
    RealDevice := map[
      "load_config" := TestLoadConfig,
      "start_traffic" := TestStartTraffic,
      "stop_traffic" := TestStopTraffic,
      "get_statistics" := TestGetStatistics,
      "get_test_file" := TestGetTestFile],
    WithoutDevice := map[
      "load_config" := TestLoadConfigWithoutDevice,
      "start_traffic" := TestStartTrafficWithoutDevice,
      "stop_traffic" := TestStopTrafficWithoutDevice,
      "get_statistics" := TestGetStatisticsWithoutDevice,
      "get_test_file" := TestGetTestFileWithoutDevice]]

  const GenericAppTable: FamilyTable := map[
    RealDevice := map["autoload" := TestAutoloadWithoutPorts],
    WithoutDevice := map["autoload" := TestAutoloadWithoutDevice]]

  /** `TEST_CASES_MAP`: family name to family table. */
  const TestCasesMap: map<string, FamilyTable> := map[
    "CS_Firewall" := NetworkTable,
    "CS_Router" := NetworkTable,
    "CS_Switch" := NetworkTable,
    "CS_TrafficGeneratorChassis" := TrafficGeneratorChassisTable,
    "CS_VirtualTrafficGeneratorChassis" := VirtualTrafficGeneratorChassisTable,
    "CS_TrafficGeneratorController" := TrafficGeneratorControllerTable,
    "CS_GenericAppFamily" := GenericAppTable]

  /** `AUTOLOAD_TEST_FOR_FAMILIES`: the device-hierarchy families. */
  const AutoloadFamilies: set<string> := {
    "CS_Router", "CS_Firewall", "CS_Switch", "CS_TrafficGeneratorChassis",
    "CS_VirtualTrafficGeneratorChassis", "CS_GenericAppFamily"}

  /** `TEST_CASES_MAP[family][device_type]`: a missing family or device type
      is a `KeyError`, never an empty table. */
  function Lookup(family: string, deviceType: DeviceType): (r: Result<CommandTable, Exc>)
    ensures r.Success? <==> family in TestCasesMap && deviceType in TestCasesMap[family]
    ensures r.Success? ==> r.value == TestCasesMap[family][deviceType]
    ensures family !in TestCasesMap ==> r == Failure(KeyError(family))
    ensures family in TestCasesMap && deviceType !in TestCasesMap[family] ==>
      r == Failure(KeyError(DeviceTypeValue(deviceType)))
  {
    if family !in TestCasesMap then Failure(KeyError(family))
    else if deviceType !in TestCasesMap[family] then Failure(KeyError(DeviceTypeValue(deviceType)))
    else Success(TestCasesMap[family][deviceType])
  }

  /** The router and switch entries are the firewall table itself, and that
      table carries the connectivity entry for real devices. */
  lemma NetworkFamiliesShareOneTable()
    ensures TestCasesMap["CS_Router"] == TestCasesMap["CS_Firewall"]
    ensures TestCasesMap["CS_Switch"] == TestCasesMap["CS_Firewall"]
    ensures TestCasesMap["CS_Firewall"][RealDevice]["applyconnectivitychanges"] == TestConnectivity
    ensures "applyconnectivitychanges" !in FirewallLiteral[RealDevice]
  {
  }

  /** The real-device network entries for the configuration commands. */
  lemma NetworkSaveEntries()
    ensures "CS_Firewall" in TestCasesMap && TestCasesMap["CS_Firewall"] == NetworkTable && RealDevice in NetworkTable
    ensures "autoload" in NetworkTable[RealDevice] && "save" in NetworkTable[RealDevice]
    ensures "orchestration_save" in NetworkTable[RealDevice]
    ensures NetworkTable[RealDevice]["autoload"] == TestAutoloadNetworkDevices
    ensures NetworkTable[RealDevice]["save"] == TestSaveConfig
    ensures NetworkTable[RealDevice]["orchestration_save"] == TestSaveConfig
  {
  }

  /** Every table of an autoload family has an autoload entry for each device
      type it lists, and the controller table, the only other one, has none. */
  lemma AutoloadFamiliesHaveAutoload(family: string, deviceType: DeviceType)
    requires family in TestCasesMap && deviceType in TestCasesMap[family]
    ensures family in AutoloadFamilies <==> "autoload" in TestCasesMap[family][deviceType]
  {
    FamilyTableOf(family);
    if family == "CS_TrafficGeneratorController" {
      ControllerHasNoAutoload(deviceType);
    } else {
      AutoloadTablesHaveAutoload(TestCasesMap[family], deviceType);
    }
  }

  /** The table each family name is bound to. */
  lemma FamilyTableOf(family: string)
    requires family in TestCasesMap
    ensures family in AutoloadFamilies <==> family != "CS_TrafficGeneratorController"
    ensures family != "CS_TrafficGeneratorController" ==>
      TestCasesMap[family] in {NetworkTable, TrafficGeneratorChassisTable, VirtualTrafficGeneratorChassisTable, GenericAppTable}
    ensures family == "CS_TrafficGeneratorController" ==> TestCasesMap[family] == TrafficGeneratorControllerTable
  {
  }

  /** The tables of the device-hierarchy families have an autoload entry
      for every device type they list. */
  lemma AutoloadTablesHaveAutoload(table: FamilyTable, deviceType: DeviceType)
    requires table in {NetworkTable, TrafficGeneratorChassisTable, VirtualTrafficGeneratorChassisTable, GenericAppTable}
    requires deviceType in table
    ensures "autoload" in table[deviceType]
  {
  }

  /** The controller table maps no autoload command. */
  lemma ControllerHasNoAutoload(deviceType: DeviceType)
    requires deviceType in TrafficGeneratorControllerTable
    ensures "autoload" !in TrafficGeneratorControllerTable[deviceType]
  {
  }

  /** The device-type pairs the family registry lacks. */
  lemma MissingDeviceTypes()
    ensures Lookup("CS_VirtualTrafficGeneratorChassis", Simulator).Failure?
    ensures Lookup("CS_VirtualTrafficGeneratorChassis", WithoutDevice).Failure?
    ensures Lookup("CS_GenericAppFamily", Simulator).Failure?
    ensures Lookup("CS_TrafficGeneratorController", Simulator).Failure?
  {
  }

  /** `TEST_CASES_MAP` of the resource runner: keyed by device type only. */
  const DeviceTestCasesMap: FamilyTable := map[
    Simulator := map["autoload" := TestAutoload],
    WithoutDevice := map[
      "autoload" := TestAutoloadWithoutDevice,
      "run_custom_command" := TestRunCustomCommandWithoutDevice,
      "run_custom_config_command" := TestRunCustomCommandWithoutDevice,
      "save" := TestSaveConfigWithoutDevice,
      "orchestration_save" := TestSaveConfigWithoutDevice,
      "restore" := TestRestoreConfigWithoutDevice,
      "orchestration_restore" := TestRestoreConfigWithoutDevice],
    RealDevice := map[
      "autoload" := TestAutoload,
      "run_custom_command" := TestRunCustomCommand,
      "run_custom_config_command" := TestRunCustomCommand,
      "save" := TestSaveConfig,
      "orchestration_save" := TestSaveConfig,
      "restore" := TestRestoreConfig,
      "orchestration_restore" := TestRestoreConfig,
      "applyconnectivitychanges" := TestConnectivity]]

  /** In the device-keyed registry every device type has an autoload entry,
      and only a real device maps the connectivity command. */
  lemma DeviceRegistryShape(deviceType: DeviceType)
    ensures deviceType in DeviceTestCasesMap && "autoload" in DeviceTestCasesMap[deviceType]
    ensures "applyconnectivitychanges" in DeviceTestCasesMap[deviceType] <==> deviceType == RealDevice
    ensures DeviceTestCasesMap[Simulator].Keys == {"autoload"}
  {
  }
}

=== FILE: report.dfy ===
/** Aggregated test results of the resource runner
    (`shell_tests/report_result.py`). */
module Report {
  import opened Wrappers
  import opened Text

  /** One resource's result. */
  datatype ResourceReport = ResourceReport(
    name: string, ip: Option<string>, deviceType: string, isSuccess: bool, testResult: string)

  /** The shared report: the shell's name and the resource reports in the
      order they were added. */
  datatype Reporting = Reporting(shellName: string, reports: seq<ResourceReport>)

  /** `all(report.is_success for report in ...)`, scanned from the end. */
  function AllSucceeded(reports: seq<ResourceReport>): (b: bool)
    ensures b <==> forall i :: 0 <= i < |reports| ==> reports[i].isSuccess
  {
    if |reports| == 0 then true
    else AllSucceeded(reports[..|reports| - 1]) && reports[|reports| - 1].isSuccess
  }

  /** `is_success`: every report succeeded; true with no reports. */
  function IsSuccess(r: Reporting): (b: bool)
    ensures b <==> forall i :: 0 <= i < |r.reports| ==> r.reports[i].isSuccess
    ensures r.reports == [] ==> b
  {
    AllSucceeded(r.reports)
  }

  /** `add_resource_report`: one report appended at the end. */
  function AddResourceReport(r: Reporting, name: string, ip: Option<string>, deviceType: string,
                             isSuccess: bool, testResult: string): (r': Reporting)
    ensures r'.shellName == r.shellName
    ensures |r'.reports| == |r.reports| + 1 && r'.reports[..|r.reports|] == r.reports
    ensures r'.reports[|r.reports|] == ResourceReport(name, ip, deviceType, isSuccess, testResult)
  {
    r.(reports := r.reports + [ResourceReport(name, ip, deviceType, isSuccess, testResult)])
  }

  /** Adding a failed report makes the whole report fail; adding a
      successful one keeps the verdict. */
  lemma AddReportVerdict(r: Reporting, name: string, ip: Option<string>, deviceType: string,
                         isSuccess: bool, testResult: string)
    ensures IsSuccess(AddResourceReport(r, name, ip, deviceType, isSuccess, testResult)) <==>
      IsSuccess(r) && isSuccess
  {
    var r' := AddResourceReport(r, name, ip, deviceType, isSuccess, testResult);
    if IsSuccess(r) && isSuccess {
      forall i | 0 <= i < |r'.reports| ensures r'.reports[i].isSuccess {
        if i < |r.reports| {
          assert r'.reports[i] == r.reports[i];
        }
      }
    }
    if IsSuccess(r') {
      assert r'.reports[|r.reports|].isSuccess;
      forall i | 0 <= i < |r.reports| ensures r.reports[i].isSuccess {
        assert r'.reports[i] == r.reports[i];
      }
    }
  }

  /** `str()` of an optional value: Python prints `None` for a missing IP. */
  function Show(v: Option<string>): string
  {
    match v
    case None => "None"
    case Some(s) => s
  }

  function SuccessWord(isSuccess: bool): (w: string)
    ensures w == "successful" <==> isSuccess
  {
    if isSuccess then "successful" else "unsuccessful"
  }

  /** The header line of a block. */
  function Header(report: ResourceReport): string
  {
    "Resource name: " + report.name + ", IP: " + Show(report.ip) + ", Type: " + report.deviceType
  }

  /** The text of one report. */
  function Block(report: ResourceReport): string
  {
    Header(report) + "\nTest for device was " + SuccessWord(report.isSuccess) + "\n" + report.testResult
  }

  /** The verdict line of a block says 'successful' exactly when the report
      succeeded, so a reader can tell the two apart. */
  lemma BlockVerdict(a: ResourceReport, b: ResourceReport)
    requires a.name == b.name && a.ip == b.ip && a.deviceType == b.deviceType && a.testResult == b.testResult
    ensures Block(a) == Block(b) <==> a.isSuccess == b.isSuccess
  {
  }

  /** The blocks, one per report, in order. */
  function Blocks(reports: seq<ResourceReport>): (bs: seq<string>)
    ensures |bs| == |reports|
    ensures forall i :: 0 <= i < |reports| ==> bs[i] == Block(reports[i])
  {
    seq(|reports|, i requires 0 <= i < |reports| => Block(reports[i]))
  }

  /** `get_result`: the blocks joined by blank lines. */
  function GetResult(r: Reporting): string
  {
    Join(Blocks(r.reports), "\n\n")
  }

  /** No reports give an empty text, and each added report appends its
      block after a blank line. */
  lemma GetResultShape(r: Reporting, report: ResourceReport)
    ensures r.reports == [] ==> GetResult(r) == ""
    ensures r.reports == [] ==> GetResult(r.(reports := [report])) == Block(report)
    ensures r.reports != [] ==>
      GetResult(r.(reports := r.reports + [report])) == GetResult(r) + "\n\n" + Block(report)
  {
    if r.reports != [] {
      assert Blocks(r.reports + [report]) == Blocks(r.reports) + [Block(report)];
      JoinSnoc(Blocks(r.reports), Block(report), "\n\n");
    }
  }

  lemma {:induction false} JoinSnoc(parts: seq<string>, x: string, sep: string)
    requires |parts| >= 1
    ensures Join(parts + [x], sep) == Join(parts, sep) + sep + x
    decreases |parts|
  {
    if |parts| == 1 {
      assert (parts + [x])[1..] == [x];
    } else {
      assert (parts + [x])[1..] == parts[1..] + [x];
      JoinSnoc(parts[1..], x, sep);
    }
  }
}

=== FILE: resource_gen2.dfy ===
/** The resource and service handlers of the second generation
    (`shell_tests/resource_handler.py`).  The device type is read from the
    attributes applied so far, not from the configured ones. */
module RootResourceHandler {
  import opened Wrappers
  import opened Errors
  import opened Catalog
  import Dicts
  import CsHandler
  import opened ResourceCommands

  /** A resource handler: the current name, the device IP, the shell's
      model and family, the attributes applied so far and the attributes
      configured for preparation. */
  datatype Resource = Resource(
    name: string,
    deviceIp: Option<string>,
    model: string,
    family: string,
    attributes: Dict<string>,
    initialAttributes: Dict<string>)

  /** The constructor: nothing applied yet; `None` configured attributes
      become an empty map. */
  function NewResource(name: string, deviceIp: Option<string>, attributes: Option<Dict<string>>,
                       model: string, family: string): (r: Resource)
    ensures r.attributes == []
    ensures r.initialAttributes == (if attributes.Some? then attributes.value else [])
  {
    Resource(name, deviceIp, model, family, [], if attributes.Some? then attributes.value else [])
  }

  /** `device_type`, from the applied attributes. */
  function DeviceTypeOf(r: Resource): DeviceType
  {
    Classify(r.deviceIp, r.attributes)
  }

  /** `set_attributes`: nothing at all for an empty map; otherwise send the
      values under the model namespace and merge them into the applied
      attributes. */
  function SetAttributesOf(r: Resource, attributes: Dict<string>): (out: (Resource, seq<Request>))
    ensures attributes == [] ==> out == (r, [])
    ensures attributes != [] ==> out.1 == [SetAttributes(r.name, r.model, attributes)]
    ensures out.0 == r.(attributes := out.0.attributes)
  {
    if attributes == [] then (r, [])
    else (r.(attributes := Dicts.Update(r.attributes, attributes)), [SetAttributes(r.name, r.model, attributes)])
  }

  /** After a non-empty `set_attributes` each key reads its new value if
      it was sent and its old value otherwise. */
  lemma SetAttributesMerges(r: Resource, attributes: Dict<string>, key: string)
    requires Dicts.Valid(attributes)
    ensures Dicts.Get(SetAttributesOf(r, attributes).0.attributes, key) ==
      if Dicts.HasKey(attributes, key) then Dicts.Get(attributes, key) else Dicts.Get(r.attributes, key)
  {
    if attributes != [] {
      Dicts.GetUpdate(r.attributes, attributes, key);
    }
  }

  /** `prepare_resource`: create the resource at the device IP or the
      loopback address, adopt the name CloudShell accepted, then apply the
      configured attributes.  The answers must settle the rename loop. */
  function PrepareResource(r: Resource, answers: seq<CsHandler.ApiAnswer>): (out: Result<(Resource, seq<Request>), Exc>)
    requires CsHandler.Conflicts(answers) < |answers|
    ensures out.Success? <==> answers[CsHandler.Conflicts(answers)].Ok?
    ensures out.Success? ==>
      var (prepared, calls) := out.value;
      var name := CsHandler.Renamed(r.name, CsHandler.Conflicts(answers));
      prepared.name == name &&
      |calls| >= 1 && calls[0] == CreateResourceRequest(name, r.model, Address(r.deviceIp)) &&
      calls[1..] == SetAttributesOf(r.(name := name), r.initialAttributes).1
  {
    CsHandler.RetryOnNameTakenSpec(r.name, answers);
    match CsHandler.CreateResource(r.name, answers)
    case Done(name) =>
      var (prepared, setCalls) := SetAttributesOf(r.(name := name), r.initialAttributes);
      Success((prepared, [CreateResourceRequest(name, r.model, Address(r.deviceIp))] + setCalls))
    case Raised(e) => Failure(e)
    case Pending(_) => assert false; Failure(Other("pending"))
  }

  /** Before preparation a resource with an IP is a simulator, even when
      its configured attributes name a user. */
  lemma SimulatorBeforePrepare(name: string, ip: string, user: string, model: string, family: string)
    requires ip != "" && user != ""
    ensures DeviceTypeOf(NewResource(name, Some(ip), Some([("User", user)]), model, family)) == Simulator
  {
  }

  /** After preparation with a configured user the same resource is a real
      device. */
  lemma RealDeviceAfterPrepare(name: string, ip: string, user: string, model: string, family: string,
                               answers: seq<CsHandler.ApiAnswer>)
    requires ip != "" && user != ""
    requires CsHandler.Conflicts(answers) < |answers| && answers[CsHandler.Conflicts(answers)].Ok?
    ensures var r := NewResource(name, Some(ip), Some([("User", user)]), model, family);
      PrepareResource(r, answers).Success? &&
      DeviceTypeOf(PrepareResource(r, answers).value.0) == RealDevice
  {
    var r := NewResource(name, Some(ip), Some([("User", user)]), model, family);
    var attrs := [("User", user)];
    assert r.initialAttributes == attrs;
    PreparedApplies(r, answers);
    var prepared := PrepareResource(r, answers).value.0;
    assert Dicts.Get(prepared.attributes, "User") == Some(user) by {
      var r1 := r.(name := CsHandler.Renamed(name, CsHandler.Conflicts(answers)));
      assert Dicts.HasKey(attrs, "User") by { assert attrs[0].0 == "User"; }
      SetAttributesMerges(r1, attrs, "User");
    }
    assert prepared.deviceIp == Some(ip);
  }

  /** A settled preparation leaves the resource as the configured
      attributes applied under the accepted name. */
  lemma PreparedApplies(r: Resource, answers: seq<CsHandler.ApiAnswer>)
    requires CsHandler.Conflicts(answers) < |answers| && answers[CsHandler.Conflicts(answers)].Ok?
    ensures PrepareResource(r, answers).Success?
    ensures PrepareResource(r, answers).value.0 ==
      SetAttributesOf(r.(name := CsHandler.Renamed(r.name, CsHandler.Conflicts(answers))), r.initialAttributes).0
  {
    CsHandler.RetryOnNameTakenSpec(r.name, answers);
  }

  /** `__exit__`: delete the resource under its current name and never
      suppress the exception. */
  function Exit(r: Resource): (out: (seq<Request>, bool))
    ensures out.0 == [DeleteResourceRequest(r.name)] && !out.1
  {
    ([DeleteResourceRequest(r.name)], false)
  }

  /** `autoload`: the first attempt, and after a rebind error the driver
      update (to the model's driver) and one more attempt. */
  function Autoload(r: Resource, first: CsHandler.ApiAnswer, second: CsHandler.ApiAnswer)
    : (out: (Result<(), Exc>, seq<Request>))
    ensures out.0.Success? <==> first.Ok? || (RebindsDriver(first) && second.Ok?)
    ensures UpdateDriverRequest(r.name, r.model) in out.1 <==> RebindsDriver(first)
  {
    AutoloadCalls(r.name, r.model, first, second)
  }

  /** Commands run against the resource under its current name. */
  function ExecuteOn(r: Resource, c: ResourceCommand): (q: Request)
    ensures q.ExecuteCommandRequest? && q.target == r.name
    ensures DecodeCommand(q.command, q.args) == Some(c)
  {
    Execute(r.name, c)
  }

  // ---------------------------------------------------------------------
  // ServiceHandler

  /** The cached related resource: not looked up yet, switched off with
      the `False` sentinel, or the sandbox's first resource handler. */
  datatype RelatedSlot = Unset | Disabled | FirstResource

  /** `related_resource_handler`: the cached handler, looked up on first
      use; the sandbox's handler list is fixed once built. */
  function RelatedResource(slot: RelatedSlot, handlers: seq<Resource>): (out: (Result<Option<Resource>, Exc>, RelatedSlot))
    requires slot.FirstResource? ==> |handlers| > 0
    ensures slot.Disabled? ==> out == (Success(None), Disabled)
    ensures !slot.Disabled? && |handlers| > 0 ==> out == (Success(Some(handlers[0])), FirstResource)
    ensures !slot.Disabled? && |handlers| == 0 ==> out == (Failure(IndexError), slot)
  {
    match slot
    case Disabled => (Success(None), Disabled)
    case FirstResource => (Success(Some(handlers[0])), FirstResource)
    case Unset =>
      if |handlers| == 0 then (Failure(IndexError), Unset)
      else (Success(Some(handlers[0])), FirstResource)
  }

  /** `ServiceHandler.device_type`: the related resource's type, or a real
      device when there is none. */
  function ServiceDeviceType(slot: RelatedSlot, handlers: seq<Resource>): (out: (Result<DeviceType, Exc>, RelatedSlot))
    requires slot.FirstResource? ==> |handlers| > 0
  {
    match RelatedResource(slot, handlers)
    case (Failure(e), s) => (Failure(e), s)
    case (Success(None), s) => (Success(RealDevice), s)
    case (Success(Some(h)), s) => (Success(DeviceTypeOf(h)), s)
  }

  /** The service follows the first resource's type, which reads that
      resource's applied attributes at each call; the sentinel gives a real
      device; with no resources the lookup raises. */
  lemma ServiceDeviceTypeSpec(slot: RelatedSlot, handlers: seq<Resource>)
    requires slot.FirstResource? ==> |handlers| > 0
    ensures slot.Disabled? ==> ServiceDeviceType(slot, handlers) == (Success(RealDevice), Disabled)
    ensures !slot.Disabled? && |handlers| > 0 ==>
      ServiceDeviceType(slot, handlers) == (Success(DeviceTypeOf(handlers[0])), FirstResource)
    ensures !slot.Disabled? && |handlers| == 0 ==> ServiceDeviceType(slot, handlers).0 == Failure(IndexError)
  {
  }

  /** Once looked up the related resource stays cached: a second access
      returns the same handler and leaves the cache as it was. */
  lemma RelatedResourceCached(handlers: seq<Resource>)
    requires |handlers| > 0
    ensures var (first, slot) := RelatedResource(Unset, handlers);
      RelatedResource(slot, handlers) == (first, slot)
  {
  }

  /** `ServiceHandler.load_config`: the two fixed keyword arguments. */
  function LoadConfig(service: string, configPath: string, usePortsFromReservation: bool): (q: Request)
    ensures q.ExecuteCommandRequest? && q.target == service && q.command == "load_config"
    ensures Dicts.Get(q.args, "config_file_location") == Some(Str(configPath))
    ensures Dicts.Get(q.args, "use_ports_from_reservation") == Some(Flag(usePortsFromReservation))
    ensures |q.args| == 2
  {
    var args := [("config_file_location", Str(configPath)), ("use_ports_from_reservation", Flag(usePortsFromReservation))];
    assert args[1..] == [("use_ports_from_reservation", Flag(usePortsFromReservation))];
    assert Dicts.Get(args, "use_ports_from_reservation") == Dicts.Get(args[1..], "use_ports_from_reservation");
    ExecuteCommandRequest(service, "load_config", args)
  }

  /** `start_traffic`, `stop_traffic`, `get_statistics`: no arguments. */
  function TrafficCommand(service: string, command: string): (q: Request)
    ensures q.ExecuteCommandRequest? && q.target == service && q.command == command && q.args == []
  {
    ExecuteCommandRequest(service, command, [])
  }
}

=== FILE: resource_gen3.dfy ===
/** The resource, service and deployment-resource handlers of the third
    generation (`shell_tests/handlers/resource_handler.py`).  The CloudShell
    handler is replaced by its answers: the answers of the create and rename
    calls, of the two autoload calls, and the details of child resources. */
module ResourceHandlers {
  import opened Wrappers
  import opened Errors
  import opened Text
  import opened Catalog
  import Dicts
  import CsHandler
  import opened ResourceCommands
  import opened Sequences

  /** `ResourceConfig`, reduced to the fields the handler reads. */
  datatype ResourceConfig = ResourceConfig(
    name: string,
    deviceIp: Option<string>,
    attributes: Dict<string>,
    childrenAttributes: Dict<Dict<string>>,
    isFirstGen: bool)

  /** A resource handler: its configuration, the name CloudShell accepted,
      the shell's model, the attributes applied so far and the autoload
      flag. */
  datatype ResourceHandler = ResourceHandler(
    conf: ResourceConfig,
    name: string,
    model: string,
    attributes: Dict<string>,
    isAutoloadFinished: bool)

  /** `device_type`, read from the configured attributes. */
  function DeviceTypeOf(h: ResourceHandler): DeviceType
  {
    Classify(h.conf.deviceIp, h.conf.attributes)
  }

  /** The namespace of the resource's attributes: the model, or nothing
      for a first-generation shell. */
  function Namespace(h: ResourceHandler): (ns: string)
    ensures h.conf.isFirstGen ==> ns == ""
    ensures !h.conf.isFirstGen ==> ns == h.model
  {
    if h.conf.isFirstGen then "" else h.model
  }

  /** `set_attributes`: send the values under the namespace and merge them
      into the local attribute map. */
  function SetAttributesOf(h: ResourceHandler, attributes: Dict<string>): (r: (ResourceHandler, Request))
    ensures r.0.conf == h.conf && r.0.name == h.name && r.0.model == h.model
    ensures r.0.isAutoloadFinished == h.isAutoloadFinished
    ensures r.1 == SetAttributes(h.name, Namespace(h), attributes)
  {
    (h.(attributes := Dicts.Update(h.attributes, attributes)), SetAttributes(h.name, Namespace(h), attributes))
  }

  /** After `set_attributes` every new key reads its new value, every other
      key its old one, and the request carries each value under its
      namespaced name. */
  lemma SetAttributesSpec(h: ResourceHandler, attributes: Dict<string>, key: string)
    requires Dicts.Valid(attributes)
    ensures var r := SetAttributesOf(h, attributes);
      Dicts.Get(r.0.attributes, key) ==
        (if Dicts.HasKey(attributes, key) then Dicts.Get(attributes, key) else Dicts.Get(h.attributes, key))
    ensures Dicts.Get(SetAttributesOf(h, attributes).1.values, CsHandler.Qualify(Namespace(h), key)) == Dicts.Get(attributes, key)
  {
    Dicts.GetUpdate(h.attributes, attributes, key);
    CsHandler.SetResourceAttributesGet(Namespace(h), attributes, key);
  }

  /** The device type comes from the configuration, so applying attributes
      never changes it. */
  lemma DeviceTypeIgnoresAppliedAttributes(h: ResourceHandler, attributes: Dict<string>)
    ensures DeviceTypeOf(SetAttributesOf(h, attributes).0) == DeviceTypeOf(h)
    ensures h.conf.deviceIp == Some("10.0.0.1") && h.conf.attributes == [] ==> DeviceTypeOf(h) == Simulator
  {
  }

  /** `ResourceHandler.create`: create the resource (renaming it while the
      name is taken) at the device IP or the loopback address, adopt the
      accepted name, and apply the configured attributes when there are any.
      The answers must settle the rename loop. */
  function CreateResource(conf: ResourceConfig, model: string, answers: seq<CsHandler.ApiAnswer>)
    : (r: Result<(ResourceHandler, seq<Request>), Exc>)
    requires CsHandler.Conflicts(answers) < |answers|
    ensures var n := CsHandler.Conflicts(answers);
      r.Failure? <==> answers[n].ApiError?
    ensures var n := CsHandler.Conflicts(answers);
      r.Failure? ==> r.error == CloudShellAPIError(answers[n].code, answers[n].message)
    ensures r.Success? ==>
      var (h, calls) := r.value;
      h.name == CsHandler.Renamed(conf.name, CsHandler.Conflicts(answers)) &&
      h.conf == conf && h.model == model && !h.isAutoloadFinished &&
      |calls| >= 1 && calls[0] == CreateResourceRequest(h.name, model, Address(conf.deviceIp)) &&
      (|calls| == 2 <==> conf.attributes != []) && |calls| <= 2
  {
    CsHandler.RetryOnNameTakenSpec(conf.name, answers);
    match CsHandler.CreateResource(conf.name, answers)
    case Done(name) =>
      var h := ResourceHandler(conf, name, model, [], false);
      var calls := [CreateResourceRequest(name, model, Address(conf.deviceIp))];
      if conf.attributes != [] then
        var (h1, setCall) := SetAttributesOf(h, conf.attributes);
        Success((h1, calls + [setCall]))
      else
        Success((h, calls))
    case Raised(e) => Failure(e)
    case Pending(_) => assert false; Failure(Other("pending"))
  }

  /** A created resource holds exactly its configured attributes. */
  lemma CreatedResourceAttributes(conf: ResourceConfig, model: string, answers: seq<CsHandler.ApiAnswer>, key: string)
    requires CsHandler.Conflicts(answers) < |answers|
    requires Dicts.Valid(conf.attributes)
    requires CreateResource(conf, model, answers).Success?
    ensures Dicts.Get(CreateResource(conf, model, answers).value.0.attributes, key) == Dicts.Get(conf.attributes, key)
  {
    CsHandler.RetryOnNameTakenSpec(conf.name, answers);
    var h := ResourceHandler(conf, CsHandler.Renamed(conf.name, CsHandler.Conflicts(answers)), model, [], false);
    if conf.attributes != [] {
      SetAttributesSpec(h, conf.attributes, key);
    }
  }

  // ---------------------------------------------------------------------
  // Child attributes

  /** `ResourceInfo` of a child resource, reduced to what is read. */
  datatype ChildInfo = ChildInfo(name: string, modelName: string, attributeNames: seq<string>)

  /** `full.rsplit(".", 1)` unpacked into two names; `None` where the
      unpacking raises. */
  function SplitAttributeName(full: string): (r: Option<(string, string)>)
    ensures r.None? <==> '.' !in full
    ensures r.Some? ==> full == r.value.0 + "." + r.value.1 && '.' !in r.value.1
  {
    match LastIndexOf(full, '.')
    case None => None
    case Some(i) =>
      assert full == full[..i] + "." + full[i + 1..];
      Some((full[..i], full[i + 1..]))
  }

  /** The namespace part of an attribute name (empty when it has none). */
  function AttrPrefix(full: string): string
  {
    match SplitAttributeName(full)
    case Some((prefix, _)) => prefix
    case None => ""
  }

  /** An attribute name the search passes over: it splits, and its short
      name is not the one sought. */
  predicate Skips(full: string, attributeName: string) {
    SplitAttributeName(full).Some? && SplitAttributeName(full).value.1 != attributeName
  }

  /** The loop of `_set_child_attribute`: the namespace is rebound to the
      prefix of every attribute visited, up to the first whose short name
      matches. */
  function ChildNamespaceFrom(namespace: string, names: seq<string>, attributeName: string): Result<string, Exc>
    decreases |names|
  {
    if |names| == 0 then Success(namespace)
    else
      match SplitAttributeName(names[0])
      case None => Failure(ValueError("not enough values to unpack (expected 2, got 1)"))
      case Some((prefix, name)) =>
        if name == attributeName then Success(prefix)
        else ChildNamespaceFrom(prefix, names[1..], attributeName)
  }

  /** The namespace `_set_child_attribute` sends the child attribute under. */
  function ChildNamespace(info: ChildInfo, attributeName: string): Result<string, Exc>
  {
    ChildNamespaceFrom(info.modelName, info.attributeNames, attributeName)
  }

  /** Passing over the first `i` attributes leaves the prefix of the last
      one passed as the namespace. */
  lemma {:induction false} SkipAttributes(namespace: string, names: seq<string>, attributeName: string, i: nat)
    requires i <= |names|
    requires forall j :: 0 <= j < i ==> Skips(names[j], attributeName)
    ensures ChildNamespaceFrom(namespace, names, attributeName) ==
      ChildNamespaceFrom(if i == 0 then namespace else AttrPrefix(names[i - 1]), names[i..], attributeName)
    decreases i
  {
    if i == 0 {
      assert names[0..] == names;
    } else {
      SkipAttributes(namespace, names, attributeName, i - 1);
      var rest := names[i - 1..];
      assert rest[0] == names[i - 1] && rest[1..] == names[i..];
    }
  }

  /** The first attribute whose short name matches gives the namespace. */
  lemma ChildNamespaceFirstMatch(info: ChildInfo, attributeName: string, i: nat)
    requires i < |info.attributeNames|
    requires forall j :: 0 <= j < i ==> Skips(info.attributeNames[j], attributeName)
    requires SplitAttributeName(info.attributeNames[i]).Some?
    requires SplitAttributeName(info.attributeNames[i]).value.1 == attributeName
    ensures ChildNamespace(info, attributeName) == Success(AttrPrefix(info.attributeNames[i]))
  {
    SkipAttributes(info.modelName, info.attributeNames, attributeName, i);
    assert info.attributeNames[i..][0] == info.attributeNames[i];
  }

  /** With no match the namespace is the prefix of the last attribute, or
      the model name when the child has no attributes. */
  lemma ChildNamespaceNoMatch(info: ChildInfo, attributeName: string)
    requires forall j :: 0 <= j < |info.attributeNames| ==> Skips(info.attributeNames[j], attributeName)
    ensures var names := info.attributeNames;
      ChildNamespace(info, attributeName) ==
        Success(if |names| == 0 then info.modelName else AttrPrefix(names[|names| - 1]))
  {
    SkipAttributes(info.modelName, info.attributeNames, attributeName, |info.attributeNames|);
  }

  /** An attribute name without a '.' reached by the search raises. */
  lemma ChildNamespaceUnqualified(info: ChildInfo, attributeName: string, i: nat)
    requires i < |info.attributeNames|
    requires forall j :: 0 <= j < i ==> Skips(info.attributeNames[j], attributeName)
    requires '.' !in info.attributeNames[i]
    ensures ChildNamespace(info, attributeName).Failure?
    ensures ChildNamespace(info, attributeName).error.ValueError?
  {
    SkipAttributes(info.modelName, info.attributeNames, attributeName, i);
    assert info.attributeNames[i..][0] == info.attributeNames[i];
  }

  /** The full name of a child resource. */
  function ChildPath(resource: string, child: string): string
  {
    resource + "/" + child
  }

  /** `req` is the request `_set_child_attribute` sends for `attribute`:
      the namespace search succeeds and the attribute is set under it. */
  predicate SetsUnderNamespace(info: ChildInfo, attribute: (string, string), req: Request)
  {
    ChildNamespace(info, attribute.0).Success? &&
    req == SetAttributes(info.name, ChildNamespace(info, attribute.0).value, [attribute])
  }

  /** The attribute requests for one child, one per attribute in order;
      the first failing namespace search stops the loop. */
  function ChildAttributeRequests(info: ChildInfo, attributes: Dict<string>): (r: (seq<Request>, Option<Exc>))
    ensures |r.0| <= |attributes|
    ensures forall i :: 0 <= i < |r.0| ==> SetsUnderNamespace(info, attributes[i], r.0[i])
    ensures r.1.None? ==> |r.0| == |attributes|
    ensures r.1.Some? ==>
      |r.0| < |attributes| && ChildNamespace(info, attributes[|r.0|].0) == Failure(r.1.value)
    decreases |attributes|
  {
    if |attributes| == 0 then ([], None)
    else
      var (name, value) := attributes[0];
      match ChildNamespace(info, name)
      case Failure(e) => ([], Some(e))
      case Success(ns) =>
        var rest := ChildAttributeRequests(info, attributes[1..]);
        assert forall i :: 1 <= i < |attributes| ==> attributes[i] == attributes[1..][i - 1];
        ([SetAttributes(info.name, ns, [(name, value)])] + rest.0, rest.1)
  }

  /** The attribute requests stop with an error exactly when the namespace
      search fails for some attribute. */
  lemma ChildAttributesFailIff(info: ChildInfo, attributes: Dict<string>)
    ensures ChildAttributeRequests(info, attributes).1.None? <==>
      forall i :: 0 <= i < |attributes| ==> ChildNamespace(info, attributes[i].0).Success?
  {
    var r := ChildAttributeRequests(info, attributes);
    if r.1.None? {
      forall i | 0 <= i < |attributes|
        ensures ChildNamespace(info, attributes[i].0).Success?
      {
        assert SetsUnderNamespace(info, attributes[i], r.0[i]);
      }
    }
  }

  /** `set_children_attributes`: for each child, in order, fetch its
      details and set each of its attributes. */
  function SetChildrenAttributes(resource: string, children: Dict<Dict<string>>, details: string -> ChildInfo)
    : (r: (seq<Request>, Option<Exc>))
    ensures r.1.None? ==> forall i :: 0 <= i < |children| ==> GetDetailsRequest(ChildPath(resource, children[i].0)) in r.0
    ensures |children| > 0 ==> |r.0| >= 1 && r.0[0] == GetDetailsRequest(ChildPath(resource, children[0].0))
    ensures |children| == 1 ==>
      var path := ChildPath(resource, children[0].0);
      r == ([GetDetailsRequest(path)] + ChildAttributeRequests(details(path), children[0].1).0,
            ChildAttributeRequests(details(path), children[0].1).1)
    decreases |children|
  {
    if |children| == 0 then ([], None)
    else
      var path := ChildPath(resource, children[0].0);
      var own := ChildAttributeRequests(details(path), children[0].1);
      if own.1.Some? then ([GetDetailsRequest(path)] + own.0, own.1)
      else
        var rest := SetChildrenAttributes(resource, children[1..], details);
        var out := [GetDetailsRequest(path)] + own.0 + rest.0;
        assert forall i :: 1 <= i < |children| ==> children[i] == children[1..][i - 1];
        assert |children| == 1 ==> children[1..] == [] && out == [GetDetailsRequest(path)] + own.0;
        (out, rest.1)
  }

  /** The children are handled one after another: the requests for `a + b`
      are those for `a` followed, unless `a` raised, by those for `b`. */
  lemma {:induction false} SetChildrenAttributesInOrder(resource: string, a: Dict<Dict<string>>, b: Dict<Dict<string>>,
                                                       details: string -> ChildInfo)
    ensures var ra := SetChildrenAttributes(resource, a, details);
      ra.1.Some? ==> SetChildrenAttributes(resource, a + b, details) == ra
    ensures var ra := SetChildrenAttributes(resource, a, details);
      var rb := SetChildrenAttributes(resource, b, details);
      ra.1.None? ==> SetChildrenAttributes(resource, a + b, details) == (ra.0 + rb.0, rb.1)
    decreases |a|
  {
    if |a| == 0 {
      assert a + b == b;
      var rb := SetChildrenAttributes(resource, b, details);
      assert [] + rb.0 == rb.0;
    } else {
      assert (a + b)[0] == a[0];
      assert (a + b)[1..] == a[1..] + b;
      var path := ChildPath(resource, a[0].0);
      var own := ChildAttributeRequests(details(path), a[0].1);
      if own.1.None? {
        SetChildrenAttributesInOrder(resource, a[1..], b, details);
        var rest := SetChildrenAttributes(resource, a[1..], details);
        var rb := SetChildrenAttributes(resource, b, details);
        if rest.1.None? {
          AppendAssoc([GetDetailsRequest(path)] + own.0, rest.0, rb.0);
        }
      }
    }
  }

  // ---------------------------------------------------------------------
  // Autoload, rename, finish

  /** The outcome of `autoload`: the handler afterwards, the error raised
      if any, and the requests sent. */
  datatype AutoloadRun = AutoloadRun(handler: ResourceHandler, error: Option<Exc>, requests: seq<Request>)

  /** `autoload`: autoload with the driver-rebind retry, mark it finished,
      then set the configured child attributes. */
  function Autoload(h: ResourceHandler, first: CsHandler.ApiAnswer, second: CsHandler.ApiAnswer,
                    details: string -> ChildInfo): (r: AutoloadRun)
    ensures r.handler.isAutoloadFinished <==>
      h.isAutoloadFinished || first.Ok? || (RebindsDriver(first) && second.Ok?)
    ensures r.handler == h.(isAutoloadFinished := r.handler.isAutoloadFinished)
    ensures !(first.Ok? || (RebindsDriver(first) && second.Ok?)) ==> r.error.Some? && r.error.value.CloudShellAPIError?
    ensures h.conf.childrenAttributes == [] ==>
      (r.error.None? <==> first.Ok? || (RebindsDriver(first) && second.Ok?))
  {
    var (res, calls) := AutoloadCalls(h.name, h.model, first, second);
    if res.Failure? then
      AutoloadRun(h, Some(res.error), calls)
    else
      var finished := h.(isAutoloadFinished := true);
      if h.conf.childrenAttributes == [] then AutoloadRun(finished, None, calls)
      else
        var (children, err) := SetChildrenAttributes(h.name, h.conf.childrenAttributes, details);
        AutoloadRun(finished, err, calls + children)
  }

  /** `rename`: the handler adopts the name CloudShell accepted. */
  function Rename(h: ResourceHandler, newName: string, answers: seq<CsHandler.ApiAnswer>)
    : (r: Result<(ResourceHandler, Request), Exc>)
    requires CsHandler.Conflicts(answers) < |answers|
    ensures r.Success? <==> answers[CsHandler.Conflicts(answers)].Ok?
    ensures r.Success? ==>
      r.value.0 == h.(name := CsHandler.Renamed(newName, CsHandler.Conflicts(answers))) &&
      r.value.1 == RenameResourceRequest(h.name, r.value.0.name)
  {
    CsHandler.RetryOnNameTakenSpec(newName, answers);
    match CsHandler.RenameResource(newName, answers)
    case Done(name) => Success((h.(name := name), RenameResourceRequest(h.name, name)))
    case Raised(e) => Failure(e)
    case Pending(_) => assert false; Failure(Other("pending"))
  }

  /** `finish`: delete the resource under its current name. */
  function Finish(h: ResourceHandler): Request
  {
    DeleteResourceRequest(h.name)
  }

  /** After a rename the resource is deleted under the accepted new name,
      not under the configured one. */
  lemma FinishAfterRename(h: ResourceHandler, newName: string, answers: seq<CsHandler.ApiAnswer>)
    requires CsHandler.Conflicts(answers) < |answers| && answers[CsHandler.Conflicts(answers)].Ok?
    ensures Rename(h, newName, answers).Success?
    ensures Finish(Rename(h, newName, answers).value.0) ==
      DeleteResourceRequest(CsHandler.Renamed(newName, CsHandler.Conflicts(answers)))
  {
  }

  /** Commands run against the resource under its current name; the
      second generation repeats the first's `execute_command`. */
  function ExecuteOn(h: ResourceHandler, c: ResourceCommand): (r: Request)
    ensures r.ExecuteCommandRequest? && r.target == h.name
    ensures DecodeCommand(r.command, r.args) == Some(c)
  {
    Execute(h.name, c)
  }

  // ---------------------------------------------------------------------
  // Services and deployment resources

  /** A service handler: name, model and configured attributes. */
  datatype ServiceHandler = ServiceHandler(name: string, model: string, attributes: Dict<string>)

  /** A deployment resource: the App's deployed name (also its VM name),
      whether its shell is first generation, and its attributes. */
  datatype DeploymentResourceHandler = DeploymentResourceHandler(
    name: string, isFirstGen: bool, attributes: Dict<string>, vmName: string, model: string)

  /** The targets a sandbox tests. */
  datatype Target =
    | ResourceTarget(resource: ResourceHandler)
    | ServiceTarget(service: ServiceHandler)
    | DeploymentTarget(deployment: DeploymentResourceHandler)

  /** `device_type` of each kind of target: only plain resources are
      classified; services and deployment resources are real devices. */
  function TargetDeviceType(t: Target): (r: DeviceType)
    ensures !t.ResourceTarget? ==> r == RealDevice
    ensures t.ResourceTarget? ==> r == Classify(t.resource.conf.deviceIp, t.resource.conf.attributes)
  {
    match t
    case ResourceTarget(h) => DeviceTypeOf(h)
    case ServiceTarget(_) => RealDevice
    case DeploymentTarget(_) => RealDevice
  }

  /** The extra keyword arguments of a service command: the caller's, or
      an empty map for `None` or an empty map. */
  function ExtraOrEmpty(extra: Option<Dict<ArgValue>>): (r: Dict<ArgValue>)
    ensures r == [] <==> extra.None? || extra.value == []
    ensures extra.Some? && extra.value != [] ==> r == extra.value
  {
    if extra.Some? && extra.value != [] then extra.value else []
  }

  /** `start_traffic`, `stop_traffic`, `get_statistics`. */
  function ServiceCommand(s: ServiceHandler, command: string, extra: Option<Dict<ArgValue>>): (r: Request)
    ensures r.ExecuteCommandRequest? && r.target == s.name && r.command == command
    ensures extra.None? ==> r.args == []
  {
    ExecuteCommandRequest(s.name, command, ExtraOrEmpty(extra))
  }

  const ConfigFileLocation: string := "config_file_location"

  /** `load_config`: the request sent, and the caller's dict afterwards.
      A non-empty dict is updated in place with the config path, so the
      caller sees the key afterwards; `None` or an empty dict is replaced
      by a fresh one and the caller's value is untouched. */
  function LoadConfig(s: ServiceHandler, configPath: ArgValue, extra: Option<Dict<ArgValue>>)
    : (r: (Request, Option<Dict<ArgValue>>))
    ensures r.0.ExecuteCommandRequest? && r.0.target == s.name && r.0.command == "load_config"
    ensures extra.None? || extra.value == [] ==> r.1 == extra
    ensures extra.Some? && extra.value != [] ==> r.1 == Some(r.0.args)
  {
    var args := Dicts.Put(ExtraOrEmpty(extra), ConfigFileLocation, configPath);
    (ExecuteCommandRequest(s.name, "load_config", args), if extra.Some? && extra.value != [] then Some(args) else extra)
  }

  /** The config path overrides any caller value under that key, and every
      other extra argument is passed through. */
  lemma LoadConfigArgs(s: ServiceHandler, configPath: ArgValue, extra: Option<Dict<ArgValue>>, key: string)
    ensures Dicts.Get(LoadConfig(s, configPath, extra).0.args, ConfigFileLocation) == Some(configPath)
    ensures key != ConfigFileLocation ==>
      Dicts.Get(LoadConfig(s, configPath, extra).0.args, key) == Dicts.Get(ExtraOrEmpty(extra), key)
  {
    Dicts.GetPut(ExtraOrEmpty(extra), ConfigFileLocation, configPath, ConfigFileLocation);
    Dicts.GetPut(ExtraOrEmpty(extra), ConfigFileLocation, configPath, key);
  }

  /** `get_test_file`. */
  function GetTestFile(s: ServiceHandler, testName: string): (r: Request)
    ensures r.ExecuteCommandRequest? && r.target == s.name && r.command == "get_test_file"
    ensures Dicts.Get(r.args, "test_name") == Some(Str(testName))
  {
    ExecuteCommandRequest(s.name, "get_test_file", [("test_name", Str(testName))])
  }

  /** `DeploymentResourceHandler.create_resource`: the handler takes the
      name the sandbox gives the deployed App, whatever name was
      configured, and sets the attributes when there are any.  The
      handler's attribute map is the caller's map itself, so the update
      merges it into itself. */
  function CreateDeploymentResource(configuredName: string, isFirstGen: bool, attributes: Dict<string>,
                                    deployedName: string, model: string): (r: (DeploymentResourceHandler, seq<Request>))
    ensures r.0.name == deployedName && r.0.vmName == deployedName
    ensures attributes == [] <==> r.1 == []
    ensures attributes != [] ==>
      r.1 == [SetAttributes(deployedName, if isFirstGen then "" else model, attributes)]
  {
    var h := DeploymentResourceHandler(deployedName, isFirstGen, attributes, deployedName, model);
    if attributes != [] then
      var ns := if isFirstGen then "" else model;
      (h.(attributes := Dicts.Update(attributes, attributes)), [SetAttributes(deployedName, ns, attributes)])
    else (h, [])
  }

  /** Merging the configured map into itself leaves every key's value as
      configured. */
  lemma DeploymentAttributesUnchanged(configuredName: string, isFirstGen: bool, attributes: Dict<string>,
                                      deployedName: string, model: string, key: string)
    requires Dicts.Valid(attributes)
    ensures Dicts.Get(CreateDeploymentResource(configuredName, isFirstGen, attributes, deployedName, model).0.attributes, key)
      == Dicts.Get(attributes, key)
  {
    Dicts.GetUpdate(attributes, attributes, key);
  }
}

=== FILE: resource_runner.dfy ===
/** The single-resource test runner (`shell_tests/run_tests_for_resource.py`):
    the device-keyed registry, the class selection and the run.  The
    driver's command layout (read from the shell archive) and the device
    type of the resource handler are inputs. */
module ResourceRunner {
  import opened Wrappers
  import opened Errors
  import opened Catalog
  import opened Registry
  import opened Sequences
  import opened Selection
  import opened Helpers
  import Dicts
  import Report

  /** The table of a device type; the device-keyed registry has all three. */
  function TableOf(deviceType: DeviceType): (t: CommandTable)
    ensures "autoload" in t
  {
    DeviceRegistryShape(deviceType);
    DeviceTestCasesMap[deviceType]
  }

  /** `resource_test_cases`: the device type's autoload class first, then
      each lower-cased driver command's class at its first occurrence. */
  function ResourceTestCases(deviceType: DeviceType, commands: seq<string>): seq<TestClass>
  {
    var table := TableOf(deviceType);
    Select([table["autoload"]], table, commands)
  }

  /** The selection starts with the autoload class whatever the family or
      the driver reports, lists no class twice, and holds exactly the
      classes some command maps to besides. */
  lemma ResourceTestCasesSpec(deviceType: DeviceType, commands: seq<string>)
    ensures var r := ResourceTestCases(deviceType, commands);
      |r| >= 1 && r[0] == DeviceTestCasesMap[deviceType]["autoload"] && NoDup(r)
    ensures forall x :: x in ResourceTestCases(deviceType, commands) <==>
      x == DeviceTestCasesMap[deviceType]["autoload"] ||
      exists k :: 0 <= k < |commands| && MapsTo(DeviceTestCasesMap[deviceType], commands[k], x)
  {
    var table := TableOf(deviceType);
    SelectSpec([table["autoload"]], table, commands);
  }

  /** A simulator is tested by autoload alone. */
  lemma SimulatorOnlyAutoload(commands: seq<string>)
    ensures ResourceTestCases(Simulator, commands) == [TestAutoload]
  {
    var table := TableOf(Simulator);
    assert forall x :: x in table.Values ==> x in [TestAutoload] by {
      DeviceRegistryShape(Simulator);
    }
    SelectAbsorbed([TestAutoload], table, commands);
  }

  /** The connectivity test is selected only for a real device, and for a
      real device exactly when the driver reports the command. */
  lemma ConnectivityOnlyForRealDevice(deviceType: DeviceType, commands: seq<string>)
    ensures TestConnectivity in ResourceTestCases(deviceType, commands) <==>
      deviceType == RealDevice &&
      exists k :: 0 <= k < |commands| && Text.Lower(commands[k]) == "applyconnectivitychanges"
  {
    ResourceTestCasesSpec(deviceType, commands);
    var table := DeviceTestCasesMap[deviceType];
    ConnectivityKey(deviceType, "autoload");
    if TestConnectivity in ResourceTestCases(deviceType, commands) {
      var k :| 0 <= k < |commands| && MapsTo(table, commands[k], TestConnectivity);
      ConnectivityKey(deviceType, Text.Lower(commands[k]));
    }
    if deviceType == RealDevice && exists k :: 0 <= k < |commands| && Text.Lower(commands[k]) == "applyconnectivitychanges" {
      var k :| 0 <= k < |commands| && Text.Lower(commands[k]) == "applyconnectivitychanges";
      ConnectivityKey(deviceType, Text.Lower(commands[k]));
    }
  }

  /** Only the real device's table maps a key to the connectivity test,
      and only the connectivity command. */
  lemma ConnectivityKey(deviceType: DeviceType, key: string)
    ensures deviceType in DeviceTestCasesMap
    ensures key in DeviceTestCasesMap[deviceType] && DeviceTestCasesMap[deviceType][key] == TestConnectivity <==>
      deviceType == RealDevice && key == "applyconnectivitychanges"
  {
  }

  /** What one resource run does, besides running the tests. */
  datatype ResourceRun = ResourceRun(attributesApplied: bool, classes: seq<TestClass>, isSuccess: bool, ran: seq<TestEntry>)

  /** `run_test_cases`: inside `with self.resource_handler`, apply the
      configured attributes when there are any, build one entry per test
      method of each selected class, and run them all.  `prepared` is what
      `__enter__` (`prepare_resource`) did and `attributesSet` what
      `set_attributes` did; a failure of either leaves the `with` block,
      whose `__exit__` deletes the resource and returns False, so the
      error propagates and no test runs. */
  function RunTestCases(deviceType: DeviceType, attributes: Dicts.Dict<string>, layouts: seq<seq<LayoutItem>>,
                        methods: TestClass -> seq<string>, passes: TestEntry -> bool,
                        prepared: Result<(), Exc>, attributesSet: Result<(), Exc>): (r: Result<ResourceRun, Exc>)
    ensures r.Success? <==> prepared.Success? && (attributes == [] || attributesSet.Success?)
    ensures prepared.Failure? ==> r == Failure(prepared.error)
    ensures prepared.Success? && attributes != [] && attributesSet.Failure? ==> r == Failure(attributesSet.error)
    ensures r.Success? ==> (
      var run := r.value;
      (run.attributesApplied <==> attributes != []) &&
      run.classes == ResourceTestCases(deviceType, DriverCommands(layouts)) &&
      (forall e :: e in run.ran <==> e.testClass in run.classes && e.testName in methods(e.testClass)) &&
      (run.isSuccess <==> forall e :: e in run.ran ==> passes(e)))
  {
    if prepared.Failure? then Failure(prepared.error)
    else if attributes != [] && attributesSet.Failure? then Failure(attributesSet.error)
    else
      var classes := ResourceTestCases(deviceType, DriverCommands(layouts));
      var suite := Suite(classes, methods);
      forall e { SuiteMember(classes, methods, e); }
      Success(ResourceRun(attributes != [], classes, forall e :: e in suite ==> passes(e), suite))
  }

  /** `run`: a successful outcome goes into the shared report as one more
      entry under the configured name and IP, with the device type's text;
      a failed one ends the thread with its error before the report is
      touched. */
  function Run(report: Report.Reporting, name: string, deviceIp: Option<string>, deviceType: DeviceType,
               outcome: Result<ResourceRun, Exc>, text: string): (r: Result<Report.Reporting, Exc>)
    ensures outcome.Failure? ==> r == Failure(outcome.error)
    ensures outcome.Success? ==> r.Success?
    ensures r.Success? ==> |r.value.reports| == |report.reports| + 1
    ensures r.Success? ==> (r.value.reports[|report.reports|] ==
      Report.ResourceReport(name, deviceIp, DeviceTypeValue(deviceType), outcome.value.isSuccess, text))
    ensures r.Success? ==> (Report.IsSuccess(r.value) <==> Report.IsSuccess(report) && outcome.value.isSuccess)
  {
    match outcome
    case Failure(e) => Failure(e)
    case Success(run) =>
      Report.AddReportVerdict(report, name, deviceIp, DeviceTypeValue(deviceType), run.isSuccess, text);
      Success(Report.AddResourceReport(report, name, deviceIp, DeviceTypeValue(deviceType), run.isSuccess, text))
  }

  /** The report gains an entry exactly when the resource was prepared and
      its attributes, if any, were set; otherwise the setup error is what
      the thread ends with. */
  lemma ReportedOnlyAfterSetup(report: Report.Reporting, name: string, deviceIp: Option<string>, deviceType: DeviceType,
                               attributes: Dicts.Dict<string>, layouts: seq<seq<LayoutItem>>,
                               methods: TestClass -> seq<string>, passes: TestEntry -> bool,
                               prepared: Result<(), Exc>, attributesSet: Result<(), Exc>, text: string)
    ensures var r := Run(report, name, deviceIp, deviceType,
                         RunTestCases(deviceType, attributes, layouts, methods, passes, prepared, attributesSet), text);
      (r.Success? <==> prepared.Success? && (attributes == [] || attributesSet.Success?)) &&
      (r.Success? ==> |r.value.reports| == |report.reports| + 1) &&
      (prepared.Failure? ==> r == Failure(prepared.error))
  {
  }
}

=== FILE: resource_tree.dfy ===
/** The part of the CloudShell API's `ResourceInfo` the automation tests
    read: a resource's name and family, and its child resources in the
    order the API lists them. */
module ResourceTree {

  datatype ResourceInfo = ResourceInfo(name: string, family: string, children: seq<ResourceInfo>)

  const PortFamily: string := "CS_Port"

  /** Every family name in the tree, in pre-order. */
  function Families(info: ResourceInfo): (r: seq<string>)
    ensures |r| > 0 && r[0] == info.family
  {
    [info.family] + FamiliesOf(info.children)
  }

  function FamiliesOf(children: seq<ResourceInfo>): seq<string>
  {
    if |children| == 0 then [] else Families(children[0]) + FamiliesOf(children[1..])
  }
}

=== FILE: run_tests.dfy ===
/** Getting a CloudShell to run the tests in, second generation
    (`shell_tests/run_tests.py`): directly from the configuration, or on DO
    with up to five attempts, ending the DO reservation after every failed
    attempt and, when asked to, after the successful one. */
module RunTests {
  import opened Wrappers
  import opened Errors
  import Liveness

  const Attempts: nat := 5

  /** How one DO attempt goes: creating the CloudShell on DO raises, or it
      is created and connecting to its API gives `api`. */
  datatype Attempt = CreateFailed(error: Exc) | Created(api: Result<(), Exc>)

  /** `RunTestsInCloudShell`'s liveness check: an `IOError` while
      connecting becomes `CSIsNotAliveError`; other errors pass through. */
  function Connect(api: Result<(), Exc>): (r: Result<(), Exc>)
    ensures r.Success? <==> api.Success?
    ensures api.Failure? && api.error.IOError? ==> r == Failure(CSIsNotAliveError(""))
    ensures api.Failure? && !api.error.IOError? ==> r == api
  {
    match api
    case Success(_) => Success(())
    case Failure(IOError(_)) => Failure(CSIsNotAliveError(""))
    case Failure(e) => Failure(e)
  }

  /** What one attempt yields. */
  function Outcome(a: Attempt): (r: Result<(), Exc>)
    ensures a.CreateFailed? ==> r == Failure(a.error)
  {
    match a
    case CreateFailed(e) => Failure(e)
    case Created(api) => Connect(api)
  }

  /** The attempt failed because the new CloudShell does not answer. */
  predicate NotAlive(a: Attempt) {
    Outcome(a).Failure? && Outcome(a).error.CSIsNotAliveError?
  }

  /** The outcome of `get_run_tests_in_cloudshell`: the attempt whose
      CloudShell is used (0 without DO) or the error raised, and the
      attempts after which the DO reservation was ended. */
  datatype Launch = Launch(result: Result<nat, Exc>, ended: seq<nat>)

  /** The attempts from `i` on.  `error` is the last caught
      `CSIsNotAliveError`: the name outlives its `except` clause, so the
      `finally` of an attempt that raises something else still sees it. */
  function LaunchFrom(attempts: nat -> Attempt, deleteCs: bool, i: nat, error: Option<Exc>): (r: Launch)
    requires i <= Attempts
    requires i > 0 ==> error.Some?
    decreases Attempts - i
  {
    if i == Attempts then Launch(Failure(error.value), [])
    else match Outcome(attempts(i))
      case Success(_) => Launch(Success(i), if deleteCs then [i] else [])
      case Failure(e) =>
        if e.CSIsNotAliveError? then
          var next := LaunchFrom(attempts, deleteCs, i + 1, Some(e));
          Launch(next.result, [i] + next.ended)
        else Launch(Failure(e), if error.Some? || deleteCs then [i] else [])
  }

  /** `get_run_tests_in_cloudshell`: `deleteCs` is the DO configuration's
      'Delete CS' flag, or `None` without DO, when the configured CloudShell
      is connected to once (`direct`). */
  function GetRunTestsInCloudshell(deleteCs: Option<bool>, direct: Result<(), Exc>, attempts: nat -> Attempt)
    : (r: Launch)
    ensures deleteCs.None? ==> r.ended == [] && (r.result.Success? <==> direct.Success?)
    ensures deleteCs.None? && direct.Failure? && direct.error.IOError? ==> r.result == Failure(CSIsNotAliveError(""))
    ensures deleteCs.Some? ==> r == LaunchFrom(attempts, deleteCs.value, 0, None)
  {
    match deleteCs
    case None => Launch(match Connect(direct) case Success(_) => Success(0) case Failure(e) => Failure(e), [])
    case Some(delete) => LaunchFrom(attempts, delete, 0, None)
  }

  /** The attempts `lo` to `hi - 1`. */
  function Range(lo: nat, hi: nat): (r: seq<nat>)
    requires lo <= hi
    ensures |r| == hi - lo
    ensures forall k :: 0 <= k < |r| ==> r[k] == lo + k
    decreases hi - lo
  {
    if lo == hi then [] else [lo] + Range(lo + 1, hi)
  }

  /** Attempts that all fail as not alive: each reservation is ended and
      the last error is raised again. */
  lemma {:induction false} LaunchAllNotAlive(attempts: nat -> Attempt, deleteCs: bool, i: nat, error: Option<Exc>)
    requires i < Attempts
    requires i > 0 ==> error.Some?
    requires forall j :: i <= j < Attempts ==> NotAlive(attempts(j))
    ensures var last := Outcome(attempts(Attempts - 1));
      last.Failure? && LaunchFrom(attempts, deleteCs, i, error) == Launch(Failure(last.error), Range(i, Attempts))
    decreases Attempts - i
  {
    if i + 1 < Attempts {
      LaunchAllNotAlive(attempts, deleteCs, i + 1, Some(Outcome(attempts(i)).error));
    }
  }

  /** Whether the reservation of the deciding attempt is ended: after a
      success only when 'Delete CS' asks for it; after another error also
      when an earlier attempt failed as not alive. */
  function EndsLast(outcome: Result<(), Exc>, deleteCs: bool, lingering: bool): bool
  {
    deleteCs || (outcome.Failure? && lingering)
  }

  /** How the loop ends at attempt `k` that is not a not-alive failure,
      after ending the reservations of attempts `lo` to `k - 1`. */
  function StoppedAt(outcome: Result<(), Exc>, lo: nat, k: nat, deleteCs: bool, lingering: bool): Launch
    requires lo <= k
  {
    Launch(if outcome.Success? then Success(k) else Failure(outcome.error),
           Range(lo, k) + (if EndsLast(outcome, deleteCs, lingering) then [k] else []))
  }

  lemma {:induction false} LaunchStopsAtFrom(attempts: nat -> Attempt, deleteCs: bool, i: nat, error: Option<Exc>, k: nat)
    requires i <= k < Attempts
    requires i > 0 ==> error.Some?
    requires !NotAlive(attempts(k))
    requires forall j :: i <= j < k ==> NotAlive(attempts(j))
    ensures LaunchFrom(attempts, deleteCs, i, error) ==
      StoppedAt(Outcome(attempts(k)), i, k, deleteCs, i < k || error.Some?)
    decreases k - i
  {
    if i < k {
      var e := Outcome(attempts(i)).error;
      LaunchStopsAtFrom(attempts, deleteCs, i + 1, Some(e), k);
      var tail := if EndsLast(Outcome(attempts(k)), deleteCs, true) then [k] else [];
      assert Range(i, k) == [i] + Range(i + 1, k);
      assert [i] + (Range(i + 1, k) + tail) == Range(i, k) + tail;
    }
  }

  /** With DO, the first attempt that does not fail as not alive decides:
      every earlier reservation was ended, in order. */
  lemma LaunchStopsAt(attempts: nat -> Attempt, deleteCs: bool, k: nat)
    requires k < Attempts
    requires !NotAlive(attempts(k))
    requires forall j :: 0 <= j < k ==> NotAlive(attempts(j))
    ensures GetRunTestsInCloudshell(Some(deleteCs), Success(()), attempts) ==
      StoppedAt(Outcome(attempts(k)), 0, k, deleteCs, 0 < k)
  {
    LaunchStopsAtFrom(attempts, deleteCs, 0, None, k);
  }

  /** Five CloudShells whose API raises `IOError`: all five reservations
      are ended and `CSIsNotAliveError` is raised. */
  lemma FiveDeadCloudShells(attempts: nat -> Attempt, deleteCs: bool)
    requires forall j :: 0 <= j < Attempts ==> attempts(j).Created? && attempts(j).api == Failure(IOError(""))
    ensures GetRunTestsInCloudshell(Some(deleteCs), Success(()), attempts) ==
      Launch(Failure(CSIsNotAliveError("")), [0, 1, 2, 3, 4])
  {
    LaunchAllNotAlive(attempts, deleteCs, 0, None);
    assert Range(0, Attempts) == [0, 1, 2, 3, 4];
  }

  /** Without 'Delete CS', a first attempt that fails for another reason
      leaves its reservation running, but the same failure after a dead
      CloudShell ends it. */
  lemma LingeringErrorEndsReservation(e: Exc, attempts: nat -> Attempt)
    requires !e.CSIsNotAliveError?
    requires attempts(0) == Created(Failure(IOError("")))
    requires attempts(1) == CreateFailed(e)
    ensures GetRunTestsInCloudshell(Some(false), Success(()), (j: nat) => CreateFailed(e)) == Launch(Failure(e), [])
    ensures GetRunTestsInCloudshell(Some(false), Success(()), attempts) == Launch(Failure(e), [0, 1])
  {
    LaunchStopsAt((j: nat) => CreateFailed(e), false, 0);
    LaunchStopsAt(attempts, false, 1);
    assert Range(0, 1) == [0];
  }

  /** The DO configuration as this runner reads it. */
  datatype DoSettings = DoSettings(host: string, deleteCs: bool)

  /** `AutomatedTestsRunner.run` up to the test run: the reachability
      check first, and no CloudShell work at all when it fails. */
  function Start(resources: seq<Liveness.Target>, ftpHost: Option<string>, csHost: string, doConf: Option<DoSettings>,
                 alive: string -> bool, direct: Result<(), Exc>, attempts: nat -> Attempt): (r: Launch)
    ensures var check := Liveness.CheckAllResourcesIsAlive(resources, ftpHost, HostOf(doConf), csHost, alive);
      check.Failure? ==> r == Launch(Failure(check.error), [])
    ensures Liveness.CheckAllResourcesIsAlive(resources, ftpHost, HostOf(doConf), csHost, alive).Success? ==>
      r == GetRunTestsInCloudshell(if doConf.Some? then Some(doConf.value.deleteCs) else None, direct, attempts)
  {
    match Liveness.CheckAllResourcesIsAlive(resources, ftpHost, HostOf(doConf), csHost, alive)
    case Failure(e) => Launch(Failure(e), [])
    case Success(_) => GetRunTestsInCloudshell(if doConf.Some? then Some(doConf.value.deleteCs) else None, direct, attempts)
  }

  function HostOf(doConf: Option<DoSettings>): Option<string>
  {
    if doConf.Some? then Some(doConf.value.host) else None
  }
}

=== FILE: sandbox_handler.dfy ===
/** The sandbox context manager (`shell_tests/sandbox_handler.py`): the
    resource handlers it builds, and what entering and leaving it does to
    the reservation and to the resources.  Each resource's own context is
    reduced to whether entering it raises; the API calls are events. */
module SandboxHandler {
  import opened Wrappers
  import opened Errors
  import opened Sequences
  import Dicts

  /** The resource handlers, keyed in the order of the sandbox's resource
      names: a repeated name keeps its first place, and a name without a
      resource configuration fails the lookup. */
  function ResourceKeys<C>(resourceNames: seq<string>, resourceConfigs: Dicts.Dict<C>): (r: Result<seq<string>, Exc>)
    ensures r.Success? <==> forall i :: 0 <= i < |resourceNames| ==> Dicts.HasKey(resourceConfigs, resourceNames[i])
    ensures r.Success? ==> r.value == Dedupe(resourceNames)
    ensures r.Failure? ==> exists i :: (
      0 <= i < |resourceNames| && !Dicts.HasKey(resourceConfigs, resourceNames[i]) &&
      r.error == KeyError(resourceNames[i]) &&
      forall j :: 0 <= j < i ==> Dicts.HasKey(resourceConfigs, resourceNames[j]))
  {
    match FirstIndex(resourceNames, (n: string) => !Dicts.HasKey(resourceConfigs, n))
    case Some(i) => Failure(KeyError(resourceNames[i]))
    case None => Success(Dedupe(resourceNames))
  }

  /** The observable calls of the sandbox. */
  datatype Event =
    | CreateReservation(name: string)
    | EnterResource(key: string)
    | AddResourceToReservation(reservationId: string, resourceName: string)
    | DeleteReservation(reservationId: string)
    | ExitResource(key: string)

  /** Visit `keys` in order, recording `ev(k)` for each, and stop after the
      first one whose `outcome` is an error. */
  function InOrder(keys: seq<string>, ev: string -> Event, outcome: string -> Option<Exc>): (r: (seq<Event>, Option<Exc>))
    ensures r.1.None? <==> FirstIndex(keys, (k: string) => outcome(k).Some?).None?
    ensures r.1.None? ==> r.0 == seq(|keys|, i requires 0 <= i < |keys| => ev(keys[i]))
    ensures r.1.Some? ==> var j := FirstIndex(keys, (k: string) => outcome(k).Some?).value;
      r.1 == outcome(keys[j]) && r.0 == seq(j + 1, i requires 0 <= i <= j => ev(keys[i]))
  {
    if |keys| == 0 then ([], None)
    else
      var head := ev(keys[0]);
      if outcome(keys[0]).Some? then ([head], outcome(keys[0]))
      else
        var rest := InOrder(keys[1..], ev, outcome);
        assert forall i :: 1 <= i < |keys| ==> keys[1..][i - 1] == keys[i];
        ([head] + rest.0, rest.1)
  }

  /** The outcome of entering a sandbox: the reservation id held afterwards,
      the events, and what `__enter__` finally does. */
  datatype Entered = Entered(reservationId: Option<string>, events: seq<Event>, result: Result<(), Exc>)

  /** `__exit__`: the reservation is deleted when an id is held; the
      resources' stack is never there to exit, and no exception is
      suppressed. */
  function Exit(reservationId: Option<string>): (r: (seq<Event>, bool))
    ensures !r.1
    ensures r.0 == (if Dicts.Truthy(reservationId) then [DeleteReservation(reservationId.value)] else [])
  {
    (if Dicts.Truthy(reservationId) then [DeleteReservation(reservationId.value)] else [], false)
  }

  /** `__enter__` under `call_exit_func_on_exc`: create the reservation,
      enter every resource's context in key order, then add every key (the
      configured name, not the handler's possibly renamed one) to the
      reservation.  A failure anywhere is raised again; an `Exception` runs
      `__exit__` first, a `KeyboardInterrupt` leaves without it. */
  function Enter(name: string, keys: seq<string>, reservation: Result<string, Exc>,
                 enterResource: string -> Option<Exc>, addResource: string -> Option<Exc>): (r: Entered)
    ensures reservation.Failure? ==> r == Entered(None, [CreateReservation(name)], Failure(reservation.error))
    ensures r.result.Success? ==> (
      reservation.Success? && r.reservationId == Some(reservation.value) &&
      r.events == [CreateReservation(name)] +
        seq(|keys|, i requires 0 <= i < |keys| => EnterResource(keys[i])) +
        seq(|keys|, i requires 0 <= i < |keys| => AddResourceToReservation(reservation.value, keys[i])))
    ensures r.result.Failure? && reservation.Success? ==> (
      |r.events| > 1 &&
      (r.events[|r.events| - 1] == DeleteReservation(reservation.value) <==>
        reservation.value != "" && IsException(r.result.error)))
    ensures forall i :: 0 <= i < |r.events| ==> !r.events[i].ExitResource?
  {
    match reservation
    case Failure(e) => Entered(None, [CreateReservation(name)], Failure(e))
    case Success(id) =>
      var start := [CreateReservation(name)];
      var (entered, enterError) := InOrder(keys, (k: string) => EnterResource(k), enterResource);
      if enterError.Some? then
        Entered(Some(id), start + entered + ExitOn(id, enterError.value), Failure(enterError.value))
      else
        var (added, addError) := InOrder(keys, (k: string) => AddResourceToReservation(id, k), addResource);
        if addError.Some? then
          Entered(Some(id), start + entered + added + ExitOn(id, addError.value), Failure(addError.value))
        else Entered(Some(id), start + entered + added, Success(()))
  }

  /** The events of `__exit__` when `__enter__` raised `e` while holding
      `id`: only an `Exception` reaches it. */
  function ExitOn(id: string, e: Exc): seq<Event>
  {
    if IsException(e) then Exit(Some(id)).0 else []
  }

  /** Leaving after a successful enter deletes the reservation and
      nothing else: no resource context is ever exited.  After a failed
      enter the reservation is deleted last exactly when the failure was an
      `Exception`. */
  lemma ResourcesNeverExited(name: string, keys: seq<string>, id: string,
                             enterResource: string -> Option<Exc>, addResource: string -> Option<Exc>)
    requires id != ""
    ensures var entered := Enter(name, keys, Success(id), enterResource, addResource);
      var all := entered.events + (if entered.result.Success? then Exit(entered.reservationId).0 else []);
      (forall i :: 0 <= i < |all| ==> !all[i].ExitResource?) &&
      (all[|all| - 1] == DeleteReservation(id) <==> entered.result.Success? || IsException(entered.result.error))
  {
  }
}

=== FILE: sandbox_runner.dfy ===
/** The sandbox runner of the second generation
    (`shell_tests/run_tests_for_sandbox.py`): per sandbox, test every
    deployment resource, resource and service whose tests are enabled, in
    that order, and file the sandbox's report once the sandbox is left. */
module SandboxRunner {
  import opened Wrappers
  import opened Errors
  import opened Catalog
  import opened Registry
  import opened Selection
  import opened Helpers
  import opened TestsHelpers

  /** What the runner reads of a target handler. */
  datatype Target = Target(
    name: string,
    ip: Option<string>,
    family: string,
    deviceType: DeviceType,
    runTests: bool,
    layouts: seq<seq<LayoutItem>>)

  /** A resource, deployment resource or service report; services carry no
      IP. */
  datatype TargetReport = TargetReport(
    name: string,
    ip: Option<string>,
    deviceType: DeviceType,
    family: string,
    isSuccess: bool,
    testResult: seq<TestEntry>)

  datatype SandboxReport = SandboxReport(
    name: string,
    isSuccess: bool,
    testResult: string,
    deploymentResourcesReports: seq<TargetReport>,
    resourcesReports: seq<TargetReport>,
    servicesReports: seq<TargetReport>)

  /** The runner's mutable state: the stop flag, the suite being run and
      the memoised runner class. */
  datatype RunnerState = RunnerState(
    stopFlag: bool,
    current: Option<PatchedTestSuite>,
    testRunner: Option<RunnerKind>)

  /** What the environment decides: whether TeamCity is present, the test
      methods of each class and the outcome of each test. */
  datatype Env = Env(underTeamcity: bool, methods: TestClass -> seq<string>, passes: TestEntry -> bool)

  /** `stop()`: stop the suite in progress, if any, and raise the flag. */
  function StopRun(s: RunnerState): (r: RunnerState)
    ensures r.stopFlag
    ensures r.testRunner == s.testRunner
    ensures r.current.Some? <==> s.current.Some?
    ensures r.current.Some? ==> r.current.value.stopRequested && r.current.value.tests == s.current.value.tests
  {
    match s.current
    case None => s.(stopFlag := true)
    case Some(suite) => s.(stopFlag := true, current := Some(Stop(suite)))
  }

  /** The `test_runner` property: chosen on first use, then remembered. */
  function TestRunner(s: RunnerState, underTeamcity: bool): (r: (RunnerKind, RunnerState))
    ensures r.1.testRunner == Some(r.0)
    ensures s.testRunner.Some? ==> r.0 == s.testRunner.value
    ensures s.testRunner.None? ==> (r.0 == TeamcityTestRunner <==> underTeamcity)
    ensures r.1.stopFlag == s.stopFlag && r.1.current == s.current
  {
    var (kind, memo) := CachedGet(s.testRunner, GetTestRunner(underTeamcity));
    (kind, s.(testRunner := memo))
  }

  /** The runner once chosen stays, whatever the environment says later. */
  lemma RunnerChosenOnce(s: RunnerState, first: bool, later: bool)
    requires s.testRunner.None?
    ensures TestRunner(TestRunner(s, first).1, later).0 == GetTestRunner(first)
  {
  }

  /** The classes `_run_target_tests` selects: the family registry, the
      autoload class first for device-hierarchy families, then the classes of
      the commands the shell's driver metadata lists. */
  function TargetClasses(t: Target): (r: Result<seq<TestClass>, Exc>)
    ensures r.Failure? <==> t.family !in TestCasesMap || t.deviceType !in TestCasesMap[t.family]
  {
    SelectedClasses(t.family, t.deviceType, DriverCommands(t.layouts))
  }

  /** `_run_target_tests`: a fresh suite becomes the current one before the
      registry lookup, so a failed lookup leaves it in place; after a run the
      current suite is cleared. */
  function RunTarget(s: RunnerState, t: Target, env: Env): (r: (RunnerState, Result<TargetReport, Exc>))
    ensures r.0.stopFlag == s.stopFlag
    ensures r.1.Failure? <==> TargetClasses(t).Failure?
    ensures r.1.Failure? ==> r.0.current == Some(PatchedTestSuite([], false, None))
    ensures r.1.Success? ==> r.0.current == None && r.0.testRunner.Some?
    ensures r.1.Success? ==>
      r.1.value.name == t.name && r.1.value.ip == t.ip &&
      r.1.value.deviceType == t.deviceType && r.1.value.family == t.family
  {
    var s1 := s.(current := Some(PatchedTestSuite([], false, None)));
    match TargetClasses(t)
    case Failure(e) => (s1, Failure(e))
    case Success(classes) =>
      var suite := PatchedTestSuite(Suite(classes, env.methods), false, None);
      var (_, s2) := TestRunner(s1, env.underTeamcity);
      var out := RunTestSuite(suite, env.passes, None);
      (s2.(current := None), Success(TargetReport(t.name, t.ip, t.deviceType, t.family, out.0, out.1)))
  }

  /** A successful target report succeeds exactly when every test of the
      suite passed, and lists every test. */
  lemma RunTargetReport(s: RunnerState, t: Target, env: Env)
    requires TargetClasses(t).Success?
    ensures var rep := RunTarget(s, t, env).1.value;
      var suite := Suite(TargetClasses(t).value, env.methods);
      rep.testResult == suite &&
      (rep.isSuccess <==> forall e :: e in suite ==> env.passes(e))
  {
    UnstoppedSuiteRunsAll(PatchedTestSuite(Suite(TargetClasses(t).value, env.methods), false, None), env.passes);
  }

  /** A `stop()` between two targets finds no suite to stop; the next target
      gets a fresh suite and runs all of it. */
  lemma StopBetweenTargetsMissesNextSuite(s: RunnerState, t: Target, env: Env)
    requires s.current.None?
    requires TargetClasses(t).Success?
    ensures RunTarget(StopRun(s), t, env).1.value.testResult == Suite(TargetClasses(t).value, env.methods)
  {
    RunTargetReport(StopRun(s), t, env);
  }

  /** The targets whose `tests_conf.run_tests` is set, in order. */
  function Tested(ts: seq<Target>): (r: seq<Target>)
    ensures |r| <= |ts|
  {
    if |ts| == 0 then []
    else (if ts[0].runTests then [ts[0]] else []) + Tested(ts[1..])
  }

  /** A target is tested exactly when it is given and its tests are
      enabled. */
  lemma {:induction false} TestedMember(ts: seq<Target>, t: Target)
    ensures t in Tested(ts) <==> t in ts && t.runTests
    decreases |ts|
  {
    if |ts| > 0 {
      assert ts == [ts[0]] + ts[1..];
      TestedMember(ts[1..], t);
    }
  }

  /** One loop of `run`: test each enabled target in order; the first
      failure propagates. */
  function RunGroup(s: RunnerState, ts: seq<Target>, env: Env): (r: (RunnerState, Result<seq<TargetReport>, Exc>))
    ensures r.0.stopFlag == s.stopFlag
    decreases |ts|
  {
    if |ts| == 0 then (s, Success([]))
    else if !ts[0].runTests then RunGroup(s, ts[1..], env)
    else
      var (s1, first) := RunTarget(s, ts[0], env);
      match first
      case Failure(e) => (s1, Failure(e))
      case Success(rep) =>
        var (s2, rest) := RunGroup(s1, ts[1..], env);
        match rest
        case Failure(e) => (s2, Failure(e))
        case Success(reps) => (s2, Success([rep] + reps))
  }

  /** Some target of `ts` fails its registry lookup. */
  predicate SomeLookupFails(ts: seq<Target>)
  {
    exists i :: 0 <= i < |ts| && TargetClasses(ts[i]).Failure?
  }

  lemma SomeLookupFailsCons(t: Target, rest: seq<Target>)
    ensures SomeLookupFails([t] + rest) <==> TargetClasses(t).Failure? || SomeLookupFails(rest)
  {
    var ts := [t] + rest;
    if TargetClasses(t).Failure? {
      assert ts[0] == t;
    }
    if SomeLookupFails(rest) {
      var i :| 0 <= i < |rest| && TargetClasses(rest[i]).Failure?;
      assert ts[i + 1] == rest[i];
    }
    if SomeLookupFails(ts) && !TargetClasses(t).Failure? {
      var i :| 0 <= i < |ts| && TargetClasses(ts[i]).Failure?;
      assert i != 0 && ts[i] == rest[i - 1];
    }
  }

  /** The loop fails exactly when an enabled target's lookup fails. */
  lemma {:induction false} RunGroupFails(s: RunnerState, ts: seq<Target>, env: Env)
    ensures RunGroup(s, ts, env).1.Failure? <==> SomeLookupFails(Tested(ts))
    decreases |ts|
  {
    if |ts| > 0 {
      var rest := Tested(ts[1..]);
      if !ts[0].runTests {
        RunGroupFails(s, ts[1..], env);
        assert Tested(ts) == rest;
      } else {
        var s1 := RunTarget(s, ts[0], env).0;
        assert Tested(ts) == [ts[0]] + rest;
        SomeLookupFailsCons(ts[0], rest);
        RunGroupFails(s1, ts[1..], env);
      }
    }
  }

  /** One report per target, in order, naming it. */
  predicate ReportsMatch(reps: seq<TargetReport>, targets: seq<Target>)
  {
    |reps| == |targets| &&
    forall i :: 0 <= i < |reps| ==> reps[i].name == targets[i].name && reps[i].family == targets[i].family
  }

  lemma ReportsMatchCons(rep: TargetReport, reps: seq<TargetReport>, t: Target, targets: seq<Target>)
    requires ReportsMatch(reps, targets) && rep.name == t.name && rep.family == t.family
    ensures ReportsMatch([rep] + reps, [t] + targets)
  {
    assert forall i :: 1 <= i < |reps| + 1 ==> ([rep] + reps)[i] == reps[i - 1] && ([t] + targets)[i] == targets[i - 1];
  }

  /** On success there is one report per enabled target, in order, naming
      it. */
  lemma {:induction false} RunGroupReports(s: RunnerState, ts: seq<Target>, env: Env)
    ensures RunGroup(s, ts, env).1.Success? ==> ReportsMatch(RunGroup(s, ts, env).1.value, Tested(ts))
    decreases |ts|
  {
    if |ts| > 0 {
      var rest := Tested(ts[1..]);
      if !ts[0].runTests {
        RunGroupReports(s, ts[1..], env);
        assert Tested(ts) == rest;
      } else {
        var (s1, first) := RunTarget(s, ts[0], env);
        assert Tested(ts) == [ts[0]] + rest;
        RunGroupReports(s1, ts[1..], env);
        if RunGroup(s, ts, env).1.Success? {
          RunGroupStep(s, ts, env);
          ReportsMatchCons(first.value, RunGroup(s1, ts[1..], env).1.value, ts[0], rest);
        }
      }
    }
  }

  /** A successful loop starting at an enabled target: its report, then the
      reports of the rest. */
  lemma RunGroupStep(s: RunnerState, ts: seq<Target>, env: Env)
    requires |ts| > 0 && ts[0].runTests && RunGroup(s, ts, env).1.Success?
    ensures var (s1, first) := RunTarget(s, ts[0], env);
      first.Success? && RunGroup(s1, ts[1..], env).1.Success? &&
      RunGroup(s, ts, env).1.value == [first.value] + RunGroup(s1, ts[1..], env).1.value
  {
  }

  /** The loop fails exactly when an enabled target's lookup fails; on
      success there is one report per enabled target, in order, naming it. */
  lemma RunGroupSpec(s: RunnerState, ts: seq<Target>, env: Env)
    ensures RunGroup(s, ts, env).1.Failure? <==>
      exists i :: 0 <= i < |Tested(ts)| && TargetClasses(Tested(ts)[i]).Failure?
    ensures RunGroup(s, ts, env).1.Success? ==>
      var reps := RunGroup(s, ts, env).1.value;
      |reps| == |Tested(ts)| &&
      forall i :: 0 <= i < |reps| ==> reps[i].name == Tested(ts)[i].name && reps[i].family == Tested(ts)[i].family
  {
    RunGroupFails(s, ts, env);
    RunGroupReports(s, ts, env);
  }

  /** `run` inside the sandbox context: a stop raised before the tests start
      raises `KeyboardInterrupt`; otherwise the sandbox report is built, then
      deployment resources, resources and services are tested in that order,
      and after the context the report is added to the shared list. */
  function SandboxRun(sandboxName: string, s: RunnerState, deployments: seq<Target>, resources: seq<Target>,
                      services: seq<Target>, env: Env, reporting: seq<SandboxReport>)
    : (r: (RunnerState, Result<SandboxReport, Exc>, seq<SandboxReport>))
    ensures r.1.Failure? ==> r.2 == reporting
    ensures r.1.Success? ==> r.2 == reporting + [r.1.value]
    ensures r.1.Success? ==>
      r.1.value.name == sandboxName && r.1.value.isSuccess && r.1.value.testResult == ""
  {
    if s.stopFlag then (s, Failure(KeyboardInterrupt), reporting)
    else
      var sandboxReport := SandboxReport(sandboxName, true, "", [], [], []);
      var (s1, d) := RunGroup(s, deployments, env);
      if d.Failure? then (s1, Failure(d.error), reporting)
      else
        var (s2, rs) := RunGroup(s1, resources, env);
        if rs.Failure? then (s2, Failure(rs.error), reporting)
        else
          var (s3, sv) := RunGroup(s2, services, env);
          if sv.Failure? then (s3, Failure(sv.error), reporting)
          else
            var report := sandboxReport.(deploymentResourcesReports := d.value, resourcesReports := rs.value,
                                         servicesReports := sv.value);
            (s3, Success(report), reporting + [report])
  }

  /** A stop requested before the tests start raises `KeyboardInterrupt`,
      tests nothing and files no report. */
  lemma StopBeforeRunRaises(sandboxName: string, s: RunnerState, deployments: seq<Target>,
                            resources: seq<Target>, services: seq<Target>, env: Env, reporting: seq<SandboxReport>)
    requires s.stopFlag
    ensures SandboxRun(sandboxName, s, deployments, resources, services, env, reporting)
      == (s, Failure(KeyboardInterrupt), reporting)
  {
  }

  /** Without an early stop, the run fails exactly when some enabled
      target's lookup fails, and otherwise files one report whose three lists
      hold one report per enabled deployment resource, resource and service,
      in order, each naming its target and family. */
  lemma SandboxRunSpec(sandboxName: string, s: RunnerState, deployments: seq<Target>,
                       resources: seq<Target>, services: seq<Target>, env: Env, reporting: seq<SandboxReport>)
    requires !s.stopFlag
    ensures var out := SandboxRun(sandboxName, s, deployments, resources, services, env, reporting);
      out.1.Failure? <==>
        SomeLookupFails(Tested(deployments)) || SomeLookupFails(Tested(resources)) || SomeLookupFails(Tested(services))
    ensures var out := SandboxRun(sandboxName, s, deployments, resources, services, env, reporting);
      out.1.Success? ==>
        ReportsMatch(out.1.value.deploymentResourcesReports, Tested(deployments)) &&
        ReportsMatch(out.1.value.resourcesReports, Tested(resources)) &&
        ReportsMatch(out.1.value.servicesReports, Tested(services))
  {
    var (s1, d) := RunGroup(s, deployments, env);
    RunGroupFails(s, deployments, env);
    RunGroupReports(s, deployments, env);
    if d.Success? {
      var (s2, rs) := RunGroup(s1, resources, env);
      RunGroupFails(s1, resources, env);
      RunGroupReports(s1, resources, env);
      if rs.Success? {
        RunGroupFails(s2, services, env);
        RunGroupReports(s2, services, env);
      }
    }
  }
}

=== FILE: selection.dfy ===
/** The selection rule all three generations share: start from an initial
    list, then walk the driver's commands in order, lower-case each one, look
    it up, skip it when unmapped and append its class when not yet selected;
    finally expand every class into one suite entry per test method. */
module Selection {
  import opened Catalog
  import opened Text
  import opened Sequences

  /** `table.get(command.lower())` names `x`. */
  predicate MapsTo(table: map<string, TestClass>, command: string, x: TestClass) {
    Lower(command) in table && table[Lower(command)] == x
  }

  /** The classes the commands map to, in command order, repeats included. */
  function Mapped(table: map<string, TestClass>, commands: seq<string>): (r: seq<TestClass>)
    ensures |r| <= |commands|
  {
    if |commands| == 0 then []
    else
      var key := Lower(commands[|commands| - 1]);
      Mapped(table, commands[..|commands| - 1]) + (if key in table then [table[key]] else [])
  }

  /** A class is among the mapped ones exactly when some command maps to it. */
  lemma {:induction false} MappedMember(table: map<string, TestClass>, commands: seq<string>, x: TestClass)
    ensures x in Mapped(table, commands) <==>
      exists k :: 0 <= k < |commands| && MapsTo(table, commands[k], x)
  {
    if |commands| > 0 {
      var p := commands[..|commands| - 1];
      MappedMember(table, p, x);
      if exists k :: 0 <= k < |commands| && MapsTo(table, commands[k], x) {
        var k :| 0 <= k < |commands| && MapsTo(table, commands[k], x);
        if k < |commands| - 1 {
          assert commands[k] == p[k];
        }
      }
      if x in Mapped(table, commands) && x !in Mapped(table, p) {
        assert MapsTo(table, commands[|commands| - 1], x);
      }
    }
  }

  /** Lookup is case-insensitive: commands that agree after lower-casing map
      to the same classes. */
  lemma {:induction false} MappedIgnoresCase(table: map<string, TestClass>, a: seq<string>, b: seq<string>)
    requires |a| == |b|
    requires forall k :: 0 <= k < |a| ==> Lower(a[k]) == Lower(b[k])
    ensures Mapped(table, a) == Mapped(table, b)
  {
    if |a| > 0 {
      MappedIgnoresCase(table, a[..|a| - 1], b[..|b| - 1]);
    }
  }

  /** A command with no entry contributes nothing. */
  lemma UnmappedCommandSkipped(table: map<string, TestClass>, commands: seq<string>, c: string)
    requires Lower(c) !in table
    ensures Mapped(table, commands + [c]) == Mapped(table, commands)
  {
    assert (commands + [c])[..|commands|] == commands;
  }

  /** The selected classes: the initial list followed by the new mapped
      classes, each at its first occurrence. */
  function Select(init: seq<TestClass>, table: map<string, TestClass>, commands: seq<string>): seq<TestClass>
  {
    Dedupe(init + Mapped(table, commands))
  }

  /** The selection loop as written: `test_case = table.get(command.lower());
      if test_case and test_case not in test_cases: test_cases.append(...)`. */
  method SelectTestCases(init: seq<TestClass>, table: map<string, TestClass>, commands: seq<string>)
    returns (testCases: seq<TestClass>)
    requires |init| <= 1
    ensures testCases == Select(init, table, commands)
  {
    testCases := init;
    DedupeOfNoDup(init);
    assert init + Mapped(table, commands[..0]) == init;
    for i := 0 to |commands|
      invariant testCases == Dedupe(init + Mapped(table, commands[..i]))
    {
      ghost var seen := init + Mapped(table, commands[..i]);
      var key := Lower(commands[i]);
      MappedStep(table, commands, i);
      if key in table {
        DedupeSnoc(seen, table[key]);
        assert init + Mapped(table, commands[..i + 1]) == seen + [table[key]];
        if table[key] !in testCases {
          testCases := testCases + [table[key]];
        }
      } else {
        assert init + Mapped(table, commands[..i + 1]) == seen;
      }
    }
    assert commands[..|commands|] == commands;
  }

  /** One more command extends the mapped list by at most its own class. */
  lemma MappedStep(table: map<string, TestClass>, commands: seq<string>, i: nat)
    requires i < |commands|
    ensures Mapped(table, commands[..i + 1]) ==
      Mapped(table, commands[..i]) +
        (if Lower(commands[i]) in table then [table[Lower(commands[i])]] else [])
  {
    assert commands[..i + 1][..i] == commands[..i];
  }

  /** What the selection promises: no class twice, the initial list kept in
      front, and exactly the initial classes plus the classes some command
      maps to. */
  lemma SelectSpec(init: seq<TestClass>, table: map<string, TestClass>, commands: seq<string>)
    requires |init| <= 1
    ensures NoDup(Select(init, table, commands))
    ensures |init| <= |Select(init, table, commands)|
    ensures Select(init, table, commands)[..|init|] == init
    ensures forall x :: x in Select(init, table, commands) <==>
      x in init || exists k :: 0 <= k < |commands| && MapsTo(table, commands[k], x)
  {
    DedupeAppendPrefix(init, Mapped(table, commands));
    DedupeOfNoDup(init);
    forall x {
      MappedMember(table, commands, x);
    }
  }

  /** Commands mapping only to classes already selected change nothing. */
  lemma SelectAbsorbed(init: seq<TestClass>, table: map<string, TestClass>, commands: seq<string>)
    requires |init| <= 1
    requires forall x :: x in table.Values ==> x in init
    ensures Select(init, table, commands) == init
  {
    forall x | x in Mapped(table, commands)
      ensures x in init
    {
      MappedMember(table, commands, x);
      var k :| 0 <= k < |commands| && MapsTo(table, commands[k], x);
      assert table[Lower(commands[k])] in table.Values;
    }
    DedupeAbsorbed(init, Mapped(table, commands));
    DedupeOfNoDup(init);
  }

  /** The suite entries of one class, one per test method name. */
  function Entries(c: TestClass, names: seq<string>): (r: seq<TestEntry>)
    ensures |r| == |names|
    ensures forall i :: 0 <= i < |names| ==> r[i] == TestEntry(c, names[i])
  {
    seq(|names|, i requires 0 <= i < |names| => TestEntry(c, names[i]))
  }

  /** The suite: every test method of every class, classes in order; the
      method names of a class come from the test loader. */
  function Suite(classes: seq<TestClass>, methods: TestClass -> seq<string>): seq<TestEntry>
  {
    FlatMap(classes, c => Entries(c, methods(c)))
  }

  /** An entry is in the suite exactly when its class is selected and its
      name is one of that class's test methods. */
  lemma SuiteMember(classes: seq<TestClass>, methods: TestClass -> seq<string>, e: TestEntry)
    ensures e in Suite(classes, methods) <==> e.testClass in classes && e.testName in methods(e.testClass)
  {
    var f := (c: TestClass) => Entries(c, methods(c));
    FlatMapMember(classes, f, e);
    if e.testClass in classes && e.testName in methods(e.testClass) {
      var i :| 0 <= i < |classes| && classes[i] == e.testClass;
      var j :| 0 <= j < |methods(e.testClass)| && methods(e.testClass)[j] == e.testName;
      assert f(classes[i])[j] == e;
    }
  }

  /** Classes keep their order: the suite of a concatenation is the
      concatenation of the suites. */
  lemma {:induction false} SuiteAppend(a: seq<TestClass>, b: seq<TestClass>, methods: TestClass -> seq<string>)
    ensures Suite(a + b, methods) == Suite(a, methods) + Suite(b, methods)
    decreases |b|
  {
    if |b| == 0 {
      assert a + b == a;
    } else {
      var b' := b[..|b| - 1];
      assert a + b == (a + b') + [b[|b| - 1]];
      assert (a + b)[..|a + b| - 1] == a + b';
      SuiteAppend(a, b', methods);
    }
  }
}

=== FILE: sequences.dfy ===
/** Sequence helpers: duplicate-free lists and first-occurrence deduplication
    (the `if x not in xs: xs.append(x)` idiom). */
module Sequences {
  import opened Wrappers


  predicate NoDup<T(==)>(s: seq<T>) {
    forall i, j :: 0 <= i < j < |s| ==> s[i] != s[j]
  }

  /** `s` with every element after its first occurrence removed. */
  function Dedupe<T(==,!new)>(s: seq<T>): (r: seq<T>)
    ensures NoDup(r)
    ensures forall x :: x in r <==> x in s
    ensures |r| <= |s|
  {
    if |s| == 0 then []
    else
      var d := Dedupe(s[..|s| - 1]);
      var x := s[|s| - 1];
      assert s == s[..|s| - 1] + [x];
      if x in s[..|s| - 1] then d else d + [x]
  }

  /** Appending one element: it is kept exactly when it is new. */
  lemma DedupeSnoc<T(!new)>(s: seq<T>, x: T)
    ensures Dedupe(s + [x]) == if x in s then Dedupe(s) else Dedupe(s) + [x]
  {
    assert (s + [x])[..|s|] == s;
  }

  /** A list that already has no duplicates is left unchanged. */
  lemma {:induction false} DedupeOfNoDup<T(!new)>(s: seq<T>)
    requires NoDup(s)
    ensures Dedupe(s) == s
  {
    if |s| > 0 {
      var p := s[..|s| - 1];
      assert NoDup(p);
      DedupeOfNoDup(p);
      assert s == p + [s[|s| - 1]];
      assert s[|s| - 1] !in p;
    }
  }

  /** Deduplicating a longer list only appends: the result for a prefix is a
      prefix of the result for the whole. */
  lemma {:induction false} DedupeAppendPrefix<T(!new)>(s: seq<T>, t: seq<T>)
    ensures |Dedupe(s)| <= |Dedupe(s + t)|
    ensures Dedupe(s + t)[..|Dedupe(s)|] == Dedupe(s)
    decreases |t|
  {
    if |t| == 0 {
      assert s + t == s;
    } else {
      var t' := t[..|t| - 1];
      var x := t[|t| - 1];
      assert s + t == (s + t') + [x];
      DedupeAppendPrefix(s, t');
      DedupeSnoc(s + t', x);
    }
  }

  /** Elements that are all already present add nothing. */
  lemma {:induction false} DedupeAbsorbed<T(!new)>(s: seq<T>, t: seq<T>)
    requires forall x :: x in t ==> x in s
    ensures Dedupe(s + t) == Dedupe(s)
    decreases |t|
  {
    if |t| == 0 {
      assert s + t == s;
    } else {
      var t' := t[..|t| - 1];
      var x := t[|t| - 1];
      assert s + t == (s + t') + [x];
      assert x in t && x in s + t';
      DedupeAbsorbed(s, t');
      DedupeSnoc(s + t', x);
    }
  }

  /** Concatenation is associative; proved once for any element type. */
  lemma AppendAssoc<T>(a: seq<T>, b: seq<T>, c: seq<T>)
    ensures (a + b) + c == a + (b + c)
  {
  }

  /** Mapping all but the last element, then the last one, maps them all. */
  lemma MapSnoc<T, U>(xs: seq<T>, ys: seq<U>, y: U, f: T -> U)
    requires |xs| > 0 && |ys| == |xs| - 1
    requires forall i :: 0 <= i < |ys| ==> ys[i] == f(xs[..|xs| - 1][i])
    requires y == f(xs[|xs| - 1])
    ensures forall i :: 0 <= i < |xs| ==> (ys + [y])[i] == f(xs[i])
  {
    forall i | 0 <= i < |xs| ensures (ys + [y])[i] == f(xs[i]) {
      if i < |ys| {
        assert xs[..|xs| - 1][i] == xs[i];
      }
    }
  }

  /** The concatenation of `f(x)` over `s`, in order. */
  function FlatMap<T, U>(s: seq<T>, f: T -> seq<U>): seq<U>
  {
    if |s| == 0 then [] else FlatMap(s[..|s| - 1], f) + f(s[|s| - 1])
  }

  lemma {:induction false} FlatMapMember<T, U>(s: seq<T>, f: T -> seq<U>, u: U)
    ensures u in FlatMap(s, f) <==> exists i :: 0 <= i < |s| && u in f(s[i])
  {
    if |s| > 0 {
      var p := s[..|s| - 1];
      FlatMapMember(p, f, u);
      if u in FlatMap(s, f) && u !in FlatMap(p, f) {
        assert u in f(s[|s| - 1]);
      }
      if exists i :: 0 <= i < |s| && u in f(s[i]) {
        var i :| 0 <= i < |s| && u in f(s[i]);
        if i < |s| - 1 {
          assert s[i] == p[i];
        }
      }
    }
  }

  /** Mapping a concatenation concatenates the images. */
  lemma {:induction false} FlatMapAppend<T, U>(a: seq<T>, b: seq<T>, f: T -> seq<U>)
    ensures FlatMap(a + b, f) == FlatMap(a, f) + FlatMap(b, f)
    decreases |b|
  {
    if |b| > 0 {
      var b0 := b[..|b| - 1];
      assert (a + b)[..|a + b| - 1] == a + b0;
      FlatMapAppend(a, b0, f);
    } else {
      assert a + b == a;
    }
  }

  /** The index of the first element satisfying `p` (a `for ... break`
      scan). */
  function FirstIndex<T>(s: seq<T>, p: T -> bool): (r: Option<nat>)
    ensures r.Some? ==> r.value < |s| && p(s[r.value]) && forall j :: 0 <= j < r.value ==> !p(s[j])
    ensures r.None? ==> forall j :: 0 <= j < |s| ==> !p(s[j])
  {
    if |s| == 0 then None
    else if p(s[0]) then Some(0)
    else
      var r := FirstIndex(s[1..], p);
      if r.Some? then Some(r.value + 1) else None
  }
}

=== FILE: shell_handler.dfy ===
/** The Shell context manager (`shell_tests/shell_handler.py`): the paths
    it downloads when they are URLs and deletes again, the standards and
    dependencies it uploads, the log-level rewrite of the patched core
    package, and the order of preparing and cleaning up.  The CloudShell
    and file-system calls are events; their outcomes are inputs. */
module ShellHandler {
  import opened Wrappers
  import opened Errors
  import opened Text
  import opened Helpers
  import opened Sequences
  import Dicts

  // ---------------------------------------------------------------------
  // Downloads

  /** A path that `download_if_url` fetches: non-empty and a URL. */
  predicate Remote(path: Option<string>) {
    path.Some? && path.value != "" && IsUrl(path.value)
  }

  /** Where `download_file` stores a URL: the download folder joined with
      the text after the URL's last '/'. */
  function DownloadTarget(folder: string, url: string): string
  {
    PathJoin(folder, DownloadFileName(url))
  }

  /** The path a handler keeps for a configured one. */
  function Localised(folder: string, path: Option<string>): (r: Option<string>)
    ensures r.Some? <==> path.Some?
    ensures !Remote(path) ==> r == path
  {
    if Remote(path) then Some(DownloadTarget(folder, path.value)) else path
  }

  /** The files downloading `path` adds to the record: its target when it
      is remote, nothing otherwise. */
  function Fetched(folder: string): Option<string> -> seq<string>
  {
    (path: Option<string>) => if Remote(path) then [DownloadTarget(folder, path.value)] else []
  }

  /** `download_if_url`: a non-empty URL is downloaded, its local path is
      recorded and returned; anything else comes back unchanged and
      nothing is recorded. */
  function DownloadIfUrl(folder: string, path: Option<string>, downloaded: seq<string>): (r: (Option<string>, seq<string>))
    ensures r.0 == Localised(folder, path)
    ensures r.1 == downloaded + Fetched(folder)(path)
    ensures |r.1| == |downloaded| + 1 <==> Remote(path)
    ensures r.1[..|downloaded|] == downloaded
  {
    if path.Some? && path.value != "" && IsUrl(path.value) then
      var local := PathJoin(folder, DownloadFileName(path.value));
      (Some(local), downloaded + [local])
    else (path, downloaded)
  }

  /** `download_if_url` applied to several paths in order, threading the
      record of downloads through. */
  function DownloadAll(folder: string, paths: seq<Option<string>>, downloaded: seq<string>): (r: (seq<Option<string>>, seq<string>))
    ensures |r.0| == |paths|
    ensures forall i :: 0 <= i < |paths| ==> r.0[i] == Localised(folder, paths[i])
    ensures r.1 == downloaded + FlatMap(paths, Fetched(folder))
  {
    if |paths| == 0 then ([], downloaded)
    else
      var front := paths[..|paths| - 1];
      var (done, record) := DownloadAll(folder, front, downloaded);
      RecordGrows(folder, paths, downloaded, record);
      var (last, record2) := DownloadIfUrl(folder, paths[|paths| - 1], record);
      MapSnoc(paths, done, last, (p: Option<string>) => Localised(folder, p));
      (done + [last], record2)
  }

  /** The record after all but the last path, extended by the last path's
      download, is the record after all of them. */
  lemma RecordGrows(folder: string, paths: seq<Option<string>>, downloaded: seq<string>, record: seq<string>)
    requires |paths| > 0 && record == downloaded + FlatMap(paths[..|paths| - 1], Fetched(folder))
    ensures record + Fetched(folder)(paths[|paths| - 1]) == downloaded + FlatMap(paths, Fetched(folder))
  {
    var front := FlatMap(paths[..|paths| - 1], Fetched(folder));
    var last := Fetched(folder)(paths[|paths| - 1]);
    assert FlatMap(paths, Fetched(folder)) == front + last;
    AppendAssoc(downloaded, front, last);
  }

  /** The handler after construction: the shell, the dependencies and the
      extra standards, each localised, and the downloads in the order they
      happened. */
  datatype Handler = Handler(
    shellPath: Option<string>,
    dependenciesPath: Option<string>,
    extraStandards: seq<string>,
    downloaded: seq<string>)

  /** The extra standards as configured paths. */
  function AsPaths(extraStandards: seq<string>): (r: seq<Option<string>>)
    ensures |r| == |extraStandards|
    ensures forall i :: 0 <= i < |r| ==> r[i] == Some(extraStandards[i])
  {
    seq(|extraStandards|, i requires 0 <= i < |extraStandards| => Some(extraStandards[i]))
  }

  /** The configured paths in the order the constructor visits them. */
  function Configured(shellPath: Option<string>, dependenciesPath: Option<string>, extraStandards: seq<string>): (r: seq<Option<string>>)
    ensures |r| == |extraStandards| + 2
  {
    [shellPath, dependenciesPath] + AsPaths(extraStandards)
  }

  /** `ShellHandler.__init__`: the shell, then the dependencies, then each
      extra standard goes through `download_if_url`. */
  function NewHandler(folder: string, shellPath: Option<string>, dependenciesPath: Option<string>,
                      extraStandards: seq<string>): (h: Handler)
    ensures h.shellPath == Localised(folder, shellPath)
    ensures h.dependenciesPath == Localised(folder, dependenciesPath)
    ensures |h.extraStandards| == |extraStandards|
    ensures forall i :: 0 <= i < |extraStandards| ==> Some(h.extraStandards[i]) == Localised(folder, Some(extraStandards[i]))
    ensures h.downloaded == FlatMap(Configured(shellPath, dependenciesPath, extraStandards), Fetched(folder))
  {
    var first := DownloadAll(folder, [shellPath, dependenciesPath], []);
    var extras := AsPaths(extraStandards);
    var rest := DownloadAll(folder, extras, first.1);
    FlatMapAppend([shellPath, dependenciesPath], extras, Fetched(folder));
    assert first.1 == FlatMap([shellPath, dependenciesPath], Fetched(folder));
    assert rest.1 == FlatMap(Configured(shellPath, dependenciesPath, extraStandards), Fetched(folder));
    assert forall i :: 0 <= i < |rest.0| ==> rest.0[i] == Localised(folder, extras[i]);
    Handler(first.0[0], first.0[1], Values(rest.0), rest.1)
  }

  /** The texts of paths that are all present. */
  function Values(paths: seq<Option<string>>): (r: seq<string>)
    requires forall i :: 0 <= i < |paths| ==> paths[i].Some?
    ensures |r| == |paths| && forall i :: 0 <= i < |r| ==> Some(r[i]) == paths[i]
  {
    seq(|paths|, i requires 0 <= i < |paths| => paths[i].value)
  }

  /** Only remote paths are ever recorded, and every remote path is. */
  lemma DownloadsAreTheRemotePaths(folder: string, shellPath: Option<string>, dependenciesPath: Option<string>,
                                   extraStandards: seq<string>, f: string)
    ensures var all := Configured(shellPath, dependenciesPath, extraStandards);
      f in NewHandler(folder, shellPath, dependenciesPath, extraStandards).downloaded <==>
      exists i :: 0 <= i < |all| && Remote(all[i]) && f == DownloadTarget(folder, all[i].value)
  {
    var all := Configured(shellPath, dependenciesPath, extraStandards);
    var fetched := Fetched(folder);
    assert NewHandler(folder, shellPath, dependenciesPath, extraStandards).downloaded == FlatMap(all, fetched);
    FlatMapMember(all, fetched, f);
    if f in FlatMap(all, fetched) {
      var i :| 0 <= i < |all| && f in fetched(all[i]);
      FetchedMember(folder, all[i], f);
    }
    if exists i :: 0 <= i < |all| && Remote(all[i]) && f == DownloadTarget(folder, all[i].value) {
      var i :| 0 <= i < |all| && Remote(all[i]) && f == DownloadTarget(folder, all[i].value);
      FetchedMember(folder, all[i], f);
    }
  }

  /** The record of one path holds its target exactly when it is remote. */
  lemma FetchedMember(folder: string, path: Option<string>, f: string)
    ensures f in Fetched(folder)(path) <==> Remote(path) && f == DownloadTarget(folder, path.value)
  {
  }

  /** A configuration of local paths downloads nothing and keeps every
      path. */
  lemma {:induction false} LocalPathsDownloadNothing(folder: string, paths: seq<Option<string>>)
    requires forall i :: 0 <= i < |paths| ==> !Remote(paths[i])
    ensures FlatMap(paths, Fetched(folder)) == []
  {
    if |paths| > 0 {
      LocalPathsDownloadNothing(folder, paths[..|paths| - 1]);
    }
  }

  // ---------------------------------------------------------------------
  // Standards and dependencies

  /** `os.path.basename`: the text after the last '/'. */
  function Basename(path: string): (r: string)
    ensures '/' !in r
  {
    AfterLast(path, '/')
  }

  /** The standards uploaded, in input order: those whose file name is not
      among the installed ones. */
  function StandardUploads(standards: seq<string>, installed: seq<string>): (r: seq<string>)
    ensures |r| <= |standards|
    ensures forall p :: p in r <==> p in standards && Basename(p) !in installed
    ensures |standards| == 1 ==> r == (if Basename(standards[0]) in installed then [] else standards)
  {
    if |standards| == 0 then []
    else
      var rest := StandardUploads(standards[1..], installed);
      assert forall p :: p in standards <==> p == standards[0] || p in standards[1..];
      (if Basename(standards[0]) in installed then [] else [standards[0]]) + rest
  }

  /** The uploads follow the input order: those of a list are those of
      its first part followed by those of the rest. */
  lemma {:induction false} StandardUploadsInOrder(a: seq<string>, b: seq<string>, installed: seq<string>)
    ensures StandardUploads(a + b, installed) == StandardUploads(a, installed) + StandardUploads(b, installed)
  {
    if |a| == 0 {
      assert a + b == b;
    } else {
      var ab := a + b;
      assert ab[0] == a[0] && ab[1..] == a[1..] + b;
      var here := if Basename(a[0]) in installed then [] else [a[0]];
      StandardUploadsInOrder(a[1..], b, installed);
      assert StandardUploads(a, installed) == here + StandardUploads(a[1..], installed);
      assert StandardUploads(ab, installed) == here + StandardUploads(a[1..] + b, installed);
      AppendAssoc(here, StandardUploads(a[1..], installed), StandardUploads(b, installed));
    }
  }

  /** With nothing installed every standard is uploaded, in order. */
  lemma {:induction false} NothingInstalledUploadsAll(standards: seq<string>)
    ensures StandardUploads(standards, []) == standards
  {
    if |standards| > 0 {
      NothingInstalledUploadsAll(standards[1..]);
      assert standards == [standards[0]] + standards[1..];
    }
  }

  /** What `add_extra_standards` does: whether it asked for the installed
      standards, and the paths it uploaded. */
  datatype StandardsRun = StandardsRun(queried: bool, uploaded: seq<string>)

  /** `add_extra_standards`: an empty list returns at once without asking;
      otherwise the installed list is read once and every standard whose
      file name is missing from it is uploaded. */
  function AddExtraStandards(standards: seq<string>, installed: seq<string>): (r: StandardsRun)
    ensures r.queried <==> |standards| > 0
    ensures forall p :: p in r.uploaded <==> p in standards && Basename(p) !in installed
    ensures r.uploaded == StandardUploads(standards, installed)
  {
    if |standards| == 0 then StandardsRun(false, [])
    else StandardsRun(true, StandardUploads(standards, installed))
  }

  const CorePackage: string := "cloudshell-core"

  /** One file sent to the offline PyPI: its name and whether it is the
      patched copy. */
  datatype Upload = Upload(name: string, patched: bool)

  /** `add_dependencies_to_offline_pypi`: every archive member is uploaded
      under its own name, patched when the name mentions the core
      package. */
  function DependencyUploads(names: seq<string>): (r: seq<Upload>)
    ensures |r| == |names|
    ensures forall i :: 0 <= i < |names| ==> r[i].name == names[i]
    ensures forall i :: 0 <= i < |names| ==> (r[i].patched <==> Contains(names[i], CorePackage))
  {
    if |names| == 0 then []
    else [Upload(names[0], Contains(names[0], CorePackage))] + DependencyUploads(names[1..])
  }

  /** A member name that does not mention the core package is sent as it
      is, and one that embeds it anywhere is patched. */
  lemma PatchSelection(prefix: string, suffix: string, other: string)
    requires !Contains(other, CorePackage)
    ensures DependencyUploads([prefix + CorePackage + suffix, other]) ==
      [Upload(prefix + CorePackage + suffix, true), Upload(other, false)]
  {
    var name := prefix + CorePackage + suffix;
    assert OccursAt(name, CorePackage, |prefix|) by {
      assert name[|prefix|..|prefix| + |CorePackage|] == CorePackage;
    }
    ContainsIff(name, CorePackage);
    var r := DependencyUploads([name, other]);
    assert r[0] == Upload(name, true);
    assert r[1] == Upload(other, false);
  }

  const InfoLevel: string := "'INFO'"
  const DebugLevel: string := "'DEBUG'"

  /** `_rewrite_config_file_with_debug`: every "'INFO'" of the logger
      configuration becomes "'DEBUG'", scanning left to right without
      overlaps (Python's `str.replace`): the text is cut at the occurrences
      the scan finds and the pieces are joined with the new level. */
  function DebugConfig(config: string): (r: string)
    ensures exists parts :: LeftmostCuts(config, InfoLevel, parts) && r == Join(parts, DebugLevel)
    ensures forall parts :: LeftmostCuts(config, InfoLevel, parts) ==> r == Join(parts, DebugLevel)
    ensures !Contains(config, InfoLevel) ==> r == config
    ensures Contains(config, InfoLevel) ==> Contains(r, DebugLevel)
  {
    SplitLeftmost(config, InfoLevel);
    SplitIsTheOnlyCut(config, InfoLevel);
    ReplaceIntroduces(config, InfoLevel, DebugLevel);
    Replace(config, InfoLevel, DebugLevel)
  }

  /** The rewrite in the reader's terms: the configuration is the pieces
      joined by "'INFO'", no piece holds another "'INFO'", and the result is
      the same pieces joined by "'DEBUG'". */
  lemma DebugConfigReplacesEvery(config: string)
    ensures exists parts ::
      Join(parts, InfoLevel) == config &&
      (forall k :: 0 <= k < |parts| ==> !Contains(parts[k], InfoLevel)) &&
      DebugConfig(config) == Join(parts, DebugLevel)
  {
    var parts := Split(config, InfoLevel);
    SplitLeftmost(config, InfoLevel);
    LeftmostCutsRejoin(config, InfoLevel, parts);
  }

  /** Replacing a pattern that occurs leaves the replacement in the text;
      replacing one that does not changes nothing. */
  lemma ReplaceIntroduces(s: string, pattern: string, replacement: string)
    requires |pattern| > 0 && |replacement| > 0
    ensures !Contains(s, pattern) ==> Replace(s, pattern, replacement) == s
    ensures Contains(s, pattern) ==> Contains(Replace(s, pattern, replacement), replacement)
  {
    var pieces := Split(s, pattern);
    if |pieces| > 1 {
      assert pieces == [pieces[0]] + pieces[1..];
      JoinCons(pieces[0], pieces[1..], replacement);
      var r := pieces[0] + replacement + Join(pieces[1..], replacement);
      assert Replace(s, pattern, replacement) == r;
      assert r[|pieces[0]|..|pieces[0]| + |replacement|] == replacement;
      assert OccursAt(r, replacement, |pieces[0]|);
      ContainsIff(r, replacement);
    }
  }

  /** Two levels sharing a quote are rewritten once: the second one
      survives the rewrite. */
  lemma SharedQuoteSurvives()
    ensures DebugConfig("'INFO'INFO'") == "'DEBUG'INFO'"
    ensures Contains(DebugConfig("'INFO'INFO'"), InfoLevel)
  {
    SharedQuoteSplit();
    SharedQuoteJoin();
    assert DebugConfig("'INFO'INFO'") == "'DEBUG'INFO'";
    InfoInRewritten();
  }

  lemma SharedQuoteJoin()
    ensures Join(["", "INFO'"], DebugLevel) == "'DEBUG'INFO'"
  {
    assert Join(["", "INFO'"], DebugLevel) == "" + DebugLevel + Join(["INFO'"], DebugLevel);
  }

  lemma InfoInRewritten()
    ensures Contains("'DEBUG'INFO'", InfoLevel)
  {
    var r := "'DEBUG'INFO'";
    assert r[6..12] == InfoLevel;
    assert OccursAt(r, InfoLevel, 6);
    ContainsIff(r, InfoLevel);
  }

  lemma SharedQuoteSplit()
    ensures Split("'INFO'INFO'", InfoLevel) == ["", "INFO'"]
  {
    var s := "'INFO'INFO'";
    assert s[0..6] == InfoLevel;
    assert Find(s, InfoLevel) == Some(0);
    var rest := "INFO'";
    assert s[6..] == rest;
    assert FindFrom(rest, InfoLevel, 0) == None;
    assert Split(rest, InfoLevel) == [rest];
  }

  // ---------------------------------------------------------------------
  // Preparing and deleting

  /** The preparation steps, and the clean-up steps. */
  datatype Step = UploadDependencies | AddStandards | InstallShell
  datatype Cleanup = ClearOfflinePypi | DeleteDownloads(paths: seq<string>)

  /** `prepare_shell`: the dependencies when a path is set, then the extra
      standards, then the shell itself. */
  function PrepareSteps(h: Handler): (r: seq<Step>)
    ensures |r| >= 2 && r[|r| - 1] == InstallShell && r[|r| - 2] == AddStandards
    ensures UploadDependencies in r <==> Dicts.Truthy(h.dependenciesPath)
  {
    (if Dicts.Truthy(h.dependenciesPath) then [UploadDependencies] else []) + [AddStandards, InstallShell]
  }

  /** `delete_shell`: clear the offline PyPI when dependencies were set,
      then delete exactly the recorded downloads. */
  function DeleteSteps(h: Handler): (r: seq<Cleanup>)
    ensures |r| >= 1 && r[|r| - 1] == DeleteDownloads(h.downloaded)
    ensures ClearOfflinePypi in r <==> Dicts.Truthy(h.dependenciesPath)
  {
    (if Dicts.Truthy(h.dependenciesPath) then [ClearOfflinePypi] else []) + [DeleteDownloads(h.downloaded)]
  }

  /** What entering the context did: the preparation steps attempted, the
      clean-up run, and the outcome. */
  datatype Entered = Entered(steps: seq<Step>, cleanup: seq<Cleanup>, result: Result<Handler, Exc>)

  /** `__enter__`: prepare the shell and return the handler; a failing step
      ends the preparation and is raised again.  An `Exception` first runs
      `__exit__` (the clean-up, which answers False); a `KeyboardInterrupt`
      is not caught and leaves without it. */
  function Enter(h: Handler, outcome: Step -> Option<Exc>): (r: Entered)
    ensures r.result.Success? <==> forall i :: 0 <= i < |PrepareSteps(h)| ==> outcome(PrepareSteps(h)[i]).None?
    ensures r.result.Success? ==> r.result.value == h && r.steps == PrepareSteps(h) && r.cleanup == []
    ensures r.result.Failure? ==> (
      0 < |r.steps| <= |PrepareSteps(h)| && r.steps == PrepareSteps(h)[..|r.steps|] &&
      outcome(r.steps[|r.steps| - 1]) == Some(r.result.error) &&
      (forall i :: 0 <= i < |r.steps| - 1 ==> outcome(r.steps[i]).None?) &&
      r.cleanup == (if IsException(r.result.error) then DeleteSteps(h) else []))
  {
    var steps := PrepareSteps(h);
    match FirstIndex(steps, (s: Step) => outcome(s).Some?)
    case None => Entered(steps, [], Success(h))
    case Some(j) =>
      var done := steps[..j + 1];
      assert forall i :: 0 <= i <= j ==> done[i] == steps[i];
      var e := outcome(steps[j]).value;
      Entered(done, if IsException(e) then DeleteSteps(h) else [], Failure(e))
  }

  /** Whatever step fails, the downloads are deleted before the failure
      leaves `__enter__` exactly when it is an `Exception`. */
  lemma FailedEnterDeletesDownloads(h: Handler, outcome: Step -> Option<Exc>)
    requires outcome(InstallShell).Some?
    ensures Enter(h, outcome).result.Failure?
    ensures DeleteDownloads(h.downloaded) in Enter(h, outcome).cleanup <==> IsException(Enter(h, outcome).result.error)
  {
    var steps := PrepareSteps(h);
    assert outcome(steps[|steps| - 1]).Some?;
  }
}

=== FILE: shellfoundry.dfy ===
/** The shellfoundry driver (`shell_tests/oop_shellfoundry.py`): the
    `shellfoundry new` command line built from a shell name, a template and
    a version, and the template names picked out of the listing.  Running
    the command is left out; its output is taken as lines. */
module Shellfoundry {
  import opened Wrappers
  import opened Errors
  import opened Text

  const LocalMarker: string := "local"
  const NotIterable: string := "argument of type 'NoneType' is not iterable"

  /** `re.sub(r'([/,-])', '_', template)`: each '/', ',' and '-' becomes
      '_'. */
  function Underscored(template: string): (r: string)
    ensures |r| == |template|
    ensures forall i :: 0 <= i < |r| ==> r[i] !in {'/', ',', '-'}
    ensures forall i :: 0 <= i < |r| ==> (template[i] in {'/', ',', '-'} ==> r[i] == '_') &&
                                         (template[i] !in {'/', ',', '-'} ==> r[i] == template[i])
  {
    seq(|template|, i requires 0 <= i < |template| => if template[i] in {'/', ',', '-'} then '_' else template[i])
  }

  /** The words of the `shellfoundry new` command `new` runs: with a
      non-local template and an empty name, the name is derived from the
      template and the version is appended when given; a local template is
      passed with the name as it is (the version is dropped); a non-local
      template with a name is dropped altogether.  With no template the
      `'local' in template` test raises. */
  function NewWords(shellName: string, template: Option<string>, version: Option<string>): (r: Result<seq<string>, Exc>)
    ensures r.Failure? <==> template.None?
    ensures r.Failure? ==> r.error == TypeError(NotIterable)
    ensures r.Success? ==> |r.value| >= 3 && r.value[..2] == ["shellfoundry", "new"]
    ensures r.Success? ==> (
      var t := template.value;
      var derived := !Contains(t, LocalMarker) && shellName == "";
      (r.value[2] == if derived then Underscored(t) else shellName) &&
      (|r.value| == 3 <==> !Contains(t, LocalMarker) && shellName != "") &&
      (|r.value| > 3 ==> |r.value| >= 5 && r.value[3..5] == ["--template", t]) &&
      (|r.value| == 7 <==> derived && version.Some?) &&
      (|r.value| == 7 ==> r.value[5..] == ["--version", version.value]))
  {
    match template
    case None => Failure(TypeError(NotIterable))
    case Some(t) =>
      if !Contains(t, LocalMarker) && shellName == "" then
        var name := Underscored(t);
        match version
        case Some(v) => Success(["shellfoundry", "new", name, "--template", t, "--version", v])
        case None => Success(["shellfoundry", "new", name, "--template", t])
      else if Contains(t, LocalMarker) then Success(["shellfoundry", "new", shellName, "--template", t])
      else Success(["shellfoundry", "new", shellName])
  }

  /** The command line: the words separated by single spaces. */
  function NewCommand(shellName: string, template: Option<string>, version: Option<string>): (r: Result<string, Exc>)
    ensures r.Success? <==> template.Some?
    ensures r.Success? ==> |r.value| >= 17 && r.value[..17] == "shellfoundry new "
  {
    match NewWords(shellName, template, version)
    case Failure(e) => Failure(e)
    case Success(words) =>
      JoinHead(words);
      Success(Join(words, " "))
  }

  /** A command line starting with `shellfoundry new` and a third word
      reads "shellfoundry new " followed by the rest. */
  lemma JoinHead(words: seq<string>)
    requires |words| >= 3 && words[..2] == ["shellfoundry", "new"]
    ensures Join(words, " ") == "shellfoundry new " + Join(words[2..], " ")
  {
    var rest := Join(words[2..], " ");
    assert words[0] == words[..2][0] == "shellfoundry";
    assert words[1] == words[..2][1] == "new";
    JoinWords(words[1..]);
    assert words[1..][1..] == words[2..];
    assert Join(words[1..], " ") == "new" + " " + rest;
    JoinWords(words);
    assert Join(words, " ") == "shellfoundry" + " " + ("new" + " " + rest);
    SepRegroup("shellfoundry", " ", "new", rest);
    HeadLiteral();
  }

  lemma SepRegroup<T>(a: seq<T>, sep: seq<T>, b: seq<T>, rest: seq<T>)
    ensures a + sep + (b + sep + rest) == (a + sep + b + sep) + rest
  {
  }

  lemma HeadLiteral()
    ensures "shellfoundry" + " " + "new" + " " == "shellfoundry new "
  {
  }

  /** The words joined by spaces, one word at a time. */
  lemma JoinWords(words: seq<string>)
    requires |words| >= 2
    ensures Join(words, " ") == words[0] + " " + Join(words[1..], " ")
  {
    JoinCons(words[0], words[1..], " ");
    assert [words[0]] + words[1..] == words;
  }

  lemma Join3(a: string, b: string, c: string)
    ensures Join([a, b, c], " ") == a + " " + b + " " + c
  {
    JoinWords([a, b, c]);
    JoinWords([b, c]);
    assert [a, b, c][1..] == [b, c] && [b, c][1..] == [c];
  }

  lemma Join5(a: string, b: string, c: string, d: string, e: string)
    ensures Join([a, b, c, d, e], " ") == a + " " + b + " " + c + " " + d + " " + e
  {
    JoinWords([a, b, c, d, e]);
    JoinWords([b, c, d, e]);
    Join3(c, d, e);
    assert [a, b, c, d, e][1..] == [b, c, d, e] && [b, c, d, e][1..] == [c, d, e];
  }

  lemma Join7(a: string, b: string, c: string, d: string, e: string, f: string, g: string)
    ensures Join([a, b, c, d, e, f, g], " ") == a + " " + b + " " + c + " " + d + " " + e + " " + f + " " + g
  {
    JoinWords([a, b, c, d, e, f, g]);
    JoinWords([b, c, d, e, f, g]);
    Join5(c, d, e, f, g);
    assert [a, b, c, d, e, f, g][1..] == [b, c, d, e, f, g] && [b, c, d, e, f, g][1..] == [c, d, e, f, g];
  }

  /** The command lines agree with the format strings of each branch. */
  lemma NewCommandFormats(shellName: string, t: string, v: string)
    ensures !Contains(t, LocalMarker) ==>
      NewCommand("", Some(t), Some(v)) == Success("shellfoundry new " + Underscored(t) + " --template " + t + " --version " + v)
    ensures !Contains(t, LocalMarker) ==>
      NewCommand("", Some(t), None) == Success("shellfoundry new " + Underscored(t) + " --template " + t)
    ensures Contains(t, LocalMarker) ==>
      NewCommand(shellName, Some(t), Some(v)) == Success("shellfoundry new " + shellName + " --template " + t)
    ensures !Contains(t, LocalMarker) && shellName != "" ==>
      NewCommand(shellName, Some(t), Some(v)) == Success("shellfoundry new " + shellName)
  {
    var n := Underscored(t);
    Regroup("shellfoundry", " ", "new", " ");
    if !Contains(t, LocalMarker) {
      var head := "shellfoundry new " + n;
      assert "shellfoundry" + " " + "new" + " " == "shellfoundry new ";
      assert "shellfoundry" + " " + "new" + " " + n == head;
      assert " " + "--template" + " " == " --template ";
      assert " " + "--version" + " " == " --version ";
      var u := ["shellfoundry", "new", n, "--template", t];
      assert NewCommand("", Some(t), None) == Success(Join(u, " "));
      Join5("shellfoundry", "new", n, "--template", t);
      Regroup(head, " ", "--template", " ");
      assert Join(u, " ") == head + " --template " + t;
      var w := ["shellfoundry", "new", n, "--template", t, "--version", v];
      assert NewCommand("", Some(t), Some(v)) == Success(Join(w, " "));
      Join7("shellfoundry", "new", n, "--template", t, "--version", v);
      Regroup(head + " --template " + t, " ", "--version", " ");
      assert Join(w, " ") == head + " --template " + t + " --version " + v;
      Join3("shellfoundry", "new", shellName);
    } else {
      var w := ["shellfoundry", "new", shellName, "--template", t];
      assert NewCommand(shellName, Some(t), Some(v)) == Success(Join(w, " "));
      Join5("shellfoundry", "new", shellName, "--template", t);
      assert Join(w, " ") == "shellfoundry" + " " + "new" + " " + shellName + " " + "--template" + " " + t;
      assert "shellfoundry" + " " + "new" + " " == "shellfoundry new ";
      assert "shellfoundry" + " " + "new" + " " + shellName == "shellfoundry new " + shellName;
      Regroup("shellfoundry new " + shellName, " ", "--template", " ");
      assert " " + "--template" + " " == " --template ";
      assert Join(w, " ") == "shellfoundry new " + shellName + " --template " + t;
    }
  }

  /** Regrouping a concatenation of four strings. */
  lemma Regroup(q: string, x: string, y: string, z: string)
    ensures q + x + y + z == q + (x + y + z)
  {
  }

  /** `new()` with its default arguments fails before building a
      command. */
  lemma DefaultsFail()
    ensures NewCommand("name_for_test_shell", None, None) == Failure(TypeError(NotIterable))
  {
  }

  /** A derived name keeps the template's shape: same length, separators
      turned into underscores. */
  lemma DerivedNameExample()
    ensures Underscored("gen2/resource-x") == "gen2_resource_x"
  {
  }

  // ---------------------------------------------------------------------
  // Templates

  const SupportMarker: string := "and up"

  /** `item.split(' ')[1]` for a line that has a space. */
  function SecondWord(line: string): string
    requires Contains(line, " ")
  {
    var words := Split(line, " ");
    words[1]
  }

  /** A line that mentions 'and up' has a space, so it has a second
      word. */
  lemma MarkedLineHasSpace(line: string)
    ensures Contains(line, SupportMarker) ==> Contains(line, " ")
  {
    if Contains(line, SupportMarker) {
      var i := Find(line, SupportMarker).value;
      assert line[i..i + 6] == SupportMarker;
      assert line[i + 3] == line[i..i + 6][3] == ' ';
      assert line[i + 3..i + 4] == [line[i + 3]];
      assert OccursAt(line, " ", i + 3);
      ContainsIff(line, " ");
    }
  }

  /** `get_templates`: the second space-separated word of every listing
      line that mentions 'and up', in listing order. */
  function GetTemplates(lines: seq<string>): (r: seq<string>)
    ensures |r| <= |lines|
    ensures forall t :: t in r <==> exists j :: (
      0 <= j < |lines| && Contains(lines[j], SupportMarker) &&
      (MarkedLineHasSpace(lines[j]); SecondWord(lines[j]) == t))
  {
    if |lines| == 0 then []
    else
      var line := lines[0];
      MarkedLineHasSpace(line);
      var rest := GetTemplates(lines[1..]);
      assert forall j :: 1 <= j < |lines| ==> lines[j] == lines[1..][j - 1];
      (if Contains(line, SupportMarker) then [SecondWord(line)] else []) + rest
  }

  /** What `run_command` returns: the `subprocess.Popen` object of the
      process it started, whose standard output lines are kept here. The
      object itself is not iterable. */
  datatype Process = Process(stdoutLines: seq<string>)

  /** Python's `for item in value` over a list of lines or over a process
      object: the latter raises `TypeError`. */
  datatype Iterable = LineList(lines: seq<string>) | ProcessObject(process: Process)

  function Iterate(v: Iterable): (r: Result<seq<string>, Exc>)
    ensures r.Success? <==> v.LineList?
    ensures r.Success? ==> r.value == v.lines
    ensures r.Failure? ==> r.error.TypeError?
  {
    match v
    case LineList(lines) => Success(lines)
    case ProcessObject(_) => Failure(TypeError("'Popen' object is not iterable"))
  }

  /** The command `get_templates` passes to `run_command`. Unlike the
      commands of `new` and `pack` it has no `shellfoundry` prefix, so
      `Popen` looks for a program named after the whole string (POSIX) or
      named `list` (Windows). */
  const TemplatesCommand: string := "list --all"

  /** The listing command the method evidently means. */
  const ShellfoundryListCommand: string := "shellfoundry list --all"

  /** `get_templates` as written. `popen` is what `subprocess.Popen` does
      with a command: start a process, or raise when no such program
      exists. A raise propagates; a started process object is then
      iterated, not its output, which raises `TypeError`. Either way no
      template list comes back. */
  function GetTemplatesAsWritten(popen: string -> Result<Process, Exc>): (r: Result<seq<string>, Exc>)
    ensures r.Failure?
    ensures popen(TemplatesCommand).Failure? ==> r.error == popen(TemplatesCommand).error
    ensures popen(TemplatesCommand).Success? ==> r.error.TypeError?
  {
    match popen(TemplatesCommand)
    case Failure(e) => Failure(e)
    case Success(process) =>
      match Iterate(ProcessObject(process))
      case Success(lines) => Success(GetTemplates(lines))
      case Failure(e) => Failure(e)
  }

  /** `get_templates` as intended: run `shellfoundry list --all` and filter
      the lines of its output. */
  function GetTemplatesIntended(popen: string -> Result<Process, Exc>): (r: Result<seq<string>, Exc>)
    ensures r.Success? <==> popen(ShellfoundryListCommand).Success?
    ensures r.Failure? ==> r.error == popen(ShellfoundryListCommand).error
    ensures r.Success? ==> forall t :: t in r.value <==> exists j :: (
      var lines := popen(ShellfoundryListCommand).value.stdoutLines;
      0 <= j < |lines| && Contains(lines[j], SupportMarker) &&
      (MarkedLineHasSpace(lines[j]); SecondWord(lines[j]) == t))
  {
    match popen(ShellfoundryListCommand)
    case Failure(e) => Failure(e)
    case Success(process) =>
      match Iterate(LineList(process.stdoutLines))
      case Success(lines) => Success(GetTemplates(lines))
      case Failure(e) => Failure(e)
  }

  /** When shellfoundry lists a supported template, the code as written
      still raises, while the intended one names the template. */
  lemma GetTemplatesLosesTemplates(popen: string -> Result<Process, Exc>, j: nat)
    requires popen(ShellfoundryListCommand).Success?
    requires var lines := popen(ShellfoundryListCommand).value.stdoutLines;
      j < |lines| && Contains(lines[j], SupportMarker)
    ensures GetTemplatesAsWritten(popen).Failure?
    ensures GetTemplatesIntended(popen).Success? && GetTemplatesIntended(popen).value != []
  {
    var line := popen(ShellfoundryListCommand).value.stdoutLines[j];
    MarkedLineHasSpace(line);
    assert SecondWord(line) in GetTemplatesIntended(popen).value;
  }
}

=== FILE: smb.dfy ===
/** The SMB file helpers of both generations (`shell_tests/smb_handler.py`,
    `shell_tests/handlers/smb_handler.py`) and the CloudShell server paths
    built on them.  The SMB session is replaced by the answers it gives: a
    directory listing, or one success-or-failure answer per remote call,
    consumed in call order. */
module Smb {
  import opened Wrappers
  import opened Errors
  import opened Text
  import Helpers
  import opened Sequences

  // ---------------------------------------------------------------------
  // Parent directory

  predicate IsSep(c: char) {
    c == '/' || c == '\\'
  }

  /** The index of the last '/' or '\' in `s`. */
  function LastSep(s: string): (r: Option<nat>)
    ensures r.Some? ==> r.value < |s| && IsSep(s[r.value]) && forall j :: r.value < j < |s| ==> !IsSep(s[j])
    ensures r.None? ==> forall j :: 0 <= j < |s| ==> !IsSep(s[j])
  {
    if |s| == 0 then None
    else if IsSep(s[|s| - 1]) then Some(|s| - 1)
    else LastSep(s[..|s| - 1])
  }

  /** `get_dir_path`: the search for `^(.*)[\\/](.*?)$`.  Neither group may
      cross a newline and `$` also matches before one final newline, so a
      match needs a newline-free text before that newline; the greedy first
      group then ends at the last separator.  No match gives ''. */
  function GetDirPath(path: string): (r: string)
    ensures |r| <= |path| && r == path[..|r|]
    ensures path != "" ==> |r| < |path|
  {
    var core := BeforeFinalNewline(path);
    if '\n' in core then ""
    else match LastSep(core)
      case None => ""
      case Some(i) => core[..i]
  }

  /** For a newline-free path (up to one final newline) with a separator,
      the parent is the text before the last separator; with no separator,
      and for a path with an inner newline, it is ''. */
  lemma GetDirPathSpec(path: string, i: nat)
    ensures var core := BeforeFinalNewline(path);
      '\n' !in core && i < |core| && IsSep(core[i]) && (forall j :: i < j < |core| ==> !IsSep(core[j])) ==>
      GetDirPath(path) == path[..i]
    ensures (forall j :: 0 <= j < |path| ==> !IsSep(path[j])) ==> GetDirPath(path) == ""
    ensures '\n' in BeforeFinalNewline(path) ==> GetDirPath(path) == ""
  {
    var core := BeforeFinalNewline(path);
    if '\n' !in core && i < |core| && IsSep(core[i]) && (forall j :: i < j < |core| ==> !IsSep(core[j])) {
      assert LastSep(core) == Some(i);
    }
    if forall j :: 0 <= j < |path| ==> !IsSep(path[j]) {
      assert forall j :: 0 <= j < |core| ==> core[j] == path[j];
    }
  }

  /** Only '' is its own parent: every other path strictly shrinks, and ''
      stays '' forever. */
  lemma GetDirPathFixpoint(path: string)
    ensures GetDirPath(path) == path <==> path == ""
  {
  }

  // ---------------------------------------------------------------------
  // Remote calls and their answers

  /** The remote calls the helpers make, by path. */
  datatype SmbCall = CreateDirectory(path: string) | StoreFile(path: string) | DeleteFile(path: string)

  /** What the server answers to one call; a failure carries the text
      `str(e)` of the `OperationFailure`. */
  datatype SmbAnswer = SmbOk | SmbFailed(message: string)

  /** How a helper ended: returned, raised, or still running when the
      answers ran out. */
  datatype Status = Completed | Raised(error: Exc) | Pending

  /** A helper's run: how it ended, the calls it made in order, and the
      answers it left unread. */
  datatype Run = Run(status: Status, calls: seq<SmbCall>, rest: seq<SmbAnswer>)

  predicate OnlyCreates(calls: seq<SmbCall>) {
    forall k :: 0 <= k < |calls| ==> calls[k].CreateDirectory?
  }

  /** Each call reads exactly one answer, in order. */
  predicate OneAnswerPerCall(r: Run, answers: seq<SmbAnswer>) {
    |r.calls| <= |answers| && r.rest == answers[|r.calls|..]
  }

  /** `create_dir(path, parents)`: try to create the directory; with
      `parents`, a 'Create failed' error first creates the parent chain
      (recursively, by `GetDirPath`) and then tries the directory once more.
      Any other failure, or any failure without `parents`, propagates. */
  function CreateDir(dir: string, parents: bool, answers: seq<SmbAnswer>): (r: Run)
    ensures OnlyCreates(r.calls)
    ensures !r.status.Pending? ==> OneAnswerPerCall(r, answers)
    ensures r.status.Completed? ==>
      |r.calls| >= 1 && r.calls[0] == CreateDirectory(dir) && r.calls[|r.calls| - 1] == CreateDirectory(dir)
    ensures !parents && |answers| > 0 ==> |r.calls| == 1
    decreases |answers|
  {
    if |answers| == 0 then Run(Pending, [], [])
    else match answers[0]
      case SmbOk => Run(Completed, [CreateDirectory(dir)], answers[1..])
      case SmbFailed(m) =>
        if parents && Contains(m, "Create failed") then
          AfterParents(dir, CreateDir(GetDirPath(dir), parents, answers[1..]), answers)
        else Run(Raised(SmbOperationFailure(m)), [CreateDirectory(dir)], answers[1..])
  }

  /** After a 'Create failed' answer for `dir` and the run `p` creating its
      parent chain: a failing or stalled chain ends the run, a created one
      lets `create_dir` try `dir` once more, reading the next answer. */
  function AfterParents(dir: string, p: Run, answers: seq<SmbAnswer>): (r: Run)
    requires |answers| > 0 && OnlyCreates(p.calls)
    requires !p.status.Pending? ==> OneAnswerPerCall(p, answers[1..])
    ensures OnlyCreates(r.calls)
    ensures !r.status.Pending? ==> OneAnswerPerCall(r, answers)
    ensures |r.calls| >= 1 && r.calls[0] == CreateDirectory(dir)
    ensures r.status.Completed? ==> r.calls[|r.calls| - 1] == CreateDirectory(dir)
  {
    var calls := [CreateDirectory(dir)] + p.calls;
    if !p.status.Completed? then Run(p.status, calls, p.rest)
    else
      assert p.rest == answers[|calls|..] by {
        assert answers[1..][|p.calls|..] == answers[|p.calls| + 1..];
      }
      if |p.rest| == 0 then Run(Pending, calls, [])
      else
        var retried := calls + [CreateDirectory(dir)];
        assert p.rest[1..] == answers[|retried|..];
        match p.rest[0]
        case SmbOk => Run(Completed, retried, p.rest[1..])
        case SmbFailed(m2) => Run(Raised(SmbOperationFailure(m2)), retried, p.rest[1..])
  }

  /** The `i`-th ancestor by `parent`. */
  function Ancestor(parent: string -> string, dir: string, i: nat): string
    decreases i
  {
    if i == 0 then dir else Ancestor(parent, parent(dir), i - 1)
  }

  /** `n` copies of one answer. */
  function Repeat(a: SmbAnswer, n: nat): (r: seq<SmbAnswer>)
    ensures |r| == n && forall k :: 0 <= k < n ==> r[k] == a
  {
    if n == 0 then [] else [a] + Repeat(a, n - 1)
  }

  const CreateFailed := SmbFailed("Create failed")

  /** The creations going up `k` levels from `dir`: `dir` first, then each
      ancestor in turn. */
  function Climb(parent: string -> string, dir: string, k: nat): seq<SmbCall>
    decreases k
  {
    if k == 0 then [] else [CreateDirectory(dir)] + Climb(parent, parent(dir), k - 1)
  }

  /** The creations coming back down `k` levels to `dir`: the reverse of
      `Climb`. */
  function Descend(parent: string -> string, dir: string, k: nat): seq<SmbCall>
    decreases k
  {
    if k == 0 then [] else Descend(parent, parent(dir), k - 1) + [CreateDirectory(dir)]
  }

  /** The `i`-th creation of a climb is the `i`-th ancestor. */
  lemma {:induction false} ClimbAt(parent: string -> string, dir: string, k: nat)
    ensures |Climb(parent, dir, k)| == k
    ensures forall i :: 0 <= i < k ==> Climb(parent, dir, k)[i] == CreateDirectory(Ancestor(parent, dir, i))
    decreases k
  {
    if k > 0 {
      var up := parent(dir);
      ClimbAt(parent, up, k - 1);
      forall i | 0 <= i < k ensures Climb(parent, dir, k)[i] == CreateDirectory(Ancestor(parent, dir, i)) {
        if i > 0 { assert Climb(parent, dir, k)[i] == Climb(parent, up, k - 1)[i - 1]; }
      }
    }
  }

  /** The descent visits the directories of the climb in the opposite
      order. */
  lemma {:induction false} DescendReversesClimb(parent: string -> string, dir: string, k: nat)
    ensures |Descend(parent, dir, k)| == |Climb(parent, dir, k)| == k
    ensures forall i :: 0 <= i < k ==> Descend(parent, dir, k)[i] == Climb(parent, dir, k)[k - 1 - i]
    decreases k
  {
    if k > 0 {
      var up := parent(dir);
      DescendReversesClimb(parent, up, k - 1);
      var c := Climb(parent, dir, k);
      var dn := Descend(parent, dir, k);
      assert c == [CreateDirectory(dir)] + Climb(parent, up, k - 1);
      assert dn == Descend(parent, up, k - 1) + [CreateDirectory(dir)];
      forall i | 0 <= i < k ensures dn[i] == c[k - 1 - i] {
        if i < k - 1 {
          assert dn[i] == Descend(parent, up, k - 1)[i];
          assert c[k - 1 - i] == Climb(parent, up, k - 1)[k - 2 - i];
        }
      }
    }
  }

  /** With the first `k` ancestors of `dir` missing and the `k`-th present,
      `create_dir` climbs to the present one, creates it, and comes back
      down creating each missing directory once, ending with `dir` itself
      and leaving `tail` unread. */
  predicate ClimbsAndReturns(dir: string, k: nat, tail: seq<SmbAnswer>)
  {
    var r := CreateDir(dir, true, Repeat(CreateFailed, k) + Repeat(SmbOk, k + 1) + tail);
    r.status == Completed && r.rest == tail &&
    r.calls == Climb(GetDirPath, dir, k) + [CreateDirectory(Ancestor(GetDirPath, dir, k))] + Descend(GetDirPath, dir, k)
  }

  /** When the first `k` ancestors are missing and the `k`-th exists, the
      recursion climbs to it, creates it, and comes back down creating each
      missing directory once, ending with `dir` itself. */
  lemma {:induction false} CreateDirClimbs(dir: string, k: nat, tail: seq<SmbAnswer>)
    ensures ClimbsAndReturns(dir, k, tail)
  {
    if k == 0 {
      ClimbBase(dir, tail);
    } else {
      CreateDirClimbs(GetDirPath(dir), k - 1, [SmbOk] + tail);
      ClimbStep(dir, k, tail);
    }
  }

  /** With no missing ancestor the directory is created at once. */
  lemma ClimbBase(dir: string, tail: seq<SmbAnswer>)
    ensures CreateDir(dir, true, Repeat(CreateFailed, 0) + Repeat(SmbOk, 1) + tail) ==
      Run(Completed, [CreateDirectory(dir)], tail)
    ensures ClimbsAndReturns(dir, 0, tail)
  {
    var answers := Repeat(CreateFailed, 0) + Repeat(SmbOk, 1) + tail;
    assert answers == [SmbOk] + tail;
    assert answers[1..] == tail;
    assert Climb(GetDirPath, dir, 0) + [CreateDirectory(Ancestor(GetDirPath, dir, 0))] + Descend(GetDirPath, dir, 0)
      == [CreateDirectory(dir)];
  }

  /** The inductive step of `CreateDirClimbs`: a completed climb of `k - 1`
      levels from the parent gives one of `k` levels from `dir`. */
  lemma ClimbStep(dir: string, k: nat, tail: seq<SmbAnswer>)
    requires k > 0
    requires ClimbsAndReturns(GetDirPath(dir), k - 1, [SmbOk] + tail)
    ensures ClimbsAndReturns(dir, k, tail)
  {
    var parent := GetDirPath(dir);
    var answers := Repeat(CreateFailed, k) + Repeat(SmbOk, k + 1) + tail;
    var inner := Repeat(CreateFailed, k - 1) + Repeat(SmbOk, k) + ([SmbOk] + tail);
    var up := Climb(GetDirPath, parent, k - 1);
    var top := [CreateDirectory(Ancestor(GetDirPath, parent, k - 1))];
    var down := Descend(GetDirPath, parent, k - 1);
    var d := [CreateDirectory(dir)];
    ClimbAnswers(k, tail);
    assert answers[1..] == inner;
    assert CreateDir(parent, true, inner) == Run(Completed, up + top + down, [SmbOk] + tail);
    RetryAfterParent(dir, answers, tail, up + top + down);
    assert Climb(GetDirPath, dir, k) == d + up && Descend(GetDirPath, dir, k) == down + d;
    assert Ancestor(GetDirPath, dir, k) == Ancestor(GetDirPath, parent, k - 1);
    Regroup(d, up, top, down, d);
  }

  /** Regrouping a five-part concatenation. */
  lemma Regroup<T>(a: seq<T>, b: seq<T>, c: seq<T>, d: seq<T>, e: seq<T>)
    ensures a + (b + c + d) + e == (a + b) + c + (d + e)
  {
  }

  /** A 'Create failed' answer, a parent chain that completes with the
      next answer a success, and the retry of `dir` succeeds. */
  lemma RetryAfterParent(dir: string, answers: seq<SmbAnswer>, rest: seq<SmbAnswer>, parentCalls: seq<SmbCall>)
    requires |answers| > 0 && answers[0] == CreateFailed
    requires CreateDir(GetDirPath(dir), true, answers[1..]) == Run(Completed, parentCalls, [SmbOk] + rest)
    ensures CreateDir(dir, true, answers) ==
      Run(Completed, [CreateDirectory(dir)] + parentCalls + [CreateDirectory(dir)], rest)
  {
    CreateDirRetryStep(dir, answers);
    assert ([SmbOk] + rest)[1..] == rest;
  }

  /** The answers of a `k`-level climb start with a failure followed by
      those of a `k - 1`-level climb from the parent. */
  lemma ClimbAnswers(k: nat, tail: seq<SmbAnswer>)
    requires k > 0
    ensures var answers := Repeat(CreateFailed, k) + Repeat(SmbOk, k + 1) + tail;
      answers[0] == CreateFailed &&
      answers[1..] == Repeat(CreateFailed, k - 1) + Repeat(SmbOk, k) + ([SmbOk] + tail)
  {
    assert Repeat(CreateFailed, k) == [CreateFailed] + Repeat(CreateFailed, k - 1);
    assert Repeat(SmbOk, k + 1) == Repeat(SmbOk, k) + [SmbOk] by {
      assert Repeat(SmbOk, k + 1)[..k] == Repeat(SmbOk, k);
    }
  }

  /** One step of the recursion: a 'Create failed' answer, a completed
      parent chain, and a successful retry. */
  lemma CreateDirRetryStep(dir: string, answers: seq<SmbAnswer>)
    requires |answers| > 0 && answers[0] == CreateFailed
    requires var p := CreateDir(GetDirPath(dir), true, answers[1..]);
      p.status.Completed? && |p.rest| > 0 && p.rest[0] == SmbOk
    ensures var p := CreateDir(GetDirPath(dir), true, answers[1..]);
      CreateDir(dir, true, answers) == Run(Completed, [CreateDirectory(dir)] + p.calls + [CreateDirectory(dir)], p.rest[1..])
  {
    assert Contains("Create failed", "Create failed") by {
      assert OccursAt("Create failed", "Create failed", 0);
    }
  }

  /** Creating '' with parents never ends while the server keeps answering
      'Create failed': the parent of '' is '' again, so however many answers
      there are, the loop is still running when they run out. */
  lemma {:induction false} CreateDirStallsAtRoot(n: nat)
    ensures CreateDir("", true, Repeat(CreateFailed, n)).status == Pending
  {
    if n > 0 {
      assert Contains("Create failed", "Create failed") by {
        assert OccursAt("Create failed", "Create failed", 0);
      }
      assert Repeat(CreateFailed, n)[1..] == Repeat(CreateFailed, n - 1);
      CreateDirStallsAtRoot(n - 1);
    }
  }

  /** `put_file` / `put_file_obj`: store the file; when forced, an 'Unable
      to open file' error creates the parent chain of the file's directory
      and stores once more.  Any other failure propagates. */
  function PutFile(path: string, force: bool, answers: seq<SmbAnswer>): (r: Run)
    ensures !r.status.Pending? ==> OneAnswerPerCall(r, answers)
    ensures |answers| > 0 ==> |r.calls| >= 1 && r.calls[0] == StoreFile(path)
    ensures r.status.Completed? ==> |r.calls| >= 1 && r.calls[|r.calls| - 1] == StoreFile(path)
    ensures !force && |answers| > 0 ==> r.calls == [StoreFile(path)] && r.rest == answers[1..]
  {
    if |answers| == 0 then Run(Pending, [], [])
    else match answers[0]
      case SmbOk => Run(Completed, [StoreFile(path)], answers[1..])
      case SmbFailed(m) =>
        if force && Contains(m, "Unable to open file") then
          var c := CreateDir(GetDirPath(path), true, answers[1..]);
          var calls := [StoreFile(path)] + c.calls;
          if !c.status.Completed? then Run(c.status, calls, c.rest)
          else if |c.rest| == 0 then Run(Pending, calls, [])
          else
            var retried := calls + [StoreFile(path)];
            match c.rest[0]
            case SmbOk => Run(Completed, retried, c.rest[1..])
            case SmbFailed(m2) => Run(Raised(SmbOperationFailure(m2)), retried, c.rest[1..])
        else Run(Raised(SmbOperationFailure(m)), [StoreFile(path)], answers[1..])
  }

  /** A forced store whose directory exists after one creation stores
      exactly twice around it; a second store failure propagates with no
      third attempt. */
  lemma PutFileRetriesOnce(path: string, m: string, second: SmbAnswer, tail: seq<SmbAnswer>)
    requires Contains(m, "Unable to open file")
    ensures var r := PutFile(path, true, [SmbFailed(m), SmbOk, second] + tail);
      r.calls == [StoreFile(path), CreateDirectory(GetDirPath(path)), StoreFile(path)] && r.rest == tail &&
      r.status == (if second.SmbOk? then Completed else Raised(SmbOperationFailure(second.message)))
  {
    var answers := [SmbFailed(m), SmbOk, second] + tail;
    assert answers[1..] == [SmbOk, second] + tail;
    assert answers[1..][1..] == [second] + tail;
  }

  // ---------------------------------------------------------------------
  // Listing

  /** One entry of a remote listing. */
  datatype SharedFile = SharedFile(filename: string, isDirectory: bool)

  /** What `listPath` gives: the entries, or a failure message. */
  datatype ListAnswer = Listing(files: seq<SharedFile>) | ListFailed(message: string)

  /** The entries whose name is not in `excluded`, in order. */
  function Without(files: seq<SharedFile>, excluded: set<string>): (r: seq<SharedFile>)
    ensures |r| <= |files|
    ensures forall f :: f in r <==> f in files && f.filename !in excluded
  {
    if |files| == 0 then []
    else (if files[0].filename in excluded then [] else [files[0]]) + Without(files[1..], excluded)
  }

  /** `ls`: the listing without '.' and '..'; a directory that cannot be
      opened lists as empty, and any other failure propagates. */
  function Ls(answer: ListAnswer): (r: Result<seq<SharedFile>, Exc>)
    ensures r.Failure? <==> answer.ListFailed? && !Contains(answer.message, "Unable to open directory")
    ensures r.Failure? ==> r.error == SmbOperationFailure(answer.message)
    ensures r.Success? && answer.ListFailed? ==> r.value == []
    ensures r.Success? && answer.Listing? ==>
      forall f :: f in r.value <==> f in answer.files && f.filename != "." && f.filename != ".."
  {
    match answer
    case Listing(files) => Success(Without(files, {".", ".."}))
    case ListFailed(m) =>
      if Contains(m, "Unable to open directory") then Success([]) else Failure(SmbOperationFailure(m))
  }

  /** Listing keeps the server's order: what is left is exactly the
      listing with the dot entries taken out. */
  lemma LsKeepsOrder(files: seq<SharedFile>, extra: seq<SharedFile>)
    requires forall f :: f in extra ==> f.filename != "." && f.filename != ".."
    ensures Ls(Listing(files + extra)).value == Ls(Listing(files)).value + extra
  {
    WithoutAppend(files, extra, {".", ".."});
  }

  lemma {:induction false} WithoutAppend(files: seq<SharedFile>, extra: seq<SharedFile>, excluded: set<string>)
    requires forall f :: f in extra ==> f.filename !in excluded
    ensures Without(files + extra, excluded) == Without(files, excluded) + extra
    decreases |files|
  {
    if |files| == 0 {
      WithoutKeeps(extra, excluded);
      assert files + extra == extra;
    } else {
      assert (files + extra)[1..] == files[1..] + extra;
      WithoutAppend(files[1..], extra, excluded);
    }
  }

  lemma {:induction false} WithoutKeeps(files: seq<SharedFile>, excluded: set<string>)
    requires forall f :: f in files ==> f.filename !in excluded
    ensures Without(files, excluded) == files
    decreases |files|
  {
    if |files| > 0 {
      assert files[0] in files;
      WithoutKeeps(files[1..], excluded);
    }
  }

  function Names(files: seq<SharedFile>): (r: seq<string>)
    ensures |r| == |files| && forall k :: 0 <= k < |files| ==> r[k] == files[k].filename
  {
    seq(|files|, k requires 0 <= k < |files| => files[k].filename)
  }

  // ---------------------------------------------------------------------
  // Downloading a directory tree

  /** A remote directory as the listings would show it: its entries, or the
      failure listing it gives. */
  datatype RemoteDir = Readable(entries: seq<RemoteEntry>) | Unreadable(message: string)
  datatype RemoteEntry = RemoteFile(filename: string) | RemoteFolder(filename: string, contents: RemoteDir)

  /** What a download does locally. */
  datatype LocalAction = MakeLocalDir(local: string) | Fetch(remote: string, local: string)

  predicate IsDot(name: string) {
    name == "." || name == ".."
  }

  /** The number of entries a download mirrors: every non-dot entry of
      every readable directory. */
  function Mirrored(d: RemoteDir): nat
  {
    match d
    case Unreadable(_) => 0
    case Readable(entries) => MirroredEntries(entries)
  }

  function MirroredEntries(entries: seq<RemoteEntry>): nat
  {
    if |entries| == 0 then 0
    else
      var here := if IsDot(entries[0].filename) then 0
        else match entries[0]
          case RemoteFile(_) => 1
          case RemoteFolder(_, c) => 1 + Mirrored(c);
      here + MirroredEntries(entries[1..])
  }

  /** `download_dir` / `download_r_dir`: for each listed entry in order, a
      directory is created locally and descended into, and a file is
      fetched to the same name locally.  A listing failure other than
      'Unable to open directory' stops the download with that error. */
  function DownloadDir(d: RemoteDir, remote: string, local: string): (r: (seq<LocalAction>, Option<Exc>))
    ensures r.1.None? ==> |r.0| == Mirrored(d)
    ensures r.1.None? && d.Readable? ==> forall k :: 0 <= k < |d.entries| && !IsDot(d.entries[k].filename) ==>
      var name := d.entries[k].filename;
      (if d.entries[k].RemoteFile? then Fetch(Helpers.PathJoin(remote, name), Helpers.PathJoin(local, name))
       else MakeLocalDir(Helpers.PathJoin(local, name))) in r.0
  {
    match d
    case Unreadable(m) =>
      if Contains(m, "Unable to open directory") then ([], None) else ([], Some(SmbOperationFailure(m)))
    case Readable(entries) => DownloadEntries(entries, remote, local)
  }

  function DownloadEntries(entries: seq<RemoteEntry>, remote: string, local: string): (r: (seq<LocalAction>, Option<Exc>))
    ensures r.1.None? ==> |r.0| == MirroredEntries(entries)
    ensures r.1.None? ==> forall k :: 0 <= k < |entries| && !IsDot(entries[k].filename) ==>
      var name := entries[k].filename;
      (if entries[k].RemoteFile? then Fetch(Helpers.PathJoin(remote, name), Helpers.PathJoin(local, name))
       else MakeLocalDir(Helpers.PathJoin(local, name))) in r.0
  {
    if |entries| == 0 then ([], None)
    else
      var name := entries[0].filename;
      var rest := DownloadEntries(entries[1..], remote, local);
      assert forall k :: 1 <= k < |entries| ==> entries[k] == entries[1..][k - 1];
      if IsDot(name) then rest
      else match entries[0]
        case RemoteFile(_) =>
          ([Fetch(Helpers.PathJoin(remote, name), Helpers.PathJoin(local, name))] + rest.0, rest.1)
        case RemoteFolder(_, c) =>
          var sub := DownloadDir(c, Helpers.PathJoin(remote, name), Helpers.PathJoin(local, name));
          var done := [MakeLocalDir(Helpers.PathJoin(local, name))] + sub.0;
          if sub.1.Some? then (done, sub.1)
          else (done + rest.0, rest.1)
  }

  // ---------------------------------------------------------------------
  // Credentials

  /** The domain field: '' when the user name has no backslash, otherwise
      the list of backslash-separated parts (a list, not a string). */
  datatype Domain = NoDomain | DomainParts(parts: seq<string>)

  /** The `(domain, username)` split of the constructor: the user name is
      always the whole input. */
  function SplitUsername(username: string): (r: (Domain, string))
    ensures r.1 == username
    ensures r.0.NoDomain? <==> !Contains(username, "\\")
    ensures r.0.DomainParts? ==> |r.0.parts| >= 2 && Join(r.0.parts, "\\") == username
  {
    if Contains(username, "\\") then (DomainParts(Split(username, "\\")), username) else (NoDomain, username)
  }

  // ---------------------------------------------------------------------
  // The CloudShell server's share

  const CsServerName := "User-PC"
  const CsShare := "C$"

  /** The fixed paths are raw strings, so each written `\\` is two
      backslashes in the path. */
  const QsPath := "Program Files (x86)\\\\QualiSystems\\\\"
  const CsPypiPath := QsPath + "CloudShell\\\\Server\\\\Config\\\\Pypi Server Repository\\\\"
  const CsStandardsPath := QsPath + "CloudShell\\\\Server\\\\ToscaStandard\\\\"

  /** Both fixed directories end in a separator. */
  lemma FixedPathsShape()
    ensures |CsPypiPath| > 0 && CsPypiPath[|CsPypiPath| - 1] == '\\'
    ensures |CsStandardsPath| > 0 && CsStandardsPath[|CsStandardsPath| - 1] == '\\'
  {
  }

  /** A file in a fixed directory: the prefix followed by the name. */
  function InDir(dir: string, name: string): (r: string)
    ensures |r| == |dir| + |name| && r[..|dir|] == dir && r[|dir|..] == name
  {
    dir + name
  }

  /** The directory of a file put in a fixed directory is that directory
      without its final separator, whenever the name holds no separator or
      newline. */
  lemma InDirParent(dir: string, name: string)
    requires |dir| > 0 && IsSep(dir[|dir| - 1]) && '\n' !in dir
    requires forall j :: 0 <= j < |name| ==> !IsSep(name[j]) && name[j] != '\n'
    ensures GetDirPath(InDir(dir, name)) == dir[..|dir| - 1]
  {
    var p := InDir(dir, name);
    assert BeforeFinalNewline(p) == p by {
      if |name| > 0 { assert p[|p| - 1] == name[|name| - 1]; }
    }
    assert '\n' !in p by {
      forall j | 0 <= j < |p| ensures p[j] != '\n' {
        if j < |dir| { assert p[j] == dir[j]; } else { assert p[j] == name[j - |dir|]; }
      }
    }
    GetDirPathSpec(p, |dir| - 1);
  }

  /** `get_file_names_from_offline_pypi`: the listed names other than
      'PlaceHolder.txt' (the dot entries are gone already). */
  function OfflinePypiNames(answer: ListAnswer): (r: Result<seq<string>, Exc>)
    ensures r.Failure? <==> Ls(answer).Failure?
    ensures r.Success? && answer.Listing? ==> forall n :: n in r.value <==>
      (exists f :: f in answer.files && f.filename == n) && n !in {".", "..", "PlaceHolder.txt"}
  {
    match Ls(answer)
    case Failure(e) => Failure(e)
    case Success(files) =>
      var kept := Without(files, {".", "..", "PlaceHolder.txt"});
      var names := Names(kept);
      assert forall n :: n in names <==> exists f :: f in kept && f.filename == n by {
        forall n | n in names ensures exists f :: f in kept && f.filename == n {
          var k :| 0 <= k < |names| && names[k] == n;
          assert kept[k] in kept;
        }
        forall n | exists f :: f in kept && f.filename == n ensures n in names {
          var f :| f in kept && f.filename == n;
          var k :| 0 <= k < |kept| && kept[k] == f;
          assert names[k] == n;
        }
      }
      Success(names)
  }

  /** `clear_offline_pypi`: one removal per listed package, in listing
      order, under the PyPI directory. */
  function ClearOfflinePypi(answer: ListAnswer): (r: Result<seq<SmbCall>, Exc>)
    ensures r.Failure? <==> OfflinePypiNames(answer).Failure?
    ensures r.Success? ==> var names := OfflinePypiNames(answer).value;
      |r.value| == |names| && forall k :: 0 <= k < |names| ==> r.value[k] == DeleteFile(InDir(CsPypiPath, names[k]))
  {
    match OfflinePypiNames(answer)
    case Failure(e) => Failure(e)
    case Success(names) => Success(seq(|names|, k requires 0 <= k < |names| => DeleteFile(InDir(CsPypiPath, names[k]))))
  }

  /** Nothing is removed that is not a listed package, and the placeholder
      always stays. */
  lemma ClearKeepsPlaceholder(answer: ListAnswer)
    requires ClearOfflinePypi(answer).Success?
    ensures DeleteFile(InDir(CsPypiPath, "PlaceHolder.txt")) !in ClearOfflinePypi(answer).value
  {
  }

  /** The uploads of `add_extra_standards`: each standard not installed,
      in input order; duplicates in the input are uploaded each time. */
  function StandardUploads(standards: seq<string>, installed: seq<string>): (r: seq<SmbCall>)
    ensures forall c :: c in r ==> c.StoreFile?
    ensures forall n :: n in standards && n !in installed ==> StoreFile(InDir(CsStandardsPath, n)) in r
    ensures forall c :: c in r ==> exists n :: n in standards && n !in installed && c == StoreFile(InDir(CsStandardsPath, n))
    ensures |standards| == 1 ==> r == (if standards[0] in installed then [] else [StoreFile(InDir(CsStandardsPath, standards[0]))])
  {
    if |standards| == 0 then []
    else
      var rest := StandardUploads(standards[1..], installed);
      var here := if standards[0] in installed then [] else [StoreFile(InDir(CsStandardsPath, standards[0]))];
      assert forall n :: n in standards ==> n == standards[0] || n in standards[1..];
      here + rest
  }

  /** The uploads follow the input order: those of a list are those of
      its first part followed by those of the rest. */
  lemma {:induction false} StandardUploadsInOrder(a: seq<string>, b: seq<string>, installed: seq<string>)
    ensures StandardUploads(a + b, installed) == StandardUploads(a, installed) + StandardUploads(b, installed)
  {
    if |a| == 0 {
      assert a + b == b;
    } else {
      var ab := a + b;
      assert ab[0] == a[0] && ab[1..] == a[1..] + b;
      var here := if a[0] in installed then [] else [StoreFile(InDir(CsStandardsPath, a[0]))];
      StandardUploadsInOrder(a[1..], b, installed);
      assert StandardUploads(a, installed) == here + StandardUploads(a[1..], installed);
      assert StandardUploads(ab, installed) == here + StandardUploads(a[1..] + b, installed);
      AppendAssoc(here, StandardUploads(a[1..], installed), StandardUploads(b, installed));
    }
  }

  /** `add_extra_standards`: the installed names are listed once, before
      any upload. */
  function AddExtraStandards(standards: seq<string>, installed: ListAnswer): (r: Result<seq<SmbCall>, Exc>)
    ensures r.Failure? <==> Ls(installed).Failure?
    ensures r.Success? ==> r.value == StandardUploads(standards, Names(Ls(installed).value))
  {
    match Ls(installed)
    case Failure(e) => Failure(e)
    case Success(files) => Success(StandardUploads(standards, Names(files)))
  }

  /** A standard that is already installed is never uploaded, and one
      listed twice and missing is uploaded twice, since the installed list
      is not read again after an upload. */
  lemma StandardsListedOnce(n: string, installed: seq<string>)
    ensures n in installed ==> StandardUploads([n, n], installed) == []
    ensures n !in installed ==> |StandardUploads([n, n], installed)| == 2
  {
    assert [n, n][1..] == [n];
    assert [n][1..] == [];
    var one := StandardUploads([n], installed);
    assert one == (if n in installed then [] else [StoreFile(InDir(CsStandardsPath, n))]) + StandardUploads([], installed);
    assert StandardUploads([n, n], installed) == (if n in installed then [] else [StoreFile(InDir(CsStandardsPath, n))]) + one;
  }
}

=== FILE: tests_helpers.dfy ===
/** Suite construction and running of the third generation
    (`shell_tests/helpers/tests_helpers.py`). */
module TestsHelpers {
  import opened Wrappers
  import opened Errors
  import opened Catalog
  import opened Registry
  import opened Text
  import opened Sequences
  import opened Selection

  /** The list selection starts from: the family's autoload class for a
      device-hierarchy family, nothing otherwise. */
  function InitialClasses(family: string, table: CommandTable): (r: seq<TestClass>)
    ensures |r| <= 1
  {
    if family in AutoloadFamilies && "autoload" in table then [table["autoload"]] else []
  }

  /** The classes `get_test_suite` instantiates, in order. */
  function SelectedClasses(family: string, deviceType: DeviceType, commands: seq<string>)
    : (r: Result<seq<TestClass>, Exc>)
    ensures r.Failure? <==> family !in TestCasesMap || deviceType !in TestCasesMap[family]
    ensures r.Failure? ==> r.error.KeyError?
  {
    match Lookup(family, deviceType)
    case Failure(e) => Failure(e)
    case Success(table) => Success(Select(InitialClasses(family, table), table, commands))
  }

  /** What the selection promises: no class twice; a device-hierarchy family
      starts with its autoload class whatever the driver reports; and the
      classes are exactly that autoload class plus the classes some
      lower-cased driver command maps to. */
  lemma SelectedClassesSpec(family: string, deviceType: DeviceType, commands: seq<string>)
    requires family in TestCasesMap && deviceType in TestCasesMap[family]
    ensures SelectedClasses(family, deviceType, commands).Success?
    ensures NoDup(SelectedClasses(family, deviceType, commands).value)
    ensures family in AutoloadFamilies ==>
      var table := TestCasesMap[family][deviceType];
      var r := SelectedClasses(family, deviceType, commands).value;
      "autoload" in table && |r| >= 1 && r[0] == table["autoload"]
    ensures forall x :: x in SelectedClasses(family, deviceType, commands).value <==>
      (family in AutoloadFamilies && x == TestCasesMap[family][deviceType]["autoload"]) ||
      (exists k :: 0 <= k < |commands| && MapsTo(TestCasesMap[family][deviceType], commands[k], x))
  {
    var table := TestCasesMap[family][deviceType];
    AutoloadFamiliesHaveAutoload(family, deviceType);
    SelectedOnTable(family, deviceType, commands);
    SelectOnTableSpec(family, table, commands);
  }

  /** Selection on one table: no class twice, the autoload class first for
      a device-hierarchy family, and exactly that class plus the mapped
      ones. */
  lemma SelectOnTableSpec(family: string, table: CommandTable, commands: seq<string>)
    requires family in AutoloadFamilies ==> "autoload" in table
    ensures var r := Select(InitialClasses(family, table), table, commands);
      NoDup(r) &&
      (family in AutoloadFamilies ==> |r| >= 1 && r[0] == table["autoload"]) &&
      forall x :: x in r <==>
        (family in AutoloadFamilies && x == table["autoload"]) ||
        (exists k :: 0 <= k < |commands| && MapsTo(table, commands[k], x))
  {
    var init := InitialClasses(family, table);
    SelectSpec(init, table, commands);
    if family in AutoloadFamilies {
      assert init == [table["autoload"]];
    }
  }

  /** `get_test_suite`: one entry per test method of each selected class. */
  function GetTestSuite(family: string, deviceType: DeviceType, commands: seq<string>,
                        methods: TestClass -> seq<string>): (r: Result<seq<TestEntry>, Exc>)
    ensures r.Failure? <==> family !in TestCasesMap || deviceType !in TestCasesMap[family]
    ensures r.Success? ==> SelectedClasses(family, deviceType, commands).Success?
    ensures r.Success? ==> forall e :: e in r.value <==>
      e.testClass in SelectedClasses(family, deviceType, commands).value && e.testName in methods(e.testClass)
  {
    match SelectedClasses(family, deviceType, commands)
    case Failure(e) => Failure(e)
    case Success(classes) =>
      forall e { SuiteMember(classes, methods, e); }
      Success(Suite(classes, methods))
  }

  /** Router, switch and firewall share one table, so they select alike for
      every device type and command list. */
  lemma NetworkFamiliesSelectAlike(deviceType: DeviceType, commands: seq<string>)
    ensures SelectedClasses("CS_Router", deviceType, commands) == SelectedClasses("CS_Firewall", deviceType, commands)
    ensures SelectedClasses("CS_Switch", deviceType, commands) == SelectedClasses("CS_Firewall", deviceType, commands)
    ensures SelectedClasses("CS_Firewall", deviceType, commands).Success?
  {
    NetworkFamiliesShareOneTable();
  }

  /** A simulator on the network table only ever gets the autoload class. */
  lemma {:induction false} NetworkSimulatorOnlyAutoload(family: string, commands: seq<string>)
    requires family in {"CS_Firewall", "CS_Router", "CS_Switch"}
    ensures SelectedClasses(family, Simulator, commands) == Success([TestAutoloadNetworkDevices])
  {
    var table := TestCasesMap[family][Simulator];
    assert table == map["autoload" := TestAutoloadNetworkDevices];
    assert InitialClasses(family, table) == [TestAutoloadNetworkDevices];
    SelectAbsorbed([TestAutoloadNetworkDevices], table, commands);
  }

  /** The controller family starts from nothing, so its first class, if any,
      comes from the first mapped command. */
  lemma ControllerHasNoAutoload(deviceType: DeviceType, commands: seq<string>)
    requires deviceType in {RealDevice, WithoutDevice}
    ensures SelectedClasses("CS_TrafficGeneratorController", deviceType, commands)
      == Success(Select([], TrafficGeneratorControllerTable[deviceType], commands))
  {
  }

  /** `save` and `orchestration_save` name the same class, so a driver that
      reports both, in any letter case, adds one class. */
  lemma {:induction false} SaveCommandsAddOneClass(save: string, orchestrationSave: string)
    requires Lower(save) == "save" && Lower(orchestrationSave) == "orchestration_save"
    ensures SelectedClasses("CS_Firewall", RealDevice, [save, orchestrationSave])
      == Success([TestAutoloadNetworkDevices, TestSaveConfig])
  {
    var table := NetworkTable[RealDevice];
    NetworkSaveEntries();
    SelectedOnTable("CS_Firewall", RealDevice, [save, orchestrationSave]);
    assert InitialClasses("CS_Firewall", table) == [table["autoload"]];
    assert Lower(save) in table && Lower(orchestrationSave) in table;
    SaveTwiceSelectsOnce(table, save, orchestrationSave);
  }

  /** A family and device type the registry lists select on their table. */
  lemma SelectedOnTable(family: string, deviceType: DeviceType, commands: seq<string>)
    requires family in TestCasesMap && deviceType in TestCasesMap[family]
    ensures var table := TestCasesMap[family][deviceType];
      SelectedClasses(family, deviceType, commands) == Success(Select(InitialClasses(family, table), table, commands))
  {
  }

  /** Two commands mapping to one class other than the initial one add that
      class once. */
  lemma SaveTwiceSelectsOnce(table: CommandTable, save: string, orchestrationSave: string)
    requires "autoload" in table && Lower(save) in table && Lower(orchestrationSave) in table
    requires table[Lower(save)] == table[Lower(orchestrationSave)] != table["autoload"]
    ensures Select([table["autoload"]], table, [save, orchestrationSave]) == [table["autoload"], table[Lower(save)]]
  {
    var c := table[Lower(save)];
    MappedPair(table, save, orchestrationSave);
    DedupeRepeat(table["autoload"], c);
  }

  /** Two commands that both map give their two classes. */
  lemma MappedPair(table: CommandTable, a: string, b: string)
    requires Lower(a) in table && Lower(b) in table
    ensures Mapped(table, [a, b]) == [table[Lower(a)], table[Lower(b)]]
  {
    var commands := [a, b];
    assert Mapped(table, commands[..0]) == [];
    MappedStep(table, commands, 0);
    MappedStep(table, commands, 1);
    assert commands[..2] == commands;
  }

  /** A second class listed twice after a first one is kept once. */
  lemma DedupeRepeat(first: TestClass, c: TestClass)
    requires first != c
    ensures Dedupe([first] + [c, c]) == [first, c]
  {
    var init := [first];
    DedupeOfNoDup(init);
    DedupeSnoc(init, c);
    DedupeSnoc(init + [c], c);
    assert init + [c, c] == (init + [c]) + [c];
  }

  /** unittest's result object, reduced to what the suite reads and writes. */
  datatype TestResult = TestResult(shouldStop: bool, ran: seq<TestEntry>, failed: seq<TestEntry>)
  {
    predicate WasSuccessful() {
      |failed| == 0
    }
  }

  /** `PatchedTestSuite`: the tests, the stop flag and the result of the run
      in progress. */
  datatype PatchedTestSuite = PatchedTestSuite(tests: seq<TestEntry>, stopRequested: bool, result: Option<TestResult>)

  /** `PatchedTestSuite.stop`: raise the flag and stop the current result. */
  function Stop(suite: PatchedTestSuite): (r: PatchedTestSuite)
    ensures r.stopRequested && r.tests == suite.tests
    ensures r.result.Some? <==> suite.result.Some?
    ensures r.result.Some? ==> r.result.value == suite.result.value.(shouldStop := true)
  {
    match suite.result
    case None => suite.(stopRequested := true)
    case Some(res) => suite.(stopRequested := true, result := Some(res.(shouldStop := true)))
  }

  /** The failing tests among `tests`, in order. */
  function Failing(tests: seq<TestEntry>, passes: TestEntry -> bool): (r: seq<TestEntry>)
    ensures |r| <= |tests|
  {
    if |tests| == 0 then []
    else (if passes(tests[0]) then [] else [tests[0]]) + Failing(tests[1..], passes)
  }

  /** A test is reported failing exactly when it is among the tests and
      does not pass. */
  lemma {:induction false} FailingMember(tests: seq<TestEntry>, passes: TestEntry -> bool, t: TestEntry)
    ensures t in Failing(tests, passes) <==> t in tests && !passes(t)
    decreases |tests|
  {
    if |tests| > 0 {
      assert tests == [tests[0]] + tests[1..];
      FailingMember(tests[1..], passes, t);
    }
  }

  /** unittest's loop from test `i` on: stop before a test when the result
      says so; `stopAt` is how many tests have run when another thread calls
      `stop()` (which stops the current result), if it does. */
  function RunFrom(tests: seq<TestEntry>, i: nat, res: TestResult, passes: TestEntry -> bool,
                   stopAt: Option<nat>): TestResult
    requires i <= |tests|
    decreases |tests| - i
  {
    var res' := if stopAt == Some(i) then res.(shouldStop := true) else res;
    if i == |tests| || res'.shouldStop then res'
    else
      var t := tests[i];
      RunFrom(tests, i + 1,
              res'.(ran := res'.ran + [t], failed := res'.failed + if passes(t) then [] else [t]),
              passes, stopAt)
  }

  /** `PatchedTestSuite.run(result)`: stop the result first when the flag is
      up, remember it, then run; the suite ends holding the final result,
      with its flag raised if `stop()` came during the run. */
  function Run(suite: PatchedTestSuite, res: TestResult, passes: TestEntry -> bool,
               stopAt: Option<nat>): (r: (PatchedTestSuite, TestResult))
  {
    var res0 := if suite.stopRequested then res.(shouldStop := true) else res;
    var final := RunFrom(suite.tests, 0, res0, passes, stopAt);
    var stopCame := stopAt.Some? && stopAt.value <= |suite.tests| && !res0.shouldStop;
    (suite.(stopRequested := suite.stopRequested || stopCame, result := Some(final)), final)
  }

  /** How many tests run before a concurrent `stop()` at `stopAt`. */
  function StopLimit(stopAt: Option<nat>, count: nat): (n: nat)
    ensures n <= count
  {
    match stopAt
    case None => count
    case Some(k) => if k < count then k else count
  }

  /** How many tests a run executes. */
  function Executed(suite: PatchedTestSuite, res: TestResult, stopAt: Option<nat>): nat
  {
    if suite.stopRequested || res.shouldStop then 0 else StopLimit(stopAt, |suite.tests|)
  }

  /** From test `i` on, an unstopped run executes the tests up to the stop
      point, in order, and records the failing ones among them. */
  lemma RunFromSpec(tests: seq<TestEntry>, i: nat, res: TestResult,
                    passes: TestEntry -> bool, stopAt: Option<nat>)
    requires i <= StopLimit(stopAt, |tests|)
    requires !res.shouldStop
    ensures RunFrom(tests, i, res, passes, stopAt).ran == res.ran + tests[i..StopLimit(stopAt, |tests|)]
    ensures RunFrom(tests, i, res, passes, stopAt).failed
      == res.failed + Failing(tests[i..StopLimit(stopAt, |tests|)], passes)
  {
    RunFromRan(tests, i, res, passes, stopAt);
    RunFromFailed(tests, i, res, passes, stopAt);
  }

  lemma {:induction false} RunFromRan(tests: seq<TestEntry>, i: nat, res: TestResult,
                                      passes: TestEntry -> bool, stopAt: Option<nat>)
    requires i <= StopLimit(stopAt, |tests|)
    requires !res.shouldStop
    ensures RunFrom(tests, i, res, passes, stopAt).ran == res.ran + tests[i..StopLimit(stopAt, |tests|)]
    decreases |tests| - i
  {
    var n := StopLimit(stopAt, |tests|);
    if i == n {
      assert tests[i..n] == [];
    } else {
      var t, rest := tests[i], tests[i + 1..n];
      var res' := res.(ran := res.ran + [t], failed := res.failed + if passes(t) then [] else [t]);
      RunFromStep(tests, i, res, passes, stopAt);
      RunFromRan(tests, i + 1, res', passes, stopAt);
      assert tests[i..n] == [t] + rest;
      assert (res.ran + [t]) + rest == res.ran + ([t] + rest);
    }
  }

  lemma {:induction false} RunFromFailed(tests: seq<TestEntry>, i: nat, res: TestResult,
                                         passes: TestEntry -> bool, stopAt: Option<nat>)
    requires i <= StopLimit(stopAt, |tests|)
    requires !res.shouldStop
    ensures RunFrom(tests, i, res, passes, stopAt).failed
      == res.failed + Failing(tests[i..StopLimit(stopAt, |tests|)], passes)
    decreases |tests| - i
  {
    var n := StopLimit(stopAt, |tests|);
    if i == n {
      assert tests[i..n] == [];
    } else {
      var t, rest := tests[i], tests[i + 1..n];
      var fail := if passes(t) then [] else [t];
      var res' := res.(ran := res.ran + [t], failed := res.failed + fail);
      RunFromStep(tests, i, res, passes, stopAt);
      RunFromFailed(tests, i + 1, res', passes, stopAt);
      assert tests[i..n] == [t] + rest;
      assert Failing(tests[i..n], passes) == fail + Failing(rest, passes) by {
        assert tests[i..n][1..] == rest;
      }
      assert (res.failed + fail) + Failing(rest, passes) == res.failed + (fail + Failing(rest, passes));
    }
  }

  /** Before the stop point one test runs and records itself. */
  lemma RunFromStep(tests: seq<TestEntry>, i: nat, res: TestResult, passes: TestEntry -> bool, stopAt: Option<nat>)
    requires i < StopLimit(stopAt, |tests|)
    requires !res.shouldStop
    ensures var t := tests[i];
      RunFrom(tests, i, res, passes, stopAt) ==
        RunFrom(tests, i + 1, res.(ran := res.ran + [t], failed := res.failed + if passes(t) then [] else [t]), passes, stopAt)
  {
    assert stopAt != Some(i);
  }

  lemma {:induction false} FailingEmptyIff(tests: seq<TestEntry>, passes: TestEntry -> bool)
    ensures |Failing(tests, passes)| == 0 <==> forall t :: t in tests ==> passes(t)
  {
    if |tests| > 0 {
      var p := tests[1..];
      FailingEmptyIff(p, passes);
      assert forall t :: t in tests <==> t == tests[0] || t in p by {
        assert tests == [tests[0]] + p;
      }
    }
  }

  /** What a run does: after `stop()` nothing runs and the result is stopped
      first; otherwise the tests run in order until a concurrent `stop()`;
      the run succeeds exactly when every executed test passed. */
  lemma RunSpec(suite: PatchedTestSuite, res: TestResult, passes: TestEntry -> bool, stopAt: Option<nat>)
    ensures Run(suite, res, passes, stopAt).1.ran == res.ran + suite.tests[..Executed(suite, res, stopAt)]
    ensures Run(suite, res, passes, stopAt).1.failed
      == res.failed + Failing(suite.tests[..Executed(suite, res, stopAt)], passes)
    ensures Run(suite, res, passes, stopAt).0.result == Some(Run(suite, res, passes, stopAt).1)
    ensures Run(suite, res, passes, stopAt).0.tests == suite.tests
    ensures suite.stopRequested ==> Run(suite, res, passes, stopAt).1.shouldStop
    ensures Run(suite, res, passes, stopAt).1.WasSuccessful() <==>
      res.WasSuccessful() && forall t :: t in suite.tests[..Executed(suite, res, stopAt)] ==> passes(t)
  {
    var n := Executed(suite, res, stopAt);
    var res0 := if suite.stopRequested then res.(shouldStop := true) else res;
    if res0.shouldStop {
      assert suite.tests[..n] == [];
      assert Failing([], passes) == [];
    } else {
      RunFromSpec(suite.tests, 0, res0, passes, stopAt);
      assert suite.tests[0..n] == suite.tests[..n];
    }
    FailingEmptyIff(suite.tests[..n], passes);
  }

  /** The runner class: TeamCity's when running under TeamCity, the text
      runner otherwise. */
  datatype RunnerKind = TeamcityTestRunner | TextTestRunner

  function GetTestRunner(underTeamcity: bool): (r: RunnerKind)
    ensures r == TeamcityTestRunner <==> underTeamcity
  {
    if underTeamcity then TeamcityTestRunner else TextTestRunner
  }

  /** `run_test_suite`: the success flag and the runner's report, here the
      executed tests with their outcomes. */
  function RunTestSuite(suite: PatchedTestSuite, passes: TestEntry -> bool, stopAt: Option<nat>)
    : (r: (bool, seq<TestEntry>))
  {
    var out := Run(suite, TestResult(false, [], []), passes, stopAt);
    (out.1.WasSuccessful(), out.1.ran)
  }

  /** A suite stopped before it runs executes nothing and reports success. */
  lemma StoppedSuiteRunsNothing(suite: PatchedTestSuite, passes: TestEntry -> bool, stopAt: Option<nat>)
    ensures RunTestSuite(Stop(suite), passes, stopAt) == (true, [])
  {
    RunSpec(Stop(suite), TestResult(false, [], []), passes, stopAt);
  }

  /** Without a stop the whole suite runs and the flag says whether all passed. */
  lemma UnstoppedSuiteRunsAll(suite: PatchedTestSuite, passes: TestEntry -> bool)
    requires !suite.stopRequested
    ensures RunTestSuite(suite, passes, None).1 == suite.tests
    ensures RunTestSuite(suite, passes, None).0 <==> forall t :: t in suite.tests ==> passes(t)
  {
    RunSpec(suite, TestResult(false, [], []), passes, None);
    assert suite.tests[..|suite.tests|] == suite.tests;
  }
}

=== FILE: text.dfy ===
/** String operations with Python's `str` semantics, on `seq<char>`. */
module Text {
  import opened Wrappers

  /** `sub` occurs in `s` starting at index `i`. */
  predicate OccursAt(s: string, sub: string, i: int) {
    0 <= i && i + |sub| <= |s| && s[i..i + |sub|] == sub
  }

  /** The first occurrence of `sub` in `s` at or after `from` (`str.find`). */
  function FindFrom(s: string, sub: string, from: nat): (r: Option<nat>)
    ensures r.Some? ==> from <= r.value && OccursAt(s, sub, r.value)
    ensures forall j :: from <= j && (r.None? || j < r.value) ==> !OccursAt(s, sub, j)
    decreases |s| - from
  {
    if from + |sub| > |s| then None
    else if s[from..from + |sub|] == sub then Some(from)
    else FindFrom(s, sub, from + 1)
  }

  function Find(s: string, sub: string): (r: Option<nat>)
    ensures r.Some? ==> OccursAt(s, sub, r.value)
    ensures forall j :: 0 <= j && (r.None? || j < r.value) ==> !OccursAt(s, sub, j)
  {
    FindFrom(s, sub, 0)
  }

  /** Python's `sub in s` for strings. */
  predicate Contains(s: string, sub: string)
  {
    Find(s, sub).Some?
  }

  /** `sub in s` holds exactly when some index starts an occurrence. */
  lemma ContainsIff(s: string, sub: string)
    ensures Contains(s, sub) <==> exists i :: 0 <= i <= |s| && OccursAt(s, sub, i)
  {
    if exists i :: 0 <= i <= |s| && OccursAt(s, sub, i) {
      var i :| 0 <= i <= |s| && OccursAt(s, sub, i);
      assert Find(s, sub).Some?;
    }
  }

  /** Indexing into `a + sep + b`. */
  lemma ConcatIndex(a: string, sep: string, b: string)
    ensures |a + sep + b| == |a| + |sep| + |b|
    ensures forall k :: 0 <= k < |a| ==> (a + sep + b)[k] == a[k]
    ensures forall k :: |a| <= k < |a| + |sep| ==> (a + sep + b)[k] == sep[k - |a|]
    ensures forall k :: |a| + |sep| <= k < |a| + |sep| + |b| ==> (a + sep + b)[k] == b[k - |a| - |sep|]
  {
  }

  /** An occurrence in `a` or in `b` is one in `a + sep + b`. */
  lemma ContainsInParts(a: string, sep: string, b: string, p: string)
    ensures Contains(a, p) || Contains(b, p) ==> Contains(a + sep + b, p)
  {
    var x := a + sep + b;
    ConcatIndex(a, sep, b);
    if Contains(a, p) {
      var i := Find(a, p).value;
      assert x[i..i + |p|] == a[i..i + |p|];
      assert OccursAt(x, p, i);
      ContainsIff(x, p);
    } else if Contains(b, p) {
      var j := Find(b, p).value;
      var i := |a| + |sep| + j;
      assert x[i..i + |p|] == b[j..j + |p|] by {
        forall k | i <= k < i + |p| ensures x[k] == b[k - i + j] { }
      }
      assert OccursAt(x, p, i);
      ContainsIff(x, p);
    }
  }

  /** An occurrence in `a + sep + b` that meets no character of `sep`
      lies inside `a` or inside `b`. */
  lemma OccursInParts(a: string, sep: string, b: string, p: string, i: nat)
    requires |p| > 0 && |sep| > 0
    requires forall k :: 0 <= k < |sep| ==> sep[k] !in p
    requires OccursAt(a + sep + b, p, i)
    ensures Contains(a, p) || Contains(b, p)
  {
    var x := a + sep + b;
    ConcatIndex(a, sep, b);
    if i + |p| <= |a| {
      assert x[i..i + |p|] == a[i..i + |p|];
      assert OccursAt(a, p, i);
      ContainsIff(a, p);
    } else if i >= |a| + |sep| {
      var j := i - |a| - |sep|;
      assert x[i..i + |p|] == b[j..j + |p|] by {
        forall k | i <= k < i + |p| ensures x[k] == b[k - i + j] { }
      }
      assert OccursAt(b, p, j);
      ContainsIff(b, p);
    } else {
      StraddlingOccurrence(a, sep, b, p, i);
      assert false;
    }
  }

  /** An occurrence that starts before the end of `a + sep` and ends after
      the end of `a` contains a character of `sep`. */
  lemma StraddlingOccurrence(a: string, sep: string, b: string, p: string, i: nat)
    requires |p| > 0 && |sep| > 0
    requires OccursAt(a + sep + b, p, i)
    requires |a| < i + |p| && i < |a| + |sep|
    ensures exists k :: 0 <= k < |sep| && sep[k] in p
  {
    var x := a + sep + b;
    ConcatIndex(a, sep, b);
    var m := if i >= |a| then i else |a|;
    assert x[m] == sep[m - |a|];
    assert p[m - i] == x[i..i + |p|][m - i];
  }

  /** A pattern none of whose characters occurs in `sep` is found in
      `a + sep + b` exactly when it is found in `a` or in `b`. */
  lemma ContainsAcross(a: string, sep: string, b: string, p: string)
    requires |p| > 0 && |sep| > 0
    requires forall k :: 0 <= k < |sep| ==> sep[k] !in p
    ensures Contains(a + sep + b, p) <==> Contains(a, p) || Contains(b, p)
  {
    ContainsInParts(a, sep, b, p);
    if Contains(a + sep + b, p) {
      OccursInParts(a, sep, b, p, Find(a + sep + b, p).value);
    }
  }

  /** The index of the last `c` in `s` (`str.rfind` for one character). */
  function LastIndexOf(s: string, c: char): (r: Option<nat>)
    ensures r.Some? ==> r.value < |s| && s[r.value] == c && c !in s[r.value + 1..]
    ensures r.None? ==> c !in s
  {
    if |s| == 0 then None
    else if s[|s| - 1] == c then Some(|s| - 1)
    else
      var r := LastIndexOf(s[..|s| - 1], c);
      if r.Some? then
        assert s[r.value + 1..] == s[..|s| - 1][r.value + 1..] + [s[|s| - 1]];
        r
      else
        assert s == s[..|s| - 1] + [s[|s| - 1]];
        r
  }

  /** The last `c` is the one with no `c` after it. */
  lemma LastIndexOfUnique(s: string, c: char, i: nat)
    requires i < |s| && s[i] == c && c !in s[i + 1..]
    ensures LastIndexOf(s, c) == Some(i)
  {
  }

  /** `s.rsplit(c, 1)[-1]`: the text after the last `c`, or all of `s`. */
  function AfterLast(s: string, c: char): (r: string)
    ensures c !in r
    ensures c in s ==> |r| < |s| && s == s[..|s| - |r| - 1] + [c] + r
    ensures c !in s ==> r == s
  {
    match LastIndexOf(s, c)
    case None => s
    case Some(i) =>
      assert s == s[..i] + [c] + s[i + 1..];
      s[i + 1..]
  }

  /** Python's `sep.join(parts)`. */
  function Join(parts: seq<string>, sep: string): string
  {
    if |parts| == 0 then ""
    else if |parts| == 1 then parts[0]
    else parts[0] + sep + Join(parts[1..], sep)
  }

  /** Python's `s.split(sep)` for a non-empty separator: the pieces between
      the non-overlapping occurrences of `sep`, scanned left to right. */
  function Split(s: string, sep: string): (r: seq<string>)
    requires |sep| > 0
    ensures |r| >= 1
    ensures Join(r, sep) == s
    ensures |r| == 1 <==> !Contains(s, sep)
    decreases |s|
  {
    match Find(s, sep)
    case None => [s]
    case Some(i) =>
      var rest := Split(s[i + |sep|..], sep);
      JoinCons(s[..i], rest, sep);
      CutAt(s, sep, i);
      [s[..i]] + rest
  }

  /** An occurrence cuts `s` into what precedes it, itself, and what
      follows. */
  lemma CutAt(s: string, sub: string, i: int)
    requires OccursAt(s, sub, i)
    ensures s == s[..i] + sub + s[i + |sub|..]
  {
    assert s == s[..i] + s[i..i + |sub|] + s[i + |sub|..];
  }

  /** The pieces `Split` returns never contain the separator. */
  lemma {:induction false} SplitPiecesFree(s: string, sep: string)
    requires |sep| > 0
    ensures forall k :: 0 <= k < |Split(s, sep)| ==> !Contains(Split(s, sep)[k], sep)
    decreases |s|
  {
    match Find(s, sep)
    case None =>
    case Some(i) =>
      PrefixBeforeFirstIsFree(s, sep, i);
      SplitPiecesFree(s[i + |sep|..], sep);
      var rest := Split(s[i + |sep|..], sep);
      assert Split(s, sep) == [s[..i]] + rest;
      assert forall k :: 1 <= k < |rest| + 1 ==> Split(s, sep)[k] == rest[k - 1];
  }

  lemma JoinCons(head: string, rest: seq<string>, sep: string)
    requires |rest| >= 1
    ensures Join([head] + rest, sep) == head + sep + Join(rest, sep)
  {
    assert ([head] + rest)[1..] == rest;
  }

  /** No occurrence of `sep` lies wholly before its first occurrence. */
  lemma PrefixBeforeFirstIsFree(s: string, sep: string, i: nat)
    requires |sep| > 0 && OccursAt(s, sep, i)
    requires forall j :: 0 <= j < i ==> !OccursAt(s, sep, j)
    ensures !Contains(s[..i], sep)
  {
    var f := Find(s[..i], sep);
    if f.Some? {
      var j := f.value;
      assert s[..i][j..j + |sep|] == s[j..j + |sep|];
      assert j < i && OccursAt(s, sep, j);
    }
  }

  /** Python's `s.split(sep, 1)`: at most one cut, at the first occurrence. */
  function SplitOnce(s: string, sep: string): (r: seq<string>)
    requires |sep| > 0
    ensures 1 <= |r| <= 2
    ensures Join(r, sep) == s
    ensures !Contains(r[0], sep)
    ensures |r| == 1 <==> !Contains(s, sep)
  {
    match Find(s, sep)
    case None => [s]
    case Some(i) =>
      PrefixBeforeFirstIsFree(s, sep, i);
      CutAt(s, sep, i);
      [s[..i], s[i + |sep|..]]
  }

  /** `parts` are the pieces between the occurrences of `sep` that a
      left-to-right scan without overlaps finds in `s`: the first piece runs
      up to the leftmost occurrence and the rest cut what follows it the
      same way; a text without an occurrence is one piece. */
  predicate LeftmostCuts(s: string, sep: string, parts: seq<string>)
    decreases |parts|
  {
    |parts| >= 1 &&
    if |parts| == 1 then parts[0] == s && !Contains(s, sep)
    else
      var i := |parts[0]|;
      OccursAt(s, sep, i) && s[..i] == parts[0] &&
      (forall j :: 0 <= j < i ==> !OccursAt(s, sep, j)) &&
      LeftmostCuts(s[i + |sep|..], sep, parts[1..])
  }

  /** `Split` cuts at exactly the occurrences the scan finds. */
  lemma {:induction false} SplitLeftmost(s: string, sep: string)
    requires |sep| > 0
    ensures LeftmostCuts(s, sep, Split(s, sep))
    decreases |s|
  {
    match Find(s, sep)
    case None =>
    case Some(i) =>
      var rest := Split(s[i + |sep|..], sep);
      SplitLeftmost(s[i + |sep|..], sep);
      var parts := [s[..i]] + rest;
      assert Split(s, sep) == parts;
      assert parts[1..] == rest;
  }

  /** The scan's cuts are unique: they are the pieces `Split` returns. */
  lemma {:induction false} LeftmostCutsUnique(s: string, sep: string, parts: seq<string>)
    requires |sep| > 0
    requires LeftmostCuts(s, sep, parts)
    ensures parts == Split(s, sep)
    decreases |parts|
  {
    if |parts| > 1 {
      var i := |parts[0]|;
      var f := Find(s, sep);
      assert f.Some? && f.value == i;
      LeftmostCutsUnique(s[i + |sep|..], sep, parts[1..]);
      assert parts == [parts[0]] + parts[1..];
    }
  }

  /** Every list of the scan's cuts is the one `Split` returns. */
  lemma SplitIsTheOnlyCut(s: string, sep: string)
    requires |sep| > 0
    ensures forall parts :: LeftmostCuts(s, sep, parts) ==> parts == Split(s, sep)
  {
    forall parts | LeftmostCuts(s, sep, parts) ensures parts == Split(s, sep) {
      LeftmostCutsUnique(s, sep, parts);
    }
  }

  /** The scan's pieces put back together with the separator give the text,
      and none of them contains the separator. */
  lemma LeftmostCutsRejoin(s: string, sep: string, parts: seq<string>)
    requires |sep| > 0
    requires LeftmostCuts(s, sep, parts)
    ensures Join(parts, sep) == s
    ensures forall k :: 0 <= k < |parts| ==> !Contains(parts[k], sep)
  {
    LeftmostCutsUnique(s, sep, parts);
    SplitPiecesFree(s, sep);
  }

  /** Python's `s.replace(pattern, replacement)` for a non-empty pattern, which is
      `replacement.join(s.split(pattern))`. */
  function Replace(s: string, pattern: string, replacement: string): string
    requires |pattern| > 0
  {
    Join(Split(s, pattern), replacement)
  }

  /** ASCII lower-casing of one character. */
  function LowerChar(c: char): char
  {
    if 'A' <= c <= 'Z' then (c as int + 32) as char else c
  }

  /** `str.lower()` restricted to ASCII letters. */
  function Lower(s: string): (r: string)
    ensures |r| == |s|
    ensures forall i :: 0 <= i < |s| ==> r[i] == LowerChar(s[i])
  {
    if |s| == 0 then "" else [LowerChar(s[0])] + Lower(s[1..])
  }

  predicate IsDigit(c: char) {
    '0' <= c <= '9'
  }

  predicate AllDigits(s: string) {
    forall i :: 0 <= i < |s| ==> IsDigit(s[i])
  }

  /** `int(s)` for a string of ASCII digits; leading zeros are dropped. */
  function ParseNat(s: string): nat
    requires AllDigits(s)
  {
    if |s| == 0 then 0
    else ParseNat(s[..|s| - 1]) * 10 + (s[|s| - 1] as int - '0' as int)
  }

  /** `str(n)`: decimal digits without leading zeros. */
  function NatToString(n: nat): (r: string)
    ensures |r| >= 1 && AllDigits(r)
    ensures r[0] == '0' ==> n == 0
  {
    if n < 10 then [('0' as int + n) as char]
    else NatToString(n / 10) + [('0' as int + n % 10) as char]
  }

  lemma {:induction false} ParseNatToString(n: nat)
    ensures ParseNat(NatToString(n)) == n
  {
    if n >= 10 {
      var s := NatToString(n);
      assert s[..|s| - 1] == NatToString(n / 10);
      ParseNatToString(n / 10);
    }
  }

  /** Python's `$`: what a pattern ending in `$` sees of `s`, namely `s`
      without one trailing newline. */
  function BeforeFinalNewline(s: string): (r: string)
    ensures s == r || s == r + "\n"
  {
    if |s| > 0 && s[|s| - 1] == '\n' then s[..|s| - 1] else s
  }

  /** Python's `a <= b` on strings: lexicographic by character, a proper
      prefix first. */
  predicate StrLe(a: string, b: string)
    decreases |a|
  {
    |a| == 0 || (|b| > 0 && (a[0] < b[0] || (a[0] == b[0] && StrLe(a[1..], b[1..]))))
  }

  lemma {:induction false} StrLeTotal(a: string, b: string)
    ensures StrLe(a, b) || StrLe(b, a)
    decreases |a|
  {
    if |a| > 0 && |b| > 0 && a[0] == b[0] {
      StrLeTotal(a[1..], b[1..]);
    }
  }

  lemma {:induction false} StrLeTrans(a: string, b: string, c: string)
    requires StrLe(a, b) && StrLe(b, c)
    ensures StrLe(a, c)
    decreases |a|
  {
    if |a| > 0 && a[0] == b[0] && b[0] == c[0] {
      StrLeTrans(a[1..], b[1..], c[1..]);
    }
  }

  lemma {:induction false} StrLeAntisym(a: string, b: string)
    requires StrLe(a, b) && StrLe(b, a)
    ensures a == b
    decreases |a|
  {
    if |a| > 0 {
      StrLeAntisym(a[1..], b[1..]);
      assert a == [a[0]] + a[1..] && b == [b[0]] + b[1..];
    }
  }

  /** `min(xs)`: the first of `sorted(xs)`. */
  function Least(xs: seq<string>): (r: string)
    requires |xs| > 0
    ensures r in xs && forall x :: x in xs ==> StrLe(r, x)
  {
    if |xs| == 1 then
      assert forall x :: x in xs ==> x == xs[0];
      StrLeTotal(xs[0], xs[0]);
      xs[0]
    else
      var m := Least(xs[1..]);
      StrLeTotal(xs[0], m);
      assert forall x :: x in xs ==> x == xs[0] || x in xs[1..];
      if StrLe(xs[0], m) then
        assert forall x :: x in xs[1..] ==> StrLe(xs[0], x) by {
          forall x | x in xs[1..] ensures StrLe(xs[0], x) { StrLeTrans(xs[0], m, x); }
        }
        StrLeTotal(xs[0], xs[0]);
        xs[0]
      else
        m
  }
}

=== FILE: wrappers.dfy ===
/** Optional values and success-or-failure results, the functional stand-ins
    for Python's `None` and for raised exceptions. */
module Wrappers {

  datatype Option<+T> = None | Some(value: T) {
    function UnwrapOr(default: T): T {
      match this
      case None => default
      case Some(v) => v
    }
  }

  datatype Result<+T, +E> = Success(value: T) | Failure(error: E)
}
